=== FILE: README.md ===
# Course-and-blog site: the deterministic core, in Dafny

This project models the small, deterministic decisions inside a Hono web
application for Cloudflare Workers that sells video courses and publishes a
Spanish-language blog, together with the Python script that seeded the blog
from a spreadsheet. Everything is written as pure functions over immutable
datatypes; database tables are sequences of rows in insertion order (the row
id is the position plus one, and "first row" is the first match in that
order), and every parameterised SQL statement is a sequence of literal
fragments and bound values (`Sql.Stmt`), so that "one bound value per `?`" is
a theorem (`Sql.PlaceholdersMatch`) rather than a hope.

Modules, following the program's structure:

- `Common`, `Text`: option/result types, sequence helpers, and the JavaScript
  string operations the code relies on (`split`/`join`, `includes`,
  `lastIndexOf`, `toLowerCase`, `trim`, `parseInt`, `padStart`).
- `Sql`: statements as literal text plus bound values; dynamic `UPDATE`
  and `INSERT` builders; JavaScript truthiness of optional values.
- `BlogContent`: slugs, categories, cover images, excerpts and the two
  paragraphs appended to short posts, in both the Python seeder and its
  TypeScript port, with the points where the two disagree proved.
- `BlogSeeder`: the seeder's row loop and its SQL script.
- `BlogAdmin`: the admin spreadsheet import, its batching and error replies,
  and the create and update forms.
- `BlogQueries`, `PublicBlog`: the blog data-access statements and the
  public listing, post body and course call-to-action.
- `Accounts`: registration and subscription checks, session tokens and the
  session cookie, user defaults, and the two admin guards.
- `Grading`, `QuizQueries`, `QuizClient`: quiz grading and attempt rules,
  the quiz statements, and the quiz page's countdown and answer collection.
- `Progress`, `TimeFormat`, `Navigation`, `VideoClient`: percentages,
  lesson-progress upserts, certificates, dashboard totals, duration text,
  lesson navigation and module grouping, and the video page's rules.
- `Enrollments`, `Like`, `Webhooks`, `Legacy`: the enrolment table,
  `LIKE` escaping, the Stripe and PayPal event handlers, and the older
  handler copies still present in `src/index.tsx`.
- `AiQuota`, `StorySubmission`, `StoryAdmin`: the AI assistant's daily
  quota, story uploads with their rate limit, and story moderation.
- `Catalog`, `Versioning`, `RouteConfig`: course and lesson statements and
  `order_index`, content versions and HTML escaping, and the
  `_routes.json` post-build fix-up.

Ids, counts and seconds, which are integers in the program, are `int`;
percentages and scores are stated exactly with integers (`Math.round(x)` is
`floor(x + 1/2)`), so a JavaScript double could differ only at a rounding
boundary. Payment amounts are fractional in the program (`amount / 100`,
`parseFloat`) but whole numbers here (see "Left out"). `parseInt` returns `Option<int>` (`None` is `NaN`). "Now", random
bytes, the diff library's parts and the contents of uploaded files are
parameters.

## Model

| member | source | states |
|---|---|---|
| `BlogContent.CreateSlug` | process_blog_posts.py:7-18 | The slug uses only `[a-z0-9-]`, never starts, ends or doubles a hyphen, and keeps exactly the lower-case letters and digits of the lower-cased, transliterated title, in order (the TypeScript `createSlug` is the same computation). |
| `BlogContent.CreateSlugIsJoinedWords` | process_blog_posts.py:14-17 | The slug is the runs of `[a-z0-9]` in the folded title, each taken whole, joined by exactly one `-`: every gap between two words, however long, becomes a single hyphen, and nothing is left at either end. |
| `BlogContent.TrimmedHyphenateIsJoin` | process_blog_posts.py:15-17 | Replacing the gaps by `-` and stripping the trailing hyphen gives the words joined by `-`. |
| `BlogContent.Hyphenate` | process_blog_posts.py:15 | Replacing every maximal run outside `[a-z0-9]` by `-` yields only slug characters (where the hyphens go is stated by `BlogContent.TrimmedHyphenateIsJoin`). |
| `BlogContent.HyphenateShape` | process_blog_posts.py:15 | The replacement never produces two adjacent hyphens, and inside a run it cannot start with one. |
| `BlogContent.HyphenateKeepsAlnum` | process_blog_posts.py:15 | The replacement keeps every letter and digit, in order. |
| `BlogContent.StripKeepsShape` | process_blog_posts.py:17 | Stripping hyphens from both ends gives a well-formed slug with the same letters and digits. |
| `BlogContent.SlugOfSlug` | src/admin/utils.ts:1-10 | A well-formed slug is its own slug. |
| `BlogContent.CreateSlugIdempotent` | src/admin/utils.ts:1-10 | Slugging a slug changes nothing. |
| `BlogContent.EmptySlug` | process_blog_posts.py:15-17 | The slug is empty exactly when the folded title holds no ASCII letter or digit. |
| `BlogContent.Category` | process_blog_posts.py:20-32 | The category is always one of the five fixed values. |
| `BlogContent.CategoryIsFirstTier` | process_blog_posts.py:22-32 | Tier `i` decides exactly when one of its keywords occurs in the lower-cased hashtags and no earlier tier's does; the default `desarrollo-personal` comes back exactly when no tier's keyword occurs. |
| `BlogContent.CategoryByTable` | process_blog_posts.py:22-32 | The category is `mindset`, `salud-mental`, `habitos` or `crecimiento-personal`, the first whose keywords occur, in that order, and otherwise the default. |
| `BlogContent.CategoryPriority` | src/admin/utils.ts:12-19 | `mindset` anywhere wins; the default category comes back exactly when none of the eight keywords occurs. |
| `BlogContent.CategoryIgnoresCase` | process_blog_posts.py:22 | Hashtags are compared lower-cased, so case never changes the category. |
| `BlogContent.ImagePy` | process_blog_posts.py:34-48 | The seeder's image is one constant URL for every category and index; the theme pick is dead computation. |
| `BlogContent.ImageTs` | src/admin/utils.ts:21-39 | The port's image is one constant URL for every category and index. |
| `BlogContent.ImagesDiffer` | src/admin/utils.ts:38 | The two constants always differ: the seeder's URL is the port's plus an extra query parameter. |
| `BlogContent.CleanNewlines` | process_blog_posts.py:53 | Line breaks become spaces; the length is unchanged and no `\n` or `\r` remains. |
| `BlogContent.ExcerptPy` | process_blog_posts.py:50-57 | Text that fits is returned cleaned and whole; otherwise the result ends in `...`, is at most `max + 3` long, and what precedes `...` is a prefix of the cleaned text. |
| `BlogContent.ExcerptsCompared` | src/admin/utils.ts:41-45 | The two excerpts agree unless the first `max` characters hold no space, where the port returns exactly `...` and the seeder keeps the whole prefix. |
| `BlogContent.ExcerptTs` | src/admin/utils.ts:41-45 | No line break survives; text that fits is returned cleaned and whole; longer text keeps the first `max` characters up to, not including, their last space (nothing when they hold no space), followed by `...`. |
| `BlogContent.ExcerptTsBound` | src/admin/utils.ts:44 | When the port truncates, its excerpt ends in `...` and is at most `max + 2` long. |
| `BlogContent.CompletePy` | process_blog_posts.py:71-77 | Completion only appends: the post is a prefix of the result; the reflection is appended exactly when the post is shorter than 250 characters; the conclusion is appended exactly when the post so far does not already conclude (it mentions `conclusión`, or `clave` within its last 200 characters, ignoring case); the result always concludes. |
| `BlogContent.NoteConcludes` | process_blog_posts.py:75-77 | The appended conclusion paragraph makes any post conclude, so the check is not repeated. |
| `BlogContent.CompletionsCompared` | src/admin/blog.tsx:104-109 | The import completes non-empty content exactly as the seeder does, but leaves empty content empty, where the seeder appends the reflection. |
| `BlogContent.CompleteTs` | src/admin/blog.tsx:104-109 | Empty content stays empty; any other content is completed exactly as the seeder completes it, and the result concludes. |
| `BlogSeeder.MakePost` | process_blog_posts.py:67-89 | A post keeps its stripped title and recorded index, has a well-formed slug, starts with the stripped content and has one of the five categories. |
| `BlogSeeder.PickFrom` | process_blog_posts.py:63-65 | One pick per non-blank row, each recording a position inside the rows it came from. |
| `BlogSeeder.Seed` | process_blog_posts.py:60-89 | One post per kept row, built from that row and its spreadsheet position. |
| `BlogSeeder.SeedSound` | process_blog_posts.py:63-87 | Every post comes from a non-blank row and its `index` is that row's position among all rows. |
| `BlogSeeder.SeedOrdered` | process_blog_posts.py:63-89 | Posts come out in spreadsheet order with strictly increasing indices. |
| `BlogSeeder.SeedComplete` | process_blog_posts.py:63-65 | Every non-blank row yields a post; the number of posts is the number of non-blank rows. |
| `BlogSeeder.PickIndexWithoutBlanks` | process_blog_posts.py:63-87 | Without blank rows the recorded index is the post's own position. |
| `BlogSeeder.BlankRowLeavesGap` | process_blog_posts.py:63-65 | A skipped row still advances `enumerate`, so the next post records index 1. |
| `BlogSeeder.ReadLiteralOfQuoted` | process_blog_posts.py:97-102 | Doubling every quote and wrapping in quotes is undone by reading the literal back, whatever quotes the text holds. |
| `BlogSeeder.InsertStatement` | process_blog_posts.py:104-107 | Reading the statement back gives exactly the post's six text fields in column order, whatever quotes they hold, with the literal `published` value `1` after them. |
| `BlogSeeder.ReadInserted` | process_blog_posts.py:95-107 | A statement followed by any further text reads back as the post's fields, leaving exactly that text. |
| `BlogSeeder.SeedScript` | process_blog_posts.py:93-107 | The script reads back, statement by statement, as every post's six fields, in post order, and nothing else. |
| `BlogAdmin.FindHeader` | src/admin/blog.tsx:93-95 | The chosen column is the first whose header satisfies the test; none is chosen only when no header does. |
| `BlogAdmin.ImportRow` | src/admin/blog.tsx:97-117 | A kept row keeps its title; its slug is `createSlug` of the title, the title's words joined by `-`; its hashtags are the cell's; its content is the cell completed by the import (the cell is a prefix of it, and non-empty content concludes); its excerpt is the 150-character excerpt of that content; the image is the port's constant and `published` is 1. |
| `BlogAdmin.ImportPlan` | src/admin/blog.tsx:92-118 | The loop keeps exactly the titled rows, as many as there are. |
| `BlogAdmin.ImportPlanAt` | src/admin/blog.tsx:97-117 | The k-th kept row is the k-th titled row and is reached with counter `count + k`. |
| `BlogAdmin.ImportFrom` | src/admin/blog.tsx:92-118 | One insert per row that has a title. |
| `BlogAdmin.Titled` | src/admin/blog.tsx:97-98 | The rows kept are exactly the titled ones, counted as `ImportFrom` counts them. |
| `BlogAdmin.ImportFromAt` | src/admin/blog.tsx:114-117 | The k-th insert comes from the k-th titled row with counter `count + k`: skipped rows do not advance the image index. |
| `BlogAdmin.ImportPublishes` | src/admin/blog.tsx:85-88 | Every imported post is inserted as published. |
| `BlogAdmin.WhitespaceTitleKept` | src/admin/blog.tsx:97-98 | A title of spaces is truthy, so the row is imported with an empty slug (the seeder would skip it). |
| `BlogAdmin.ChunkCount` | src/admin/blog.tsx:120-124 | The number of `DB.batch` calls is the fewest chunks of 10 that hold every statement. |
| `BlogAdmin.ImportRoute` | src/admin/blog.tsx:68-132 | No file answers 400 `No file uploaded` and stores nothing; an unreadable file answers 500 `Error importing: ` plus the message and stores nothing; otherwise all posts are stored and the admin is sent back to the list, unless a batch call fails, which answers the 500 and leaves stored exactly the posts of the chunks before it, a prefix of the posts. |
| `BlogAdmin.ImportFailureKeepsChunks` | src/admin/blog.tsx:119-131 | When chunk `k` fails, exactly `10·k` posts stay stored, fewer than all. |
| `BlogAdmin.NoFileStoresNothing` | src/admin/blog.tsx:74-76 | Without a file the route answers 400 and stores nothing. |
| `BlogAdmin.Chunks` | src/admin/blog.tsx:120-124 | The batch is sent as consecutive non-empty chunks of at most 10, all full but the last, which together are the batch in order. |
| `BlogAdmin.OrNull` | src/admin/blog.tsx:174-175 | Absent and empty optional fields are stored as NULL, others unchanged. |
| `BlogAdmin.CreateFromForm` | src/admin/blog.tsx:171-186 | Creating a post derives a well-formed slug from the title and the excerpt from the content; `published` is 1 exactly when the box was ticked. |
| `BlogAdmin.UpdateFromForm` | src/admin/blog.tsx:232-247 | Updating recomputes the excerpt but stores the submitted slug as is. |
| `BlogAdmin.CreateUpdateAgree` | src/admin/blog.tsx:235-244 | Create and update store the same record but for the slug, and coincide exactly when the submitted slug is the title's slug. |
| `BlogAdmin.UpdateAcceptsMalformedSlug` | src/admin/blog.tsx:235-244 | The update can store a slug `createSlug` would never produce. |
| `Sql.PlaceholdersMatch` | src/models/blog.ts:62-100 | Any statement assembled from placeholder-free literals and parameters has exactly one `?` per bound value. |
| `Sql.Render` | src/models/db.ts:6-12 | What is handed to the driver is well formed and binds the statement's values in order. |
| `Sql.JoinQ` | src/models/blog.ts:76-78 | Joining condition parts with a literal separator neither adds nor drops a binding. |
| `Sql.Assignments` | src/models/blog.ts:151-158 | One `column = ?` per supplied field, binding the supplied values in field order. |
| `Sql.UpdateById` | src/models/blog.ts:160-166 | A dynamic update binds the supplied values in field order and then the id, last. |
| `Sql.InsertInto` | src/models/blog.ts:126-140 | An insert binds exactly the listed values, in column order. |
| `Sql.Flag` | src/admin/blog.tsx:183 | `value ? 1 : 0` on a form field is 1 exactly when the field is present and non-empty. |
| `Sql.StrOrNull` | src/models/blog.ts:134-138 | `value \|\| null` is NULL exactly when the value is absent or empty. |
| `BlogQueries.BySlugQuery` | src/models/blog.ts:49-57 | The slug lookup binds the slug and nothing else, with or without the publication filter. |
| `BlogQueries.FindBySlug` | src/models/blog.ts:49-57 | The lookup returns a stored row that has the slug and, for public pages, is published and due; it returns nothing only when no row qualifies. |
| `BlogQueries.PublicLookup` | src/models/blog.ts:52-54 | With unique slugs, the public lookup returns the admin lookup's post when it is visible and nothing otherwise. |
| `BlogQueries.OrderingPrecedence` | src/models/blog.ts:80-88 | `random` beats everything; a published-only listing is ordered by publication date even when `created_at` is requested; creation order is used exactly for other listings. |
| `BlogQueries.Conditions` | src/models/blog.ts:67-74 | One condition for the publication filter and one for a truthy excluded id, which is the only value bound. |
| `BlogQueries.ListAsWritten` | src/models/blog.ts:62-100 | The listing binds the excluded id, then a truthy limit, then a truthy offset, each independently. |
| `BlogQueries.OffsetWithoutLimit` | src/models/blog.ts:90-98 | An offset with no limit produces `OFFSET ?` with no `LIMIT` clause. |
| `BlogQueries.ListBlogPosts` | src/models/blog.ts:90-98 | With the offset nested under the limit, an offset is bound only after a limit. |
| `BlogQueries.ListVersionsAgree` | src/models/blog.ts:90-98 | The two listings agree whenever a limit is given or no offset is, and differ in their bindings otherwise. |
| `BlogQueries.RelatedExcludesCurrent` | src/models/blog.ts:67-74 | The related-posts filter selects exactly the visible posts other than the current one. |
| `BlogQueries.CountQuery` | src/models/blog.ts:106-116 | The count statement binds nothing. |
| `BlogQueries.CountOrZero` | src/models/blog.ts:118-119 | A missing row or a null count gives 0; otherwise the count. |
| `BlogQueries.CreateQuery` | src/models/blog.ts:125-141 | The insert binds eight values in column order; empty optional texts become NULL and a missing `published` becomes 0 (an explicit 0 is kept). |
| `BlogQueries.CreateDefaults` | src/models/blog.ts:131-139 | A post with only the required fields is inserted as a draft with NULL optional columns. |
| `BlogQueries.UpdateQuery` | src/models/blog.ts:146-167 | Only supplied fields are set, in the fixed column order; the id is bound last and there are at most nine bindings. |
| `BlogQueries.UpdateNothing` | src/models/blog.ts:160-166 | An update with nothing supplied still touches `updated_at` and binds only the id. |
| `BlogQueries.UpdateTitleAndSchedule` | src/models/blog.ts:151-158 | Supplied values keep column order, and an explicit null `scheduled_at` is bound as NULL. |
| `PublicBlog.PageDefaults` | src/routes/public.tsx:1484 | A missing or empty `page` parameter reads as page 1. |
| `PublicBlog.OffsetOf` | src/routes/public.tsx:1486 | The offset is `(page − 1)·12`, and `NaN` when the page is. |
| `PublicBlog.ListingBinds` | src/routes/public.tsx:1489-1494 | The listing binds the limit 12 and, except on page 1, the offset `(page − 1)·12`; it is ordered by publication date. |
| `PublicBlog.TotalPages` | src/routes/public.tsx:1499 | `⌈total/12⌉`: enough pages for every post and no empty last page. |
| `PublicBlog.PagerOf` | src/routes/public.tsx:1543-1558 | The pager shows iff there is more than one page; "previous" iff page > 1; "next" iff page < total pages; `NaN` shows neither link. |
| `PublicBlog.PagerLinksStayInRange` | src/routes/public.tsx:1545-1557 | On a real page both links lead to pages that exist, and with several pages at least one link shows. |
| `PublicBlog.Window` | src/routes/public.tsx:1489-1494 | A page holds at most 12 posts, the slice starting at the offset. |
| `PublicBlog.PagesCoverListing` | src/routes/public.tsx:1484-1499 | Walking pages 1 to the last shows every post exactly once, in order. |
| `PublicBlog.BlockOf` | src/routes/public.tsx:1658-1662 | A part is a heading iff it starts with `**`; other parts are kept verbatim. |
| `PublicBlog.Blocks` | src/routes/public.tsx:1656-1663 | One block per `\n\n`-separated part, in order. |
| `PublicBlog.RemoveBoldClean` | src/routes/public.tsx:1659 | Removing `**` globally leaves no `**`, even from runs of three or more asterisks. |
| `PublicBlog.BlocksFaithful` | src/routes/public.tsx:1656-1663 | Headings carry no bold markers and re-joining the parts gives back the content. |
| `PublicBlog.ListingTags` | src/routes/public.tsx:1531 | The card shows the first (at most) three of the hashtags the post page shows at 1642. |
| `PublicBlog.RelatedQuery` | src/routes/public.tsx:1624-1629 | Related posts bind the current id and the limit 3, are ordered randomly, and select exactly the visible posts other than the current one. |
| `PublicBlog.CourseCta` | src/routes/public.tsx:1920-1934 | Enrolled with a first lesson → that lesson; enrolled without lessons → the dashboard; not enrolled → the checkout for this course. |
| `Accounts.DownloadFor` | src/routes/api.ts:55-62 | An absent or empty resource gives `null`; one of the four known names gives its mapped path; any other string gives `undefined`. |
| `Accounts.ResourcePaths` | src/routes/api.ts:55-60 | Every known resource is served from `/downloads/` under its own name. |
| `Accounts.SubscribeRequest` | src/routes/api.ts:40-62 | A missing name or email is rejected; otherwise the stored resource defaults to `general` and the reply carries the mapped download. |
| `Accounts.RegisterCheck` | src/routes/api.ts:84-103 | The first failing check decides the error, in the order missing field, mismatch, fewer than 6 characters, email taken; each error comes back exactly under its condition. |
| `Accounts.RegisterAccepts` | src/routes/api.ts:84-103 | A registration passes exactly when all four checks pass. |
| `Accounts.HexBytes` | src/auth-utils.ts:20 | Two hexadecimal digits per byte, in byte order. |
| `Accounts.SessionToken` | src/auth-utils.ts:16-22 | The token is `session_` followed by 32 characters. |
| `Accounts.SessionTokenDecodes` | src/auth-utils.ts:20-21 | Each byte is the lower-case, zero-padded two-digit hexadecimal at its place in the token, and reads back as the byte. |
| `Accounts.SessionTokenInjective` | src/auth-utils.ts:16-22 | Different random bytes give different tokens. |
| `Accounts.CookieToken` | src/auth-utils.ts:105-110 | A token found in the cookie header is non-empty and holds no `=`; no header gives none. |
| `Accounts.CookieTokenRoundTrip` | src/routes/api.ts:196 | The `session=<token>` cookie the site sets is read back as exactly that token. |
| `Accounts.CurrentUser` | src/auth-utils.ts:105-113 | The current user exists exactly when the cookie carries a token that names a valid session, and is that session's user. |
| `Accounts.CreateUserQuery` | src/models/users.ts:43-54 | Six values in column order; role defaults to `student` when missing or empty; `active` to 1 and `email_verified` to 0 only when missing. |
| `Accounts.CreateUserKeepsZero` | src/models/users.ts:44-46 | An explicit `active` of 0 is stored as 0, and an empty role as `student`. |
| `Accounts.RouteGuard` | src/middleware/admin.ts:4-23 | Proceeds exactly for a signed-in admin; otherwise `/api/` paths get 401 and other paths the login redirect back to the same path; never 403. |
| `Accounts.PanelGuard` | src/admin/middleware.ts:4-29 | Proceeds exactly for a signed-in admin; a signed-in non-admin gets 403; no header, no token or no session gets the login redirect. |
| `Accounts.GuardsAgreeOnAccess` | src/middleware/admin.ts:9 | The two guards let through exactly the same requests, with the same user. |
| `Accounts.GuardsDifferOnStudents` | src/admin/middleware.ts:21-23 | A signed-in student on a panel page is redirected by one guard and refused with 403 by the other. |
| `AiQuota.TierLimit` | src/routes/ai.tsx:29-52 | The limit is 1 for visitors, 3 for signed-in users and 10 for paying ones, and tells the tier apart. |
| `AiQuota.UserTypeOf` | src/routes/ai.tsx:32-52 | A visitor without a user is anonymous; a user is paid exactly when some enrolment of theirs is completed, not revoked and not expired; otherwise free. |
| `AiQuota.RevokedDoesNotPay` | src/routes/ai.tsx:39-46 | A revoked enrolment never raises the limit above the free tier. |
| `AiQuota.ClientIp` | src/routes/ai.tsx:21-26 | A known connecting address is used as is; an unknown one on a `localhost` host becomes `127.0.0.1`. |
| `AiQuota.KeyOf` | src/routes/ai.tsx:57-70 | Uses are counted per day, by user id when the id is truthy and by address otherwise. |
| `AiQuota.Visit` | src/routes/ai.tsx:72-90 | A visit is allowed exactly when the key has no row or its count is below the limit; an allowed visit sets the count to one more (1 for a new row); a refused visit changes nothing; other keys are untouched. |
| `AiQuota.RaceFallbackAgrees` | src/routes/ai.tsx:91-107 | After losing the insert race, the conditional update decides as the normal path would on the updated table. |
| `AiQuota.VisitKeepsBound` | src/routes/ai.tsx:72-83 | With a limit of at least 1 that never exceeds a bound, no counter ever exceeds that bound. |
| `AiQuota.VisitsFrom` | src/routes/ai.tsx:72-83 | From a count `c ≤ limit`, `n` visits let `min(n, limit − c)` through and leave the count at `c` plus that number. |
| `AiQuota.DailyAllowance` | src/routes/ai.tsx:57-111 | On a fresh day, `n` visits let exactly `min(n, limit)` through. |
| `AiQuota.Assistant` | src/routes/ai.tsx:11-120 | The visitor is redirected to the assistant exactly when the visit is within the tier's limit; otherwise the limit page names the tier and limit and the table is unchanged. |
| `AiQuota.ErrorTextAsWritten` | src/routes/ai.tsx:126-130 | A missing table gives the configuration message; any other error gives the generic text followed by the error's message. |
| `AiQuota.ErrorText` | tests/ai_error_handling.test.ts:45-56 | The reply the test expects: the configuration message for a missing table, otherwise exactly the generic text. |
| `AiQuota.GenericErrorLeaksMessage` | src/routes/ai.tsx:130 | For any other error the written reply differs from the expected one and ends with the internal message. |
| `Enrollments.UserHasAccess` | src/features/courses/models/enrollments.ts:270-282 | True exactly when some row of the user and course is completed and not revoked. |
| `Enrollments.StrOr` | src/features/courses/models/enrollments.ts:93-95 | `value \|\| fallback`: a non-empty string is kept, an absent or empty one becomes the fallback. |
| `Enrollments.OptStr` | src/features/courses/models/enrollments.ts:92-98 | `value \|\| null`: present exactly when the string is non-empty, and then unchanged. |
| `Enrollments.EnrollmentRow` | src/features/courses/models/enrollments.ts:84-101 | Each column of the inserted row follows its field, with the `pending`, `USD`, `null` and `0` fallbacks for falsy values. |
| `Enrollments.CreateEnrollment` | src/features/courses/models/enrollments.ts:84-101 | The insert appends exactly that row. |
| `Enrollments.CreateEnrollmentDefaults` | src/features/courses/models/enrollments.ts:84-101 | A row built from the required fields alone is pending, in USD, not revoked, and leaves everyone's access as it was. |
| `Enrollments.EmptyStatusFallsBack` | src/features/courses/models/enrollments.ts:93-95 | An explicit empty status or currency falls back to the default. |
| `Enrollments.FindByPayment` | src/webhook-utils.ts:70-81 | Finds a row exactly when one has this payment id and provider, and the row it finds has both. |
| `Enrollments.SetStatus` | src/webhook-utils.ts:58-62 | Every row of the payment gets the new status; every other row is unchanged. |
| `Enrollments.UpdateEnrollmentStatus` | src/webhook-utils.ts:52-65 | Reports a change exactly when the payment has a row. |
| `Enrollments.StatusUpdateIsLocal` | src/webhook-utils.ts:58-62 | A status update does not change the access of a user and course none of whose rows belong to the payment. |
| `Enrollments.WebhookRow` | src/webhook-utils.ts:102-112 | The inserted row belongs to the payment and grants access to its user and course. |
| `Enrollments.CreateEnrollmentFromWebhook` | src/webhook-utils.ts:84-121 | An existing row of the payment is returned with the table unchanged; otherwise one completed row is appended and returned. |
| `Enrollments.NewRowFound` | src/webhook-utils.ts:114-120 | After appending the payment's first row, the lookup by payment finds that row. |
| `Enrollments.WebhookEnrollmentIdempotent` | src/webhook-utils.ts:94-98 | Delivering the same payment twice leaves one row and returns the same row both times. |
| `Enrollments.WebhookEnrollmentGrantsAccess` | src/webhook-utils.ts:84-121 | The first delivery of a payment grants its user access to its course. |
| `Enrollments.Revoke` | src/webhook-utils.ts:188-194 | Exactly the rows with that id get `access_revoked = 1`. |
| `Enrollments.ProcessRefund` | src/webhook-utils.ts:155-198 | Fails exactly when the payment has no row; otherwise every row of the payment is refunded, the rows with the first row's id get `access_revoked = 1`, every other row is unchanged, and the transaction records the first row, the refund amount or else the amount paid, and the reason or else `refund_requested`. |
| `Enrollments.RefundRevokesFirstRow` | src/webhook-utils.ts:162-194 | After a refund, looking the payment up again finds its first row refunded and with access revoked. |
| `Enrollments.FindAfterStatus` | src/webhook-utils.ts:162-172 | After the update, the lookup finds the same first row with the new status, so the second error cannot happen. |
| `Enrollments.RefundEndsAccess` | src/webhook-utils.ts:155-198 | When all of a user's access for a course came from the payment, that access ends after the refund. |
| `Enrollments.RefundAmountDefaults` | src/webhook-utils.ts:174-183 | Without an amount or a reason, the amount paid and `refund_requested` are recorded. |
| `Enrollments.CaptureLookupIsSubstring` | src/features/courses/models/enrollments.ts:217-229 | With the escaping, the `LIKE` pattern matches a transaction's metadata exactly when it contains the capture id. |
| `Like.EscapeChar` | src/features/courses/models/enrollments.ts:219 | A backslash, `%` or `_` gets a backslash in front; every other character is kept alone. |
| `Like.ChainOneChar` | src/features/courses/models/enrollments.ts:219 | On one character, the three chained replacements do exactly what the per-character escaper does. |
| `Like.ChainCharwise` | src/features/courses/models/enrollments.ts:219 | Because backslashes are doubled first, the chain escapes each character on its own. |
| `Like.EscapeLike` | src/features/courses/models/enrollments.ts:219 | The escaper as written escapes each character on its own, and removing the escapes gives back the id. |
| `Like.WrongOrderBreaks` | src/features/courses/models/enrollments.ts:219 | Doubling backslashes after escaping `%` would double the added backslash too. |
| `Like.TokensOfEscapedChar` | src/features/courses/models/enrollments.ts:224 | Under `ESCAPE '\'` one escaped character reads as one literal. |
| `Like.CharwiseIsLiteral` | src/features/courses/models/enrollments.ts:219-224 | The escaped string reads as its original characters, all literal. |
| `Like.EscapedIsLiteral` | src/features/courses/models/enrollments.ts:219-224 | The escaper leaves no wildcard in the pattern. |
| `Like.UnescapeCharwise` | src/features/courses/models/enrollments.ts:219 | The escaper loses nothing: removing the escapes gives back the original text. |
| `Like.MatchesLits` | src/features/courses/models/enrollments.ts:224 | Literal tokens match exactly the strings that begin with those characters, with the rest matching what follows. |
| `Like.MatchesAnyRun` | src/features/courses/models/enrollments.ts:227 | `%` alone matches every string. |
| `Like.ContainsPattern` | src/features/courses/models/enrollments.ts:224-227 | `%` + literal text + `%` matches exactly the strings that contain the text. |
| `Like.EscapedPatternFindsId` | src/features/courses/models/enrollments.ts:217-229 | The lookup's pattern matches a metadata text exactly when it contains the capture id. |
| `Legacy.LegacyRefundLookup` | src/index.tsx:2159-2171 | The legacy lookup returns only PayPal enrolments with a transaction whose metadata matches the unescaped `%id%` pattern. |
| `Legacy.SkipPrefix` | src/index.tsx:2169-2171 | A leading `%` lets the pattern match after any prefix. |
| `Legacy.UnderscoreIsWildcard` | src/index.tsx:2169-2171 | Without `ESCAPE`, `_` in an id is read as a wildcard: `A_B%` matches `AXB…`. |
| `Legacy.LegacyRefundHitsOtherCapture` | src/index.tsx:2159-2171 | A refund of capture `A_B` finds the enrolment whose transaction recorded capture `AXB`. |
| `Legacy.EscapedUnderscoreIsLiteral` | src/features/courses/models/enrollments.ts:217-229 | The escaped pattern of `A_B` does not match `AXB`. |
| `Legacy.EscapedLookupIsExact` | src/features/courses/models/enrollments.ts:217-229 | Whatever the escaped lookup finds has a transaction whose metadata really contains the capture id. |
| `Legacy.LegacyDispute` | src/index.tsx:2026-2038 | With a truthy payment intent, exactly the Stripe rows of that intent become `disputed`; otherwise nothing changes. |
| `Legacy.LegacyDisputeAgrees` | src/index.tsx:2026-2043 | The legacy dispute update leaves the same enrolments as the modular Stripe handler. |
| `Legacy.LegacyLessonPage` | src/index.tsx:2483-2583 | The lesson is shown only to a signed-in user with access, for a published course and a published lesson of that course. |
| `Legacy.LegacyLessonPageAgrees` | src/index.tsx:2483-2583 | When every `published` flag is 0 or 1, the legacy page and the modular page answer every request alike. |
| `Legacy.OtherFlagValuesDiverge` | src/index.tsx:2497 | A course flag of 2 is "not found" for the legacy query but published for the modular page's truthiness test. |
| `Webhooks.ExtractStripe` | src/webhook-utils.ts:201-214 | No course when the metadata or either id is missing or empty; otherwise both ids read with `parseInt`. |
| `Webhooks.StripeRoundTrip` | src/routes/api.ts:289-293 | The ids the checkout writes with `toString()` come back unchanged from the webhook's metadata. |
| `Webhooks.ExtractPayPal` | src/webhook-utils.ts:218-231 | An empty custom id gives nothing; otherwise a course exactly when splitting on `-` gives two fields, each read with `parseInt`. |
| `Webhooks.NoDashInNat` | src/webhook-utils.ts:224-225 | The decimal digits of a non-negative id contain no `-`. |
| `Webhooks.PayPalRoundTrip` | src/routes/api.ts:418 | Non-negative ids written as `user.id + '-' + courseId` come back unchanged. |
| `Webhooks.NegativeUserIdLost` | src/webhook-utils.ts:224-225 | A negative user id makes three fields, so the payment carries no course. |
| `Webhooks.LogWebhook` | src/webhook-utils.ts:25-47 | The status defaults to `received`; the other fields are stored as given. |
| `Webhooks.Log` | src/webhook-utils.ts:36-46 | Logging appends one entry and leaves enrolments and transactions alone. |
| `Webhooks.Record` | src/webhook-utils.ts:123-150 | Recording a transaction appends it and leaves enrolments and the log alone. |
| `Webhooks.StripeStatusMap` | src/routes/webhooks.ts:109-183 | A failed payment marks its rows `failed`, a dispute `disputed` and a refund `refunded`, and a refund revokes access on the payment's first row. |
| `Webhooks.StripeCurrencyUpperCased` | src/routes/webhooks.ts:73-99 | The transaction a succeeded or failed payment records, and the enrolment a succeeded one creates, carry the event's currency upper-cased. |
| `Webhooks.StripeUsdStoredUpper` | src/routes/webhooks.ts:80 | Stripe's `usd` is stored as `USD`. |
| `Webhooks.SucceededWithoutMetadata` | src/routes/webhooks.ts:57-68 | A succeeded payment without course metadata answers 200, changes no enrolment or transaction, and logs `failed`. |
| `Webhooks.SucceededGrantsAccess` | src/routes/webhooks.ts:57-106 | A succeeded payment with course metadata leaves the user with access, whether the row existed before or not. |
| `Webhooks.RefundWithoutIntent` | src/routes/webhooks.ts:142-168 | A refunded charge without a payment intent only adds the `received` log line. |
| `Webhooks.RefundUnknownPayment` | src/routes/webhooks.ts:142-168 | A refund for a payment with no row answers 200, changes no enrolment and logs `failed`. |
| `Webhooks.StripeSignatureGuards` | src/routes/webhooks.ts:18-37 | A falsy signature header (absent or empty) or an invalid signature answers 400 and stores nothing. |
| `Webhooks.HandleStripe` | src/routes/webhooks.ts:13-197 | A falsy signature header answers 400 `No signature header` and an invalid signature 400 `Invalid signature`, both storing nothing; otherwise the `received` log line for the event comes first, transactions are only appended and no enrolment is removed. |
| `Webhooks.StripeSucceeded` | src/routes/webhooks.ts:57-107 | Answers 200 exactly when the user id is a number and the payment already has a row or the course id is a number; existing rows of the payment are set to `completed`, otherwise a successful event appends one completed row; on success the `succeeded` transaction of the payment's row is appended and the log ends with `processed`; a failure is the 500 of binding `NaN`, with no transaction and no log line, and changes nothing when the payment had no row; the created row and the transaction carry the currency upper-cased. |
| `Webhooks.LatestEnrollment` | src/features/courses/models/enrollments.ts:233-243 | Nothing is found exactly when no row belongs to the user, the course and the provider; a found row is such a row and no later row of the table is. |
| `Webhooks.FindByPattern` | src/features/courses/models/enrollments.ts:220-227 | Returns a PayPal enrolment with a transaction whose metadata matches the pattern, or nothing when no enrolment has one. |
| `Webhooks.PayPalReceived` | src/routes/webhooks.ts:226 | The `received` line records the body's id when it is truthy and the transmission id otherwise, and touches nothing else. |
| `Webhooks.HandlePayPal` | src/routes/webhooks.ts:203-349 | A falsy transmission id answers 400 and stores nothing; otherwise the `received` line is logged first, transactions are only appended and the enrolment table keeps its size. |
| `Webhooks.PayPalCompleted` | src/routes/webhooks.ts:246-296 | Answers 200 exactly when the user id is a number and the order already has a row or the course id is a number; rows of the order are set to `completed`, and nothing else about enrolments changes; on success exactly one transaction, of the user, recording the order and capture ids, is appended and the log ends with `processed`; a failure is the 500 of binding `NaN`, with no transaction and no log line. |
| `Webhooks.CaptureRefundProcessed` | src/routes/webhooks.ts:298-326 | A refund of a capture the lookup finds answers 200; when that enrolment's payment has rows they all become `refunded`, the payment's first row has its access revoked and the table is the refund's, the refund transaction is appended and `processed` is logged, and otherwise nothing changes but a `failed` log line. |
| `Webhooks.PayPalSignatureIgnored` | src/routes/webhooks.ts:228-242 | The outcome of a PayPal delivery is the same whether the signature verifies or not. |
| `Webhooks.PayPalLogOnly` | src/routes/webhooks.ts:328-341 | Denied, declined and unknown events change no enrolment and no transaction. |
| `Webhooks.CaptureWithoutCourse` | src/routes/webhooks.ts:253-264 | A capture without course data changes no enrolment or transaction and logs `failed`. |
| `Webhooks.FallbackUpdatesNothing` | src/routes/webhooks.ts:266-278 | When only the latest-enrolment fallback finds a row, the status update, keyed by the order id, changes nothing. |
| `Webhooks.RefundFindsCapture` | src/routes/webhooks.ts:281-305 | The capture id stored at completion is found by the escaped refund lookup. |
| `Grading.SubsetSameSize` | src/routes/api.ts:778-780 | A subset of the same size is the whole set, which is why the size-and-inclusion check works. |
| `Grading.CorrectIffSameSet` | src/routes/api.ts:773-780 | A question counts as correct exactly when the selected options, as a set, are the correct options. |
| `Grading.RepeatsIgnored` | src/routes/api.ts:775 | Selecting the same options twice over does not change the verdict. |
| `Grading.ResultOf` | src/routes/api.ts:773-791 | A question's result is correct exactly when the selection equals the correct set, and then earns its points, else 0. |
| `Grading.Grade` | src/routes/api.ts:761-792 | The loop sums all points, sums the earned points and keeps one result per question, in order. |
| `Grading.EarnedBounded` | src/routes/api.ts:761-792 | With non-negative points, the earned points are between 0 and the total. |
| `Grading.AllCorrectEarnsAll` | src/routes/api.ts:761-792 | Answering every question exactly right earns the total. |
| `Grading.Score` | src/routes/api.ts:794 | The score is 0 without points, and otherwise the earned share of the total times 100. |
| `Grading.PassedIff` | src/routes/api.ts:794-795 | With points, passing means `100·earned ≥ passing score·total`. |
| `Grading.EmptyQuiz` | src/routes/api.ts:794-795 | A quiz without points scores 0 and is passed only when the passing score is at most 0. |
| `Grading.SubmitAllowed` | src/routes/api.ts:752-754 | A submission is refused exactly when `max_attempts` is truthy and the attempts so far reach it. |
| `Grading.CanRetake` | src/routes/student.tsx:1042 | A retake is allowed exactly when there is no limit or the attempts so far are below it. |
| `Grading.RetakeAgreesWithSubmit` | src/routes/student.tsx:1042 | The page's retake rule and the API's guard agree, and a limit of 0 means unlimited. |
| `Grading.ShowLastResult` | src/routes/student.tsx:1041-1047 | The page redirects to the last result exactly when it passed and no retake is left. |
| `Grading.FailedAttemptShowsQuiz` | src/routes/student.tsx:1045 | A failed last attempt never redirects. |
| `Grading.Submit` | src/routes/api.ts:719-795 | Sign-in (401), access (403), quiz (404) and the attempt cap (403) are checked in that order; only a request passing all four is graded, with the total, earned points, score and verdict above. |
| `QuizQueries.OrderOf` | src/features/quizzes/models/quizzes.ts:74 | The order is random exactly when randomisation is asked for, and `order_index` otherwise. |
| `QuizQueries.QuestionsQuery` | src/features/quizzes/models/quizzes.ts:73-80 | The questions query binds exactly the quiz id. |
| `QuizQueries.OptionColumns` | src/features/quizzes/models/quizzes.ts:88-91 | `is_correct` is selected exactly when asked for, after the four base columns. |
| `QuizQueries.OptionsQuery` | src/features/quizzes/models/quizzes.ts:87-99 | The options query binds exactly the question id. |
| `QuizQueries.Project` | src/features/quizzes/models/quizzes.ts:37 | An option read without the column carries no correctness; with it, the stored one; the other fields are the row's. |
| `QuizQueries.SelectOptions` | src/features/quizzes/models/quizzes.ts:87-99 | Only the question's options come back, and every one of them does; each carries its correctness exactly when asked for. |
| `QuizQueries.SelectOptionsExact` | src/features/quizzes/models/quizzes.ts:93 | The result is exactly the stored options of the question, each once and in table order, projected onto the selected columns. |
| `QuizQueries.SelectOptionsSound` | src/features/quizzes/models/quizzes.ts:93 | Every option returned is the projection of a stored option of that question. |
| `QuizQueries.StripAll` | src/features/quizzes/models/quizzes.ts:37 | Removing correctness keeps every option and only clears that field. |
| `QuizQueries.WithoutCorrectIsStripped` | src/features/quizzes/models/quizzes.ts:85-99 | The quiz-taking query returns the grading query's options with the answers removed. |
| `QuizQueries.AttemptsQuery` | src/features/quizzes/models/quizzes.ts:104-110 | Binds the quiz id first and the user id second, as the `WHERE` clause reads. |
| `QuizQueries.AttemptQuery` | src/features/quizzes/models/quizzes.ts:115-121 | Binds the attempt id first and the user id second. |
| `QuizQueries.SelectUserAttempts` | src/features/quizzes/models/quizzes.ts:104-110 | Returns exactly the user's attempts at the quiz. |
| `QuizQueries.FindAttempt` | src/features/quizzes/models/quizzes.ts:115-121 | Returns an attempt with that id only when it is the user's; nothing when no such attempt exists. |
| `QuizQueries.CreateAttempt` | src/features/quizzes/models/quizzes.ts:126-148 | Eleven columns and eleven bound values. |
| `QuizQueries.AttemptColumnsAligned` | src/features/quizzes/models/quizzes.ts:126-148 | Each listed column receives the attempt field of the same name. |
| `QuizQueries.SubmittedAttempt` | src/routes/api.ts:798-817 | The stored attempt's `passed` is 1 exactly when the submission passed (else 0), it starts and completes at the same instant, and it keeps the score and points. |
| `QuizQueries.PassedFlagRoundTrip` | src/routes/api.ts:812 | Reading the stored flag back gives the verdict. |
| `QuizQueries.AnswerRow` | src/routes/api.ts:822-835 | Each graded question is stored with the attempt id, its id, its selection, `is_correct` as 1/0 and its points, one value per column. |
| `QuizClient.Start` | src/client/quiz.ts:2-42 | The countdown starts at `60·limit` seconds and runs exactly for a positive limit. |
| `QuizClient.UrgencyOf` | src/client/quiz.ts:22-27 | `danger` at 60 seconds or less, `warning` above 60 and up to 180, nothing above 180. |
| `QuizClient.Display` | src/client/quiz.ts:13-15 | For a non-negative count the display is the `m:ss` clock of the remaining seconds. |
| `QuizClient.Tick` | src/client/quiz.ts:10-36 | A tick takes one second off; the interval stops and the form is submitted exactly once nothing is left. |
| `QuizClient.TickView` | src/client/quiz.ts:13-27 | After a tick the display is `danger` exactly when at most 60 seconds remain. |
| `QuizClient.CountdownSubmitsAtZero` | src/client/quiz.ts:10-42 | From `r > 0` seconds, fewer than `r` ticks leave the countdown running and unsubmitted; `r` or more stop it at 0, submitted. |
| `QuizClient.TimedQuizSubmitsAfterLimit` | src/client/quiz.ts:2-42 | A limit of `m` minutes submits on tick `60·m` and not on the one before. |
| `QuizClient.OnSubmit` | src/client/quiz.ts:45-58 | The submit is held back exactly when time remains and the confirmation is declined; the timer then resumes for a timed quiz with the time it had. |
| `QuizClient.UntimedNeverAsks` | src/client/quiz.ts:39-58 | An untimed quiz never asks for confirmation and always sends. |
| `QuizClient.AutoSubmitIsNotConfirmed` | src/client/quiz.ts:31-35 | The submit dispatched at zero is never held up by the confirmation. |
| `QuizClient.QuestionOf` | src/client/quiz.ts:65-66 | A key names a question exactly when it starts with `question_`, and the question id is what follows. |
| `QuizClient.QuestionOfIff` | src/client/quiz.ts:65-66 | A key names question `p` exactly when it is `question_` followed by `p`. |
| `QuizClient.AddEntryCollects` | src/client/quiz.ts:64-72 | Handling one more form entry keeps the collected answers equal to the per-question reading of all entries so far. |
| `QuizClient.CollectAnswers` | src/client/quiz.ts:60-72 | The answers hold exactly the questions some key names, each with its values in form order, read with `parseInt`. |
| `Progress.RoundDiv` | src/auth-utils.ts:99 | `Math.round(n / d)`: the integer nearest `n / d`, halves rounded up. |
| `Progress.RoundDivUnique` | src/auth-utils.ts:99 | No other integer meets that bound, so the rounded value is determined. |
| `Progress.RoundDivMono` | src/auth-utils.ts:99 | Rounding never decreases as the numerator grows. |
| `Progress.RoundDivExact` | src/auth-utils.ts:99 | A whole quotient rounds to itself. |
| `Progress.CoursePercent` | src/features/courses/models/enrollments.ts:299-301 | 0 without published lessons; otherwise the completed share of the total times 100, rounded half up. |
| `Progress.CompleteIff` | src/routes/api.ts:605-613 | The course reads as 100 % exactly when `199·total ≤ 200·completed < 201·total`, so from 99.5 % on. |
| `Progress.AlmostCompleteShowsFull` | src/routes/api.ts:613 | 199 lessons done out of 200 already counts as complete. |
| `Progress.NoUpperClamp` | src/auth-utils.ts:97-99 | Nothing caps the course percentage at 100: 3 completed rows over 2 lessons give 150. |
| `Progress.CoursePercentRange` | src/auth-utils.ts:97-99 | From 0 to all lessons done, the percentage stays within 0..100 and is 100 when all are done. |
| `Progress.VideoPercent` | src/routes/api.ts:698 | The video percentage never exceeds 100 and is 0 without a duration. |
| `Progress.VideoPercentRange` | src/routes/api.ts:698 | A non-negative position gives 0..100, and reaching the end gives 100. |
| `Progress.NoLowerClamp` | src/routes/api.ts:698 | Nothing floors it at 0: a position of −10 s over 100 s gives −10. |
| `Progress.CompleteUpsert` | src/features/courses/models/enrollments.ts:342-360 | Completing sets 100 % and the completion time; un-completing keeps the stored percentage and time (0 and none on a new row); position and notes are untouched. |
| `Progress.NotesUpsert` | src/features/courses/models/enrollments.ts:364-373 | Only the notes and the timestamp change; a new row starts not completed at 0 %. |
| `Progress.PositionUpsert` | src/features/courses/models/enrollments.ts:376-393 | The position is stored; the percentage is replaced only while the lesson is not completed; the completion is untouched. |
| `Progress.UncompleteKeepsHistory` | src/features/courses/models/enrollments.ts:348-352 | Completing and then un-completing leaves 100 % and the first completion time. |
| `Progress.RewatchKeepsCompletion` | src/features/courses/models/enrollments.ts:384 | Watching a completed lesson again leaves it at 100 %. |
| `Progress.UpdateLessonProgress` | src/features/courses/models/enrollments.ts:320-394 | An update without completion, notes or position is an error; otherwise exactly one upsert runs, in the order completion, notes, position, with a missing percentage bound as 0. |
| `Progress.ModelPositionMatchesApi` | src/routes/api.ts:698-709 | A position update through the model with the route's percentage is the route's own upsert. |
| `Progress.ApiCompletion` | src/routes/api.ts:602-609 | `completed` is 1 exactly at 100 % (else 0); at 100 % the date and the certificate flag are set, otherwise both are kept. |
| `Progress.ModelCompletion` | src/features/courses/models/enrollments.ts:435-452 | All three columns follow the boolean: 1, now and 1 when completed, else 0, null and 0. |
| `Progress.CertificateFlagDiverges` | src/routes/api.ts:607 | Below 100 % the route keeps an issued certificate flag while the model function clears it. |
| `Progress.CompletionAgreesAtFull` | src/routes/api.ts:602-609 | At 100 % the route and the model function write the same columns. |
| `Progress.FindCertificate` | src/features/courses/models/enrollments.ts:410-414 | Finds a certificate exactly when the student has one for the course, and what it finds is theirs. |
| `Progress.GenerateCertificate` | src/features/courses/models/enrollments.ts:408-430 | An existing certificate's id is returned with nothing added; otherwise one certificate is appended and its id returned. |
| `Progress.FirstCertificateKept` | src/features/courses/models/enrollments.ts:410-418 | After the first certificate is added, the lookup finds that one. |
| `Progress.GenerateIdempotent` | src/features/courses/models/enrollments.ts:408-430 | Generating twice adds one certificate and returns the same id both times. |
| `Progress.DashboardStats` | src/routes/student.tsx:161-197 | The statistics are shown exactly when there are courses; the active count is the number of courses and the completed count is the number of completed ones. |
| `Progress.AverageInRange` | src/routes/student.tsx:196 | With every course within 0..100 %, the rounded average is within 0..100 % too. |
| `Progress.NextLesson` | src/routes/student.tsx:43 | The last accessed lesson when there is one, else the course's first lesson. |
| `TimeFormat.JsRem` | src/auth-utils.ts:77-78 | JavaScript `%` by a positive number: the usual remainder for a non-negative dividend, and a remainder in `(−b, 0]` for a negative one. |
| `TimeFormat.PadInt2` | src/auth-utils.ts:81 | For a non-negative number, `padStart(2, '0')` is its two-digit form. |
| `TimeFormat.Clock` | src/routes/student.tsx:481 | The `m:ss` text ends with the two-digit seconds. |
| `TimeFormat.FormatDuration` | src/auth-utils.ts:75-84 | From one hour on, the text is the hours, then the two-digit minutes and seconds of the hour; below an hour it is the `m:ss` clock. |
| `TimeFormat.NegativeDuration` | src/auth-utils.ts:75-84 | Negative input is not guarded: `formatDuration(-5)` is `-1:-5`. |
| `TimeFormat.ClockRoundTrip` | src/routes/student.tsx:481 | Reading an `m:ss` text back gives the number of seconds. |
| `TimeFormat.HoursRoundTrip` | src/auth-utils.ts:80-82 | Reading an `h:mm:ss` text back gives the number of seconds. |
| `TimeFormat.FormatDurationRoundTrip` | src/auth-utils.ts:75-84 | For any non-negative duration, reading the formatted text back gives the duration: the formatting loses nothing. |
| `TimeFormat.ResumeBadge` | src/routes/student.tsx:478-482 | The badge is shown exactly for a position above 10 seconds on a lesson not completed, and its text reads back as that position. |
| `Navigation.IndexOf` | src/routes/student.tsx:313 | `findIndex`: the first lesson with the id, or −1 when none has it (always for a `NaN` id). |
| `Navigation.NeighboursOf` | src/routes/student.tsx:313-315 | "Previous" exists exactly when the index is above 0 and is the lesson before; "next" exists exactly when the index is below the last and is the lesson after. |
| `Navigation.IndexOfMember` | src/routes/student.tsx:313 | With distinct ids, the lesson at position `i` is found at `i`. |
| `Navigation.NextThenPrev` | src/routes/student.tsx:313-315 | Lesson `i`'s "next" is lesson `i+1`, whose "previous" is lesson `i`: the links chain the list in order. |
| `Navigation.ChainEnds` | src/routes/student.tsx:314-315 | The first lesson has no "previous" and the last no "next". |
| `Navigation.MissingLessonLinksToFirst` | src/routes/student.tsx:313-315 | A lesson absent from the list gets no "previous" and the course's first lesson as "next". |
| `Navigation.LessonPageFor` | src/routes/student.tsx:226-315 | Login first, then a published course, then access, then a published lesson of that course; each outcome happens exactly under its condition, and a shown lesson comes with its neighbours. |
| `Navigation.ShownOnlyWithAccess` | src/routes/student.tsx:258-278 | A shown lesson is published and the user holds a completed, unrevoked enrolment in the lesson's own course, whatever id the address carries. |
| `Navigation.InModule` | src/routes/student.tsx:304-310 | The reference grouping: exactly the lessons of the module, in list order. |
| `Navigation.NoLessonsNoGroup` | src/routes/student.tsx:304-310 | A module without lessons has an empty group. |
| `Navigation.AppendHasModule` | src/routes/student.tsx:305-309 | One more lesson adds its module to the modules present and nothing else. |
| `Navigation.AppendInModule` | src/routes/student.tsx:309 | One more lesson extends its own module's group and no other. |
| `Navigation.FirstSeenOld` | src/routes/student.tsx:306-309 | A lesson of a module already present keeps the keys in first-appearance order. |
| `Navigation.FirstSeenNew` | src/routes/student.tsx:306-308 | A lesson of a new module appends its key last, keeping first-appearance order. |
| `Navigation.AddLessonGrouped` | src/routes/student.tsx:305-310 | One loop step keeps the map equal to the reference grouping of the lessons so far. |
| `Navigation.GroupByModule` | src/routes/student.tsx:304-310 | After the loop the map equals the reference grouping: distinct keys in first-appearance order, one per module present, each holding exactly its module's lessons in list order. |
| `Navigation.EveryLessonInItsModule` | src/routes/student.tsx:304-310 | Every lesson is in its own module's group and in no other. |
| `Navigation.InsertSorted` | src/admin/courses.tsx:149 | Inserting a new key into ascending keys keeps them ascending and adds exactly that key. |
| `Navigation.SortKeys` | src/admin/courses.tsx:149 | Sorting distinct keys gives the same keys in ascending order. |
| `Navigation.SortedModules` | src/admin/courses.tsx:137-149 | The admin's modules are in strictly ascending order, each is present in the list and holds exactly its lessons in list order, and every lesson's module appears. |
| `VideoClient.TrustedYouTubeDomain` | src/client/video-tracking.ts:26-39 | A trusted YouTube source uses `http:` or `https:` and is served from `youtube.com`, a subdomain of it, or `youtu.be`. |
| `VideoClient.TrustedVimeoDomain` | src/client/video-tracking.ts:101-114 | A trusted Vimeo source uses `http:` or `https:` and is served from `vimeo.com` or a subdomain of it. |
| `VideoClient.SubdomainsTrusted` | src/client/video-tracking.ts:35 | Every host ending in `.youtube.com` is trusted, on either web protocol. |
| `VideoClient.OtherProtocolsRejected` | src/client/video-tracking.ts:29-32 | No other protocol is ever trusted. |
| `VideoClient.SeekStaysInside` | src/client/video-tracking.ts:60 | The player seeks only to a position inside the video, at least 5 seconds before its end. |
| `VideoClient.Round` | src/client/video-tracking.ts:14-15 | `Math.round`: the integer within half a unit, halves rounded up. |
| `VideoClient.SaveOf` | src/client/video-tracking.ts:10-16 | The saved position and duration are the rounded values. |
| `VideoClient.GuardedSave` | src/client/video-tracking.ts:195-204 | Progress is sent exactly when both the time and the duration are positive, with the rounded values. |
| `VideoClient.GuardedSaveValues` | src/client/video-tracking.ts:195-204 | A sent save never carries a negative value, but a duration under half a second is sent as 0. |
| `VideoClient.ToggleComplete` | src/client/video-tracking.ts:216-251 | The opposite state is requested; the local state flips exactly on a successful reply; an error is shown exactly otherwise; the certificate page `/certificado/<id>` opens exactly when the reply succeeded, reports a generated certificate with a truthy id, and the user confirms. |
| `VideoClient.OnVideoEnded` | src/client/video-tracking.ts:258-262 | The end of a video toggles exactly when the lesson is not completed. |
| `VideoClient.VideoEndNeverUncompletes` | src/client/video-tracking.ts:258-262 | The end of a video only ever asks to complete, and the lesson ends up completed exactly when it was or the request succeeded. |
| `VideoClient.ToggleTwice` | src/client/video-tracking.ts:229-230 | Two successful clicks bring the button back to where it started. |
| `StorySubmission.RateKeyInjective` | src/features/stories/routes/api.tsx:9 | Two addresses with the same key are the same address: no two addresses share a counter. |
| `StorySubmission.CheckRateLimit` | src/features/stories/routes/api.tsx:8-34 | Refused exactly when the key's window is still open and its count has reached 5, and then nothing changes; a new or expired key starts a one-hour window with count 1; other keys are untouched. |
| `StorySubmission.WithinWindow` | src/features/stories/routes/api.tsx:16-28 | Inside one window at most `5 − count` more requests pass, the window's end stays put, and the count rises by the number passed. |
| `StorySubmission.FivePerHour` | src/features/stories/routes/api.tsx:8-34 | From the request that opens a window to one hour later, at most 5 requests pass. |
| `StorySubmission.ClientIp` | src/features/stories/routes/api.tsx:60-63 | A present header other than `unknown` is used as is. |
| `StorySubmission.EmptyHeaderDiverges` | src/features/stories/routes/api.tsx:60 | An empty header is kept as `""` here (`??`) while the assistant turns it into `unknown` (`\|\|`). |
| `StorySubmission.MaxBytes` | src/features/stories/routes/api.tsx:85-91 | The limit is the setting when it is all digits and positive, and 3 MiB otherwise; it is always positive. |
| `StorySubmission.ExtractMeta` | src/features/stories/routes/api.tsx:43-55 | A found value is non-empty and is the content of a tag with that name. |
| `StorySubmission.FirstNamed` | src/features/stories/routes/api.tsx:45-49 | The reference reading: the position of the first tag with the name, or none. |
| `StorySubmission.ExtractMetaFirst` | src/features/stories/routes/api.tsx:45-53 | The first tag with the name decides: its non-empty content, or nothing, and a later tag of that name is never consulted. |
| `StorySubmission.Submit` | src/features/stories/routes/api.tsx:57-111 | Each refusal happens exactly when its check is the first to fail: rate limit (429), file, type (400), size (413), metadata and section (400), duplicate hash (409); the story is created exactly when every check passes, with the title and author of the first matching `<meta>` tags. |
| `StorySubmission.ResubmitIsDuplicate` | src/features/stories/routes/api.tsx:105-111 | An accepted upload, once its hash is stored, is refused as a duplicate when sent again. |
| `StorySubmission.ContentDecides` | src/features/stories/routes/api.tsx:97-111 | Once the file passes the type and size checks, the outcome is decided by its content and the stored hashes alone. |
| `StorySubmission.SanitizeFilename` | src/features/stories/routes/api.tsx:115 | Same length; each character is kept exactly when it is a letter, digit, `.`, `-` or `_`, and otherwise becomes `_`. |
| `StorySubmission.SanitizeIdempotent` | src/features/stories/routes/api.tsx:115 | Sanitising twice changes nothing more. |
| `StorySubmission.SanitizedHasNoSlash` | src/features/stories/routes/api.tsx:115-116 | The sanitised name has no `/` or `\`, so the key stays under `stories/`. |
| `StoryAdmin.IntOrNull` | src/features/stories/models/stories.ts:20 | A missing user id is bound as SQL NULL and a present one as itself. |
| `StoryAdmin.CreateStory` | src/features/stories/models/stories.ts:30-46 | The insert binds exactly the eight story values, in column order. |
| `StoryAdmin.CreateStoryAligned` | src/features/stories/models/stories.ts:31-44 | Each bound value is the value for the column at the same position; an absent hash or IP address is bound as NULL. |
| `StoryAdmin.EmptyAliasKept` | src/features/stories/models/stories.ts:40 | `??` keeps an empty alias: it is bound as the empty string, not NULL. |
| `StoryAdmin.ListStories` | src/features/stories/models/stories.ts:54-80 | The bound values are the status filter's values followed by the paging values. |
| `StoryAdmin.ListClauses` | src/features/stories/models/stories.ts:59-77 | The status is bound only when it is a non-empty string; LIMIT appears exactly when a limit is given and OFFSET exactly when both limit and offset are given. |
| `StoryAdmin.ZeroLimitKept` | src/features/stories/models/stories.ts:70-76 | A zero limit or offset is still emitted (the test is `!= null`, not truthiness), and an offset without a limit is dropped. |
| `StoryAdmin.CountStories` | src/features/stories/models/stories.ts:95-103 | The count binds the same status filter as the list. |
| `StoryAdmin.ListAndCountAgree` | src/features/stories/models/stories.ts:54-106 | With paging given, the list binds the count's values followed by limit and offset. |
| `StoryAdmin.CountOrZero` | src/features/stories/models/stories.ts:104-105 | A missing count row reads as 0. |
| `StoryAdmin.UpdateStatusQuery` | src/features/stories/models/stories.ts:91 | The update binds the status and then the id. |
| `StoryAdmin.UpdateStoryStatus` | src/features/stories/models/stories.ts:90-93 | One row changes exactly when the id exists; it gets the new status and timestamp, and every other story is unchanged. |
| `StoryAdmin.UpdateIdempotent` | src/features/stories/models/stories.ts:90-93 | Setting the same status twice leaves the stories as a single update at the later time would. |
| `StoryAdmin.PageOf` | src/features/stories/routes/admin-stories.tsx:36-39 | The page number is always at least 1. |
| `StoryAdmin.PageLinkRoundTrip` | src/features/stories/routes/admin-stories.tsx:36 | A page link's number reads back as that page (also line 127 of the same file). |
| `StoryAdmin.PageDefaults` | src/features/stories/routes/admin-stories.tsx:36-39 | A missing, non-numeric or non-positive page parameter means page 1. |
| `StoryAdmin.Offset` | src/features/stories/routes/admin-stories.tsx:41-42 | The offset is a non-negative multiple of the page size 20. |
| `StoryAdmin.TotalPages` | src/features/stories/routes/admin-stories.tsx:46 | No pages exactly when there are no stories; otherwise the fewest pages of 20 that hold them all. |
| `StoryAdmin.PaginationIff` | src/features/stories/routes/admin-stories.tsx:124 | Page links are shown exactly when there are more than 20 stories. |
| `StoryAdmin.PagesCoverTotal` | src/features/stories/routes/admin-stories.tsx:41-46 | Every story index lies on exactly one page among the pages linked (also line 126 of the same file). |
| `StoryAdmin.PageFilters` | src/features/stories/routes/admin-stories.tsx:40-44 | The list is asked for 20 rows at the offset of the requested page. |
| `StoryAdmin.StatusBadge` | src/features/stories/routes/admin-stories.tsx:10-32 | Green, red, yellow exactly for approved, rejected, pending; any other status is gray and shown verbatim. |
| `StoryAdmin.Actions` | src/features/stories/routes/admin-stories.tsx:102-115 | Moderation buttons appear exactly for pending stories. |
| `StoryAdmin.TitleAndAuthor` | src/features/stories/routes/admin-stories.tsx:90-91 | An empty or missing title reads "Sin título" and an empty or missing author "Anónimo"; otherwise the stored text. |
| `StoryAdmin.RouteIdAsWritten` | src/features/stories/routes/admin-stories.tsx:142 | The id as `parseInt` reads it: an all-digit parameter reads as its number. |
| `StoryAdmin.RouteId` | src/features/stories/routes/admin-stories.tsx:142-145 | The strict id: a number exactly when the parameter is all digits, and then its non-negative value. |
| `StoryAdmin.TrailingTextAccepted` | src/features/stories/routes/admin-stories.tsx:142-145 | `parseInt` reads "123abc" as 123, while the strict reading rejects it. |
| `StoryAdmin.RouteIdsAgreeOnNumbers` | src/features/stories/routes/admin-stories.tsx:142 | On a plain number the two readings agree. |
| `StoryAdmin.StatusRouteWith` | src/features/stories/routes/admin-stories.tsx:141-161 | 400 for a bad id, then 400 for a status other than approved or rejected, then 404 for a missing story, else the story is updated and the admin is sent back to the pending list; nothing changes on an error. |
| `StoryAdmin.StatusRouteAsWritten` | src/features/stories/routes/admin-stories.tsx:141-161 | As written: 400 exactly when `parseInt` finds no number; the story at the parsed number is moderated whenever it exists and the status is valid. |
| `StoryAdmin.StatusRoute` | src/features/stories/routes/admin-stories.tsx:141-161 | With the strict id: 400 exactly when the parameter is not all digits; the story named by the digits is moderated exactly when it exists and the status is valid. |
| `StoryAdmin.MixedIdModeratesAnotherStory` | src/features/stories/routes/admin-stories.tsx:142-160 | As written, posting "approved" to `/admin/stories/123abc/status` approves story 123; the strict route answers 400. |
| `StoryAdmin.ButtonsPostValidStatuses` | src/features/stories/routes/admin-stories.tsx:102-160 | Every button on a pending story posts a status the route accepts and redirects. |
| `Catalog.OrderIndexLex` | src/models/lessons.ts:79-89 | While lesson numbers stay below the stride, index order is exactly module-then-lesson order, and two pairs share an index only when they are equal. |
| `Catalog.OrderIndex` | src/models/lessons.ts:89 | While the lesson number is below the stride, dividing the index by the stride gives back the module number and the remainder the lesson number. |
| `Text.Upper` | src/routes/webhooks.ts:80 | `toUpperCase`: the same length, each ASCII lower-case letter raised by 32, no ASCII lower-case letter left. |
| `Text.UpperLowerRoundTrip` | src/routes/webhooks.ts:80 | Upper-casing a lower-case ASCII word gives upper-case letters, and lower-casing them gives the word back. |
| `Text.ParseInt` | src/admin/courses.tsx:304 | `parseInt` of a string of decimal digits is its value. |
| `Text.ParseInt10` | src/admin/users.tsx:120 | `parseInt(s, 10)` of a string of decimal digits is its value. |
| `Catalog.LessonNumberOverflows` | src/models/lessons.ts:89 | A lesson number equal to the stride collides with the next module's lesson 0, and lesson 150 of module 1 sorts after lesson 1 of module 2 under the ×100 encoding (also `src/admin/courses.tsx` line 304). |
| `Catalog.StridesDisagree` | src/models/lessons.ts:89 | The ×1000 and ×100 encodings give the same index exactly for module 0 (also `src/admin/courses.tsx` line 304, `src/admin/courses.tsx` line 378). |
| `Catalog.StridesOrderAlike` | src/models/lessons.ts:89 | Below 100 lessons per module the two encodings order lessons the same way (also `src/admin/courses.tsx` line 304). |
| `Catalog.LessonOrderIndex` | src/models/lessons.ts:89 | An explicit index, 0 included, is kept; a missing one is module·1000 + lesson. |
| `Catalog.CreateLesson` | src/models/lessons.ts:87-112 | The insert binds the eleven lesson values in column order. |
| `Catalog.CreateLessonDefaults` | src/models/lessons.ts:89-110 | Flags are bound as 0 or 1 (published is 1 exactly when truthy), a missing duration as 0, and an explicit index of 0 or a computed module·1000 + lesson as the index. |
| `Catalog.LessonFieldsFollowColumns` | src/models/lessons.ts:121-131 | The update checks the columns in the insert's column order. |
| `Catalog.UpdateLesson` | src/models/lessons.ts:117-150 | Only the supplied fields are bound, in the fixed column order, followed by the id. |
| `Catalog.MoveKeepsOrderIndex` | src/models/lessons.ts:122-147 | Changing only the module binds the module and the id and nothing else: the index is not recomputed; an empty update still binds the id (it touches `updated_at`). |
| `Catalog.MovedLessonIsMisplaced` | src/models/lessons.ts:138-142 | After such a move the stored index no longer encodes the lesson's module. |
| `Catalog.LessonsByCourseQuery` | src/models/lessons.ts:71-82 | The course id is the only bound value; the published filter appears exactly when asked for. |
| `Catalog.ModelIndexSortsByModule` | src/models/lessons.ts:79-89 | For lessons indexed by the model with fewer than 1000 lessons per module, the query's sort key is module-then-lesson order. |
| `Catalog.CreateCourse` | src/models/courses.ts:81-99 | The insert binds the ten course values in column order. |
| `Catalog.CreateCourseDefaults` | src/models/courses.ts:86-97 | A course with only title and slug is bound as free, USD, 0 weeks, all levels, unpublished, with NULL subtitle, description and image. |
| `Catalog.CourseFieldsFollowColumns` | src/models/courses.ts:108-117 | The update checks the columns in the insert's column order. |
| `Catalog.UpdateCourse` | src/models/courses.ts:104-125 | No statement at all exactly when nothing is supplied; otherwise the supplied fields and then the id, with no `updated_at`. |
| `Catalog.EmptyUpdates` | src/models/courses.ts:119 | An empty course update sends nothing while an empty lesson update still runs (also `src/models/lessons.ts` lines 144-147). |
| `Catalog.PublishedCoerced` | src/models/courses.ts:117 | Any non-zero published flag is stored as 1. |
| `Catalog.AdminCreateCourse` | src/admin/courses.tsx:108-124 | The create action binds the eight form-derived values in its column order. |
| `Catalog.AdminCourseDefaults` | src/admin/courses.tsx:111-120 | The slug is a well-formed slug of the title; a missing subtitle or image is NULL; a missing duration is 4 weeks. |
| `Catalog.DurationDefaultsDiffer` | src/admin/courses.tsx:112 | The admin form defaults a course to 4 weeks and the model function to 0 (also `src/models/courses.ts` line 93). |
| `Catalog.AdminUpdateCourse` | src/admin/courses.tsx:227-239 | The edit action binds title, slug, price, the checkbox as 0/1, then the id. |
| `Catalog.CheckboxPublishes` | src/admin/courses.tsx:174 | A ticked checkbox publishes and an absent one unpublishes (also line 235 of the same file). |
| `Catalog.AdminOrderIndex` | src/admin/courses.tsx:304 | The index is defined exactly when both numbers parse, and is then module·100 + lesson (also line 378 of the same file). |
| `Catalog.AdminOrderIndexOfNumbers` | src/admin/courses.tsx:304 | Numbers typed as decimal text give the ×100 encoding of the pair. |
| `Catalog.AdminLessonValues` | src/admin/courses.tsx:297-309 | The form values carry the ×100 index (NULL when a number does not parse) and the checkbox as 0/1 (also lines 372-383 of the same file). |
| `Catalog.AdminCreateLesson` | src/admin/courses.tsx:294-313 | The create-lesson action binds the course id and then the form values. |
| `Catalog.AdminUpdateLesson` | src/admin/courses.tsx:369-386 | The edit-lesson action binds the form values in the create action's order and then the lesson id. |
| `Catalog.AdminCreateAndEditAgree` | src/admin/courses.tsx:304-309 | Create and edit bind the same form values, so an edit recomputes the ×100 index exactly as a create does (also lines 378-383 of the same file). |
| `Catalog.AdminAndModelIndicesDiffer` | src/admin/courses.tsx:304 | The same lesson created in the admin panel and through the model is given different indices outside module 0 (also `src/models/lessons.ts` line 89). |
| `Versioning.EntityOf` | src/lib/versioning.ts:3 | A recognised name is the name of the kind it maps to. |
| `Versioning.EntityNameRoundTrip` | src/lib/versioning.ts:3 | Each kind's name maps back to that kind. |
| `Versioning.TableName` | src/lib/versioning.ts:27-34 | Every version table name ends in `_versions`. |
| `Versioning.ForeignKey` | src/lib/versioning.ts:39-46 | Every key column ends in `_id`. |
| `Versioning.TablesAndKeysDistinct` | src/lib/versioning.ts:27-46 | Two kinds share a table, or a key column, exactly when they are the same kind. |
| `Versioning.TableFor` | src/lib/versioning.ts:27-34 | The lookup succeeds exactly for the three names and otherwise fails with "Unknown entity type: " and the name. |
| `Versioning.ForeignKeyFor` | src/lib/versioning.ts:39-46 | The key lookup succeeds exactly for the three names and otherwise fails with the same message. |
| `Versioning.LookupsTotal` | src/lib/versioning.ts:27-46 | Both lookups accept exactly `blog_post`, `course` and `lesson`, and agree on what they reject. |
| `Versioning.ValidColumns` | src/lib/versioning.ts:51-69 | Every kind has a non-empty whitelist. |
| `Versioning.PostWhitelist` | src/lib/versioning.ts:54 | A blog post version records slug, hashtags and schedule, but not the published flag. |
| `Versioning.WhitelistsClean` | src/lib/versioning.ts:51-102 | No whitelisted column repeats, and none is a bookkeeping column of the version table. |
| `Versioning.DefinedColumns` | src/lib/versioning.ts:86-99 | The kept keys are exactly the whitelisted keys the data defines, in whitelist order. |
| `Versioning.VersionValues` | src/lib/versioning.ts:78-104 | The values are the entity id, the status (draft by default), the author (NULL when 0 or missing), then each kept key's value. |
| `Versioning.CreateVersion` | src/lib/versioning.ts:74-113 | The INSERT binds one value per listed column, so its placeholder count equals its value count. |
| `Versioning.MetaColumnsDistinct` | src/lib/versioning.ts:102 | The key, status and author columns differ from each other and from `id` and `created_at`. |
| `Versioning.VersionColumnsDistinct` | src/lib/versioning.ts:102 | The INSERT names no column twice and never names `id` or `created_at`. |
| `Versioning.CreateVersionStores` | src/lib/versioning.ts:86-111 | The version read back with `SELECT *` holds every whitelisted column: the data's value where the data defines it and NULL where it does not. |
| `Versioning.StoredBookkeeping` | src/lib/versioning.ts:102-111 | The version read back holds the entity key, the status (`draft` when none is given) and the author (NULL when falsy). |
| `Versioning.DefinedColumnsAgree` | src/lib/versioning.ts:86-91 | The kept keys depend only on the whitelisted part of the data. |
| `Versioning.VersionsQuery` | src/lib/versioning.ts:118-156 | Versions are read from the kind's own table by its key column, newest first, binding only the entity id; the latest-version query adds LIMIT 1. |
| `Versioning.VersionByIdQuery` | src/lib/versioning.ts:134-176 | Reading or deleting one version binds only the version id, in the kind's own table. |
| `Versioning.QueriesStayInTheirTable` | src/lib/versioning.ts:118-176 | The queries of two kinds differ for the same ids exactly when the kinds differ. |
| `Versioning.RestoreVersion` | src/lib/versioning.ts:161-168 | A missing version fails with "Version not found"; otherwise a new draft for the given entity is recorded. |
| `Versioning.RestoreRoundTrip` | src/lib/versioning.ts:161-168 | Restoring inserts the stored `SELECT *` row as a new draft of the target entity; both the stored version and the restored one hold every whitelisted column with the original data's value (NULL where it had none), and the restored one is filed under the target as a `draft` (also lines 86-111 of the same file). |
| `Versioning.ValuesFollowContent` | src/lib/versioning.ts:86-104 | Two rows that agree on the whitelisted columns give the same content columns and values. |
| `Versioning.HtmlChar` | src/lib/versioning.ts:184-191 | A plain character is kept; one of the five special characters becomes an entity starting with `&` and ending with `;`. |
| `Versioning.EscapeHtml` | src/lib/versioning.ts:184-191 | The chain of five replacements escapes each character on its own. |
| `Versioning.ChainOneChar` | src/lib/versioning.ts:184-191 | On one character the five chained replacements give exactly that character's entity, or the character itself. |
| `Versioning.AmpEntityKept` | src/lib/versioning.ts:187-190 | The replacements after the first leave `&amp;` untouched. |
| `Versioning.ChainAppend` | src/lib/versioning.ts:184-191 | The chain of replacements distributes over concatenation. |
| `Versioning.ChainCharwise` | src/lib/versioning.ts:184-191 | Because `&` is replaced first, the chain of replacements escapes each character independently. |
| `Versioning.WrongOrderDoubleEscapes` | src/lib/versioning.ts:186-187 | Replacing `<` before `&` would turn `<` into `&amp;lt;`. |
| `Versioning.EscapedHasNoMarkup` | src/lib/versioning.ts:184-191 | The escaped text has no raw `<`, `>`, `"` or `'`. |
| `Versioning.UnescapeEscape` | src/lib/versioning.ts:184-191 | Unescaping the escaped text gives back the text. |
| `Versioning.StyleOf` | src/lib/versioning.ts:194-196 | Added parts are green and bold, removed parts red and struck through, others transparent and plain. |
| `Versioning.SpanBody` | src/lib/versioning.ts:197-198 | A part's span holds its escaped text, which unescapes to the part and holds no raw angle bracket. |
| `Versioning.CompareText` | src/lib/versioning.ts:193-199 | The page is one span per part, in order, and reads back as exactly the parts: each part's text and its added and removed flags. |
| `Versioning.ReadSpanOf` | src/lib/versioning.ts:194-198 | A span followed by any text reads back as its part, leaving that text: the style fields give back the flags and the unescaped body the text. |
| `RouteConfig.FixInclude` | scripts/fix-routes.js:22-24 | `include` becomes the catch-all exactly when it is missing, not an array, empty or already the catch-all; a non-empty array is kept. |
| `RouteConfig.AddIfMissing` | scripts/fix-routes.js:33-35 | The rule is present afterwards and nothing else is added. |
| `RouteConfig.RemoveBlocked` | scripts/fix-routes.js:38-39 | Exactly the non-admin rules are kept. |
| `RouteConfig.RemoveBlockedAppend` | scripts/fix-routes.js:39 | The filter keeps the relative order of the rules. |
| `RouteConfig.FixExclude` | scripts/fix-routes.js:27-39 | The result contains both asset rules and no admin rule. |
| `RouteConfig.FixExcludeShape` | scripts/fix-routes.js:27-39 | The result is the old rules minus admin rules, in their old order, followed by each asset rule the old list lacked, once. |
| `RouteConfig.Normalise` | scripts/fix-routes.js:21-41 | Both lists are arrays afterwards and every other key is written back unchanged. |
| `RouteConfig.NormaliseIdempotent` | scripts/fix-routes.js:21-41 | Normalising a normalised file changes nothing. |
| `RouteConfig.FixRoutes` | scripts/fix-routes.js:12-48 | A missing file exits without change; unparsable JSON and `null` or another primitive fail; an object is written back normalised; a top-level array is written back with its elements unchanged. |
| `RouteConfig.ExitCode` | scripts/fix-routes.js:14-48 | The script exits 1 exactly from the `catch`, and 0 otherwise. |
| `RouteConfig.ArrayFileUnchanged` | scripts/fix-routes.js:19-41 | A top-level JSON array is written back as it was and the script exits 0. |
| `RouteConfig.FailsExactly` | scripts/fix-routes.js:17-48 | The script exits 1 exactly for unparsable JSON or a primitive value. |

## Left out

- Rendering: JSX and HTML pages, inline browser scripts, layouts and the admin dashboard cards are not modelled. Where a page shows a decision (a badge, a button, a pagination block), the decision is modelled and the markup is not.
- Network and foreign libraries are not modelled: the Stripe SDK, PayPal REST calls, PayPal webhook signature verification, the email client, R2 storage, spreadsheet parsing, bcrypt and `crypto.subtle`. Their results (parsed rows, random bytes, verification outcomes, diff parts) are parameters.
- Database plumbing (`src/models/db.ts`, `src/models/payments.ts`) is not modelled. Tables are sequences or maps of rows, statements are texts plus bound values, and SQL is never executed. SQLite's case-insensitive `LIKE` on ASCII letters is not modelled: patterns match case-sensitively.
- Floating point: video player times and quiz scores are real numbers, and percentages are exact integers with `Math.round(x) = floor(x + 1/2)`. A JavaScript double can differ at an exact rounding boundary.
- Time and randomness: `Date.now()`, SQLite's `CURRENT_TIMESTAMP` and `datetime('now')`, session expiry, certificate codes and `ORDER BY RANDOM()` are inputs or opaque. The model states what is bound, not what the database picks.
- Concurrency: the AI quota's unique-constraint race is modelled as the sequential fallback path (insert fails, conditional update runs). Interleavings of two requests are not modelled.
- `src/lib/sanitize.ts` and the HTML sanitising of stored posts are not part of this model.
- Python `str.strip()` and JavaScript `trim()` are modelled with ASCII whitespace only, not the full Unicode whitespace class.
- BlogSeeder: the claim that augmented content is at least 250 characters long is not proved. The appended paragraph is a fixed Spanish text whose length Dafny would have to compute character by character.
- BlogAdmin.ImportRoute: which failures the workbook parser, a non-text cell or the database raise is not modelled. A failure before the first `DB.batch` call is the `Unreadable` upload, and a failing batch call is named by its chunk number.
- BlogSeeder: the seeder's image index is the `enumerate` counter over all spreadsheet rows, blank-title rows included, as the code does. The kept-row count is not used.
- StorySubmission.ExtractMetaFirst: the `<meta>` regular expression is not modelled. Tags arrive already split into name and content, in document order.
- StorySubmission.Submit: the "has a story section" regular expression test is a boolean input.
- RouteConfig.FixRoutes: reading, parsing and writing `dist/_routes.json` are represented by the `Parsed` input and the `Run` outcome, and the exit code by `ExitCode`. Keys of the object other than `include` and `exclude`, and the elements of a top-level array, are carried as opaque text.
- Catalog: the fixed single-parameter reads in `src/models/lessons.ts` (`getLessonById`, `listLessons`, `countLessons`, `getLessonResources`, `getFirstLesson`) and `src/models/courses.ts` (`getCourseById`, `getCourseBySlug`, `listCourses`, `listPublishedCourses`, `countCourses`) are not modelled. Each is one constant statement with at most one bound id and no logic.
- Catalog.AdminLessonValues: a `NaN` index from an unparsable module or lesson number is bound as NULL. What the database driver does with `NaN` is not modelled.
- Catalog.AdminCreateCourse: form fields the action destructures without a default (description, price, currency) are bound as NULL when absent. The driver's treatment of `undefined` is not modelled.
- Versioning: `getVersions` and `getLatestVersion` are modelled as statements. The rows they return and their order by `created_at` are not modelled.
- Versioning.CompareText: `Diff.diffWords` is a library call. Its parts are an input; the model wraps each part and proves that the page reads back as those parts, but not that they reconstruct the old and new texts.
- Payment amounts: the Stripe handler records `amount / 100` (src/routes/webhooks.ts:79, 96 and 127) and the PayPal handler `parseFloat(resource.amount.value)` (lines 285 and 313 of the same file), both fractional numbers. The model records amounts as whole numbers given by the caller; cents, the division and the parsing of PayPal's decimal text are not modelled.
- Webhooks.StripeSucceeded, Webhooks.PayPalCompleted: what the database driver does with a bound `NaN` is not modelled. These handlers take the first statement that binds a `NaN` user or course id to fail with 500; the status update, which binds only the payment id, has run by then. Catalog.AdminLessonValues instead binds a `NaN` index as NULL. Both are assumptions about the same unmodelled driver behaviour.
- Character counts: Dafny strings are sequences of Unicode scalar values, while JavaScript `.length` and `substring` count UTF-16 code units. Accounts.RegisterCheck's minimum password length and the 150-, 200- and 250-character windows of the excerpts and of the completion count one per scalar value here, so they differ from the program on text with characters outside the Basic Multilingual Plane (an emoji is 1 here and 2 there).
- Text.LowerChar, Text.Upper: case mapping covers ASCII and the Spanish letters `Á É Í Ó Ú Ñ Ü` (and their lower-case forms) only; `toUpperCase` of `ß` as `SS` is not modelled either. Characters that `toLowerCase()` and `lower()` also fold, such as `À` or U+212A KELVIN SIGN (which becomes `k`), are left unchanged, so their slugs and categories can differ from the program's.
- Webhooks.LatestEnrollment: `ORDER BY enrolled_at DESC LIMIT 1` is modelled as the last matching row in table order. This assumes rows are inserted in `enrolled_at` order; ties between equal timestamps are not modelled.
- Versioning.StoredVersion: the version tables are taken to have exactly the whitelisted columns, the three bookkeeping columns, `id` and `created_at`. Any other column `SELECT *` might return is not modelled.
- The tests of code this model leaves out are not modelled: tests/sanitize.test.ts (`src/lib/sanitize.ts`), tests/services/email.test.ts (`src/services/email.ts`), tests/sitemap_check.test.ts, tests/sitemap_fixes.test.ts and tests/verification_sitemap_admin.test.ts (the sitemap and admin route mounting), tests/users_model.test.ts (`updateUser` in `src/models/users.ts`) and tests/reproduce_issue.test.ts (which exercises only a Hono routing set-up of its own).

## Findings

| source | as written | input that shows it | evidently intended | confidence | as-written member | corrected member |
|---|---|---|---|---|---|---|
| src/features/stories/routes/admin-stories.tsx:142-145 | The id is read with `parseInt`, which stops at the first non-digit, so only an id with no leading number is rejected. | `POST /admin/stories/123abc/status` with `status=approved` approves story 123. | A malformed id is answered with 400, as tests/stories_routes_validation.test.ts:49-64 expects. | high; not executed | `StoryAdmin.StatusRouteAsWritten`, `StoryAdmin.MixedIdModeratesAnotherStory` | `StoryAdmin.StatusRoute`, `StoryAdmin.RouteIdsAgreeOnNumbers` |
| src/index.tsx:2165-2171 | The legacy PayPal refund handler binds `'%' + captureId + '%'` to `LIKE` without escaping, so `_` and `%` in the capture id are wildcards. | A refund for capture `A_B` finds the enrolment whose recorded capture is `AXB`. | The capture id is matched literally, as the escaped lookup in src/features/courses/models/enrollments.ts:217-229 does. | medium; not executed | `Legacy.LegacyRefundLookup`, `Legacy.LegacyRefundHitsOtherCapture` | `Legacy.EscapedLookupIsExact`, `Like.EscapedPatternFindsId` |
| src/routes/ai.tsx:126-130 | Any error other than a missing table is answered with `Error interno del servidor: ` followed by the error's message. | An error with message `boom` gives `Error interno del servidor: boom`. | The body is exactly `Error interno del servidor`, without the internal message, as tests/ai_error_handling.test.ts:55 expects. | high; not executed | `AiQuota.ErrorTextAsWritten`, `AiQuota.GenericErrorLeaksMessage` | `AiQuota.ErrorText` |
| src/models/blog.ts:90-98 | `LIMIT` and `OFFSET` are appended independently, so an offset without a limit yields `… OFFSET ?` with no `LIMIT`, which SQLite rejects. | `listBlogPosts(db, { offset: 24 })`. | `OFFSET` only follows a `LIMIT`, as src/features/stories/models/stories.ts:70-77 does. The public listing always passes a limit. | low; not executed | `BlogQueries.ListAsWritten`, `BlogQueries.OffsetWithoutLimit` | `BlogQueries.ListBlogPosts`, `BlogQueries.ListVersionsAgree` |

=== FILE: accounts.dfy ===
/**
  Accounts and sessions: the subscribe and register checks
  (`src/routes/api.ts`), the session token and cookie handling
  (`src/auth-utils.ts`), user creation defaults (`src/models/users.ts`) and
  the two admin guards (`src/middleware/admin.ts`, `src/admin/middleware.ts`).
  Password hashing, the database and the random source are left out: the
  valid sessions are a map from token to user and the random bytes are a
  parameter.
 */
module Accounts {
  import opened Common
  import opened Text
  import opened Sql

  // ---------------------------------------------------------------------------
  // Subscribe

  /** `/downloads/<name>.<extension>`. */
  function DownloadPath(name: string, extension: string): string
  {
    "/downloads/" + name + "." + extension
  }

  /** The downloadable resources and their paths. */
  const Resources: map<string, string> := map[
    "test-limites" := DownloadPath("test-limites", "pdf"),
    "7-senales" := DownloadPath("7-senales", "pdf"),
    "checklist-limites" := DownloadPath("checklist-limites", "pdf"),
    "audio-respiracion" := DownloadPath("audio-respiracion", "mp3")]

  /** `downloadUrl` in the reply: `null`, `undefined` (the key is dropped) or a path. */
  datatype Download = NullUrl | NoUrl | Url(path: string)

  /**
    `resource && typeof resource === 'string' ? resources[resource] : null`;
    `resource` is `None` when absent or not a string.
   */
  function DownloadFor(resource: Option<string>): (d: Download)
    ensures d == NullUrl <==> resource.None? || resource.value == ""
    ensures d.Url? <==> resource.Some? && resource.value in Resources
    ensures d.Url? ==> d.path == Resources[resource.value]
  {
    if resource.None? || resource.value == "" then NullUrl
    else if resource.value in Resources then Url(Resources[resource.value])
    else NoUrl
  }

  /** Every known resource is served from `/downloads/` under its own name. */
  lemma ResourcePaths(key: string)
    requires key in Resources
    ensures IsPrefix("/downloads/" + key + ".", Resources[key])
  {
    var ext := if key == "audio-respiracion" then "mp3" else "pdf";
    assert Resources[key] == DownloadPath(key, ext);
    assert ("/downloads/" + key + "." + ext)[..|"/downloads/" + key + "."|] == "/downloads/" + key + ".";
  }

  /** The subscription request, after the `name`/`email` check. */
  datatype Subscribe = SubscribeRejected | Subscribed(resourceStored: string, download: Download)

  /** Missing name or email is a 400; the stored resource defaults to `general`. */
  function SubscribeRequest(name: Option<string>, email: Option<string>, resource: Option<string>): (r: Subscribe)
    ensures r.SubscribeRejected? <==> !TruthyStr(name) || !TruthyStr(email)
    ensures r.Subscribed? ==> r.resourceStored == (if TruthyStr(resource) then resource.value else "general")
    ensures r.Subscribed? ==> r.download == DownloadFor(resource)
  {
    if !TruthyStr(name) || !TruthyStr(email) then SubscribeRejected
    else Subscribed(if TruthyStr(resource) then resource.value else "general", DownloadFor(resource))
  }

  // ---------------------------------------------------------------------------
  // Register

  datatype RegisterForm = RegisterForm(
    name: Option<string>,
    email: Option<string>,
    password: Option<string>,
    confirm: Option<string>)

  datatype RegisterError = MissingFields | PasswordMismatch | PasswordTooShort | EmailTaken

  const MinPasswordLength: nat := 6

  /**
    The checks in the order the route makes them; `taken` is whether the
    email already belongs to a user. Lengths count characters.
   */
  function RegisterCheck(f: RegisterForm, taken: bool): (e: Option<RegisterError>)
    ensures e == Some(MissingFields) <==> !TruthyStr(f.name) || !TruthyStr(f.email) || !TruthyStr(f.password)
    ensures e == Some(PasswordMismatch) <==>
      TruthyStr(f.name) && TruthyStr(f.email) && TruthyStr(f.password) && f.password != f.confirm
    ensures e == Some(PasswordTooShort) <==>
      TruthyStr(f.name) && TruthyStr(f.email) && TruthyStr(f.password) && f.password == f.confirm &&
      |f.password.value| < MinPasswordLength
    ensures e == Some(EmailTaken) <==>
      TruthyStr(f.name) && TruthyStr(f.email) && TruthyStr(f.password) && f.password == f.confirm &&
      |f.password.value| >= MinPasswordLength && taken
  {
    if !TruthyStr(f.name) || !TruthyStr(f.email) || !TruthyStr(f.password) then Some(MissingFields)
    else if f.password != f.confirm then Some(PasswordMismatch)
    else if |f.password.value| < MinPasswordLength then Some(PasswordTooShort)
    else if taken then Some(EmailTaken)
    else None
  }

  /** A registration goes through exactly when every check passes. */
  lemma RegisterAccepts(f: RegisterForm, taken: bool)
    ensures RegisterCheck(f, taken).None? <==>
      TruthyStr(f.name) && TruthyStr(f.email) && TruthyStr(f.password) &&
      f.confirm == f.password && |f.password.value| >= MinPasswordLength && !taken
  {
  }

  // ---------------------------------------------------------------------------
  // Session tokens

  const SessionPrefix: string := "session_"

  /** The hexadecimal rendering of a byte sequence, two digits per byte. */
  function HexBytes(bytes: seq<nat>): (r: string)
    requires forall i :: 0 <= i < |bytes| ==> bytes[i] < 256
    ensures |r| == 2 * |bytes|
    ensures forall i :: 0 <= i < |bytes| ==> r[2 * i..2 * i + 2] == HexByte(bytes[i])
  {
    if |bytes| == 0 then ""
    else
      var rest := HexBytes(bytes[1..]);
      var r := HexByte(bytes[0]) + rest;
      assert forall i :: 1 <= i < |bytes| ==> r[2 * i..2 * i + 2] == rest[2 * (i - 1)..2 * (i - 1) + 2];
      r
  }

  /** `generateSessionToken` with the 16 random bytes given. */
  function SessionToken(bytes: seq<nat>): (t: string)
    requires |bytes| == 16 && forall i :: 0 <= i < |bytes| ==> bytes[i] < 256
    ensures |t| == |SessionPrefix| + 32 && IsPrefix(SessionPrefix, t)
  {
    SessionPrefix + HexBytes(bytes)
  }

  /** Each byte can be read back from its two digits, which are lower-case hexadecimal. */
  lemma SessionTokenDecodes(bytes: seq<nat>, i: nat)
    requires |bytes| == 16 && forall k :: 0 <= k < |bytes| ==> bytes[k] < 256
    requires i < 16
    ensures var t := SessionToken(bytes);
      var d := t[|SessionPrefix| + 2 * i..|SessionPrefix| + 2 * i + 2];
      d == HexByte(bytes[i]) && HexValue(d) == bytes[i] && IsLowerHexDigit(d[0]) && IsLowerHexDigit(d[1])
  {
    var t := SessionToken(bytes);
    var h := HexBytes(bytes);
    assert t[|SessionPrefix| + 2 * i..|SessionPrefix| + 2 * i + 2] == h[2 * i..2 * i + 2] == HexByte(bytes[i]);
  }

  /** Different random bytes give different tokens. */
  lemma SessionTokenInjective(a: seq<nat>, b: seq<nat>)
    requires |a| == 16 && forall k :: 0 <= k < |a| ==> a[k] < 256
    requires |b| == 16 && forall k :: 0 <= k < |b| ==> b[k] < 256
    requires SessionToken(a) == SessionToken(b)
    ensures a == b
  {
    forall i | 0 <= i < 16 ensures a[i] == b[i] {
      SessionTokenDecodes(a, i);
      SessionTokenDecodes(b, i);
    }
  }

  // ---------------------------------------------------------------------------
  // Session cookie

  const SessionKey: string := "session="

  /** `c.trim().startsWith('session=')`; the first such entry of `cookies.split(';')` is used. */
  predicate IsSessionEntry(entry: string)
  {
    IsPrefix(SessionKey, Trim(entry))
  }

  /**
    The session token a request carries: the text between the first and the
    second `=` of the first `session=` entry; an absent header, an absent entry
    or an empty value give none.
   */
  function CookieToken(header: Option<string>): (t: Option<string>)
    ensures t.Some? ==> t.value != "" && '=' !in t.value && header.Some?
  {
    if header.None? then None
    else
      var entries := Split(header.value, ";");
      match FindFirst(entries, IsSessionEntry)
      case None => None
      case Some(k) =>
        var parts := Split(entries[k], "=");
        if |parts| >= 2 && parts[1] != "" then
          (SplitPiecesAvoidSep(entries[k], "=");
           ContainsChar(parts[1], '=');
           Some(parts[1]))
        else None
  }

  /** A character a cookie value written by the site may hold. */
  predicate IsTokenChar(c: char)
  {
    c != ';' && c != '=' && !IsWhitespace(c)
  }

  /** The cookie the site sets is read back as the token it carries. */
  lemma CookieTokenRoundTrip(token: string)
    requires token != "" && AllChars(token, IsTokenChar)
    ensures CookieToken(Some(SessionKey + token)) == Some(token)
  {
    var h := SessionKey + token;
    CookieEntryShape(token);
    assert Split(h, ";") == [h];
    assert FindFirst([h], IsSessionEntry) == Some(0);
    assert Split(h, "=") == ["session", token];
  }

  lemma CookieEntryShape(token: string)
    requires token != "" && AllChars(token, IsTokenChar)
    ensures Split(SessionKey + token, ";") == [SessionKey + token]
    ensures IsSessionEntry(SessionKey + token)
    ensures Split(SessionKey + token, "=") == ["session", token]
  {
    TokenAvoids(token);
    SingleEntry(SessionKey + token);
    EntryTrimmed(token);
    EntryValue(token);
  }

  lemma TokenAvoids(token: string)
    requires AllChars(token, IsTokenChar)
    ensures ';' !in token && '=' !in token
  {
    forall i | 0 <= i < |token| ensures token[i] != ';' && token[i] != '=' {
      assert IsTokenChar(token[i]);
    }
  }

  lemma SingleEntry(h: string)
    requires ';' !in h
    ensures Split(h, ";") == [h]
  {
    assert ";" == [';'];
    SplitWithoutSep(h, ';');
  }

  lemma EntryValue(token: string)
    requires '=' !in token
    ensures Split(SessionKey + token, "=") == ["session", token]
  {
    assert SessionKey + token == "session" + ['='] + token;
    assert "=" == ['='];
    SplitOnce("session", token, '=');
  }

  lemma EntryTrimmed(token: string)
    requires token != "" && AllChars(token, IsTokenChar)
    ensures IsSessionEntry(SessionKey + token)
  {
    var h := SessionKey + token;
    assert TrimStart(h) == h;
    assert !IsWhitespace(h[|h| - 1]) by {
      assert h[|h| - 1] == token[|token| - 1];
      assert IsTokenChar(token[|token| - 1]);
    }
    assert TrimEnd(h) == h;
    assert h[..|SessionKey|] == SessionKey;
  }

  /** What `getUserFromSession` sees: the unexpired sessions of active users. */
  datatype User = User(id: int, email: string, role: string)

  /** `getCurrentUser`: no header, no token or no valid session all give null. */
  function CurrentUser(header: Option<string>, sessions: map<string, User>): (u: Option<User>)
    ensures u.Some? <==> CookieToken(header).Some? && CookieToken(header).value in sessions
    ensures u.Some? ==> u.value == sessions[CookieToken(header).value]
  {
    var t := CookieToken(header);
    if t.Some? && t.value in sessions then Some(sessions[t.value]) else None
  }

  // ---------------------------------------------------------------------------
  // createUser

  datatype NewUser = NewUser(
    name: string,
    email: string,
    passwordHash: string,
    role: Option<string>,
    active: Option<int>,
    emailVerified: Option<int>)

  const UsersTable: Lit := "users"
  const UserColumns: seq<Lit> := ["name", "email", "password_hash", "role", "active", "email_verified"]

  /**
    Role defaults to `student` when missing or empty; `active` to 1 and
    `email_verified` to 0 only when missing, so explicit zeros are kept.
   */
  function CreateUserQuery(u: NewUser): (q: Stmt)
    ensures |Args(q)| == |UserColumns|
    ensures Args(q) == [Str(u.name), Str(u.email), Str(u.passwordHash),
                        Str(if TruthyStr(u.role) then u.role.value else "student"),
                        Int(u.active.GetOr(1)), Int(u.emailVerified.GetOr(0))]
  {
    var role := if u.role.Some? && u.role.value != "" then u.role.value else "student";
    var active := if u.active.Some? then u.active.value else 1;
    var verified := if u.emailVerified.Some? then u.emailVerified.value else 0;
    var values := [Str(u.name), Str(u.email), Str(u.passwordHash), Str(role), Int(active), Int(verified)];
    assert |UserColumns| == |values| == 6;
    InsertInto(UsersTable, UserColumns, values, [], [])
  }

  /** A deactivated user stays deactivated: an explicit 0 is not replaced by the default. */
  lemma CreateUserKeepsZero(name: string, email: string, hash: string)
    ensures Args(CreateUserQuery(NewUser(name, email, hash, Some(""), Some(0), None)))[3..] ==
            [Str("student"), Int(0), Int(0)]
  {
  }

  // ---------------------------------------------------------------------------
  // Admin guards

  /**
    What a guard does with a request. `ToLogin(path)` redirects to
    `/login?redirect=` followed by the URL-encoded path.
   */
  datatype GuardOutcome = Proceed(user: User) | Unauthorized401 | Forbidden403 | ToLogin(path: string)

  predicate IsAdmin(u: User) { u.role == "admin" }

  /** `src/middleware/admin.ts`: API paths get a 401 reply, other paths the login page. */
  function RouteGuard(header: Option<string>, sessions: map<string, User>, path: string): (o: GuardOutcome)
    ensures o.Proceed? <==> CurrentUser(header, sessions).Some? && IsAdmin(CurrentUser(header, sessions).value)
    ensures o.Unauthorized401? <==> !o.Proceed? && IsPrefix("/api/", path)
    ensures o.ToLogin? <==> !o.Proceed? && !IsPrefix("/api/", path)
    ensures o.ToLogin? ==> o.path == path
    ensures !o.Forbidden403?
  {
    var u := CurrentUser(header, sessions);
    if u.None? || !IsAdmin(u.value) then
      (if IsPrefix("/api/", path) then Unauthorized401 else ToLogin(path))
    else Proceed(u.value)
  }

  /** `src/admin/middleware.ts`: the same ladder, but a signed-in non-admin gets a 403 page. */
  function PanelGuard(header: Option<string>, sessions: map<string, User>, path: string): (o: GuardOutcome)
    ensures o.Proceed? <==> CurrentUser(header, sessions).Some? && IsAdmin(CurrentUser(header, sessions).value)
    ensures o.Forbidden403? <==> CurrentUser(header, sessions).Some? && !IsAdmin(CurrentUser(header, sessions).value)
    ensures o.ToLogin? <==> CurrentUser(header, sessions).None?
    ensures o.ToLogin? ==> o.path == path
    ensures header.None? ==> o == ToLogin(path)
  {
    if header.None? then ToLogin(path)
    else if CookieToken(header).None? then ToLogin(path)
    else
      var u := CurrentUser(header, sessions);
      if u.None? then ToLogin(path)
      else if !IsAdmin(u.value) then Forbidden403
      else Proceed(u.value)
  }

  /** Both guards let through exactly the same requests, with the same user. */
  lemma GuardsAgreeOnAccess(header: Option<string>, sessions: map<string, User>, path: string)
    ensures RouteGuard(header, sessions, path).Proceed? <==> PanelGuard(header, sessions, path).Proceed?
    ensures RouteGuard(header, sessions, path).Proceed? ==>
      RouteGuard(header, sessions, path) == PanelGuard(header, sessions, path)
  {
  }

  /** A signed-in student on a panel page is redirected by one guard and refused by the other. */
  lemma GuardsDifferOnStudents(header: Option<string>, sessions: map<string, User>, path: string)
    requires CurrentUser(header, sessions).Some? && !IsAdmin(CurrentUser(header, sessions).value)
    requires !IsPrefix("/api/", path)
    ensures RouteGuard(header, sessions, path) == ToLogin(path)
    ensures PanelGuard(header, sessions, path) == Forbidden403
  {
  }
}

=== FILE: ai_quota.dfy ===
/**
  The daily quota of the AI assistant (`GET /asistente-ia` in
  `src/routes/ai.tsx`). Visitors get 1 use a day, signed-in users 3, and
  users with an active paid enrolment 10. Uses are counted per UTC day in
  `daily_ai_usage`, keyed by user id or, for visitors, by IP address.
  The table is a map from key to count; the clock is the `day` parameter.
 */
module AiQuota {
  import opened Common
  import opened Text
  import opened Sql
  import Enrollments

  datatype UserType = Anonymous | Free | Paid

  function TierLimit(t: UserType): (limit: nat)
    ensures limit >= 1
    ensures t == Anonymous <==> limit == 1
    ensures t == Free <==> limit == 3
    ensures t == Paid <==> limit == 10
  {
    match t
    case Anonymous => 1
    case Free => 3
    case Paid => 10
  }

  /** An enrolment that makes its user `paid`: completed, not revoked, and not expired. */
  predicate ActivePaid(e: Enrollments.Enrollment, userId: int, isFuture: string -> bool)
  {
    e.userId == userId && e.status == Enrollments.Completed && e.revoked == 0
    && (e.expiresAt.None? || isFuture(e.expiresAt.value))
  }

  /** The tier of the visitor: anonymous without a user, paid with an active paid enrolment, otherwise free. */
  function UserTypeOf(user: Option<int>, enrollments: seq<Enrollments.Enrollment>, isFuture: string -> bool): (t: UserType)
    ensures user.None? <==> t == Anonymous
    ensures t == Paid <==> user.Some? && exists i :: 0 <= i < |enrollments| && ActivePaid(enrollments[i], user.value, isFuture)
  {
    if user.None? then Anonymous
    else
      var k := FindFirst(enrollments, (e: Enrollments.Enrollment) => ActivePaid(e, user.value, isFuture));
      if k.Some? then Paid else Free
  }

  /** A revoked or expired enrolment never raises the limit above 3. */
  lemma RevokedDoesNotPay(userId: int, e: Enrollments.Enrollment, isFuture: string -> bool)
    requires e.userId == userId && e.revoked != 0
    ensures UserTypeOf(Some(userId), [e], isFuture) == Free
  {
  }

  // ---------------------------------------------------------------------------
  // The caller's address

  const Unknown: string := "unknown"
  const Localhost: string := "localhost"
  const Loopback: string := "127.0.0.1"

  /** `CF-Connecting-IP || 'unknown'`, with `127.0.0.1` for an unknown address on a `localhost` host. */
  function ClientIp(connectingIp: Option<string>, host: Option<string>): (ip: string)
    ensures TruthyStr(connectingIp) && connectingIp.value != Unknown ==> ip == connectingIp.value
    ensures ip == Loopback <==> (((!TruthyStr(connectingIp) || connectingIp.value == Unknown) && host.Some? && Contains(host.value, Localhost))
      || (TruthyStr(connectingIp) && connectingIp.value == Loopback))
  {
    var ip := if TruthyStr(connectingIp) then connectingIp.value else Unknown;
    if ip == Unknown && host.Some? && Contains(host.value, Localhost) then Loopback else ip
  }

  // ---------------------------------------------------------------------------
  // The counter

  /** Whose uses a row counts: a user's, or an anonymous visitor's by IP, on one day. */
  datatype UsageKey = ByUser(userId: int, day: string) | ByIp(ip: string, day: string)

  /** `if (userId)`: a user id of 0 is counted by address, like a visitor. */
  function KeyOf(userId: Option<int>, ip: string, day: string): (k: UsageKey)
    ensures k.day == day
    ensures k.ByUser? <==> Truthy(userId)
  {
    if Truthy(userId) then ByUser(userId.value, day) else ByIp(ip, day)
  }

  type Usage = map<UsageKey, nat>

  /** One visit: the conditional increment when a row exists, otherwise a new row with count 1. */
  function Visit(usage: Usage, key: UsageKey, limit: nat): (r: (Usage, bool))
    ensures r.1 <==> key !in usage || usage[key] < limit
    ensures r.1 ==> key in r.0 && r.0[key] == (if key in usage then usage[key] + 1 else 1)
    ensures !r.1 ==> r.0 == usage
    ensures forall k :: k != key ==> (k in r.0 <==> k in usage) && (k in usage ==> r.0[k] == usage[k])
  {
    if key in usage then
      if usage[key] < limit then (usage[key := usage[key] + 1], true) else (usage, false)
    else (usage[key := 1], true)
  }

  /** The insert lost a race to another request: the conditional update with the same limit. */
  function VisitAfterRace(usage: Usage, key: UsageKey, limit: nat): (r: (Usage, bool))
    requires key in usage
  {
    if usage[key] < limit then (usage[key := usage[key] + 1], true) else (usage, false)
  }

  /** Losing the race changes nothing: the fallback decides as the normal path would on the new table. */
  lemma RaceFallbackAgrees(usage: Usage, key: UsageKey, limit: nat)
    requires key in usage
    ensures VisitAfterRace(usage, key, limit) == Visit(usage, key, limit)
  {
  }

  /** With a limit of at least 1 that never rises above `bound`, no counter passes `bound`. */
  lemma VisitKeepsBound(usage: Usage, key: UsageKey, limit: nat, bound: nat)
    requires 1 <= limit <= bound
    requires forall k :: k in usage ==> usage[k] <= bound
    ensures forall k :: k in Visit(usage, key, limit).0 ==> Visit(usage, key, limit).0[k] <= bound
  {
  }

  /** `n` visits in a row with the same key and limit; returns the table and how many were let through. */
  function Visits(usage: Usage, key: UsageKey, limit: nat, n: nat): (Usage, nat)
    decreases n
  {
    if n == 0 then (usage, 0)
    else
      var step := Visit(usage, key, limit);
      var rest := Visits(step.0, key, limit, n - 1);
      (rest.0, rest.1 + if step.1 then 1 else 0)
  }

  /** From a count of `c ≤ limit`, `n` visits let `min(n, limit − c)` through and leave the count there. */
  lemma {:induction false} VisitsFrom(usage: Usage, key: UsageKey, limit: nat, n: nat)
    requires key in usage && usage[key] <= limit
    ensures var r := Visits(usage, key, limit, n);
      r.1 == (if n < limit - usage[key] then n else limit - usage[key])
      && key in r.0 && r.0[key] == usage[key] + r.1
    decreases n
  {
    if n > 0 {
      VisitsFrom(Visit(usage, key, limit).0, key, limit, n - 1);
    }
  }

  /** A new key on a new day: at most `limit` uses are allowed, and exactly `min(n, limit)` of `n`. */
  lemma DailyAllowance(usage: Usage, key: UsageKey, limit: nat, n: nat)
    requires key !in usage && limit >= 1 && n >= 1
    ensures Visits(usage, key, limit, n).1 == (if n < limit then n else limit)
  {
    var first := Visit(usage, key, limit);
    VisitsFrom(first.0, key, limit, n - 1);
  }

  // ---------------------------------------------------------------------------
  // The route

  const AssistantUrl: string := "https://opal.google/app/1ksajqIwfHXZb3FLtvzuC8ddkx4uZgE9_?shared"

  datatype Response = Redirect(url: string) | LimitReached(userType: UserType, limit: nat)

  /** The handler without failures: tier, key, counter, then the redirect or the limit page. */
  function Assistant(user: Option<int>, enrollments: seq<Enrollments.Enrollment>, isFuture: string -> bool,
                     connectingIp: Option<string>, host: Option<string>, day: string, usage: Usage): (r: (Usage, Response))
    ensures var t := UserTypeOf(user, enrollments, isFuture);
      var key := KeyOf(user, ClientIp(connectingIp, host), day);
      (r.1.Redirect? <==> key !in usage || usage[key] < TierLimit(t))
      && (r.1.Redirect? ==> r.1.url == AssistantUrl)
      && (r.1.LimitReached? ==> r.1 == LimitReached(t, TierLimit(t)) && r.0 == usage)
  {
    var t := UserTypeOf(user, enrollments, isFuture);
    var limit := TierLimit(t);
    var key := KeyOf(user, ClientIp(connectingIp, host), day);
    var step := Visit(usage, key, limit);
    (step.0, if step.1 then Redirect(AssistantUrl) else LimitReached(t, limit))
  }

  // ---------------------------------------------------------------------------
  // Error text

  const NoSuchTable: string := "no such table"
  const ConfigError: string := "Error de configuración: La tabla requerida no existe. Por favor, ejecuta las migraciones de base de datos (Error: no such table)."
  const InternalError: string := "Error interno del servidor"

  /** The 500 body as written: the configuration hint for a missing table, else the generic text and the message. */
  function ErrorTextAsWritten(message: string): (t: string)
    ensures Contains(message, NoSuchTable) ==> t == ConfigError
    ensures !Contains(message, NoSuchTable) ==> t == InternalError + ": " + message
  {
    if Contains(message, NoSuchTable) then ConfigError else InternalError + ": " + message
  }

  /** The 500 body the error-handling test expects: no internal message is shown. */
  function ErrorText(message: string): (t: string)
    ensures Contains(message, NoSuchTable) ==> t == ConfigError
    ensures !Contains(message, NoSuchTable) ==> t == InternalError
  {
    if Contains(message, NoSuchTable) then ConfigError else InternalError
  }

  /** Any other error leaks its message into the page, so the body is never the bare generic text. */
  lemma GenericErrorLeaksMessage(message: string)
    requires !Contains(message, NoSuchTable)
    ensures ErrorTextAsWritten(message) != ErrorText(message)
    ensures IsSuffix(message, ErrorTextAsWritten(message))
  {
    assert |ErrorTextAsWritten(message)| > |InternalError|;
    var t := ErrorTextAsWritten(message);
    assert t[|t| - |message|..] == message;
  }
}

=== FILE: blog_admin.dfy ===
/**
  The blog administration routes (`src/admin/blog.tsx`): the spreadsheet
  import, which sends its inserts to the database in groups of ten, and the
  create and update form actions.
 */
module BlogAdmin {
  import opened Common
  import opened Text
  import opened BlogContent
  import Sql

  // ---------------------------------------------------------------------------
  // Spreadsheet import

  /** A spreadsheet row as `sheet_to_json` gives it: header/value pairs in column order, headers distinct. */
  type SheetRow = seq<(string, string)>

  predicate IsTitleHeader(k: string) { Contains(k, "Nombre del Post") || Lower(k) == "title" }
  predicate IsContentHeader(k: string) { Contains(k, "Desarrollo Detallado") || Lower(k) == "content" }
  predicate IsHashtagsHeader(k: string) { Contains(k, "Hashtags") || Lower(k) == "hashtags" }

  /** `Object.keys(row).find(pred)`: the position of the first header satisfying `pred`. */
  function FindHeader(row: SheetRow, pred: string -> bool): (r: Option<nat>)
    ensures r.Some? ==> r.value < |row| && pred(row[r.value].0) &&
                        forall j :: 0 <= j < r.value ==> !pred(row[j].0)
    ensures r.None? ==> forall i :: 0 <= i < |row| ==> !pred(row[i].0)
  {
    if |row| == 0 then None
    else if pred(row[0].0) then Some(0)
    else
      var r := FindHeader(row[1..], pred);
      if r.Some? then Some(r.value + 1) else None
  }

  /** `key ? row[key] : null` for the header `FindHeader` picks. */
  function FindValue(row: SheetRow, pred: string -> bool): (v: Option<string>)
  {
    match FindHeader(row, pred)
    case Some(i) => Some(row[i].1)
    case None => None
  }

  /** `row[key] || ''` for a key that may be missing. */
  function TextOf(v: Option<string>): string
  {
    match v
    case Some(s) => s
    case None => ""
  }

  /** One prepared insert of the import; the statement fixes `published` to 1. */
  datatype ImportedPost = ImportedPost(
    title: string,
    slug: string,
    content: string,
    excerpt: string,
    hashtags: string,
    imageUrl: string,
    published: int)

  /** `if (!title) continue`: a missing or empty title skips the row. */
  predicate HasTitle(row: SheetRow)
  {
    var t := FindValue(row, IsTitleHeader);
    t.Some? && t.value != ""
  }

  function ImportRow(row: SheetRow, count: nat): (p: ImportedPost)
    requires HasTitle(row)
    ensures p.title == FindValue(row, IsTitleHeader).value
    ensures IsSlug(p.slug) && p.published == 1
    ensures p.slug == CreateSlug(p.title) && p.slug == Join(Words(Folded(p.title)), "-")
    ensures p.hashtags == TextOf(FindValue(row, IsHashtagsHeader))
    ensures p.content == CompleteTs(TextOf(FindValue(row, IsContentHeader)))
    ensures IsPrefix(TextOf(FindValue(row, IsContentHeader)), p.content)
    ensures p.content != "" ==> Concludes(p.content)
    ensures p.excerpt == ExcerptTs(p.content, ExcerptLength)
    ensures p.imageUrl == ImageUrlTs
  {
    var title := FindValue(row, IsTitleHeader).value;
    var content := CompleteTs(TextOf(FindValue(row, IsContentHeader)));
    var hashtags := TextOf(FindValue(row, IsHashtagsHeader));
    var category := Category(hashtags);
    CreateSlugIsJoinedWords(title);
    ImportedPost(title, CreateSlug(title), content, ExcerptTs(content, ExcerptLength),
                 hashtags, ImageTs(category, count), 1)
  }

  /** A row the loop keeps, with the value `count` has when it is reached. */
  datatype Planned = Planned(row: SheetRow, count: nat)

  /** The import loop's control flow; `count` numbers the rows kept so far. */
  function ImportPlan(rows: seq<SheetRow>, count: nat): (plan: seq<Planned>)
    ensures |plan| == CountWhere(rows, HasTitle)
    ensures forall k :: 0 <= k < |plan| ==> HasTitle(plan[k].row)
    decreases |rows|
  {
    if |rows| == 0 then []
    else if !HasTitle(rows[0]) then ImportPlan(rows[1..], count)
    else [Planned(rows[0], count)] + ImportPlan(rows[1..], count + 1)
  }

  /** The import loop: one post per kept row, built with the counter of that row. */
  function ImportFrom(rows: seq<SheetRow>, count: nat): (posts: seq<ImportedPost>)
    ensures |posts| == CountWhere(rows, HasTitle)
    ensures forall k :: 0 <= k < |posts| ==> posts[k] == ImportRow(ImportPlan(rows, count)[k].row, ImportPlan(rows, count)[k].count)
  {
    var plan := ImportPlan(rows, count);
    seq(|plan|, (k: int) requires 0 <= k < |plan| => ImportRow(plan[k].row, plan[k].count))
  }

  /** The rows `ImportFrom` keeps: those with a title, in order. */
  function Titled(rows: seq<SheetRow>): (kept: seq<SheetRow>)
    ensures |kept| == CountWhere(rows, HasTitle)
    ensures forall k :: 0 <= k < |kept| ==> HasTitle(kept[k])
  {
    if |rows| == 0 then []
    else if HasTitle(rows[0]) then [rows[0]] + Titled(rows[1..])
    else Titled(rows[1..])
  }

  /** The k-th kept row is the k-th titled row, reached with counter `count + k`. */
  lemma {:induction false} ImportPlanAt(rows: seq<SheetRow>, count: nat, k: nat)
    requires k < |ImportPlan(rows, count)|
    ensures k < |Titled(rows)|
    ensures ImportPlan(rows, count)[k] == Planned(Titled(rows)[k], count + k)
    decreases |rows|
  {
    if !HasTitle(rows[0]) {
      ImportPlanAt(rows[1..], count, k);
    } else if k > 0 {
      ImportPlanAt(rows[1..], count + 1, k - 1);
    }
  }

  /**
    The k-th imported post is built from the k-th titled row with counter
    `count + k`: skipped rows do not advance the counter.
   */
  lemma ImportFromAt(rows: seq<SheetRow>, count: nat, k: nat)
    requires k < |ImportFrom(rows, count)|
    ensures k < |Titled(rows)|
    ensures ImportFrom(rows, count)[k] == ImportRow(Titled(rows)[k], count + k)
  {
    ImportPlanAt(rows, count, k);
  }

  /** Every imported post is published. */
  lemma ImportPublishes(rows: seq<SheetRow>, count: nat)
    ensures forall k :: 0 <= k < |ImportFrom(rows, count)| ==> ImportFrom(rows, count)[k].published == 1
  {
  }

  /**
    Unlike the Python seeder, the import keeps a title made only of spaces
    (it is truthy): the post is stored with an empty slug.
   */
  lemma WhitespaceTitleKept(title: string)
    requires |title| > 0 && AllChars(title, IsWhitespace)
    ensures HasTitle([("title", title)])
    ensures ImportRow([("title", title)], 0).slug == ""
  {
    assert IsTitleHeader("title") by {
      assert Lower("title") == "title";
    }
    WhitespaceFoldsToNothing(title);
    EmptySlug(title);
  }

  lemma {:induction false} WhitespaceFoldsToNothing(s: string)
    requires AllChars(s, IsWhitespace)
    ensures Filter(Folded(s), IsLowerAlnum) == []
  {
    if |s| > 0 {
      WhitespaceFoldsToNothing(s[1..]);
      FoldedCons(s);
      assert Transliterate(LowerChar(s[0])) == [s[0]];
      FilterAppend([s[0]], Folded(s[1..]), IsLowerAlnum);
    }
  }

  // ---------------------------------------------------------------------------
  // Batching

  /** Inserts are sent in groups of at most ten. */
  const ChunkSize: nat := 10

  /** `for (i = 0; i < n; i += 10) batch.slice(i, i + 10)`. */
  method Chunks<T>(batch: seq<T>) returns (chunks: seq<seq<T>>)
    ensures Flatten(chunks) == batch
    ensures forall i :: 0 <= i < |chunks| ==> 0 < |chunks[i]| <= ChunkSize
    ensures forall i :: 0 <= i < |chunks| - 1 ==> |chunks[i]| == ChunkSize
    ensures |chunks| == ChunkCount(|batch|)
  {
    chunks := [];
    var i := 0;
    while i < |batch|
      invariant i == |chunks| * ChunkSize
      invariant i <= |batch| ==> Flatten(chunks) == batch[..i]
      invariant i > |batch| ==> Flatten(chunks) == batch
      invariant i > |batch| ==> |batch| > 0 && |chunks| == ChunkCount(|batch|)
      invariant forall j :: 0 <= j < |chunks| ==> 0 < |chunks[j]| <= ChunkSize
      invariant forall j :: 0 <= j < |chunks| - 1 ==> |chunks[j]| == ChunkSize
      invariant i <= |batch| ==> forall j :: 0 <= j < |chunks| ==> |chunks[j]| == ChunkSize
      decreases |batch| - i
    {
      var end := if i + ChunkSize <= |batch| then i + ChunkSize else |batch|;
      var piece := batch[i..end];
      FlattenAppend(chunks, [piece]);
      assert Flatten([piece]) == piece;
      assert batch[..i] + batch[i..end] == batch[..end];
      chunks := chunks + [piece];
      i := i + ChunkSize;
      if end == |batch| {
        assert batch[..end] == batch;
      }
    }
  }

  // ---------------------------------------------------------------------------
  // The import route

  /**
    What the upload gives the route: no file, a file whose reading (or the
    building of its statements) throws with a message, or its rows.
   */
  datatype Upload = NoFile | Unreadable(message: string) | Sheet(rows: seq<SheetRow>)

  /** The route's answer: the redirect to the list, 400, or the `catch`'s 500. */
  datatype ImportReply = BackToList | NoFile400 | ImportError500(message: string)

  const NoFileText: string := "No file uploaded"
  const ImportErrorPrefix: string := "Error importing: "

  /** The number of `DB.batch` calls for `n` statements. */
  function ChunkCount(n: nat): (c: nat)
    ensures c * ChunkSize >= n && (c == 0 || (c - 1) * ChunkSize < n)
  {
    (n + ChunkSize - 1) / ChunkSize
  }

  /**
    `POST /admin/blog/import`. `failure` is the first `DB.batch` call that
    throws, by chunk number, with its message. Each batch is its own
    transaction, so the chunks sent before it stay committed and nothing
    after it is sent. The second component is what ends up stored.
   */
  function ImportRoute(upload: Upload, failure: Option<(nat, string)>): (r: (ImportReply, seq<ImportedPost>))
    ensures r.0 == NoFile400 <==> upload.NoFile?
    ensures upload.Unreadable? ==> r == (ImportError500(ImportErrorPrefix + upload.message), [])
    ensures upload.NoFile? ==> r.1 == []
    ensures upload.Sheet? ==> var posts := ImportFrom(upload.rows, 0);
      && (r.0 == BackToList <==> failure.None? || failure.value.0 >= ChunkCount(|posts|))
      && (r.0 == BackToList ==> r.1 == posts)
      && (r.0 != BackToList ==> r.0 == ImportError500(ImportErrorPrefix + failure.value.1))
      && |r.1| <= |posts| && r.1 == posts[..|r.1|]
      && (r.0 != BackToList ==> forall i :: 0 <= i < |posts| ==> (i < |r.1| <==> i / ChunkSize < failure.value.0))
  {
    match upload
    case NoFile => (NoFile400, [])
    case Unreadable(message) => (ImportError500(ImportErrorPrefix + message), [])
    case Sheet(rows) =>
      var posts := ImportFrom(rows, 0);
      if failure.None? || failure.value.0 >= ChunkCount(|posts|) then (BackToList, posts)
      else
        var k := failure.value.0;
        assert k * ChunkSize < |posts|;
        (ImportError500(ImportErrorPrefix + failure.value.1), posts[..k * ChunkSize])
  }

  /** A failing chunk keeps exactly the full chunks before it: a multiple of ten posts, fewer than all. */
  lemma ImportFailureKeepsChunks(rows: seq<SheetRow>, k: nat, message: string)
    requires k < ChunkCount(|ImportFrom(rows, 0)|)
    ensures var r := ImportRoute(Sheet(rows), Some((k, message)));
      r.0 == ImportError500(ImportErrorPrefix + message)
      && |r.1| == k * ChunkSize && |r.1| < |ImportFrom(rows, 0)|
  {
  }

  /** Without a file nothing is stored and the reply is the 400. */
  lemma NoFileStoresNothing(failure: Option<(nat, string)>)
    ensures ImportRoute(NoFile, failure) == (NoFile400, [])
  {
  }

  // ---------------------------------------------------------------------------
  // Form actions

  /**
    The submitted form. Optional fields are `None` when absent; a checkbox
    sends `"1"` when ticked and nothing otherwise.
   */
  datatype PostForm = PostForm(
    title: string,
    slug: string,
    content: string,
    hashtags: Option<string>,
    imageUrl: Option<string>,
    published: Option<string>)

  /** The values bound to the insert or update statement. */
  datatype PostRecord = PostRecord(
    title: string,
    slug: string,
    content: string,
    excerpt: string,
    hashtags: Option<string>,
    imageUrl: Option<string>,
    published: int)

  /** `value || null`: absent and empty fields are stored as NULL. */
  function OrNull(v: Option<string>): (r: Option<string>)
    ensures r.None? <==> v.None? || v.value == ""
    ensures r.Some? ==> r == v
  {
    if v.Some? && v.value != "" then v else None
  }

  /** Creating a post derives its slug from the title and its excerpt from the content. */
  function CreateFromForm(f: PostForm): (r: PostRecord)
    ensures IsSlug(r.slug) && r.slug == CreateSlug(f.title)
    ensures r.excerpt == ExcerptTs(f.content, ExcerptLength)
    ensures r.published == Sql.Flag(f.published)
  {
    PostRecord(f.title, CreateSlug(f.title), f.content, ExcerptTs(f.content, ExcerptLength),
               OrNull(f.hashtags), OrNull(f.imageUrl), Sql.Flag(f.published))
  }

  /** Updating a post recomputes the excerpt but stores the submitted slug unchanged. */
  function UpdateFromForm(f: PostForm): (r: PostRecord)
    ensures r.slug == f.slug
    ensures r.excerpt == ExcerptTs(f.content, ExcerptLength)
  {
    PostRecord(f.title, f.slug, f.content, ExcerptTs(f.content, ExcerptLength),
               OrNull(f.hashtags), OrNull(f.imageUrl), Sql.Flag(f.published))
  }

  /** Create and update store the same record except for the slug. */
  lemma CreateUpdateAgree(f: PostForm)
    ensures CreateFromForm(f).(slug := f.slug) == UpdateFromForm(f)
    ensures CreateFromForm(f) == UpdateFromForm(f) <==> f.slug == CreateSlug(f.title)
  {
  }

  /** The update action can store a slug `createSlug` would never produce. */
  lemma UpdateAcceptsMalformedSlug()
    ensures var f := PostForm("Hola", "Hola Mundo", "", None, None, None);
      !IsSlug(UpdateFromForm(f).slug)
  {
    var s := "Hola Mundo";
    assert !IsSlugChar(s[0]);
  }
}

=== FILE: blog_content.dfy ===
/**
  The blog content pipeline shared by the Python seeder (`process_blog_posts.py`)
  and its TypeScript port (`src/admin/utils.ts`, used by the spreadsheet import):
  slugs, categories, cover images, excerpts and the two paragraphs appended to
  short or conclusion-less posts.
 */
module BlogContent {
  import opened Common
  import opened Text

  // ---------------------------------------------------------------------------
  // Slugs

  /** Accented vowels and `ñ` become ASCII; the Spanish and ASCII question and exclamation marks disappear. */
  function Transliterate(c: char): string
  {
    if c == 'á' then "a"
    else if c == 'é' then "e"
    else if c == 'í' then "i"
    else if c == 'ó' then "o"
    else if c == 'ú' then "u"
    else if c == 'ñ' then "n"
    else if c == '¿' || c == '?' || c == '¡' || c == '!' then ""
    else [c]
  }

  /**
    `re.sub('[^a-z0-9]+', '-', s)`: every maximal run of characters outside
    `[a-z0-9]` becomes one hyphen. `inRun` says the previous character already
    opened such a run.
   */
  function Hyphenate(s: string, inRun: bool): (r: string)
    ensures AllChars(r, IsSlugChar)
    decreases |s|
  {
    if |s| == 0 then ""
    else if IsLowerAlnum(s[0]) then [s[0]] + Hyphenate(s[1..], false)
    else if inRun then Hyphenate(s[1..], true)
    else "-" + Hyphenate(s[1..], true)
  }

  function TrimHyphenStart(s: string): (r: string)
    ensures IsSuffix(r, s)
    ensures AllChars(s[..|s| - |r|], IsHyphen)
    ensures |r| > 0 ==> r[0] != '-'
    decreases |s|
  {
    if |s| > 0 && s[0] == '-' then TrimHyphenStart(s[1..]) else s
  }

  function TrimHyphenEnd(s: string): (r: string)
    ensures IsPrefix(r, s)
    ensures AllChars(s[|r|..], IsHyphen)
    ensures |r| > 0 ==> r[|r| - 1] != '-'
    decreases |s|
  {
    if |s| > 0 && s[|s| - 1] == '-' then TrimHyphenEnd(s[..|s| - 1]) else s
  }

  predicate IsHyphen(c: char) { c == '-' }
  predicate IsSlugChar(c: char) { IsLowerAlnum(c) || c == '-' }

  predicate NoDoubleHyphen(s: string)
  {
    forall i :: 0 <= i < |s| - 1 ==> !(s[i] == '-' && s[i + 1] == '-')
  }

  /** A well-formed slug: `[a-z0-9-]*`, no leading, trailing or doubled hyphen. */
  predicate IsSlug(s: string)
  {
    && AllChars(s, IsSlugChar)
    && NoDoubleHyphen(s)
    && (|s| > 0 ==> s[0] != '-' && s[|s| - 1] != '-')
  }

  /** The title after lower-casing and transliteration, before hyphenation. */
  function Folded(title: string): string
  {
    MapChars(Lower(title), Transliterate)
  }

  /**
    `create_slug` (Python) and `createSlug` (TypeScript): the two are the same
    character-level computation — the TypeScript regular expressions
    `/[¿?¡!]/g` and `/^-+|-+$/g` do what the Python replacement chain and
    `strip('-')` do.
   */
  function CreateSlug(title: string): (slug: string)
    ensures IsSlug(slug)
    ensures Filter(slug, IsLowerAlnum) == Filter(Folded(title), IsLowerAlnum)
  {
    var h := Hyphenate(Folded(title), false);
    HyphenateShape(Folded(title), false);
    HyphenateKeepsAlnum(Folded(title), false);
    var slug := TrimHyphenEnd(TrimHyphenStart(h));
    StripKeepsShape(h);
    slug
  }

  lemma {:induction false} HyphenateShape(s: string, inRun: bool)
    ensures NoDoubleHyphen(Hyphenate(s, inRun))
    ensures inRun && |Hyphenate(s, inRun)| > 0 ==> Hyphenate(s, inRun)[0] != '-'
    decreases |s|
  {
    if |s| > 0 {
      var t := Hyphenate(s[1..], !IsLowerAlnum(s[0]));
      HyphenateShape(s[1..], !IsLowerAlnum(s[0]));
      if IsLowerAlnum(s[0]) {
        assert Hyphenate(s, inRun) == [s[0]] + t;
      } else if !inRun {
        assert Hyphenate(s, inRun) == "-" + t;
      }
    }
  }

  lemma {:induction false} HyphenateKeepsAlnum(s: string, inRun: bool)
    ensures Filter(Hyphenate(s, inRun), IsLowerAlnum) == Filter(s, IsLowerAlnum)
    decreases |s|
  {
    if |s| > 0 {
      var t := Hyphenate(s[1..], !IsLowerAlnum(s[0]));
      HyphenateKeepsAlnum(s[1..], !IsLowerAlnum(s[0]));
      if IsLowerAlnum(s[0]) {
        FilterAppend([s[0]], t, IsLowerAlnum);
      } else if !inRun {
        FilterAppend("-", t, IsLowerAlnum);
      }
      FilterAppend([s[0]], s[1..], IsLowerAlnum);
      assert s == [s[0]] + s[1..];
    }
  }

  /** Removing hyphens at both ends keeps the alphanumerics and the shape. */
  lemma StripKeepsShape(h: string)
    requires AllChars(h, IsSlugChar) && NoDoubleHyphen(h)
    ensures IsSlug(TrimHyphenEnd(TrimHyphenStart(h)))
    ensures Filter(TrimHyphenEnd(TrimHyphenStart(h)), IsLowerAlnum) == Filter(h, IsLowerAlnum)
  {
    StripKeepsAlnum(h);
    TrimStartShape(h);
    TrimEndShape(TrimHyphenStart(h));
  }

  lemma {:induction false} TrimStartShape(s: string)
    requires AllChars(s, IsSlugChar) && NoDoubleHyphen(s)
    ensures AllChars(TrimHyphenStart(s), IsSlugChar) && NoDoubleHyphen(TrimHyphenStart(s))
    decreases |s|
  {
    if |s| > 0 && s[0] == '-' {
      TailShape(s);
      TrimStartShape(s[1..]);
    }
  }

  lemma {:induction false} TrimEndShape(s: string)
    requires AllChars(s, IsSlugChar) && NoDoubleHyphen(s)
    ensures AllChars(TrimHyphenEnd(s), IsSlugChar) && NoDoubleHyphen(TrimHyphenEnd(s))
    decreases |s|
  {
    if |s| > 0 && s[|s| - 1] == '-' {
      InitShape(s);
      TrimEndShape(s[..|s| - 1]);
    }
  }

  lemma TailShape(s: string)
    requires |s| > 0 && AllChars(s, IsSlugChar) && NoDoubleHyphen(s)
    ensures AllChars(s[1..], IsSlugChar) && NoDoubleHyphen(s[1..])
  {
    assert forall k :: 0 <= k < |s| - 1 ==> s[1..][k] == s[k + 1];
  }

  lemma InitShape(s: string)
    requires |s| > 0 && AllChars(s, IsSlugChar) && NoDoubleHyphen(s)
    ensures AllChars(s[..|s| - 1], IsSlugChar) && NoDoubleHyphen(s[..|s| - 1])
  {
  }

  lemma StripKeepsAlnum(h: string)
    ensures Filter(TrimHyphenEnd(TrimHyphenStart(h)), IsLowerAlnum) == Filter(h, IsLowerAlnum)
  {
    TrimStartKeepsAlnum(h);
    TrimEndKeepsAlnum(TrimHyphenStart(h));
  }

  lemma {:induction false} TrimStartKeepsAlnum(s: string)
    ensures Filter(TrimHyphenStart(s), IsLowerAlnum) == Filter(s, IsLowerAlnum)
    decreases |s|
  {
    if |s| > 0 && s[0] == '-' {
      TrimStartKeepsAlnum(s[1..]);
    }
  }

  lemma {:induction false} TrimEndKeepsAlnum(s: string)
    ensures Filter(TrimHyphenEnd(s), IsLowerAlnum) == Filter(s, IsLowerAlnum)
    decreases |s|
  {
    if |s| > 0 && s[|s| - 1] == '-' {
      var t := s[..|s| - 1];
      TrimEndKeepsAlnum(t);
      assert s == t + "-";
      FilterAppend(t, "-", IsLowerAlnum);
    }
  }

  /** On a well-formed slug, hyphenation changes nothing. */
  lemma {:induction false} HyphenateSlug(s: string)
    requires AllChars(s, IsSlugChar) && NoDoubleHyphen(s)
    ensures Hyphenate(s, false) == s
    ensures |s| > 0 && s[0] != '-' ==> Hyphenate(s, true) == s
    decreases |s|
  {
    if |s| > 0 {
      HyphenateSlug(s[1..]);
      if s[0] == '-' && |s| > 1 {
        assert s[1] != '-';
      }
    }
  }

  lemma FoldedCons(s: string)
    requires |s| > 0
    ensures Folded(s) == Transliterate(LowerChar(s[0])) + Folded(s[1..])
  {
    assert Lower(s) == [LowerChar(s[0])] + Lower(s[1..]);
    MapCharsAppend([LowerChar(s[0])], Lower(s[1..]), Transliterate);
  }

  lemma {:induction false} FoldSlug(s: string)
    requires AllChars(s, IsSlugChar)
    ensures Folded(s) == s
    decreases |s|
  {
    if |s| > 0 {
      FoldSlug(s[1..]);
      FoldedCons(s);
    }
  }

  /** A slug is its own slug, so slugging twice is the same as slugging once. */
  lemma SlugOfSlug(s: string)
    requires IsSlug(s)
    ensures CreateSlug(s) == s
  {
    FoldSlug(s);
    HyphenateSlug(s);
  }

  lemma CreateSlugIdempotent(title: string)
    ensures CreateSlug(CreateSlug(title)) == CreateSlug(title)
  {
    SlugOfSlug(CreateSlug(title));
  }

  /** Length of the longest prefix of `s` inside `[a-z0-9]`. */
  function AlnumRun(s: string): (n: nat)
    ensures n <= |s|
    ensures AllChars(s[..n], IsLowerAlnum)
    ensures n < |s| ==> !IsLowerAlnum(s[n])
    decreases |s|
  {
    if |s| > 0 && IsLowerAlnum(s[0]) then
      var n := 1 + AlnumRun(s[1..]);
      assert s[..n] == [s[0]] + s[1..][..n - 1];
      n
    else 0
  }

  /**
    The words of `s`: its maximal runs of `[a-z0-9]`, in order, as
    `[w for w in re.split('[^a-z0-9]+', s) if w]` would list them.
   */
  function Words(s: string): (ws: seq<string>)
    ensures forall i :: 0 <= i < |ws| ==> |ws[i]| > 0 && AllChars(ws[i], IsLowerAlnum)
    decreases |s|
  {
    if |s| == 0 then []
    else if !IsLowerAlnum(s[0]) then Words(s[1..])
    else
      var n := AlnumRun(s);
      [s[..n]] + Words(s[n..])
  }

  /** A slug is the words of the folded title joined by single hyphens. */
  lemma CreateSlugIsJoinedWords(title: string)
    ensures CreateSlug(title) == Join(Words(Folded(title)), "-")
  {
    var s := Folded(title);
    TrimStartOfHyphenate(s);
    TrimmedHyphenateIsJoin(s);
  }

  /** Trimming leading hyphens does what starting inside a run does. */
  lemma TrimStartOfHyphenate(s: string)
    ensures TrimHyphenStart(Hyphenate(s, false)) == Hyphenate(s, true)
  {
    if |s| > 0 && !IsLowerAlnum(s[0]) {
      var u := Hyphenate(s[1..], true);
      HyphenateShape(s[1..], true);
      assert Hyphenate(s, false) == "-" + u;
      assert ("-" + u)[1..] == u;
    }
  }

  /** A run of alphanumerics passes through hyphenation unchanged. */
  lemma {:induction false} HyphenateAlnumPrefix(w: string, t: string, inRun: bool)
    requires |w| > 0 && AllChars(w, IsLowerAlnum)
    ensures Hyphenate(w + t, inRun) == w + Hyphenate(t, false)
    decreases |w|
  {
    assert (w + t)[0] == w[0];
    assert (w + t)[1..] == w[1..] + t;
    if |w| > 1 {
      HyphenateAlnumPrefix(w[1..], t, false);
    }
    assert w == [w[0]] + w[1..];
  }

  /** Trailing hyphens of a suffix are trailing hyphens of the whole. */
  lemma {:induction false} TrimEndAppend(a: string, b: string)
    requires TrimHyphenEnd(b) != ""
    ensures TrimHyphenEnd(a + b) == a + TrimHyphenEnd(b)
    decreases |b|
  {
    var ab := a + b;
    if |b| > 0 && b[|b| - 1] == '-' {
      var b' := b[..|b| - 1];
      assert ab[..|ab| - 1] == a + b';
      TrimEndAppend(a, b');
    }
  }

  lemma {:induction false} TrimmedHyphenateIsJoin(s: string)
    ensures TrimHyphenEnd(Hyphenate(s, true)) == Join(Words(s), "-")
    decreases |s|
  {
    if |s| > 0 {
      if !IsLowerAlnum(s[0]) {
        TrimmedHyphenateIsJoin(s[1..]);
      } else {
        var n := AlnumRun(s);
        var w, t := s[..n], s[n..];
        assert s == w + t;
        HyphenateAlnumPrefix(w, t, true);
        assert Words(s) == [w] + Words(t);
        if |t| == 0 {
          assert w + "" == w;
        } else {
          var u := Hyphenate(t[1..], true);
          assert Hyphenate(t, false) == "-" + u;
          assert Words(t) == Words(t[1..]);
          TrimmedHyphenateIsJoin(t[1..]);
          HyphenateShape(t[1..], true);
          WordThenRest(w, u, Words(t[1..]));
        }
      }
    }
  }

  /** One word, a hyphen, and the hyphenated rest trim to the word joined to the rest's words. */
  lemma WordThenRest(w: string, u: string, ws: seq<string>)
    requires |w| > 0 && AllChars(w, IsLowerAlnum)
    requires TrimHyphenEnd(u) == Join(ws, "-")
    requires |u| > 0 ==> u[0] != '-'
    requires forall i :: 0 <= i < |ws| ==> |ws[i]| > 0
    ensures TrimHyphenEnd(w + ("-" + u)) == Join([w] + ws, "-")
  {
    assert w + ("-" + u) == (w + "-") + u;
    if ws == [] {
      NothingAfterWord(w, u);
    } else {
      TrimEndAppend(w + "-", u);
      JoinCons(w, ws, "-");
    }
  }

  /** A hyphenated rest that trims away leaves just the word. */
  lemma NothingAfterWord(w: string, u: string)
    requires |w| > 0 && AllChars(w, IsLowerAlnum)
    requires TrimHyphenEnd(u) == ""
    requires |u| > 0 ==> u[0] != '-'
    ensures TrimHyphenEnd((w + "-") + u) == w
  {
    assert u == "";
    assert (w + "-") + "" == w + "-";
  }

  /** A title without any letter or digit gets the empty slug, and only such a title does. */
  lemma EmptySlug(title: string)
    ensures CreateSlug(title) == "" <==> Filter(Folded(title), IsLowerAlnum) == []
  {
    var slug := CreateSlug(title);
    if slug != "" {
      assert slug[0] != '-';
      assert slug[0] in Filter(slug, IsLowerAlnum);
    }
  }

  // ---------------------------------------------------------------------------
  // Categories and cover images

  const Categories: set<string> :=
    {"mindset", "salud-mental", "habitos", "crecimiento-personal", "desarrollo-personal"}

  /**
    `get_category_from_hashtags` / `getCategoryFromHashtags`: case-insensitive
    substring tests, the first matching group wins.
   */
  function Category(hashtags: string): (r: string)
    ensures r in Categories
  {
    var h := Lower(hashtags);
    if Contains(h, "mindset") || Contains(h, "motivation") then "mindset"
    else if Contains(h, "mentalhealth") || Contains(h, "ansiedad") then "salud-mental"
    else if Contains(h, "habitos") || Contains(h, "disciplina") then "habitos"
    else if Contains(h, "selfgrowth") || Contains(h, "selfimprovement") then "crecimiento-personal"
    else "desarrollo-personal"
  }

  lemma LowerTwice(s: string)
    ensures Lower(Lower(s)) == Lower(s)
  {
    forall i | 0 <= i < |s| ensures Lower(Lower(s))[i] == Lower(s)[i] {
      LowerIdempotentChar(s[i]);
    }
  }

  /** The category does not depend on letter case. */
  lemma CategoryIgnoresCase(hashtags: string)
    ensures Category(Lower(hashtags)) == Category(hashtags)
  {
    LowerTwice(hashtags);
  }

  /** `mindset` anywhere wins over every other keyword; text without any keyword falls back to `desarrollo-personal`. */
  lemma CategoryPriority(hashtags: string)
    ensures Contains(Lower(hashtags), "mindset") ==> Category(hashtags) == "mindset"
    ensures Category(hashtags) == "desarrollo-personal" <==>
      forall k :: k in CategoryKeywords ==> !Contains(Lower(hashtags), k)
  {
  }

  const CategoryKeywords: set<string> :=
    {"mindset", "motivation", "mentalhealth", "ansiedad", "habitos", "disciplina", "selfgrowth", "selfimprovement"}

  /** One row of the priority table: a category and the keywords that select it. */
  datatype Tier = Tier(category: string, keywords: seq<string>)

  /** The reference table, highest priority first. */
  const Tiers: seq<Tier> := [
    Tier("mindset", ["mindset", "motivation"]),
    Tier("salud-mental", ["mentalhealth", "ansiedad"]),
    Tier("habitos", ["habitos", "disciplina"]),
    Tier("crecimiento-personal", ["selfgrowth", "selfimprovement"])
  ]

  const DefaultCategory: string := "desarrollo-personal"

  /** Some keyword of the tier occurs in the lower-cased hashtags. */
  predicate Hits(hashtags: string, t: Tier)
  {
    exists k :: k in t.keywords && Contains(Lower(hashtags), k)
  }

  /** No tier before position `i` of the table is hit. */
  predicate NoEarlierHit(hashtags: string, i: nat)
    requires i <= |Tiers|
  {
    forall j :: 0 <= j < i ==> !Hits(hashtags, Tiers[j])
  }

  /** Hitting a two-keyword tier is hitting one of its two keywords. */
  lemma HitsPair(hashtags: string, i: nat)
    requires i < |Tiers|
    ensures |Tiers[i].keywords| == 2
    ensures Hits(hashtags, Tiers[i]) <==>
      Contains(Lower(hashtags), Tiers[i].keywords[0]) || Contains(Lower(hashtags), Tiers[i].keywords[1])
  {
    var t := Tiers[i];
    assert |t.keywords| == 2;
    if Contains(Lower(hashtags), t.keywords[0]) {
      assert t.keywords[0] in t.keywords;
    }
    if Contains(Lower(hashtags), t.keywords[1]) {
      assert t.keywords[1] in t.keywords;
    }
  }

  /**
    The category is the first tier of the table that the hashtags hit:
    tier `i` is chosen exactly when it is hit and no earlier tier is, and
    the default exactly when no tier is hit.
   */
  lemma {:induction false} CategoryIsFirstTier(hashtags: string, i: nat)
    requires i < |Tiers|
    ensures Category(hashtags) == Tiers[i].category <==> Hits(hashtags, Tiers[i]) && NoEarlierHit(hashtags, i)
    ensures Category(hashtags) == DefaultCategory <==> NoEarlierHit(hashtags, |Tiers|)
  {
    CategoryByTable(hashtags);
    TierCategoriesDistinct();
  }

  /** The category read off the table, tier by tier. */
  lemma CategoryByTable(hashtags: string)
    ensures Category(hashtags) ==
      if Hits(hashtags, Tiers[0]) then Tiers[0].category
      else if Hits(hashtags, Tiers[1]) then Tiers[1].category
      else if Hits(hashtags, Tiers[2]) then Tiers[2].category
      else if Hits(hashtags, Tiers[3]) then Tiers[3].category
      else DefaultCategory
  {
    HitsPair(hashtags, 0);
    HitsPair(hashtags, 1);
    HitsPair(hashtags, 2);
    HitsPair(hashtags, 3);
  }

  /** No two tiers, and no tier and the default, share a category name. */
  lemma TierCategoriesDistinct()
    ensures forall i, j :: 0 <= i < j < |Tiers| ==> Tiers[i].category != Tiers[j].category
    ensures forall i :: 0 <= i < |Tiers| ==> Tiers[i].category != DefaultCategory
  {
    var names := [Tiers[0].category, Tiers[1].category, Tiers[2].category, Tiers[3].category, DefaultCategory];
    assert names[0][0] == 'm' && names[1][0] == 's' && names[2][0] == 'h' && names[3][0] == 'c' && names[4][0] == 'd';
  }

  /** The cover image the TypeScript port returns, whatever the category and index. */
  const ImageUrlTs: string := "https://images.unsplash.com/photo-1516534775068-ba3e7458af70?w=800&auto=format&fit=crop&q=60"

  /** The Python seeder's cover image: the same photo with one more query parameter. */
  const ImageUrlPy: string := ImageUrlTs + "&ixlib=rb-4.0.3"

  /** `get_image_for_category`: the theme list is consulted but never used. */
  function ImagePy(category: string, index: nat): (url: string)
    ensures url == ImageUrlPy
  {
    var themes := ["books", "learning", "education", "study", "light"];
    var _ := themes[index % |themes|];
    ImageUrlPy
  }

  /** `getImageForCategory`. */
  function ImageTs(category: string, index: nat): (url: string)
    ensures url == ImageUrlTs
  {
    ImageUrlTs
  }

  /** The two implementations never agree on the image, for any category or index. */
  lemma ImagesDiffer(c1: string, i1: nat, c2: string, i2: nat)
    ensures ImagePy(c1, i1) != ImageTs(c2, i2)
    ensures IsPrefix(ImageTs(c2, i2), ImagePy(c1, i1))
  {
    assert |ImageUrlPy| > |ImageUrlTs|;
    assert ImageUrlPy[..|ImageUrlTs|] == ImageUrlTs;
  }

  // ---------------------------------------------------------------------------
  // Excerpts

  const ExcerptLength: nat := 150

  /** Line breaks (`\n` and `\r`) become spaces. */
  function CleanNewlines(s: string): (r: string)
    ensures |r| == |s|
    ensures '\n' !in r && '\r' !in r
  {
    MapEach(s, c => if c == '\n' || c == '\r' then ' ' else c)
  }

  /**
    `create_excerpt` (Python): text that fits is returned whole; otherwise the
    cut is moved back to the last space (`rsplit(' ', 1)[0]`) and `...` added.
    Without a space the cut stays at `maxLength`.
   */
  function ExcerptPy(content: string, maxLength: nat): (r: string)
    ensures '\n' !in r && '\r' !in r
    ensures |CleanNewlines(content)| <= maxLength ==> r == CleanNewlines(content)
    ensures |CleanNewlines(content)| > maxLength ==>
      |r| <= maxLength + 3 && IsSuffix("...", r) && IsPrefix(r[..|r| - 3], CleanNewlines(content))
  {
    var clean := CleanNewlines(content);
    if |clean| <= maxLength then clean
    else
      var head := clean[..maxLength];
      var i := LastIndexOf(head, ' ');
      var kept := if i < 0 then head else head[..i];
      assert kept + "..." == kept + "...";
      assert (kept + "...")[..|kept|] == kept;
      kept + "..."
  }

  /**
    `createExcerpt` (TypeScript): the same cut, written as
    `substring(0, max).split(' ').slice(0, -1).join(' ')`.
   */
  function ExcerptTs(content: string, maxLength: nat): (r: string)
    ensures '\n' !in r && '\r' !in r
    ensures |CleanNewlines(content)| <= maxLength ==> r == CleanNewlines(content)
    ensures |CleanNewlines(content)| > maxLength ==>
      var head := CleanNewlines(content)[..maxLength];
      r == (if ' ' in head then head[..LastIndexOf(head, ' ')] else "") + "..."
  {
    var clean := CleanNewlines(content);
    if |clean| <= maxLength then clean
    else
      var head := clean[..maxLength];
      JoinDropLastSplit(head, ' ');
      var kept := Join(DropLast(Split(head, " ")), " ");
      assert forall k :: 0 <= k < |kept| ==> kept[k] == clean[k];
      kept + "..."
  }

  /**
    The two excerpts agree except when the first `maxLength` characters hold
    no space: Python then keeps all of them, TypeScript keeps none and the
    excerpt is just `...`.
   */
  lemma ExcerptsCompared(content: string, maxLength: nat)
    ensures var clean := CleanNewlines(content);
      if |clean| > maxLength && ' ' !in clean[..maxLength] then
        ExcerptTs(content, maxLength) == "..." && ExcerptPy(content, maxLength) == clean[..maxLength] + "..."
      else ExcerptTs(content, maxLength) == ExcerptPy(content, maxLength)
  {
    var clean := CleanNewlines(content);
    if |clean| > maxLength {
      JoinDropLastSplit(clean[..maxLength], ' ');
    }
  }

  /**
    When `createExcerpt` cuts, the result ends in `...` and is at most
    `maxLength + 2` long: the kept words stop before the last space of the cut.
   */
  lemma ExcerptTsBound(content: string, maxLength: nat)
    requires maxLength > 0
    ensures var r := ExcerptTs(content, maxLength);
      |CleanNewlines(content)| > maxLength ==> IsSuffix("...", r) && |r| <= maxLength + 2
  {
    var clean := CleanNewlines(content);
    if |clean| > maxLength {
      var head := clean[..maxLength];
      ExcerptsCompared(content, maxLength);
      JoinDropLastSplit(head, ' ');
      if ' ' in head {
        var i := LastIndexOf(head, ' ');
        assert ExcerptTs(content, maxLength) == head[..i] + "...";
      }
    }
  }

  // ---------------------------------------------------------------------------
  // Content completion

  /** Appended to posts shorter than 250 characters. */
  const ReflectionNote: string :=
    "\n\n**Reflexión práctica:** Este concepto se aplica directamente en tu vida diaria. Cada vez que sientes resistencia interna, pregúntate: ¿esto es miedo protector o miedo limitante? La diferencia marca el camino entre estancamiento y crecimiento."

  /** Appended to posts that do not already conclude. */
  const ConclusionNote: string := "\n\n**" + ConclusionWord + ConclusionBody

  const ConclusionBody: string :=
    ":** El cambio real comienza con la comprensión de tus patrones mentales. No se trata de eliminar emociones, sino de aprender a interpretarlas y usarlas como brújula para tu crecimiento personal."

  /** The heading of the conclusion paragraph, which is itself what `Concludes` looks for. */
  const ConclusionWord: string := "Conclusión"

  const ShortContent: nat := 250
  const ClosingWindow: nat := 200

  /** `s[-200:]` / `s.slice(-200)`. */
  function LastChars(s: string, n: nat): (r: string)
    ensures IsSuffix(r, s) && |r| == if |s| < n then |s| else n
  {
    if |s| <= n then s else s[|s| - n..]
  }

  /** A post concludes when it mentions `conclusión` anywhere or `clave` in its last 200 characters, ignoring case. */
  predicate Concludes(content: string)
  {
    Contains(Lower(content), "conclusión") || Contains(Lower(LastChars(content, ClosingWindow)), "clave")
  }

  /** The Python seeder's completion of a (stripped) post body. */
  function CompletePy(content: string): (r: string)
    ensures IsPrefix(content, r)
    ensures r in {content, content + ReflectionNote, content + ConclusionNote, content + ReflectionNote + ConclusionNote}
    ensures |content| < ShortContent <==> IsPrefix(content + ReflectionNote, r)
    ensures var c1 := if |content| < ShortContent then content + ReflectionNote else content;
      (Concludes(c1) ==> r == c1) && (!Concludes(c1) ==> r == c1 + ConclusionNote)
    ensures Concludes(r)
  {
    var c1 := if |content| < ShortContent then content + ReflectionNote else content;
    var r := if Concludes(c1) then c1 else c1 + ConclusionNote;
    assert (content + ReflectionNote + ConclusionNote)[..|content + ReflectionNote|] == content + ReflectionNote;
    NoteConcludes(c1);
    r
  }

  /** Appending the conclusion paragraph makes any text conclude. */
  lemma NoteConcludes(c: string)
    ensures Concludes(c + ConclusionNote)
  {
    var head := c + "\n\n**";
    assert c + ConclusionNote == head + ConclusionWord + ConclusionBody;
    LowerAppend(head + ConclusionWord, ConclusionBody);
    LowerAppend(head, ConclusionWord);
    LowerConclusionWord();
    assert IsPrefix("conclusión", "conclusión");
    ContainsExtend(Lower(head), "conclusión", Lower(ConclusionBody), "conclusión");
  }

  lemma LowerConclusionWord()
    ensures Lower(ConclusionWord) == "conclusión"
  {
    assert ConclusionWord == ['C'] + "onclusión";
    assert Lower(ConclusionWord) == [LowerChar('C')] + Lower("onclusión");
  }

  /**
    The spreadsheet import's completion: the same two rules, written with
    `content.toLowerCase().slice(-200)`, and only for non-empty content.
   */
  function CompleteTs(content: string): (r: string)
    ensures content == "" ==> r == ""
    ensures |content| > 0 ==> r == CompletePy(content) && Concludes(r)
  {
    var c1 := if |content| > 0 && |content| < ShortContent then content + ReflectionNote else content;
    LowerLastChars(c1, ClosingWindow);
    if |c1| > 0 && !Contains(Lower(c1), "conclusión") && !Contains(LastChars(Lower(c1), ClosingWindow), "clave")
    then c1 + ConclusionNote
    else c1
  }

  /** Lower-casing then taking the tail is taking the tail then lower-casing. */
  lemma LowerLastChars(s: string, n: nat)
    ensures LastChars(Lower(s), n) == Lower(LastChars(s, n))
  {
  }

  /** Both implementations complete non-empty content identically; empty content is left empty only by the import. */
  lemma CompletionsCompared(content: string)
    ensures |content| > 0 ==> CompleteTs(content) == CompletePy(content)
    ensures CompleteTs("") == ""
    ensures CompletePy("") == ReflectionNote + ConclusionNote || CompletePy("") == ReflectionNote
  {
    var c1 := if |content| < ShortContent then content + ReflectionNote else content;
    LowerLastChars(c1, ClosingWindow);
    assert "" + ReflectionNote == ReflectionNote;
  }
}

=== FILE: blog_queries.dfy ===
/**
  The blog data-access functions (`src/models/blog.ts`): the statements they
  build and the rows they select. The publication time comparison with
  `datetime('now')` is modelled with times as integers and "now" as a
  parameter.
 */
module BlogQueries {
  import opened Common
  import opened Sql

  // ---------------------------------------------------------------------------
  // Publication filter

  /** The columns of a stored post that the filters look at. */
  datatype BlogRow = BlogRow(id: int, slug: string, published: int, scheduledAt: Option<int>)

  /** `published = 1 AND (scheduled_at IS NULL OR scheduled_at <= now)`. */
  predicate Visible(row: BlogRow, now: int)
  {
    row.published == 1 && (row.scheduledAt.None? || row.scheduledAt.value <= now)
  }

  const PublishedA: Lit := "published = 1 AND (scheduled_at IS NULL"
  const PublishedB: Lit := " OR scheduled_at <= datetime('now'))"

  /** The SQL text of `Visible`. */
  function PublishedCond(): (q: Stmt)
    ensures Args(q) == []
  {
    Cat(L(PublishedA), L(PublishedB))
  }

  // ---------------------------------------------------------------------------
  // getBlogPostBySlug

  const SelectAll: Lit := "SELECT * FROM blog_posts"
  const WhereKw: Lit := " WHERE "
  const AndKw: Lit := " AND "
  const SlugIs: Lit := " WHERE slug = "

  /** `SELECT … WHERE slug = ?`, narrowed to visible posts for the public pages. */
  function BySlugQuery(slug: string, publishedOnly: bool): (q: Stmt)
    ensures Args(q) == [Str(slug)]
  {
    var head := Cat(Cat(L(SelectAll), L(SlugIs)), P(Str(slug)));
    if publishedOnly then Cat(head, Cat(L(AndKw), PublishedCond())) else head
  }

  predicate MatchesSlug(row: BlogRow, slug: string, publishedOnly: bool, now: int)
  {
    row.slug == slug && (publishedOnly ==> Visible(row, now))
  }

  /** `dbFirst`: the first row the query selects, or null. */
  function FindBySlug(table: seq<BlogRow>, slug: string, publishedOnly: bool, now: int): (r: Option<BlogRow>)
    ensures r.Some? ==> r.value in table && MatchesSlug(r.value, slug, publishedOnly, now)
    ensures r.None? <==> forall i :: 0 <= i < |table| ==> !MatchesSlug(table[i], slug, publishedOnly, now)
  {
    if |table| == 0 then None
    else if MatchesSlug(table[0], slug, publishedOnly, now) then Some(table[0])
    else FindBySlug(table[1..], slug, publishedOnly, now)
  }

  /**
    The public pages never see an unpublished or future post; when the slug is
    unique, they see exactly the post the admin pages see, if it is visible.
   */
  lemma {:induction false} PublicLookup(table: seq<BlogRow>, slug: string, now: int)
    requires forall i, j :: 0 <= i < j < |table| && table[i].slug == slug ==> table[j].slug != slug
    ensures FindBySlug(table, slug, true, now) ==
            (var r := FindBySlug(table, slug, false, now); if r.Some? && Visible(r.value, now) then r else None)
  {
    if |table| > 0 && table[0].slug != slug {
      PublicLookup(table[1..], slug, now);
    } else if |table| > 0 {
      assert forall i :: 0 <= i < |table[1..]| ==> table[1..][i].slug != slug by {
        forall i | 0 <= i < |table[1..]| ensures table[1..][i].slug != slug {
          assert table[1..][i] == table[i + 1];
        }
      }
    }
  }

  // ---------------------------------------------------------------------------
  // listBlogPosts

  /** `orderBy?: 'created_at' | 'random' | 'scheduled_at'`; `Unset` is `undefined`. */
  datatype OrderBy = Unset | CreatedAt | Random | ScheduledAt

  /** `ListBlogPostsOptions`; absent numbers are `None`. */
  datatype ListOptions = ListOptions(
    publishedOnly: bool,
    limit: Option<int>,
    offset: Option<int>,
    excludeId: Option<int>,
    orderBy: OrderBy)

  /** The three orderings the listing can emit. */
  datatype Ordering = ByRandom | ByPublication | ByCreation

  /** Random wins; then the publication date for scheduled or public listings; else creation date. */
  function OrderingOf(opts: ListOptions): (o: Ordering)
  {
    if opts.orderBy == Random then ByRandom
    else if opts.orderBy == ScheduledAt || opts.publishedOnly then ByPublication
    else ByCreation
  }

  /**
    `random` beats everything; a public listing is ordered by publication date
    even when `created_at` is asked for; creation order is used only for
    non-public, non-random, non-scheduled listings.
   */
  lemma OrderingPrecedence(opts: ListOptions)
    ensures OrderingOf(opts) == ByRandom <==> opts.orderBy == Random
    ensures opts.publishedOnly && opts.orderBy != Random ==> OrderingOf(opts) == ByPublication
    ensures OrderingOf(opts) == ByCreation <==>
      !opts.publishedOnly && opts.orderBy in {Unset, CreatedAt}
  {
  }

  const OrderRandom: Lit := " ORDER BY RANDOM()"
  const OrderPublishedA: Lit := " ORDER BY COALESCE(scheduled_at,"
  const OrderPublishedB: Lit := " created_at) DESC"
  const OrderCreated: Lit := " ORDER BY created_at DESC"

  function OrderClause(o: Ordering): (q: Stmt)
    ensures Args(q) == []
  {
    match o
    case ByRandom => L(OrderRandom)
    case ByPublication => Cat(L(OrderPublishedA), L(OrderPublishedB))
    case ByCreation => L(OrderCreated)
  }

  const IdNot: Lit := "id != "
  const LimitKw: Lit := " LIMIT "
  const OffsetKw: Lit := " OFFSET "

  /** The values the exclusion binds: `if (opts.excludeId)`. */
  function ExcludeArgs(opts: ListOptions): seq<Value>
  {
    if Truthy(opts.excludeId) then [Int(opts.excludeId.value)] else []
  }

  /** The WHERE conditions, in the order they are pushed. */
  function Conditions(opts: ListOptions): (conds: seq<Stmt>)
    ensures ArgsOf(conds) == ExcludeArgs(opts)
    ensures |conds| == (if opts.publishedOnly then 1 else 0) + |ExcludeArgs(opts)|
  {
    var published := if opts.publishedOnly then [PublishedCond()] else [];
    var exclude := if Truthy(opts.excludeId) then [Cat(L(IdNot), P(Int(opts.excludeId.value)))] else [];
    ArgsOfAppend(published, exclude);
    published + exclude
  }

  /** ` WHERE c1 AND c2`, or nothing when there are no conditions. */
  function WhereClause(conds: seq<Stmt>): (q: Stmt)
    ensures Args(q) == ArgsOf(conds)
  {
    if |conds| == 0 then [] else Cat(L(WhereKw), JoinQ(conds, AndKw))
  }

  function LimitClause(limit: Option<int>): (q: Stmt)
    ensures Args(q) == if Truthy(limit) then [Int(limit.value)] else []
  {
    if Truthy(limit) then Cat(L(LimitKw), P(Int(limit.value))) else []
  }

  function OffsetClause(offset: Option<int>): (q: Stmt)
    ensures Args(q) == if Truthy(offset) then [Int(offset.value)] else []
  {
    if Truthy(offset) then Cat(L(OffsetKw), P(Int(offset.value))) else []
  }

  /** Everything up to the ORDER BY clause, shared by both versions below. */
  function ListHead(opts: ListOptions): (q: Stmt)
    ensures Args(q) == ExcludeArgs(opts)
  {
    Cat(Cat(L(SelectAll), WhereClause(Conditions(opts))), OrderClause(OrderingOf(opts)))
  }

  /**
    The listing as written: LIMIT and OFFSET are each added when truthy,
    independently of each other.
   */
  function ListAsWritten(opts: ListOptions): (q: Stmt)
    ensures Args(q) == ExcludeArgs(opts) + Args(LimitClause(opts.limit)) + Args(OffsetClause(opts.offset))
  {
    Cat(Cat(ListHead(opts), LimitClause(opts.limit)), OffsetClause(opts.offset))
  }

  /** With an offset but no limit the statement ends in `OFFSET ?` with no LIMIT clause, which SQLite's grammar rejects. */
  lemma OffsetWithoutLimit()
    ensures var q := ListAsWritten(ListOptions(false, None, Some(24), None, Unset));
      Args(q) == [Int(24)] && Text(OffsetKw) in q && Text(LimitKw) !in q
  {
    var opts := ListOptions(false, None, Some(24), None, Unset);
    assert Conditions(opts) == [];
    assert WhereClause([]) == [];
    assert ListHead(opts) == [Text(SelectAll)] + [] + [Text(OrderCreated)];
    assert LimitClause(None) == [];
    assert OffsetClause(Some(24)) == [Text(OffsetKw), Param(Int(24))];
    assert ListAsWritten(opts) == [Text(SelectAll), Text(OrderCreated), Text(OffsetKw), Param(Int(24))];
  }

  /**
    The listing with the offset nested under the limit, as the story listing
    does it: an OFFSET clause only ever follows a LIMIT clause.
   */
  function ListBlogPosts(opts: ListOptions): (q: Stmt)
    ensures Truthy(opts.limit) ==> Args(q) == ExcludeArgs(opts) + [Int(opts.limit.value)] + Args(OffsetClause(opts.offset))
    ensures !Truthy(opts.limit) ==> Args(q) == ExcludeArgs(opts)
  {
    if Truthy(opts.limit) then
      assert Args(LimitClause(opts.limit)) == [Int(opts.limit.value)];
      ListAsWritten(opts)
    else ListHead(opts)
  }

  /** Whenever a limit is given (the public listing always passes 12) both versions agree. */
  lemma ListVersionsAgree(opts: ListOptions)
    ensures Truthy(opts.limit) || !Truthy(opts.offset) ==> ListBlogPosts(opts) == ListAsWritten(opts)
    ensures !Truthy(opts.limit) && Truthy(opts.offset) ==> Args(ListBlogPosts(opts)) != Args(ListAsWritten(opts))
  {
    if !Truthy(opts.limit) && !Truthy(opts.offset) {
      assert ListAsWritten(opts) == ListHead(opts) + [] + [];
    }
    if !Truthy(opts.limit) && Truthy(opts.offset) {
      assert |Args(ListAsWritten(opts))| == |Args(ListBlogPosts(opts))| + 1;
    }
  }

  /** A row the listing's WHERE clause selects. */
  predicate Selected(row: BlogRow, opts: ListOptions, now: int)
  {
    (opts.publishedOnly ==> Visible(row, now)) &&
    (Truthy(opts.excludeId) ==> row.id != opts.excludeId.value)
  }

  /** The related-posts query: published only, the current post excluded. */
  lemma RelatedExcludesCurrent(row: BlogRow, current: int, now: int)
    requires current != 0
    ensures var opts := ListOptions(true, Some(3), None, Some(current), Unset);
      Selected(row, opts, now) <==> Visible(row, now) && row.id != current
  {
  }

  // ---------------------------------------------------------------------------
  // countBlogPosts

  const CountAll: Lit := "SELECT COUNT(*) as count FROM blog_posts"

  function CountQuery(publishedOnly: bool): (q: Stmt)
    ensures Args(q) == []
  {
    if publishedOnly then Cat(Cat(L(CountAll), L(WhereKw)), PublishedCond()) else L(CountAll)
  }

  /** `result?.count || 0`: no row, a null count and a zero count all give 0. */
  function CountOrZero(result: Option<Option<int>>): (n: int)
    ensures result.Some? && result.value.Some? ==> n == result.value.value
    ensures result.None? || result.value.None? ==> n == 0
  {
    if result.Some? && Truthy(result.value) then result.value.value else 0
  }

  // ---------------------------------------------------------------------------
  // createBlogPost

  /** `NewBlogPost`; optional fields are `None` when absent. */
  datatype NewBlogPost = NewBlogPost(
    title: string,
    slug: string,
    content: string,
    excerpt: Option<string>,
    imageUrl: Option<string>,
    hashtags: Option<string>,
    published: Option<int>,
    scheduledAt: Option<string>)

  const BlogTable: Lit := "blog_posts"

  const InsertColumns: seq<Lit> :=
    ["title", "slug", "content", "excerpt", "image_url", "hashtags", "published", "scheduled_at"]

  const TimestampColumns: seq<Lit> := ["created_at", "updated_at"]

  /**
    The insert binds one value per listed column; empty or missing optional
    texts become NULL and a missing `published` becomes 0 (an explicit 0 stays 0).
   */
  function CreateQuery(p: NewBlogPost): (q: Stmt)
    ensures |Args(q)| == |InsertColumns|
    ensures Args(q)[..3] == [Str(p.title), Str(p.slug), Str(p.content)]
    ensures Args(q)[3] == StrOrNull(p.excerpt) && Args(q)[4] == StrOrNull(p.imageUrl)
    ensures Args(q)[5] == StrOrNull(p.hashtags) && Args(q)[7] == StrOrNull(p.scheduledAt)
    ensures Args(q)[6] == Int(p.published.GetOr(0))
  {
    var values := [Str(p.title), Str(p.slug), Str(p.content),
                   StrOrNull(p.excerpt), StrOrNull(p.imageUrl), StrOrNull(p.hashtags),
                   Int(if p.published.Some? then p.published.value else 0),
                   StrOrNull(p.scheduledAt)];
    InsertInto(BlogTable, InsertColumns, values, TimestampColumns, [Now, Now])
  }

  /** A post created with only the required fields is a draft with NULL optional columns. */
  lemma CreateDefaults(title: string, slug: string, content: string)
    ensures Args(CreateQuery(NewBlogPost(title, slug, content, None, None, None, None, None))) ==
            [Str(title), Str(slug), Str(content), Null, Null, Null, Int(0), Null]
  {
  }

  // ---------------------------------------------------------------------------
  // updateBlogPost

  /**
    `Partial<NewBlogPost>`: `None` is `undefined`. `scheduledAt` may also be
    an explicit null, which is bound as NULL.
   */
  datatype BlogUpdate = BlogUpdate(
    title: Option<string>,
    slug: Option<string>,
    content: Option<string>,
    excerpt: Option<string>,
    imageUrl: Option<string>,
    hashtags: Option<string>,
    published: Option<int>,
    scheduledAt: Option<Option<string>>)

  function StrField(column: Lit, v: Option<string>): Field
  {
    Field(column, if v.Some? then Some(Str(v.value)) else None)
  }

  /** The settable columns, in the order the update checks them. */
  function BlogFields(u: BlogUpdate): (fields: seq<Field>)
    ensures |fields| == 8
  {
    [StrField("title", u.title), StrField("slug", u.slug), StrField("content", u.content),
     StrField("excerpt", u.excerpt), StrField("image_url", u.imageUrl),
     StrField("hashtags", u.hashtags),
     Field("published", if u.published.Some? then Some(Int(u.published.value)) else None),
     Field("scheduled_at", if u.scheduledAt.Some? then Some(StrOrNullish(u.scheduledAt.value)) else None)]
  }

  /** Only the supplied fields are set, in fixed order; `updated_at` is always set; the id is bound last. */
  function UpdateQuery(id: int, u: BlogUpdate): (q: Stmt)
    ensures Args(q) == Supplied(BlogFields(u)) + [Int(id)]
    ensures |Args(q)| <= 9 && Args(q)[|Args(q)| - 1] == Int(id)
  {
    UpdateById(BlogTable, BlogFields(u), [TouchUpdated], Int(id))
  }

  /** An update with nothing supplied still touches `updated_at` and binds only the id. */
  lemma UpdateNothing(id: int)
    ensures Args(UpdateQuery(id, BlogUpdate(None, None, None, None, None, None, None, None))) == [Int(id)]
  {
    var u := BlogUpdate(None, None, None, None, None, None, None, None);
    var fields := BlogFields(u);
    assert forall i :: 0 <= i < |fields| ==> fields[i].value.None?;
    SuppliedNone(fields);
    var q := UpdateQuery(id, u);
    assert Args(q) == Supplied(fields) + [Int(id)];
  }

  /** Supplied values keep the column order, whatever else is supplied. */
  lemma UpdateTitleAndSchedule(id: int, title: string)
    ensures Args(UpdateQuery(id, BlogUpdate(Some(title), None, None, None, None, None, None, Some(None)))) ==
            [Str(title), Null, Int(id)]
  {
    var fields := BlogFields(BlogUpdate(Some(title), None, None, None, None, None, None, Some(None)));
    assert fields == [fields[0]] + fields[1..7] + [fields[7]];
    SuppliedAppend([fields[0]] + fields[1..7], [fields[7]]);
    SuppliedAppend([fields[0]], fields[1..7]);
    SuppliedNone(fields[1..7]);
  }
}

=== FILE: blog_seeder.dfy ===
/**
  The one-off Python seeder (`process_blog_posts.py`): reads the spreadsheet
  rows, skips rows whose title is blank, completes and describes each post,
  and writes one SQL `INSERT` per post with single quotes doubled.
 */
module BlogSeeder {
  import opened Common
  import opened Text
  import opened BlogContent

  /** The three spreadsheet columns the seeder reads, as raw text. */
  datatype CsvRow = CsvRow(title: string, hashtags: string, content: string)

  datatype SeedPost = SeedPost(
    title: string,
    slug: string,
    hashtags: string,
    content: string,
    excerpt: string,
    category: string,
    imageUrl: string,
    index: nat)

  /** `not row[title].strip()`: the title is empty or white space only (see `Text.TrimEmpty`). */
  predicate Blank(row: CsvRow) { AllChars(row.title, IsWhitespace) }

  /** One kept row: stripped fields, completed content, derived slug, excerpt, category and image. */
  function MakePost(row: CsvRow, index: nat): (p: SeedPost)
    ensures p.index == index && p.title == Trim(row.title)
    ensures IsSlug(p.slug)
    ensures IsPrefix(Trim(row.content), p.content)
    ensures p.category in Categories
  {
    var title := Trim(row.title);
    var hashtags := Trim(row.hashtags);
    var content := CompletePy(Trim(row.content));
    var category := Category(hashtags);
    SeedPost(title, CreateSlug(title), hashtags, content, ExcerptPy(content, ExcerptLength),
             category, ImagePy(category, index), index)
  }

  predicate Kept(row: CsvRow) { !Blank(row) }

  /** A kept row together with its position in the spreadsheet. */
  datatype Pick = Pick(row: CsvRow, index: nat)

  /**
    The rows the loop over `enumerate(reader)` keeps, starting at row position
    `start`: each keeps its own position, so the index counts the blank rows
    skipped before it.
   */
  function PickFrom(rows: seq<CsvRow>, start: nat): (picks: seq<Pick>)
    ensures |picks| == CountWhere(rows, Kept)
    ensures forall k :: 0 <= k < |picks| ==> start <= picks[k].index < start + |rows|
    decreases |rows|
  {
    if |rows| == 0 then []
    else if Blank(rows[0]) then PickFrom(rows[1..], start + 1)
    else [Pick(rows[0], start)] + PickFrom(rows[1..], start + 1)
  }

  /** The seeder's list of posts, one per kept row. */
  function Seed(rows: seq<CsvRow>): (posts: seq<SeedPost>)
    ensures |posts| == |PickFrom(rows, 0)|
    ensures forall k :: 0 <= k < |posts| ==>
      posts[k] == MakePost(PickFrom(rows, 0)[k].row, PickFrom(rows, 0)[k].index)
  {
    var picks := PickFrom(rows, 0);
    seq(|picks|, k requires 0 <= k < |picks| => MakePost(picks[k].row, picks[k].index))
  }

  /** Every pick is a non-blank row at the position it records. */
  lemma {:induction false} PickFromSound(rows: seq<CsvRow>, start: nat, k: nat)
    requires k < |PickFrom(rows, start)|
    ensures var p := PickFrom(rows, start)[k];
      Kept(p.row) && start <= p.index < start + |rows| && p.row == rows[p.index - start]
    decreases |rows|
  {
    var picks := PickFrom(rows, start);
    var rest := PickFrom(rows[1..], start + 1);
    var j: nat;
    if Blank(rows[0]) {
      assert picks == rest;
      j := k;
    } else if k > 0 {
      assert picks == [Pick(rows[0], start)] + rest;
      assert picks[k] == rest[k - 1];
      j := k - 1;
    } else {
      return;
    }
    PickFromSound(rows[1..], start + 1, j);
    var i := rest[j].index - (start + 1);
    assert rows[1..][i] == rows[i + 1];
  }

  /** Picks come out in row order. */
  lemma {:induction false} PickFromOrdered(rows: seq<CsvRow>, start: nat, k: nat, l: nat)
    requires k < l < |PickFrom(rows, start)|
    ensures PickFrom(rows, start)[k].index < PickFrom(rows, start)[l].index
    decreases |rows|
  {
    if Blank(rows[0]) {
      PickFromOrdered(rows[1..], start + 1, k, l);
    } else if k > 0 {
      PickFromOrdered(rows[1..], start + 1, k - 1, l - 1);
    }
  }

  /** Every non-blank row is picked. */
  lemma {:induction false} PickFromComplete(rows: seq<CsvRow>, start: nat, i: nat)
    requires i < |rows| && Kept(rows[i])
    ensures exists k :: 0 <= k < |PickFrom(rows, start)| && PickFrom(rows, start)[k].index == start + i
    decreases |rows|
  {
    var picks := PickFrom(rows, start);
    if i == 0 {
      assert picks[0].index == start;
    } else {
      assert rows[1..][i - 1] == rows[i];
      PickFromComplete(rows[1..], start + 1, i - 1);
      var rest := PickFrom(rows[1..], start + 1);
      var k :| 0 <= k < |rest| && rest[k].index == start + 1 + (i - 1);
      if Blank(rows[0]) {
        assert picks[k].index == start + i;
      } else {
        assert picks[k + 1].index == start + i;
      }
    }
  }

  lemma PickAt(rows: seq<CsvRow>, k: nat) returns (row: CsvRow, index: nat)
    requires k < |PickFrom(rows, 0)|
    ensures PickFrom(rows, 0)[k] == Pick(row, index)
    ensures index < |rows| && rows[index] == row && Kept(row)
  {
    var pick := PickFrom(rows, 0)[k];
    PickFromSound(rows, 0, k);
    row, index := pick.row, pick.index;
  }

  /** Each post is built from a non-blank row and records that row's position. */
  lemma SeedSound(rows: seq<CsvRow>, k: nat)
    requires k < |Seed(rows)|
    ensures var p := Seed(rows)[k];
      p.index < |rows| && Kept(rows[p.index]) && p == MakePost(rows[p.index], p.index)
  {
    var row, index := PickAt(rows, k);
    assert Seed(rows)[k] == MakePost(row, index);
  }

  /** Posts come out in spreadsheet order. */
  lemma SeedOrdered(rows: seq<CsvRow>, k: nat, l: nat)
    requires k < l < |Seed(rows)|
    ensures Seed(rows)[k].index < Seed(rows)[l].index
  {
    PickFromOrdered(rows, 0, k, l);
  }

  /** No non-blank row is dropped: there is one post per non-blank row. */
  lemma SeedComplete(rows: seq<CsvRow>, i: nat)
    requires i < |rows| && Kept(rows[i])
    ensures |Seed(rows)| == CountWhere(rows, Kept)
    ensures exists k :: 0 <= k < |Seed(rows)| && Seed(rows)[k].index == i
  {
    PickFromComplete(rows, 0, i);
    var picks := PickFrom(rows, 0);
    var k :| 0 <= k < |picks| && picks[k].index == i;
    assert Seed(rows)[k].index == i;
  }

  /** Without blank rows the recorded index is exactly the post's position. */
  lemma {:induction false} PickIndexWithoutBlanks(rows: seq<CsvRow>, start: nat)
    requires forall i :: 0 <= i < |rows| ==> Kept(rows[i])
    ensures |PickFrom(rows, start)| == |rows|
    ensures forall k :: 0 <= k < |rows| ==> PickFrom(rows, start)[k].index == start + k
    decreases |rows|
  {
    if |rows| > 0 {
      PickIndexWithoutBlanks(rows[1..], start + 1);
    }
  }

  /** A blank row still advances the counter: the post after it records position 1, not 0. */
  lemma BlankRowLeavesGap(blank: CsvRow, row: CsvRow)
    requires Blank(blank) && Kept(row)
    ensures |Seed([blank, row])| == 1 && Seed([blank, row])[0].index == 1
  {
    var rows := [blank, row];
    assert rows[1..] == [row];
    assert PickFrom(rows, 0) == PickFrom([row], 1);
    assert PickFrom([row], 1) == [Pick(row, 1)] + PickFrom([], 2);
  }

  // ---------------------------------------------------------------------------
  // SQL output

  function EscapeQuote(c: char): string
  {
    if c == '\'' then "''" else [c]
  }

  /** A SQL string literal: quotes around the text with every `'` doubled. */
  function QuoteSql(s: string): string
  {
    "'" + MapChars(s, EscapeQuote) + "'"
  }

  /**
    Reads the body of a SQL string literal (after its opening quote): `''`
    stands for one quote, a lone `'` ends it. Returns the text and what follows.
   */
  function ReadLiteralBody(t: string): (r: Option<(string, string)>)
    ensures r.Some? ==> |r.value.1| < |t|
    decreases |t|
  {
    if |t| == 0 then None
    else if t[0] == '\'' then
      if |t| > 1 && t[1] == '\'' then
        match ReadLiteralBody(t[2..])
        case None => None
        case Some(p) => Some(("'" + p.0, p.1))
      else Some(("", t[1..]))
    else
      match ReadLiteralBody(t[1..])
      case None => None
      case Some(p) => Some(([t[0]] + p.0, p.1))
  }

  function ReadLiteral(t: string): (r: Option<(string, string)>)
    ensures r.Some? ==> |r.value.1| < |t|
  {
    if |t| > 0 && t[0] == '\'' then ReadLiteralBody(t[1..]) else None
  }

  /** A quoted literal reads back as the original text, whatever quotes it holds. */
  lemma {:induction false} ReadLiteralBodyOfEscaped(s: string, rest: string)
    requires |rest| == 0 || rest[0] != '\''
    ensures ReadLiteralBody(MapChars(s, EscapeQuote) + "'" + rest) == Some((s, rest))
    decreases |s|
  {
    var t := MapChars(s, EscapeQuote) + "'" + rest;
    if |s| == 0 {
      assert t == "'" + rest;
      assert t[1..] == rest;
    } else {
      ReadLiteralBodyOfEscaped(s[1..], rest);
      var tail := MapChars(s[1..], EscapeQuote) + "'" + rest;
      assert t == EscapeQuote(s[0]) + tail;
      if s[0] == '\'' {
        assert t[2..] == tail;
        assert "'" + s[1..] == s;
      } else {
        assert t[1..] == tail;
        assert [s[0]] + s[1..] == s;
      }
    }
  }

  lemma ReadLiteralOfQuoted(s: string, rest: string)
    requires |rest| == 0 || rest[0] != '\''
    ensures ReadLiteral(QuoteSql(s) + rest) == Some((s, rest))
  {
    ReadLiteralBodyOfEscaped(s, rest);
    assert (QuoteSql(s) + rest)[1..] == MapChars(s, EscapeQuote) + "'" + rest;
  }

  /** Quoted literals separated by `, `. */
  function QuotedList(fields: seq<string>): string
    requires |fields| > 0
  {
    if |fields| == 1 then QuoteSql(fields[0])
    else QuoteSql(fields[0]) + ", " + QuotedList(fields[1..])
  }

  /** Reads `n` literals separated by `, ` and returns them with the remaining text. */
  function ReadFields(t: string, n: nat): (r: Option<(seq<string>, string)>)
    requires n > 0
    ensures r.Some? ==> |r.value.1| < |t|
    decreases n
  {
    match ReadLiteral(t)
    case None => None
    case Some(p) =>
      if n == 1 then Some(([p.0], p.1))
      else if IsPrefix(", ", p.1) then
        match ReadFields(p.1[2..], n - 1)
        case None => None
        case Some(q) => Some(([p.0] + q.0, q.1))
      else None
  }

  lemma {:induction false} ReadFieldsOfQuotedList(fields: seq<string>, rest: string)
    requires |fields| > 0
    requires |rest| == 0 || rest[0] != '\''
    ensures ReadFields(QuotedList(fields) + rest, |fields|) == Some((fields, rest))
    decreases |fields|
  {
    if |fields| == 1 {
      ReadLiteralOfQuoted(fields[0], rest);
      assert [fields[0]] == fields;
    } else {
      var tail := QuotedList(fields[1..]) + rest;
      ReadFieldsOfQuotedList(fields[1..], rest);
      assert QuotedList(fields) + rest == QuoteSql(fields[0]) + (", " + tail);
      ReadLiteralOfQuoted(fields[0], ", " + tail);
      assert (", " + tail)[2..] == tail;
      assert [fields[0]] + fields[1..] == fields;
    }
  }

  const InsertHead: string :=
    "INSERT INTO blog_posts (title, slug, hashtags, content, excerpt, image_url, published)\nVALUES ("
  const InsertTail: string := ", 1);\n\n"

  /** The six text columns of a post, in the column order of the statement. */
  function Columns(p: SeedPost): seq<string>
  {
    [p.title, p.slug, p.hashtags, p.content, p.excerpt, p.imageUrl]
  }

  /** Reads one statement back: its column values and the text after it. */
  function ReadStatement(s: string): (r: Option<(seq<string>, string)>)
    ensures r.Some? ==> |r.value.1| < |s|
  {
    if !IsPrefix(InsertHead, s) then None
    else match ReadFields(s[|InsertHead|..], 6)
      case None => None
      case Some(q) => if IsPrefix(InsertTail, q.1) then Some((q.0, q.1[|InsertTail|..])) else None
  }

  /** Reads a whole script back, statement by statement. */
  function ReadScript(s: string): Option<seq<seq<string>>>
    decreases |s|
  {
    if |s| == 0 then Some([])
    else match ReadStatement(s)
      case None => None
      case Some(q) =>
        match ReadScript(q.1)
        case None => None
        case Some(rest) => Some([q.0] + rest)
  }

  /** The column values of each post, in post order. */
  function ColumnsOf(posts: seq<SeedPost>): seq<seq<string>>
  {
    if |posts| == 0 then [] else [Columns(posts[0])] + ColumnsOf(posts[1..])
  }

  /**
    Whatever quotes the post's fields contain, a statement reads back as exactly
    those fields, with the `published` value 1 after them and the text that follows.
   */
  lemma ReadInserted(p: SeedPost, more: string)
    ensures ReadStatement(InsertHead + QuotedList(Columns(p)) + InsertTail + more) == Some((Columns(p), more))
  {
    var s := InsertHead + QuotedList(Columns(p)) + InsertTail + more;
    var tail := InsertTail + more;
    assert IsPrefix(InsertHead, s) && s[|InsertHead|..] == QuotedList(Columns(p)) + tail by {
      assert s == InsertHead + (QuotedList(Columns(p)) + tail);
    }
    ReadValues(p, tail);
    assert IsPrefix(InsertTail, tail) && tail[|InsertTail|..] == more;
  }

  lemma ReadValues(p: SeedPost, tail: string)
    requires IsPrefix(InsertTail, tail)
    ensures ReadFields(QuotedList(Columns(p)) + tail, 6) == Some((Columns(p), tail))
  {
    assert tail[0] == InsertTail[0] == ',';
    ReadFieldsOfQuotedList(Columns(p), tail);
  }

  /** One statement of the generated script; every post is inserted as published. */
  function InsertStatement(p: SeedPost): (r: string)
    ensures ReadStatement(r) == Some((Columns(p), ""))
  {
    var r := InsertHead + QuotedList(Columns(p)) + InsertTail;
    ReadInserted(p, "");
    assert r + "" == r;
    r
  }

  /** The whole script: the statements in post order. It reads back as every post's values, in order. */
  function SeedScript(posts: seq<SeedPost>): (r: string)
    ensures ReadScript(r) == Some(ColumnsOf(posts))
  {
    if |posts| == 0 then ""
    else
      var rest := SeedScript(posts[1..]);
      ReadInserted(posts[0], rest);
      InsertStatement(posts[0]) + rest
  }
}

=== FILE: catalog.dfy ===
/**
  Courses and lessons: the statements of `src/models/lessons.ts` and
  `src/models/courses.ts`, the lesson and course forms of the admin panel
  (`src/admin/courses.tsx`), and the two `order_index` encodings of a
  (module, lesson) pair: `module·1000 + lesson` in the model and
  `module·100 + lesson` in the admin forms.
 */
module Catalog {
  import opened Common
  import opened Text
  import opened Sql
  import BlogContent

  // ---------------------------------------------------------------------------
  // order_index

  const ModelStride: int := 1000
  const AdminStride: int := 100

  /** The position a (module, lesson) pair is given among the lessons of a course. */
  function OrderIndex(stride: int, moduleNumber: int, lessonNumber: int): (r: int)
    ensures stride > 0 && 0 <= lessonNumber < stride ==> r / stride == moduleNumber && r % stride == lessonNumber
  {
    DecodeIndex(stride, moduleNumber, lessonNumber);
    moduleNumber * stride + lessonNumber
  }

  /** Module first, then lesson. */
  predicate LexLess(m1: int, l1: int, m2: int, l2: int)
  {
    m1 < m2 || (m1 == m2 && l1 < l2)
  }

  lemma {:induction false} MulMono(a: int, b: int, s: int)
    requires a < b && s > 0
    ensures a * s + s <= b * s
    decreases b - a
  {
    assert (a + 1) * s == a * s + s;
    if a + 1 < b {
      MulMono(a + 1, b, s);
    }
  }

  /** While the lesson number stays below the stride, division by the stride recovers the pair. */
  lemma DecodeIndex(s: int, m: int, l: int)
    ensures s > 0 && 0 <= l < s ==> (m * s + l) / s == m && (m * s + l) % s == l
  {
    if s > 0 && 0 <= l < s {
      var n := m * s + l;
      var q, r := n / s, n % s;
      assert n == q * s + r && 0 <= r < s;
      if m < q {
        MulMono(m, q, s);
      } else if q < m {
        MulMono(q, m, s);
      }
    }
  }

  /**
    While lesson numbers stay below the stride, the encoding orders pairs
    exactly as module-then-lesson does, and distinct pairs get distinct
    indices.
   */
  lemma {:induction false} OrderIndexLex(stride: int, m1: int, l1: int, m2: int, l2: int)
    requires stride > 0 && 0 <= l1 < stride && 0 <= l2 < stride
    ensures OrderIndex(stride, m1, l1) < OrderIndex(stride, m2, l2) <==> LexLess(m1, l1, m2, l2)
    ensures OrderIndex(stride, m1, l1) == OrderIndex(stride, m2, l2) <==> m1 == m2 && l1 == l2
  {
    if m1 < m2 {
      MulMono(m1, m2, stride);
    } else if m2 < m1 {
      MulMono(m2, m1, stride);
    }
  }

  /** A lesson number equal to the stride lands on the next module's first slot. */
  lemma LessonNumberOverflows()
    ensures OrderIndex(ModelStride, 1, 1000) == OrderIndex(ModelStride, 2, 0)
    ensures OrderIndex(AdminStride, 1, 100) == OrderIndex(AdminStride, 2, 0)
    ensures OrderIndex(AdminStride, 1, 150) > OrderIndex(AdminStride, 2, 1)
  {
  }

  /** The admin forms and the model disagree on every lesson outside module 0. */
  lemma StridesDisagree(m: int, l: int)
    ensures OrderIndex(ModelStride, m, l) == OrderIndex(AdminStride, m, l) <==> m == 0
  {
  }

  /** Below 100 lessons per module, both encodings order lessons the same way. */
  lemma StridesOrderAlike(m1: int, l1: int, m2: int, l2: int)
    requires 0 <= l1 < AdminStride && 0 <= l2 < AdminStride
    ensures OrderIndex(ModelStride, m1, l1) < OrderIndex(ModelStride, m2, l2)
      <==> OrderIndex(AdminStride, m1, l1) < OrderIndex(AdminStride, m2, l2)
  {
    OrderIndexLex(ModelStride, m1, l1, m2, l2);
    OrderIndexLex(AdminStride, m1, l1, m2, l2);
  }

  // ---------------------------------------------------------------------------
  // Lessons

  /** A row of `lessons`. */
  datatype LessonRow = LessonRow(
    id: int,
    courseId: int,
    moduleNumber: int,
    lessonNumber: int,
    title: string,
    videoDuration: int,
    isPreview: int,
    published: int,
    orderIndex: int)

  /** `NewLesson`; an optional field is `None` when left `undefined`. */
  datatype NewLesson = NewLesson(
    courseId: int,
    moduleNumber: int,
    lessonNumber: int,
    title: string,
    description: Option<string>,
    videoUrl: Option<string>,
    videoDuration: Option<int>,
    content: Option<string>,
    isPreview: Option<int>,
    published: Option<int>,
    orderIndex: Option<int>)

  /** `lesson.order_index ?? (module·1000 + lesson)`. */
  function LessonOrderIndex(p: NewLesson): (i: int)
    ensures p.orderIndex.Some? ==> i == p.orderIndex.value
    ensures p.orderIndex.None? ==> i == OrderIndex(ModelStride, p.moduleNumber, p.lessonNumber)
  {
    if p.orderIndex.Some? then p.orderIndex.value else OrderIndex(ModelStride, p.moduleNumber, p.lessonNumber)
  }

  const LessonsTable: Lit := "lessons"

  const LessonColumns: seq<Lit> :=
    ["course_id", "module_number", "lesson_number", "title", "description", "video_url",
     "video_duration", "content", "is_preview", "published", "order_index"]

  function LessonValues(p: NewLesson): (vs: seq<Value>)
    ensures |vs| == |LessonColumns|
  {
    [Int(p.courseId), Int(p.moduleNumber), Int(p.lessonNumber), Str(p.title),
     StrOrNull(p.description), StrOrNull(p.videoUrl),
     Int(if Truthy(p.videoDuration) then p.videoDuration.value else 0),
     StrOrNull(p.content), Int(IntFlag(p.isPreview)), Int(IntFlag(p.published)), Int(LessonOrderIndex(p))]
  }

  /** `createLesson`. */
  function CreateLesson(p: NewLesson): (q: Stmt)
    ensures Args(q) == LessonValues(p)
  {
    InsertInto(LessonsTable, LessonColumns, LessonValues(p), [], [])
  }

  /** Flags are stored as 0 or 1, a missing duration as 0, and an explicit order index, even 0, is kept. */
  lemma CreateLessonDefaults(p: NewLesson)
    ensures var a := Args(CreateLesson(p));
      (a[8] == Int(0) || a[8] == Int(1)) && (a[9] == Int(1) <==> Truthy(p.published))
      && (p.videoDuration.None? ==> a[6] == Int(0))
      && (p.orderIndex == Some(0) ==> a[10] == Int(0))
      && (p.orderIndex.None? ==> a[10] == Int(p.moduleNumber * 1000 + p.lessonNumber))
  {
    var vs := LessonValues(p);
    assert Args(CreateLesson(p)) == vs;
    assert vs[6] == Int(if Truthy(p.videoDuration) then p.videoDuration.value else 0);
    assert vs[8] == Int(IntFlag(p.isPreview)) && vs[9] == Int(IntFlag(p.published));
    assert vs[10] == Int(LessonOrderIndex(p));
  }

  /** `Partial<NewLesson>`. */
  datatype LessonPatch = LessonPatch(
    courseId: Option<int>,
    moduleNumber: Option<int>,
    lessonNumber: Option<int>,
    title: Option<string>,
    description: Option<string>,
    videoUrl: Option<string>,
    videoDuration: Option<int>,
    content: Option<string>,
    isPreview: Option<int>,
    published: Option<int>,
    orderIndex: Option<int>)

  function IntField(column: Lit, v: Option<int>): (f: Field)
    ensures f.value.Some? <==> v.Some?
  {
    Field(column, if v.Some? then Some(Int(v.value)) else None)
  }

  function StrField(column: Lit, v: Option<string>): (f: Field)
    ensures f.value.Some? <==> v.Some?
  {
    Field(column, if v.Some? then Some(Str(v.value)) else None)
  }

  /** A flag field: `value ? 1 : 0` when supplied. */
  function FlagField(column: Lit, v: Option<int>): (f: Field)
    ensures f.value.Some? <==> v.Some?
    ensures v.Some? ==> f.value == Some(Int(IntFlag(v)))
  {
    Field(column, if v.Some? then Some(Int(IntFlag(v))) else None)
  }

  /** The settable lesson columns, in the order the update checks them. */
  function LessonFields(p: LessonPatch): (fields: seq<Field>)
    ensures |fields| == |LessonColumns|
  {
    var c := LessonColumns;
    [IntField(c[0], p.courseId), IntField(c[1], p.moduleNumber), IntField(c[2], p.lessonNumber),
     StrField(c[3], p.title), StrField(c[4], p.description), StrField(c[5], p.videoUrl),
     IntField(c[6], p.videoDuration), StrField(c[7], p.content), FlagField(c[8], p.isPreview),
     FlagField(c[9], p.published), IntField(c[10], p.orderIndex)]
  }

  /** The update checks the same columns, in the same order, as the insert lists them. */
  lemma LessonFieldsFollowColumns(p: LessonPatch)
    ensures forall i :: 0 <= i < |LessonColumns| ==> LessonFields(p)[i].column == LessonColumns[i]
  {
  }

  /** `updateLesson`: the supplied fields, `updated_at`, and the id last. */
  function UpdateLesson(id: int, p: LessonPatch): (q: Stmt)
    ensures Args(q) == Supplied(LessonFields(p)) + [Int(id)]
  {
    UpdateById(LessonsTable, LessonFields(p), [TouchUpdated], Int(id))
  }

  const NoLessonChange: LessonPatch := LessonPatch(None, None, None, None, None, None, None, None, None, None, None)

  /** Moving a lesson to another module binds the module and the id only: `order_index` is not recomputed. */
  lemma MoveKeepsOrderIndex(id: int, m: int)
    ensures Args(UpdateLesson(id, NoLessonChange.(moduleNumber := Some(m)))) == [Int(m), Int(id)]
    ensures Args(UpdateLesson(id, NoLessonChange)) == [Int(id)]
  {
    var fields := LessonFields(NoLessonChange.(moduleNumber := Some(m)));
    OnlyModuleSupplied(m);
    SuppliedOnly(fields, 1);
    SuppliedNone(LessonFields(NoLessonChange));
  }

  lemma OnlyModuleSupplied(m: int)
    ensures var fields := LessonFields(NoLessonChange.(moduleNumber := Some(m)));
      fields[1].value == Some(Int(m)) && forall i :: 0 <= i < |fields| && i != 1 ==> fields[i].value.None?
  {
  }

  /** The values of a field list in which only the `k`-th field is supplied. */
  lemma {:induction false} SuppliedOnly(fields: seq<Field>, k: nat)
    requires k < |fields| && fields[k].value.Some?
    requires forall i :: 0 <= i < |fields| && i != k ==> fields[i].value.None?
    ensures Supplied(fields) == [fields[k].value.value]
  {
    if k == 0 {
      SuppliedNone(fields[1..]);
    } else {
      SuppliedOnly(fields[1..], k - 1);
    }
  }

  /** A moved lesson keeps its old index, which no longer encodes its module. */
  lemma MovedLessonIsMisplaced(row: LessonRow)
    requires row.moduleNumber == 1 && row.lessonNumber == 1 && row.orderIndex == OrderIndex(ModelStride, 1, 1)
    ensures var moved := row.(moduleNumber := 2);
      moved.orderIndex != OrderIndex(ModelStride, moved.moduleNumber, moved.lessonNumber)
  {
  }

  const LessonListA: Lit := "SELECT id, module_number, lesson_number,"
  const LessonListB: Lit := " title, video_duration, is_preview,"
  const LessonListC: Lit := " order_index FROM lessons"
  const WhereCourse: Lit := " WHERE course_id = "
  const AndPublished: Lit := " AND published = 1"
  const LessonOrderA: Lit := " ORDER BY order_index ASC,"
  const LessonOrderB: Lit := " module_number ASC, lesson_number ASC"

  /** `getLessonsByCourseId`: the course, optionally only published lessons, in index order. */
  function LessonsByCourseQuery(courseId: int, publishedOnly: bool): (q: Stmt)
    ensures Args(q) == [Int(courseId)]
    ensures Text(AndPublished) in q <==> publishedOnly
  {
    var head := Cat(Cat(Cat(L(LessonListA), L(LessonListB)), L(LessonListC)), Cat(L(WhereCourse), P(Int(courseId))));
    var filter := if publishedOnly then L(AndPublished) else [];
    var order := Cat(L(LessonOrderA), L(LessonOrderB));
    assert |AndPublished| == 18;
    assert |LessonListA| > 18 && |LessonListB| > 18 && |LessonListC| > 18 && |WhereCourse| != 18;
    assert |LessonOrderA| > 18 && |LessonOrderB| > 18;
    Cat(Cat(head, filter), order)
  }

  /** The rows the query selects. */
  predicate InCourse(row: LessonRow, courseId: int, publishedOnly: bool)
  {
    row.courseId == courseId && (publishedOnly ==> row.published == 1)
  }

  /** The sort key of the query: index, then module, then lesson. */
  predicate KeyLess(a: LessonRow, b: LessonRow)
  {
    a.orderIndex < b.orderIndex
    || (a.orderIndex == b.orderIndex && LexLess(a.moduleNumber, a.lessonNumber, b.moduleNumber, b.lessonNumber))
  }

  /** Lessons created without an explicit index, with fewer than 1000 per module, come out in module-then-lesson order. */
  lemma ModelIndexSortsByModule(a: LessonRow, b: LessonRow)
    requires a.orderIndex == OrderIndex(ModelStride, a.moduleNumber, a.lessonNumber)
    requires b.orderIndex == OrderIndex(ModelStride, b.moduleNumber, b.lessonNumber)
    requires 0 <= a.lessonNumber < ModelStride && 0 <= b.lessonNumber < ModelStride
    ensures KeyLess(a, b) <==> LexLess(a.moduleNumber, a.lessonNumber, b.moduleNumber, b.lessonNumber)
  {
    OrderIndexLex(ModelStride, a.moduleNumber, a.lessonNumber, b.moduleNumber, b.lessonNumber);
  }

  // ---------------------------------------------------------------------------
  // Courses

  /** `NewCourse`; `price` is a JavaScript number. */
  datatype NewCourse = NewCourse(
    title: string,
    slug: string,
    subtitle: Option<string>,
    description: Option<string>,
    price: Option<real>,
    currency: Option<string>,
    durationWeeks: Option<int>,
    level: Option<string>,
    featuredImage: Option<string>,
    published: Option<int>)

  const CoursesTable: Lit := "courses"
  const DefaultCurrency: string := "USD"
  const DefaultLevel: string := "all_levels"

  const CourseColumns: seq<Lit> :=
    ["title", "slug", "subtitle", "description", "price", "currency", "duration_weeks", "level",
     "featured_image", "published"]

  function CourseValues(p: NewCourse): (vs: seq<Value>)
    ensures |vs| == |CourseColumns|
  {
    [Str(p.title), Str(p.slug), StrOrNull(p.subtitle), StrOrNull(p.description),
     Num(if p.price.Some? && p.price.value != 0.0 then p.price.value else 0.0),
     Str(if TruthyStr(p.currency) then p.currency.value else DefaultCurrency),
     Int(if Truthy(p.durationWeeks) then p.durationWeeks.value else 0),
     Str(if TruthyStr(p.level) then p.level.value else DefaultLevel),
     StrOrNull(p.featuredImage), Int(IntFlag(p.published))]
  }

  const CreatedAtColumn: Lit := "created_at"

  /** `createCourse`: ten bound columns and `created_at`. */
  function CreateCourse(p: NewCourse): (q: Stmt)
    ensures Args(q) == CourseValues(p)
  {
    InsertInto(CoursesTable, CourseColumns, CourseValues(p), [CreatedAtColumn], [Now])
  }

  /** A course given only a title and a slug: free, in dollars, no duration, all levels, unpublished. */
  lemma CreateCourseDefaults(title: string, slug: string)
    ensures Args(CreateCourse(NewCourse(title, slug, None, None, None, None, None, None, None, None)))
      == [Str(title), Str(slug), Null, Null, Num(0.0), Str(DefaultCurrency), Int(0), Str(DefaultLevel), Null, Int(0)]
  {
  }

  /** `Partial<NewCourse>`. */
  datatype CoursePatch = CoursePatch(
    title: Option<string>,
    slug: Option<string>,
    subtitle: Option<string>,
    description: Option<string>,
    price: Option<real>,
    currency: Option<string>,
    durationWeeks: Option<int>,
    level: Option<string>,
    featuredImage: Option<string>,
    published: Option<int>)

  function CourseFields(p: CoursePatch): (fields: seq<Field>)
    ensures |fields| == |CourseColumns|
  {
    var c := CourseColumns;
    [StrField(c[0], p.title), StrField(c[1], p.slug), StrField(c[2], p.subtitle), StrField(c[3], p.description),
     Field(c[4], if p.price.Some? then Some(Num(p.price.value)) else None),
     StrField(c[5], p.currency), IntField(c[6], p.durationWeeks), StrField(c[7], p.level),
     StrField(c[8], p.featuredImage), FlagField(c[9], p.published)]
  }

  /** The update checks the same columns, in the same order, as the insert lists them. */
  lemma CourseFieldsFollowColumns(p: CoursePatch)
    ensures forall i :: 0 <= i < |CourseColumns| ==> CourseFields(p)[i].column == CourseColumns[i]
  {
  }

  /** `updateCourse`: no statement at all when nothing is supplied; no `updated_at`. */
  function UpdateCourse(id: int, p: CoursePatch): (q: Option<Stmt>)
    ensures q.None? <==> Supplied(CourseFields(p)) == []
    ensures q.Some? ==> Args(q.value) == Supplied(CourseFields(p)) + [Int(id)]
  {
    if Supplied(CourseFields(p)) == [] then None
    else Some(UpdateById(CoursesTable, CourseFields(p), [], Int(id)))
  }

  const NoCourseChange: CoursePatch := CoursePatch(None, None, None, None, None, None, None, None, None, None)

  /** An empty course update sends nothing, where an empty lesson update still touches `updated_at`. */
  lemma EmptyUpdates(id: int)
    ensures UpdateCourse(id, NoCourseChange).None?
    ensures Args(UpdateLesson(id, NoLessonChange)) == [Int(id)]
  {
    NothingSupplied();
    assert Supplied(LessonFields(NoLessonChange)) + [Int(id)] == [Int(id)];
  }

  lemma NothingSupplied()
    ensures Supplied(CourseFields(NoCourseChange)) == []
    ensures Supplied(LessonFields(NoLessonChange)) == []
  {
    var c := CourseFields(NoCourseChange);
    assert forall i :: 0 <= i < |c| ==> c[i].value.None?;
    SuppliedNone(c);
    var l := LessonFields(NoLessonChange);
    assert forall i :: 0 <= i < |l| ==> l[i].value.None?;
    SuppliedNone(l);
  }

  /** Publishing through an update stores 1 for any non-zero flag. */
  lemma PublishedCoerced(id: int, flag: int)
    requires flag != 0
    ensures UpdateCourse(id, NoCourseChange.(published := Some(flag))).Some?
    ensures Args(UpdateCourse(id, NoCourseChange.(published := Some(flag))).value) == [Int(1), Int(id)]
  {
    var fields := CourseFields(NoCourseChange.(published := Some(flag)));
    SuppliedOnly(fields, 9);
  }

  // ---------------------------------------------------------------------------
  // The admin course and lesson forms

  /** The fields of the new-course form; the title is required by the form. */
  datatype CourseForm = CourseForm(
    title: string,
    subtitle: Option<string>,
    description: Option<string>,
    price: Option<string>,
    currency: Option<string>,
    durationWeeks: Option<string>,
    featuredImage: Option<string>)

  const DefaultWeeks: int := 4

  const PublishedColumn: Lit := "published"
  const Unpublished: Lit := "0"

  const AdminCourseColumns: seq<Lit> :=
    ["title", "slug", "subtitle", "description", "price", "currency", "duration_weeks", "featured_image"]

  function AdminCourseValues(f: CourseForm): (vs: seq<Value>)
    ensures |vs| == |AdminCourseColumns|
  {
    [Str(f.title), Str(BlogContent.CreateSlug(f.title)), StrOrNull(f.subtitle), StrOrNullish(f.description),
     StrOrNullish(f.price), StrOrNullish(f.currency),
     if TruthyStr(f.durationWeeks) then Str(f.durationWeeks.value) else Int(DefaultWeeks),
     StrOrNull(f.featuredImage)]
  }

  /** The create action: the slug comes from the title and the course starts unpublished. */
  function AdminCreateCourse(f: CourseForm): (q: Stmt)
    ensures Args(q) == AdminCourseValues(f)
  {
    assert |AdminCourseColumns| == |AdminCourseValues(f)| == 8;
    InsertInto(CoursesTable, AdminCourseColumns, AdminCourseValues(f), [PublishedColumn], [Unpublished])
  }

  /** The slug bound for a new course is a well-formed slug of its title; absent extras are NULL; 4 weeks by default. */
  lemma AdminCourseDefaults(f: CourseForm)
    ensures var a := Args(AdminCreateCourse(f));
      a[1].Str? && BlogContent.IsSlug(a[1].s) && a[1].s == BlogContent.CreateSlug(f.title)
      && (!TruthyStr(f.subtitle) ==> a[2] == Null)
      && (!TruthyStr(f.featuredImage) ==> a[7] == Null)
      && (!TruthyStr(f.durationWeeks) ==> a[6] == Int(DefaultWeeks))
  {
    AdminValuesDefaults(f);
  }

  lemma AdminValuesDefaults(f: CourseForm)
    ensures var a := AdminCourseValues(f);
      a[1].Str? && BlogContent.IsSlug(a[1].s) && a[1].s == BlogContent.CreateSlug(f.title)
      && (!TruthyStr(f.subtitle) ==> a[2] == Null)
      && (!TruthyStr(f.featuredImage) ==> a[7] == Null)
      && (!TruthyStr(f.durationWeeks) ==> a[6] == Int(DefaultWeeks))
  {
    var slug := BlogContent.CreateSlug(f.title);
    AdminSlugValue(f);
    assert BlogContent.IsSlug(slug);
    AdminExtrasDefaults(f);
  }

  lemma AdminSlugValue(f: CourseForm)
    ensures AdminCourseValues(f)[1] == Str(BlogContent.CreateSlug(f.title))
  {
  }

  lemma AdminExtrasDefaults(f: CourseForm)
    ensures var a := AdminCourseValues(f);
      (!TruthyStr(f.subtitle) ==> a[2] == Null)
      && (!TruthyStr(f.featuredImage) ==> a[7] == Null)
      && (!TruthyStr(f.durationWeeks) ==> a[6] == Int(DefaultWeeks))
  {
  }

  /** The form defaults a course to 4 weeks; the model function to 0. */
  lemma DurationDefaultsDiffer(f: CourseForm, title: string, slug: string)
    requires f.durationWeeks.None?
    ensures AdminCourseValues(f)[6] == Int(4)
    ensures CourseValues(NewCourse(title, slug, None, None, None, None, None, None, None, None))[6] == Int(0)
  {
    AdminExtrasDefaults(f);
  }

  const AdminCourseUpdateA: Lit := "UPDATE courses SET title = "
  const SlugSet: Lit := ", slug = "
  const PriceSet: Lit := ", price = "
  const PublishedSet: Lit := ", published = "

  /** The edit-course action: four columns, the checkbox as 0/1, `updated_at`, then the id. */
  function AdminUpdateCourse(id: string, title: Option<string>, slug: Option<string>, price: Option<string>,
                             published: Option<string>): (q: Stmt)
    ensures Args(q) == [StrOrNullish(title), StrOrNullish(slug), StrOrNullish(price), Int(Flag(published)), Str(id)]
  {
    Cat(Cat(Cat(Cat(L(AdminCourseUpdateA), P(StrOrNullish(title))), Cat(L(SlugSet), P(StrOrNullish(slug)))),
            Cat(Cat(L(PriceSet), P(StrOrNullish(price))), Cat(L(PublishedSet), P(Int(Flag(published)))))),
        Cat(Cat(L(Comma), L(TouchUpdated)), Cat(L(WhereId), P(Str(id)))))
  }

  /** A ticked checkbox (sent as its value `1`) publishes; an unticked one, which is not sent, unpublishes. */
  lemma CheckboxPublishes(id: string, title: Option<string>, slug: Option<string>, price: Option<string>)
    ensures Args(AdminUpdateCourse(id, title, slug, price, Some("1")))[3] == Int(1)
    ensures Args(AdminUpdateCourse(id, title, slug, price, None))[3] == Int(0)
  {
  }

  /** `parseInt(module) * 100 + parseInt(lesson)`; `None` stands for `NaN`. */
  function AdminOrderIndex(moduleNumber: string, lessonNumber: string): (i: Option<int>)
    ensures i.Some? <==> ParseInt(moduleNumber).Some? && ParseInt(lessonNumber).Some?
    ensures i.Some? ==> i.value == OrderIndex(AdminStride, ParseInt(moduleNumber).value, ParseInt(lessonNumber).value)
  {
    var m := ParseInt(moduleNumber);
    var l := ParseInt(lessonNumber);
    if m.Some? && l.Some? then Some(m.value * AdminStride + l.value) else None
  }

  /** Numbers typed into the form give the ×100 encoding of the pair. */
  lemma AdminOrderIndexOfNumbers(m: nat, l: nat)
    ensures AdminOrderIndex(NatToString(m), NatToString(l)) == Some(OrderIndex(AdminStride, m, l))
  {
    ParseIntOfNatToString(m);
    ParseIntOfNatToString(l);
  }

  /** The lesson form; the numbers arrive as text and are stored as sent. */
  datatype LessonForm = LessonForm(
    moduleNumber: string,
    lessonNumber: string,
    title: string,
    description: Option<string>,
    videoUrl: Option<string>,
    content: Option<string>,
    published: Option<string>)

  /** The values the create and edit actions share, in their column order. */
  function AdminLessonValues(f: LessonForm): (vs: seq<Value>)
    ensures |vs| == 8
    ensures vs[6] == (if AdminOrderIndex(f.moduleNumber, f.lessonNumber).Some?
                      then Int(AdminOrderIndex(f.moduleNumber, f.lessonNumber).value) else Null)
    ensures vs[7] == Int(Flag(f.published))
  {
    var idx := AdminOrderIndex(f.moduleNumber, f.lessonNumber);
    [Str(f.moduleNumber), Str(f.lessonNumber), Str(f.title), StrOrNull(f.description),
     StrOrNull(f.videoUrl), StrOrNull(f.content), if idx.Some? then Int(idx.value) else Null,
     Int(Flag(f.published))]
  }

  const AdminLessonColumns: seq<Lit> :=
    ["course_id", "module_number", "lesson_number", "title", "description", "video_url", "content",
     "order_index", "published"]

  /** The create-lesson action: the course id from the path, then the form values. */
  function AdminCreateLesson(courseId: string, f: LessonForm): (q: Stmt)
    ensures Args(q) == [Str(courseId)] + AdminLessonValues(f)
  {
    InsertInto(LessonsTable, AdminLessonColumns, [Str(courseId)] + AdminLessonValues(f), [], [])
  }

  /** Every column given, with its value: `column = ?` for each. */
  function AllGiven(columns: seq<Lit>, values: seq<Value>): (fields: seq<Field>)
    requires |columns| == |values|
    ensures |fields| == |columns|
    ensures forall i :: 0 <= i < |fields| ==> fields[i] == Field(columns[i], Some(values[i]))
    ensures Supplied(fields) == values
    decreases |columns|
  {
    if |columns| == 0 then []
    else
      var head := [Field(columns[0], Some(values[0]))];
      var tail := AllGiven(columns[1..], values[1..]);
      SuppliedAppend(head, tail);
      assert Supplied(head) == [values[0]] by { assert head[1..] == []; }
      head + tail
  }

  /** The edit-lesson action: the form values, in the create action's column order, `updated_at`, then the lesson id. */
  function AdminUpdateLesson(lessonId: string, f: LessonForm): (q: Stmt)
    ensures Args(q) == AdminLessonValues(f) + [Str(lessonId)]
  {
    UpdateById(LessonsTable, AllGiven(AdminLessonColumns[1..], AdminLessonValues(f)), [TouchUpdated], Str(lessonId))
  }

  /** Creating and editing a lesson bind the same form values, so an edit recomputes the ×100 index as a create does. */
  lemma AdminCreateAndEditAgree(courseId: string, lessonId: string, f: LessonForm)
    ensures Args(AdminCreateLesson(courseId, f))[1..] == Args(AdminUpdateLesson(lessonId, f))[..8]
    ensures Args(AdminUpdateLesson(lessonId, f))[8] == Str(lessonId)
  {
  }

  /** A lesson created in the admin panel and the same lesson created through the model get different indices. */
  lemma AdminAndModelIndicesDiffer(courseId: nat, m: nat, l: nat, f: LessonForm, p: NewLesson)
    requires m > 0
    requires f.moduleNumber == NatToString(m) && f.lessonNumber == NatToString(l)
    requires p.courseId == courseId && p.moduleNumber == m && p.lessonNumber == l && p.orderIndex.None?
    ensures Args(AdminCreateLesson(NatToString(courseId), f))[7] == Int(OrderIndex(AdminStride, m, l))
    ensures Args(CreateLesson(p))[10] == Int(OrderIndex(ModelStride, m, l))
    ensures OrderIndex(AdminStride, m, l) != OrderIndex(ModelStride, m, l)
  {
    AdminOrderIndexOfNumbers(m, l);
  }
}

=== FILE: common.dfy ===
/**
  Shared datatypes and sequence helpers used by every other module of the model.
  `Option` stands for a JavaScript `undefined`/`null` (or a Python `None`),
  `Result` for a value or a thrown error.
 */
module Common {

  datatype Option<+T> = None | Some(value: T) {
    function GetOr(default: T): T {
      match this
      case Some(v) => v
      case None => default
    }
  }

  datatype Result<+T> = Ok(value: T) | Err(msg: string)

  /** Elements of `s` satisfying `p`, in their original order. */
  function Filter<T>(s: seq<T>, p: T -> bool): (r: seq<T>)
    ensures |r| <= |s|
    ensures forall x :: x in r ==> x in s && p(x)
    ensures forall x :: x in s && p(x) ==> x in r
  {
    if |s| == 0 then []
    else (if p(s[0]) then [s[0]] else []) + Filter(s[1..], p)
  }

  /** Number of elements of `s` satisfying `p`. */
  function CountWhere<T>(s: seq<T>, p: T -> bool): (n: nat)
    ensures n <= |s|
  {
    if |s| == 0 then 0
    else (if p(s[0]) then 1 else 0) + CountWhere(s[1..], p)
  }

  lemma {:induction false} FilterLength<T>(s: seq<T>, p: T -> bool)
    ensures |Filter(s, p)| == CountWhere(s, p)
  {
    if |s| > 0 {
      FilterLength(s[1..], p);
    }
  }

  lemma {:induction false} FilterAppend<T>(a: seq<T>, b: seq<T>, p: T -> bool)
    ensures Filter(a + b, p) == Filter(a, p) + Filter(b, p)
  {
    if |a| == 0 {
      assert a + b == b;
    } else {
      assert (a + b)[1..] == a[1..] + b;
      FilterAppend(a[1..], b, p);
    }
  }

  lemma {:induction false} CountWhereAppend<T>(a: seq<T>, b: seq<T>, p: T -> bool)
    ensures CountWhere(a + b, p) == CountWhere(a, p) + CountWhere(b, p)
  {
    FilterAppend(a, b, p);
    FilterLength(a + b, p);
    FilterLength(a, p);
    FilterLength(b, p);
  }

  /** `s.findIndex(p)`: the position of the first element satisfying `p`, if any. */
  function FindFirst<T>(s: seq<T>, p: T -> bool): (r: Option<nat>)
    ensures r.Some? ==> r.value < |s| && p(s[r.value]) && forall j :: 0 <= j < r.value ==> !p(s[j])
    ensures r.None? ==> forall j :: 0 <= j < |s| ==> !p(s[j])
  {
    if |s| == 0 then None
    else if p(s[0]) then Some(0)
    else
      var r := FindFirst(s[1..], p);
      if r.Some? then Some(r.value + 1) else None
  }

  /** The first `n` elements of `s`, or all of them (JavaScript `slice(0, n)`). */
  function Take<T>(s: seq<T>, n: nat): (r: seq<T>)
    ensures |r| <= n && |r| <= |s|
    ensures |s| <= n ==> r == s
    ensures r <= s
  {
    if |s| <= n then s else s[..n]
  }

  /** Concatenation of a sequence of sequences. */
  function Flatten<T>(ss: seq<seq<T>>): seq<T>
  {
    if |ss| == 0 then [] else ss[0] + Flatten(ss[1..])
  }

  lemma {:induction false} FlattenAppend<T>(a: seq<seq<T>>, b: seq<seq<T>>)
    ensures Flatten(a + b) == Flatten(a) + Flatten(b)
  {
    if |a| == 0 {
      assert a + b == b;
    } else {
      assert (a + b)[1..] == a[1..] + b;
      FlattenAppend(a[1..], b);
    }
  }

  /** `sub` can be obtained from `s` by deleting elements (relative order kept). */
  predicate IsSubsequence<T(==)>(sub: seq<T>, s: seq<T>)
    decreases |s|
  {
    if |sub| == 0 then true
    else if |s| == 0 then false
    else if sub[0] == s[0] then IsSubsequence(sub[1..], s[1..])
    else IsSubsequence(sub, s[1..])
  }

  lemma {:induction false} FilterIsSubsequence<T>(s: seq<T>, p: T -> bool)
    ensures IsSubsequence(Filter(s, p), s)
  {
    if |s| > 0 {
      FilterIsSubsequence(s[1..], p);
      if p(s[0]) {
        assert Filter(s, p) == [s[0]] + Filter(s[1..], p);
        assert Filter(s, p)[1..] == Filter(s[1..], p);
      } else {
        assert Filter(s, p) == Filter(s[1..], p);
        SubsequenceSkip(Filter(s[1..], p), s);
      }
    }
  }

  /** A subsequence of the tail is a subsequence of the whole. */
  lemma {:induction false} SubsequenceSkip<T>(sub: seq<T>, s: seq<T>)
    requires |s| > 0 && IsSubsequence(sub, s[1..])
    ensures IsSubsequence(sub, s)
    decreases |s|, 0
  {
    if |sub| > 0 && sub[0] == s[0] {
      // IsSubsequence(sub, s) reduces to IsSubsequence(sub[1..], s[1..])
      SubsequenceDropHead(sub, s[1..]);
    }
  }

  lemma {:induction false} SubsequenceDropHead<T>(sub: seq<T>, s: seq<T>)
    requires |sub| > 0 && IsSubsequence(sub, s)
    ensures IsSubsequence(sub[1..], s)
    decreases |s|, 1
  {
    if sub[0] == s[0] {
      if |sub| > 1 {
        SubsequenceSkip(sub[1..], s);
      }
    } else {
      SubsequenceDropHead(sub, s[1..]);
      if |sub| > 1 {
        SubsequenceSkip(sub[1..], s);
      }
    }
  }
}

=== FILE: enrollments.dfy ===
/**
  The `paid_enrollments` table and the operations on it
  (`src/features/courses/models/enrollments.ts`, `src/webhook-utils.ts`,
  `src/auth-utils.ts`). The table is a sequence of rows in insertion order;
  `.first()` is the first matching row; amounts are whole numbers.
 */
module Enrollments {
  import opened Common
  import opened Text
  import opened Sql
  import opened Like

  const Pending: string := "pending"
  const Completed: string := "completed"
  const Failed: string := "failed"
  const Refunded: string := "refunded"
  const Disputed: string := "disputed"
  const DefaultCurrency: string := "USD"

  datatype Enrollment = Enrollment(
    id: int,
    userId: int,
    courseId: int,
    paymentId: Option<string>,
    status: string,
    amountPaid: int,
    currency: string,
    paymentMethod: Option<string>,
    expiresAt: Option<string>,
    revoked: int)

  // ---------------------------------------------------------------------------
  // Access

  /** The row pays for this course, the payment completed and access was not revoked. */
  predicate GrantsAccess(e: Enrollment, userId: int, courseId: int)
  {
    e.userId == userId && e.courseId == courseId && e.status == Completed && e.revoked == 0
  }

  predicate HasAccess(table: seq<Enrollment>, userId: int, courseId: int)
  {
    exists i :: 0 <= i < |table| && GrantsAccess(table[i], userId, courseId)
  }

  /** `userHasAccess`: whether the `SELECT id … LIMIT`-free lookup finds a row. */
  function UserHasAccess(table: seq<Enrollment>, userId: int, courseId: int): (r: bool)
    ensures r <==> HasAccess(table, userId, courseId)
  {
    FindFirst(table, e => GrantsAccess(e, userId, courseId)).Some?
  }

  // ---------------------------------------------------------------------------
  // createEnrollment

  /** What a caller of `createEnrollment` passes; optional fields may be left out. */
  datatype NewEnrollment = NewEnrollment(
    userId: int,
    courseId: int,
    paymentId: Option<string>,
    status: Option<string>,
    amountPaid: int,
    currency: Option<string>,
    paymentMethod: Option<string>,
    expiresAt: Option<string>,
    revoked: Option<int>)

  /** `value || fallback` for an optional string. */
  function StrOr(v: Option<string>, fallback: string): (r: string)
    ensures TruthyStr(v) ==> r == v.value
    ensures !TruthyStr(v) ==> r == fallback
  {
    if TruthyStr(v) then v.value else fallback
  }

  /** `value || null` for an optional string column. */
  function OptStr(v: Option<string>): (r: Option<string>)
    ensures r.Some? <==> TruthyStr(v)
    ensures r.Some? ==> r == v
  {
    if TruthyStr(v) then v else None
  }

  /** The row `createEnrollment` inserts with the given id. */
  function EnrollmentRow(n: NewEnrollment, id: int): (e: Enrollment)
    ensures e.id == id && e.userId == n.userId && e.courseId == n.courseId && e.amountPaid == n.amountPaid
    ensures e.status == StrOr(n.status, Pending) && e.currency == StrOr(n.currency, DefaultCurrency)
    ensures e.paymentId == OptStr(n.paymentId) && e.paymentMethod == OptStr(n.paymentMethod) && e.expiresAt == OptStr(n.expiresAt)
    ensures Truthy(n.revoked) ==> e.revoked == n.revoked.value
    ensures !Truthy(n.revoked) ==> e.revoked == 0
  {
    Enrollment(id, n.userId, n.courseId, OptStr(n.paymentId), StrOr(n.status, Pending), n.amountPaid,
               StrOr(n.currency, DefaultCurrency), OptStr(n.paymentMethod), OptStr(n.expiresAt),
               if Truthy(n.revoked) then n.revoked.value else 0)
  }

  function CreateEnrollment(table: seq<Enrollment>, n: NewEnrollment, id: int): (t: seq<Enrollment>)
    ensures t == table + [EnrollmentRow(n, id)]
  {
    table + [EnrollmentRow(n, id)]
  }

  /** With only the required fields, a new enrolment is pending in USD and grants no access. */
  lemma CreateEnrollmentDefaults(table: seq<Enrollment>, userId: int, courseId: int, amount: int, id: int)
    ensures var n := NewEnrollment(userId, courseId, None, None, amount, None, None, None, None);
      var e := CreateEnrollment(table, n, id)[|table|];
      e.status == Pending && e.currency == DefaultCurrency && e.revoked == 0 && e.paymentId.None?
      && (HasAccess(CreateEnrollment(table, n, id), userId, courseId) <==> HasAccess(table, userId, courseId))
  {
    var n := NewEnrollment(userId, courseId, None, None, amount, None, None, None, None);
    var t := CreateEnrollment(table, n, id);
    if HasAccess(table, userId, courseId) {
      var i :| 0 <= i < |table| && GrantsAccess(table[i], userId, courseId);
      assert t[i] == table[i];
    }
    if HasAccess(t, userId, courseId) {
      var i :| 0 <= i < |t| && GrantsAccess(t[i], userId, courseId);
      assert i < |table| && t[i] == table[i];
    }
  }

  /** An explicit `''` status or currency is falsy and falls back to the default, unlike `??`. */
  lemma EmptyStatusFallsBack(table: seq<Enrollment>, n: NewEnrollment, id: int)
    requires n.status == Some("") && n.currency == Some("")
    ensures CreateEnrollment(table, n, id)[|table|].status == Pending
    ensures CreateEnrollment(table, n, id)[|table|].currency == DefaultCurrency
  {
  }

  // ---------------------------------------------------------------------------
  // Lookups and status updates by payment

  /** The row belongs to this payment of this provider. */
  predicate IsPayment(e: Enrollment, paymentId: string, provider: string)
  {
    e.paymentId == Some(paymentId) && e.paymentMethod == Some(provider)
  }

  predicate HasPayment(table: seq<Enrollment>, paymentId: string, provider: string)
  {
    exists i :: 0 <= i < |table| && IsPayment(table[i], paymentId, provider)
  }

  /** `getEnrollmentByPaymentId`: the first row of this payment. */
  function FindByPayment(table: seq<Enrollment>, paymentId: string, provider: string): (r: Option<Enrollment>)
    ensures r.Some? <==> HasPayment(table, paymentId, provider)
    ensures r.Some? ==> r.value in table && IsPayment(r.value, paymentId, provider)
  {
    var k := FindFirst(table, e => IsPayment(e, paymentId, provider));
    if k.Some? then Some(table[k.value]) else None
  }

  /** Sets `status` on every row of the payment; other rows are untouched. */
  function SetStatus(table: seq<Enrollment>, paymentId: string, status: string, provider: string): (t: seq<Enrollment>)
    ensures |t| == |table|
    ensures forall i :: 0 <= i < |t| && IsPayment(table[i], paymentId, provider) ==> t[i] == table[i].(status := status)
    ensures forall i :: 0 <= i < |t| && !IsPayment(table[i], paymentId, provider) ==> t[i] == table[i]
  {
    seq(|table|, i requires 0 <= i < |table| =>
      if IsPayment(table[i], paymentId, provider) then table[i].(status := status) else table[i])
  }

  /**
    `updateEnrollmentStatus`: the updated table and whether any row changed
    (`meta.changes > 0`, which counts every row the `WHERE` matched).
   */
  function UpdateEnrollmentStatus(table: seq<Enrollment>, paymentId: string, status: string, provider: string):
    (r: (seq<Enrollment>, bool))
    ensures r.0 == SetStatus(table, paymentId, status, provider)
    ensures r.1 <==> HasPayment(table, paymentId, provider)
  {
    (SetStatus(table, paymentId, status, provider), FindByPayment(table, paymentId, provider).Some?)
  }

  /** A status update touches no one else's access. */
  lemma StatusUpdateIsLocal(table: seq<Enrollment>, paymentId: string, status: string, provider: string,
                            userId: int, courseId: int)
    requires forall i :: 0 <= i < |table| && table[i].userId == userId && table[i].courseId == courseId ==>
      !IsPayment(table[i], paymentId, provider)
    ensures HasAccess(SetStatus(table, paymentId, status, provider), userId, courseId) <==> HasAccess(table, userId, courseId)
  {
    var t := SetStatus(table, paymentId, status, provider);
    if HasAccess(table, userId, courseId) {
      var i :| 0 <= i < |table| && GrantsAccess(table[i], userId, courseId);
      assert GrantsAccess(t[i], userId, courseId);
    }
    if HasAccess(t, userId, courseId) {
      var i :| 0 <= i < |t| && GrantsAccess(t[i], userId, courseId);
      assert t[i] == table[i];
    }
  }

  // ---------------------------------------------------------------------------
  // Enrolment from a webhook

  datatype WebhookPayment = WebhookPayment(
    userId: int, courseId: int, paymentId: string, amount: int, currency: string, provider: string)

  function WebhookRow(d: WebhookPayment, id: int): (e: Enrollment)
    ensures IsPayment(e, d.paymentId, d.provider) && GrantsAccess(e, d.userId, d.courseId)
  {
    Enrollment(id, d.userId, d.courseId, Some(d.paymentId), Completed, d.amount, d.currency, Some(d.provider), None, 0)
  }

  /**
    `createEnrollmentFromWebhook`: the existing row of the payment when there
    is one (nothing is inserted), otherwise a new completed row.
   */
  function CreateEnrollmentFromWebhook(table: seq<Enrollment>, d: WebhookPayment, id: int): (r: (seq<Enrollment>, Enrollment))
    ensures HasPayment(table, d.paymentId, d.provider) ==>
      r.0 == table && r.1 == FindByPayment(table, d.paymentId, d.provider).value
    ensures !HasPayment(table, d.paymentId, d.provider) ==>
      r.0 == table + [WebhookRow(d, id)] && r.1 == WebhookRow(d, id)
    ensures r.1 in r.0 && IsPayment(r.1, d.paymentId, d.provider)
  {
    match FindByPayment(table, d.paymentId, d.provider)
    case Some(e) => (table, e)
    case None => (table + [WebhookRow(d, id)], WebhookRow(d, id))
  }

  lemma NewRowFound(table: seq<Enrollment>, e: Enrollment, paymentId: string, provider: string)
    requires !HasPayment(table, paymentId, provider) && IsPayment(e, paymentId, provider)
    ensures FindByPayment(table + [e], paymentId, provider) == Some(e)
  {
    var s := table + [e];
    var k := FindFirst(s, x => IsPayment(x, paymentId, provider));
    assert IsPayment(s[|table|], paymentId, provider);
    forall j | 0 <= j < |table| ensures !IsPayment(s[j], paymentId, provider) {
      assert s[j] == table[j];
    }
    assert k.Some? && k.value == |table|;
  }

  /** Delivering the same payment twice creates one row and returns it both times. */
  lemma WebhookEnrollmentIdempotent(table: seq<Enrollment>, d: WebhookPayment, id1: int, id2: int)
    ensures var (t1, e1) := CreateEnrollmentFromWebhook(table, d, id1);
      CreateEnrollmentFromWebhook(t1, d, id2) == (t1, e1)
  {
    var (t1, e1) := CreateEnrollmentFromWebhook(table, d, id1);
    if !HasPayment(table, d.paymentId, d.provider) {
      NewRowFound(table, WebhookRow(d, id1), d.paymentId, d.provider);
      assert IsPayment(t1[|table|], d.paymentId, d.provider);
    }
  }

  /** A first delivery opens access to the paid course. */
  lemma WebhookEnrollmentGrantsAccess(table: seq<Enrollment>, d: WebhookPayment, id: int)
    requires !HasPayment(table, d.paymentId, d.provider)
    ensures HasAccess(CreateEnrollmentFromWebhook(table, d, id).0, d.userId, d.courseId)
  {
    var t := CreateEnrollmentFromWebhook(table, d, id).0;
    assert GrantsAccess(t[|table|], d.userId, d.courseId);
  }

  // ---------------------------------------------------------------------------
  // Refunds

  /** The `metadata` object stored with a transaction. */
  datatype Meta =
    | NoMeta
    | Reason(reason: string)
    | FailureMessage(error: string)
    | Capture(orderId: string, captureId: string)
    | Metadata(userId: string, courseId: string)

  /**
    `JSON.stringify(metadata)` (or `null`), for strings that need no JSON
    escaping.
   */
  function MetaText(m: Meta): Option<string>
  {
    match m
    case NoMeta => None
    case Reason(r) => Some("{\"reason\":\"" + r + "\"}")
    case FailureMessage(e) => Some("{\"error\":\"" + e + "\"}")
    case Capture(o, c) => Some("{\"orderId\":\"" + o + "\",\"captureId\":\"" + c + "\"}")
    case Metadata(u, c) => Some("{\"userId\":\"" + u + "\",\"courseId\":\"" + c + "\"}")
  }

  /** A `payment_transactions` row. */
  datatype Transaction = Transaction(
    userId: int, enrollmentId: Option<int>, paymentIntentId: Option<string>, amount: int,
    currency: string, status: string, methodType: string, metadata: Meta)

  const RefundRequested: string := "refund_requested"

  /** `UPDATE paid_enrollments SET access_revoked = 1 WHERE id = ?`. */
  function Revoke(table: seq<Enrollment>, id: int): (t: seq<Enrollment>)
    ensures |t| == |table|
    ensures forall i :: 0 <= i < |t| ==> t[i] == if table[i].id == id then table[i].(revoked := 1) else table[i]
  {
    seq(|table|, i requires 0 <= i < |table| => if table[i].id == id then table[i].(revoked := 1) else table[i])
  }

  /**
    `processRefund`: marks every row of the payment refunded, records the
    refund against the first such row (amount `refundAmount || amount_paid`,
    reason `refundReason || 'refund_requested'`) and revokes that row's
    access. No row of the payment is an error.
   */
  function ProcessRefund(table: seq<Enrollment>, paymentId: string, provider: string,
                         refundAmount: Option<int>, reason: Option<string>): (r: Result<(seq<Enrollment>, Transaction)>)
    ensures r.Err? <==> !HasPayment(table, paymentId, provider)
    ensures r.Ok? ==> |r.value.0| == |table|
    ensures r.Ok? ==> forall i :: 0 <= i < |table| && IsPayment(table[i], paymentId, provider) ==>
      r.value.0[i].status == Refunded
    ensures r.Ok? ==> var e := FindByPayment(table, paymentId, provider).value;
      r.value.1.enrollmentId == Some(e.id) && r.value.1.userId == e.userId && r.value.1.status == Refunded
      && r.value.1.amount == (if Truthy(refundAmount) then refundAmount.value else e.amountPaid)
      && r.value.1.metadata == Reason(StrOr(reason, RefundRequested))
    ensures r.Ok? ==> r.value.0 == Revoke(SetStatus(table, paymentId, Refunded, provider),
                                          FindByPayment(table, paymentId, provider).value.id)
    ensures r.Ok? ==> var e := FindByPayment(table, paymentId, provider).value;
      forall i :: 0 <= i < |table| ==>
        && (table[i].id == e.id ==> r.value.0[i].revoked == 1)
        && (IsPayment(table[i], paymentId, provider) ==>
              r.value.0[i] == table[i].(status := Refunded, revoked := r.value.0[i].revoked))
        && (!IsPayment(table[i], paymentId, provider) && table[i].id != e.id ==> r.value.0[i] == table[i])
  {
    var (updated, changed) := UpdateEnrollmentStatus(table, paymentId, Refunded, provider);
    if !changed then Err("No se encontró inscripción con payment_id: " + paymentId)
    else match FindByPayment(updated, paymentId, provider)
      case None => Err("Inscripción no encontrada después de actualizar")
      case Some(e) =>
        FindAfterStatus(table, paymentId, Refunded, provider);
        var tx := Transaction(e.userId, Some(e.id), Some(paymentId),
                              if Truthy(refundAmount) then refundAmount.value else e.amountPaid,
                              e.currency, Refunded, provider, Reason(StrOr(reason, RefundRequested)));
        Ok((Revoke(updated, e.id), tx))
  }

  /** After a status update the payment's first row is the same row with the new status. */
  lemma FindAfterStatus(table: seq<Enrollment>, paymentId: string, status: string, provider: string)
    ensures var t := SetStatus(table, paymentId, status, provider);
      FindByPayment(t, paymentId, provider) ==
        (if HasPayment(table, paymentId, provider)
         then Some(FindByPayment(table, paymentId, provider).value.(status := status)) else None)
  {
    var t := SetStatus(table, paymentId, status, provider);
    var k1 := FindFirst(table, e => IsPayment(e, paymentId, provider));
    var k2 := FindFirst(t, e => IsPayment(e, paymentId, provider));
    forall i | 0 <= i < |t| ensures IsPayment(t[i], paymentId, provider) == IsPayment(table[i], paymentId, provider) {
    }
    if k1.Some? {
      assert IsPayment(t[k1.value], paymentId, provider);
      assert k2.Some? && k2.value == k1.value;
    } else {
      assert k2.None?;
    }
  }

  /**
    After a refund the payment's first row is found again, now refunded and
    with its access revoked.
   */
  lemma RefundRevokesFirstRow(table: seq<Enrollment>, paymentId: string, provider: string,
                              refundAmount: Option<int>, reason: Option<string>)
    requires HasPayment(table, paymentId, provider)
    ensures ProcessRefund(table, paymentId, provider, refundAmount, reason).Ok?
    ensures FindByPayment(ProcessRefund(table, paymentId, provider, refundAmount, reason).value.0, paymentId, provider)
         == Some(FindByPayment(table, paymentId, provider).value.(status := Refunded, revoked := 1))
  {
    var e := FindByPayment(table, paymentId, provider).value;
    var t := Revoke(SetStatus(table, paymentId, Refunded, provider), e.id);
    var k1 := FindFirst(table, e => IsPayment(e, paymentId, provider));
    var k2 := FindFirst(t, e => IsPayment(e, paymentId, provider));
    forall i | 0 <= i < |t| ensures IsPayment(t[i], paymentId, provider) == IsPayment(table[i], paymentId, provider) {
    }
    assert k1.Some? && e == table[k1.value];
    assert IsPayment(t[k1.value], paymentId, provider);
    assert k2.Some? && k2.value == k1.value;
  }

  /** Once refunded, no row of the payment grants access. */
  lemma RefundEndsAccess(table: seq<Enrollment>, paymentId: string, provider: string,
                         refundAmount: Option<int>, reason: Option<string>, userId: int, courseId: int)
    requires HasPayment(table, paymentId, provider)
    requires forall i :: 0 <= i < |table| && GrantsAccess(table[i], userId, courseId) ==> IsPayment(table[i], paymentId, provider)
    ensures ProcessRefund(table, paymentId, provider, refundAmount, reason).Ok?
    ensures !HasAccess(ProcessRefund(table, paymentId, provider, refundAmount, reason).value.0, userId, courseId)
  {
    var t := ProcessRefund(table, paymentId, provider, refundAmount, reason).value.0;
    forall i | 0 <= i < |t| ensures !GrantsAccess(t[i], userId, courseId) {
      var s := SetStatus(table, paymentId, Refunded, provider);
      assert t[i].status == s[i].status && t[i].userId == s[i].userId && t[i].courseId == s[i].courseId;
    }
  }

  /** Without a refund amount, the whole amount paid is recorded. */
  lemma RefundAmountDefaults(table: seq<Enrollment>, paymentId: string, provider: string)
    requires HasPayment(table, paymentId, provider)
    ensures ProcessRefund(table, paymentId, provider, None, None).Ok?
    ensures ProcessRefund(table, paymentId, provider, None, None).value.1.amount
         == FindByPayment(table, paymentId, provider).value.amountPaid
    ensures ProcessRefund(table, paymentId, provider, None, None).value.1.metadata == Reason(RefundRequested)
  {
  }

  // ---------------------------------------------------------------------------
  // PayPal capture lookup

  /** `'%' + escapedId + '%'`, used with `ESCAPE '\'`. */
  function CaptureIdPattern(captureId: string): string
  {
    "%" + EscapeLike(captureId) + "%"
  }

  /** A transaction's metadata matches the lookup exactly when it contains the capture id. */
  lemma CaptureLookupIsSubstring(captureId: string, metadata: string)
    ensures Matches(Tokens(CaptureIdPattern(captureId), true), metadata) <==> Contains(metadata, captureId)
  {
    EscapedPatternFindsId(captureId, metadata);
  }
}

=== FILE: grading.dfy ===
/**
  Quiz grading (`POST /api/quiz/submit` in `src/routes/api.ts`, repeated in
  `src/index.tsx`) and the attempt rules of the quiz page
  (`src/routes/student.tsx`). A question is answered correctly when the set
  of selected options is exactly the set of correct options; its points are
  then earned. The score is a percentage computed on reals here, where the
  program uses doubles.
 */
module Grading {
  import opened Common
  import opened Sql

  /** A question with its points and the ids of its correct options. */
  datatype Question = Question(id: int, points: int, correct: set<int>)

  /** The submitted answers: question id to selected option ids. */
  type Answers = map<int, seq<int>>

  /** `answers[question.id] || []`. */
  function SelectedFor(answers: Answers, questionId: int): seq<int>
  {
    if questionId in answers then answers[questionId] else []
  }

  function AsSet(s: seq<int>): set<int>
  {
    set x | x in s
  }

  /** The check as written: equal sizes, and every correct id selected. */
  predicate IsCorrect(correct: set<int>, selected: seq<int>)
  {
    |correct| == |AsSet(selected)| && forall id :: id in correct ==> id in AsSet(selected)
  }

  lemma SubsetSameSize(a: set<int>, b: set<int>)
    requires a <= b && |a| == |b|
    ensures a == b
  {
    assert b == a + (b - a);
    assert |b - a| == 0;
    assert b - a == {};
  }

  /** A question is correct exactly when the selection, as a set, is the correct set. */
  lemma CorrectIffSameSet(correct: set<int>, selected: seq<int>)
    ensures IsCorrect(correct, selected) <==> correct == AsSet(selected)
  {
    if IsCorrect(correct, selected) {
      var sel := AsSet(selected);
      assert forall id :: id in correct ==> id in sel;
      assert correct <= sel;
      SubsetSameSize(correct, AsSet(selected));
    }
  }

  /** Selecting an option twice does not change the verdict. */
  lemma RepeatsIgnored(correct: set<int>, selected: seq<int>)
    ensures IsCorrect(correct, selected + selected) <==> IsCorrect(correct, selected)
  {
    assert AsSet(selected + selected) == AsSet(selected);
  }

  /** What is kept per question. */
  datatype QuestionResult = QuestionResult(questionId: int, selected: seq<int>, isCorrect: bool, pointsEarned: int)

  function ResultOf(q: Question, answers: Answers): (r: QuestionResult)
    ensures r.isCorrect <==> q.correct == AsSet(SelectedFor(answers, q.id))
    ensures r.pointsEarned == if r.isCorrect then q.points else 0
  {
    var sel := SelectedFor(answers, q.id);
    CorrectIffSameSet(q.correct, sel);
    var ok := IsCorrect(q.correct, sel);
    QuestionResult(q.id, sel, ok, if ok then q.points else 0)
  }

  function TotalPoints(qs: seq<Question>): int
  {
    if |qs| == 0 then 0 else TotalPoints(qs[..|qs| - 1]) + qs[|qs| - 1].points
  }

  function EarnedPoints(qs: seq<Question>, answers: Answers): int
  {
    if |qs| == 0 then 0 else EarnedPoints(qs[..|qs| - 1], answers) + ResultOf(qs[|qs| - 1], answers).pointsEarned
  }

  /** The grading loop: totals and per-question results. */
  method Grade(qs: seq<Question>, answers: Answers) returns (total: int, earned: int, results: seq<QuestionResult>)
    ensures total == TotalPoints(qs) && earned == EarnedPoints(qs, answers)
    ensures |results| == |qs|
    ensures forall i :: 0 <= i < |qs| ==> results[i] == ResultOf(qs[i], answers)
  {
    total, earned, results := 0, 0, [];
    var i := 0;
    while i < |qs|
      invariant 0 <= i <= |qs|
      invariant total == TotalPoints(qs[..i]) && earned == EarnedPoints(qs[..i], answers)
      invariant |results| == i
      invariant forall k :: 0 <= k < i ==> results[k] == ResultOf(qs[k], answers)
    {
      var q := qs[i];
      total := total + q.points;
      var sel := SelectedFor(answers, q.id);
      var ok := IsCorrect(q.correct, sel);
      var pts := if ok then q.points else 0;
      if ok {
        earned := earned + q.points;
      }
      results := results + [QuestionResult(q.id, sel, ok, pts)];
      assert results[i] == ResultOf(q, answers);
      assert qs[..i + 1][..i] == qs[..i] && qs[..i + 1][i] == q;
      i := i + 1;
    }
    assert qs[..|qs|] == qs;
  }

  /** With non-negative points, earned points stay between 0 and the total. */
  lemma {:induction false} EarnedBounded(qs: seq<Question>, answers: Answers)
    requires forall i :: 0 <= i < |qs| ==> qs[i].points >= 0
    ensures 0 <= EarnedPoints(qs, answers) <= TotalPoints(qs)
  {
    if |qs| > 0 {
      EarnedBounded(qs[..|qs| - 1], answers);
    }
  }

  /** Answering every question with exactly its correct options earns every point. */
  lemma {:induction false} AllCorrectEarnsAll(qs: seq<Question>, answers: Answers)
    requires forall i :: 0 <= i < |qs| ==> AsSet(SelectedFor(answers, qs[i].id)) == qs[i].correct
    ensures EarnedPoints(qs, answers) == TotalPoints(qs)
  {
    if |qs| > 0 {
      AllCorrectEarnsAll(qs[..|qs| - 1], answers);
    }
  }

  /** `totalPoints > 0 ? (earnedPoints / totalPoints) * 100 : 0`. */
  function Score(earned: int, total: int): (s: real)
    ensures total <= 0 ==> s == 0.0
    ensures total > 0 ==> s * (total as real) == 100.0 * (earned as real)
  {
    if total > 0 then (earned as real / total as real) * 100.0 else 0.0
  }

  /** `score >= quiz.passing_score`. */
  predicate Passed(score: real, passingScore: int)
  {
    score >= passingScore as real
  }

  /** Passing is an integer comparison: `100·earned ≥ passing·total`. */
  lemma PassedIff(earned: int, total: int, passingScore: int)
    requires total > 0
    ensures Passed(Score(earned, total), passingScore) <==> 100 * earned >= passingScore * total
  {
    var s := Score(earned, total);
    var t := total as real;
    assert s == 100.0 * (earned as real) / t;
    assert (passingScore * total) as real == (passingScore as real) * t;
    assert (100 * earned) as real == 100.0 * (earned as real);
    if s >= passingScore as real {
      assert s * t >= (passingScore as real) * t;
    } else {
      assert s * t < (passingScore as real) * t;
    }
  }

  /** A quiz without points scores 0, and passes only with a passing score of 0 or less. */
  lemma EmptyQuiz(earned: int, passingScore: int)
    ensures Score(earned, 0) == 0.0
    ensures Passed(Score(earned, 0), passingScore) <==> passingScore <= 0
  {
  }

  // ---------------------------------------------------------------------------
  // Attempts

  /** The submit guard: rejected when `max_attempts` is truthy and the count has reached it. */
  function SubmitAllowed(maxAttempts: Option<int>, count: int): (ok: bool)
    ensures !ok <==> Truthy(maxAttempts) && count >= maxAttempts.value
  {
    !(Truthy(maxAttempts) && count >= maxAttempts.value)
  }

  /** `canRetake = !quiz.max_attempts || attemptCount < quiz.max_attempts`. */
  function CanRetake(maxAttempts: Option<int>, count: int): (ok: bool)
    ensures ok <==> !Truthy(maxAttempts) || count < maxAttempts.value
  {
    !Truthy(maxAttempts) || count < maxAttempts.value
  }

  /** The page and the API agree on who may take the quiz again; 0 or no limit means unlimited. */
  lemma RetakeAgreesWithSubmit(maxAttempts: Option<int>, count: int)
    ensures CanRetake(maxAttempts, count) == SubmitAllowed(maxAttempts, count)
    ensures maxAttempts == Some(0) || maxAttempts.None? ==> CanRetake(maxAttempts, count)
  {
  }

  /** The quiz page redirects to the last result only when it passed and no retake is left. */
  function ShowLastResult(lastPassed: Option<bool>, maxAttempts: Option<int>, count: int): (show: bool)
    ensures show <==> lastPassed == Some(true) && !CanRetake(maxAttempts, count)
  {
    lastPassed == Some(true) && !CanRetake(maxAttempts, count)
  }

  /** A failed last attempt never blocks the page, even with no retakes left. */
  lemma FailedAttemptShowsQuiz(maxAttempts: Option<int>, count: int)
    ensures !ShowLastResult(Some(false), maxAttempts, count)
  {
  }

  // ---------------------------------------------------------------------------
  // The whole submission

  datatype Submission =
    | NotSignedIn401
    | NoAccess403
    | QuizNotFound404
    | TooManyAttempts403
    | Graded(score: real, earned: int, total: int, passed: bool, results: seq<QuestionResult>)

  datatype Quiz = Quiz(passingScore: int, maxAttempts: Option<int>, questions: seq<Question>)

  /** The checks in order: sign-in, access, quiz, attempt cap; then grading. */
  method Submit(signedIn: bool, hasAccess: bool, quiz: Option<Quiz>, attempts: int, answers: Answers)
    returns (r: Submission)
    ensures !signedIn ==> r == NotSignedIn401
    ensures signedIn && !hasAccess ==> r == NoAccess403
    ensures signedIn && hasAccess && quiz.None? ==> r == QuizNotFound404
    ensures signedIn && hasAccess && quiz.Some? && !SubmitAllowed(quiz.value.maxAttempts, attempts) ==> r == TooManyAttempts403
    ensures r.Graded? <==> signedIn && hasAccess && quiz.Some? && SubmitAllowed(quiz.value.maxAttempts, attempts)
    ensures r.Graded? ==> (r.total == TotalPoints(quiz.value.questions)
      && r.earned == EarnedPoints(quiz.value.questions, answers)
      && r.score == Score(r.earned, r.total)
      && r.passed == Passed(r.score, quiz.value.passingScore))
  {
    if !signedIn { return NotSignedIn401; }
    if !hasAccess { return NoAccess403; }
    if quiz.None? { return QuizNotFound404; }
    if !SubmitAllowed(quiz.value.maxAttempts, attempts) { return TooManyAttempts403; }
    var total, earned, results := Grade(quiz.value.questions, answers);
    var score := Score(earned, total);
    r := Graded(score, earned, total, Passed(score, quiz.value.passingScore), results);
  }
}

=== FILE: legacy.dfy ===
/**
  The older copies of handlers that `src/index.tsx` still carries next to
  the modular routes: the PayPal refund lookup, the Stripe dispute update
  and the lesson page. Each is modelled as written and related to the
  modular version: the refund lookup differs (its `LIKE` pattern is not
  escaped), the other two agree.
 */
module Legacy {
  import opened Common
  import opened Text
  import opened Like
  import opened Enrollments
  import opened Webhooks
  import Catalog
  import Navigation
  import Sql

  // ---------------------------------------------------------------------------
  // PAYMENT.CAPTURE.REFUNDED

  /** The pattern bound by the legacy refund lookup: the capture id between `%`s, unescaped. */
  function RawCapturePattern(captureId: string): string
  {
    "%" + captureId + "%"
  }

  /** The legacy lookup: the raw pattern and no `ESCAPE` clause, so `%` and `_` in the id are wildcards. */
  function LegacyRefundLookup(s: Store, captureId: string): (r: Option<Enrollment>)
    ensures r.Some? ==> r.value in s.enrollments && r.value.paymentMethod == Some(PayPal)
    ensures r.Some? ==> exists j :: (0 <= j < |s.transactions|
      && TransactionMatches(s.transactions[j], r.value, RawCapturePattern(captureId), false))
  {
    FindByPattern(s, RawCapturePattern(captureId), false)
  }

  /** `%` in front of a pattern lets it start anywhere. */
  lemma {:induction false} SkipPrefix(t: seq<Token>, pre: string, s: string)
    requires Matches(t, s)
    ensures Matches([AnyRun] + t, pre + s)
    decreases |pre|
  {
    var u := [AnyRun] + t;
    assert u[0] == AnyRun && u[1..] == t;
    if |pre| == 0 {
      assert pre + s == s;
    } else {
      SkipPrefix(t, pre[1..], s);
      assert (pre + s)[1..] == pre[1..] + s;
    }
  }

  const Other: string := "AXB"
  const Underscored: string := "A_B"

  /** Read without an escape character, `_` in the id matches any one character. */
  lemma UnderscoreIsWildcard(post: string)
    ensures Tokens(Underscored + "%", false) == [Lit('A'), AnyOne, Lit('B'), AnyRun]
    ensures Matches([Lit('A'), AnyOne, Lit('B'), AnyRun], Other + post)
  {
    var p := Underscored + "%";
    assert p == "A_B%";
    var p3: string := "%";
    assert p3[1..] == "";
    assert Tokens(p3, false) == [AnyRun];
    var p2: string := "B%";
    assert p2[1..] == p3;
    assert Tokens(p2, false) == [Lit('B'), AnyRun];
    var p1: string := "_B%";
    assert p1[1..] == p2;
    assert Tokens(p1, false) == [AnyOne, Lit('B'), AnyRun];
    assert p[1..] == p1;
    var s := Other + post;
    assert s[0] == 'A' && s[1..][1..][0] == 'B';
    assert s[1..][1..][1..] == post;
    MatchesAnyRun(post);
    var t := [Lit('A'), AnyOne, Lit('B'), AnyRun];
    assert t[1..] == [AnyOne, Lit('B'), AnyRun] && t[1..][1..] == [Lit('B'), AnyRun] && t[1..][1..][1..] == [AnyRun];
  }

  /**
    A refund for capture `A_B` finds the enrolment whose recorded capture
    is `AXB`: the legacy handler would refund and revoke the wrong purchase.
   */
  lemma LegacyRefundHitsOtherCapture(e: Enrollment, tx: Transaction, orderId: string, logs: seq<LogEntry>)
    requires e.paymentMethod == Some(PayPal)
    requires tx.enrollmentId == Some(e.id) && tx.metadata == Capture(orderId, Other)
    ensures LegacyRefundLookup(Store([e], [tx], logs), Underscored) == Some(e)
  {
    var pre := "{\"orderId\":\"" + orderId + "\",\"captureId\":\"";
    var post := "\"}";
    assert MetaText(tx.metadata).value == pre + (Other + post);
    UnderscoreIsWildcard(post);
    var t := [Lit('A'), AnyOne, Lit('B'), AnyRun];
    SkipPrefix(t, pre, Other + post);
    var p := RawCapturePattern(Underscored);
    assert p[0] == '%' && p[1..] == Underscored + "%";
    assert Tokens(p, false) == [AnyRun] + t;
    assert TransactionMatches([tx][0], e, p, false);
    assert FoundByPattern(e, [tx], p, false);
  }

  /** The escaped pattern reads `_` literally: `A_B` does not match `AXB`. */
  lemma EscapedUnderscoreIsLiteral()
    ensures !Matches(Tokens(CaptureIdPattern(Underscored), true), Other)
  {
    CaptureLookupIsSubstring(Underscored, Other);
    assert !IsPrefix(Underscored, Other);
    assert !IsPrefix(Underscored, Other[1..]);
    assert !Contains(Other, Underscored);
  }

  /** What the modular lookup finds does contain the capture id in its metadata. */
  lemma EscapedLookupIsExact(s: Store, captureId: string)
    requires FindByCaptureId(s, captureId).Some?
    ensures exists j :: (0 <= j < |s.transactions|
      && s.transactions[j].enrollmentId == Some(FindByCaptureId(s, captureId).value.id)
      && MetaText(s.transactions[j].metadata).Some?
      && Contains(MetaText(s.transactions[j].metadata).value, captureId))
  {
    var e := FindByCaptureId(s, captureId).value;
    var j :| 0 <= j < |s.transactions| && TransactionMatches(s.transactions[j], e, CaptureIdPattern(captureId), true);
    CaptureLookupIsSubstring(captureId, MetaText(s.transactions[j].metadata).value);
  }

  // ---------------------------------------------------------------------------
  // charge.dispute.created

  /** The legacy direct `UPDATE … SET payment_status = 'disputed'` on the Stripe rows of the payment intent. */
  function LegacyDispute(table: seq<Enrollment>, paymentIntent: Option<string>): (t: seq<Enrollment>)
    ensures |t| == |table|
    ensures forall i :: 0 <= i < |t| ==>
      t[i] == (if Sql.TruthyStr(paymentIntent) && IsPayment(table[i], paymentIntent.value, Stripe)
               then table[i].(status := Disputed) else table[i])
  {
    if Sql.TruthyStr(paymentIntent) then SetStatus(table, paymentIntent.value, Disputed, Stripe) else table
  }

  /** The legacy update leaves the same enrolments as the modular handler's `updateEnrollmentStatus`. */
  lemma LegacyDisputeAgrees(s: Store, signature: string, eventId: string, paymentIntent: Option<string>)
    requires signature != ""
    ensures HandleStripe(s, Some(signature), true, eventId, DisputeCreated(paymentIntent)).1.enrollments
         == LegacyDispute(s.enrollments, paymentIntent)
  {
  }

  // ---------------------------------------------------------------------------
  // The lesson page

  /**
    The legacy page: the course and the lesson are fetched with
    `published = 1` in the query itself, the lesson also with its course id.
   */
  function LegacyLessonPage(user: Option<int>, course: Option<Navigation.CourseRecord>, enrollments: seq<Enrollment>,
                            lessonParam: string, lessons: map<int, Catalog.LessonRow>, courseLessons: seq<Catalog.LessonRow>)
    : (p: Navigation.LessonPage)
    ensures p.Show? ==> (user.Some? && course.Some? && course.value.published == 1 && p.lesson.published == 1
      && p.lesson.courseId == course.value.id && HasAccess(enrollments, user.value, course.value.id))
  {
    if user.None? then Navigation.ToLogin
    else if course.None? || course.value.published != 1 then Navigation.CourseNotFound
    else if !UserHasAccess(enrollments, user.value, course.value.id) then Navigation.Restricted
    else
      var id := ParseInt(lessonParam);
      if id.None? || id.value !in lessons || lessons[id.value].courseId != course.value.id || lessons[id.value].published != 1
      then Navigation.LessonNotFound
      else Navigation.Show(lessons[id.value], Navigation.NeighboursOf(courseLessons, id))
  }

  /** Whether every `published` flag the page reads is 0 or 1, as the admin forms write them. */
  predicate FlagsAreBits(course: Option<Navigation.CourseRecord>, lessons: map<int, Catalog.LessonRow>)
  {
    (course.Some? ==> course.value.published == 0 || course.value.published == 1)
    && forall id :: id in lessons ==> lessons[id].published == 0 || lessons[id].published == 1
  }

  /** With 0/1 flags the legacy page and the modular page give the same answer for every request. */
  lemma LegacyLessonPageAgrees(user: Option<int>, course: Option<Navigation.CourseRecord>, enrollments: seq<Enrollment>,
                               lessonParam: string, lessons: map<int, Catalog.LessonRow>, courseLessons: seq<Catalog.LessonRow>)
    requires FlagsAreBits(course, lessons)
    ensures LegacyLessonPage(user, course, enrollments, lessonParam, lessons, courseLessons)
         == Navigation.LessonPageFor(user, course, enrollments, lessonParam, lessons, courseLessons)
  {
  }

  /** A flag of 2 is published for the modular page's truthiness test but not for `published = 1`. */
  lemma OtherFlagValuesDiverge(userId: int, enrollments: seq<Enrollment>, lessonParam: string,
                               lessons: map<int, Catalog.LessonRow>, courseLessons: seq<Catalog.LessonRow>, courseId: int)
    ensures LegacyLessonPage(Some(userId), Some(Navigation.CourseRecord(courseId, 2)), enrollments, lessonParam, lessons, courseLessons)
         == Navigation.CourseNotFound
    ensures Navigation.LessonPageFor(Some(userId), Some(Navigation.CourseRecord(courseId, 2)), enrollments, lessonParam, lessons, courseLessons)
         != Navigation.CourseNotFound
  {
  }
}

=== FILE: like.dfy ===
/**
  SQL `LIKE` patterns and the wildcard escaper of
  `getEnrollmentByPayPalCaptureId` (`src/features/courses/models/enrollments.ts`).
  A pattern is read as a sequence of tokens: `%` matches any run of
  characters, `_` any single character, anything else itself; with
  `ESCAPE '\'` a backslash makes the next character literal.
  SQLite's ASCII case folding in `LIKE` is not modelled: matching here is
  case-sensitive.
 */
module Like {
  import opened Text

  datatype Token = Lit(c: char) | AnyRun | AnyOne

  const Backslash: char := '\\'

  /**
    The tokens of a pattern; `escapes` says whether `ESCAPE '\'` was given.
    SQLite makes a pattern that ends in a lone escape character match
    nothing; this reading takes it as a literal instead. No pattern that
    `EscapeLike` builds ends that way.
   */
  function Tokens(p: string, escapes: bool): (t: seq<Token>)
    decreases |p|
  {
    if |p| == 0 then []
    else if escapes && p[0] == Backslash && |p| >= 2 then [Lit(p[1])] + Tokens(p[2..], escapes)
    else if p[0] == '%' then [AnyRun] + Tokens(p[1..], escapes)
    else if p[0] == '_' then [AnyOne] + Tokens(p[1..], escapes)
    else [Lit(p[0])] + Tokens(p[1..], escapes)
  }

  /** A string read as literal tokens only. */
  function Lits(s: string): (t: seq<Token>)
    ensures |t| == |s|
    ensures forall i :: 0 <= i < |s| ==> t[i] == Lit(s[i])
  {
    seq(|s|, i requires 0 <= i < |s| => Lit(s[i]))
  }

  /** Whether the tokens match the whole of `s`. */
  function Matches(t: seq<Token>, s: string): bool
    decreases |t|, |s|
  {
    if |t| == 0 then |s| == 0
    else match t[0]
      case Lit(c) => |s| > 0 && s[0] == c && Matches(t[1..], s[1..])
      case AnyOne => |s| > 0 && Matches(t[1..], s[1..])
      case AnyRun => Matches(t[1..], s) || (|s| > 0 && Matches(t, s[1..]))
  }

  // ---------------------------------------------------------------------------
  // The escaper

  function EscapeBackslash(c: char): string { if c == Backslash then [Backslash, Backslash] else [c] }
  function EscapePercent(c: char): string { if c == '%' then [Backslash, '%'] else [c] }
  function EscapeUnderscore(c: char): string { if c == '_' then [Backslash, '_'] else [c] }

  /** `replace(/\\/g, '\\\\').replace(/%/g, '\\%').replace(/_/g, '\\_')`, in that order. */
  function ReplaceChain(s: string): string
  {
    MapChars(MapChars(MapChars(s, EscapeBackslash), EscapePercent), EscapeUnderscore)
  }

  /**
    The escaper as the source writes it. Because backslashes are doubled
    first, it escapes each character on its own, and unescaping undoes it.
   */
  function EscapeLike(s: string): (r: string)
    ensures r == MapChars(s, EscapeChar)
    ensures Unescape(r) == s
  {
    ChainCharwise(s);
    UnescapeCharwise(s);
    ReplaceChain(s)
  }

  /** What the three replacements do to one character. */
  function EscapeChar(c: char): (r: string)
    ensures |r| == 1 <==> c != Backslash && c != '%' && c != '_'
    ensures |r| == 1 ==> r == [c]
    ensures |r| != 1 ==> r == [Backslash, c]
  {
    if c == Backslash || c == '%' || c == '_' then [Backslash, c] else [c]
  }

  lemma ChainOneChar(c: char)
    ensures ReplaceChain([c]) == EscapeChar(c)
  {
    MapCharsOne(c, EscapeBackslash);
    var a := EscapeBackslash(c);
    if c == Backslash {
      MapCharsFixed(a, EscapePercent);
      MapCharsFixed(a, EscapeUnderscore);
    } else {
      MapCharsOne(c, EscapePercent);
      var b := EscapePercent(c);
      if c == '%' {
        MapCharsFixed(b, EscapeUnderscore);
      } else {
        MapCharsOne(c, EscapeUnderscore);
      }
    }
  }

  /** Doubling the backslash first makes the chain a per-character escape. */
  lemma {:induction false} ChainCharwise(s: string)
    ensures ReplaceChain(s) == MapChars(s, EscapeChar)
    decreases |s|
  {
    if |s| > 0 {
      ChainCharwise(s[1..]);
      var h := [s[0]];
      assert s == h + s[1..];
      MapCharsAppend(h, s[1..], EscapeBackslash);
      var a1, a2 := MapChars(h, EscapeBackslash), MapChars(s[1..], EscapeBackslash);
      MapCharsAppend(a1, a2, EscapePercent);
      var b1, b2 := MapChars(a1, EscapePercent), MapChars(a2, EscapePercent);
      MapCharsAppend(b1, b2, EscapeUnderscore);
      ChainOneChar(s[0]);
      assert MapChars(h, EscapeChar) == EscapeChar(s[0]) by { assert h[1..] == []; }
      MapCharsAppend(h, s[1..], EscapeChar);
    }
  }

  /** Done the other way round, the backslash added before `%` would be doubled too. */
  lemma WrongOrderBreaks()
    ensures MapChars(MapChars(['%'], EscapePercent), EscapeBackslash) == [Backslash, Backslash, '%']
  {
    assert ['%'][1..] == [];
    var a := [Backslash, '%'];
    assert MapChars(['%'], EscapePercent) == a;
    assert a[1..] == ['%'] && a[1..][1..] == [];
    assert MapChars(a, EscapeBackslash) == [Backslash, Backslash] + ['%'];
  }

  /** One escaped character reads as one literal token. */
  lemma TokensOfEscapedChar(c: char, rest: string)
    ensures Tokens(EscapeChar(c) + rest, true) == [Lit(c)] + Tokens(rest, true)
  {
    var p := EscapeChar(c) + rest;
    if |EscapeChar(c)| == 1 {
      assert p[0] == c && p[1..] == rest;
    } else {
      assert p[0] == Backslash && p[1] == c && p[2..] == rest;
    }
  }

  /** The per-character escape of `s` reads as `s` in literal tokens. */
  lemma {:induction false} CharwiseIsLiteral(s: string, rest: string)
    ensures Tokens(MapChars(s, EscapeChar) + rest, true) == Lits(s) + Tokens(rest, true)
    decreases |s|
  {
    if |s| == 0 {
      assert MapChars(s, EscapeChar) + rest == rest;
      assert Lits(s) + Tokens(rest, true) == Tokens(rest, true);
    } else {
      var e := EscapeChar(s[0]);
      var m := MapChars(s[1..], EscapeChar);
      var ls := Lits(s[1..]);
      var tr := Tokens(rest, true);
      assert MapChars(s, EscapeChar) + rest == e + (m + rest) by {
        assert MapChars(s, EscapeChar) == e + m;
      }
      assert Tokens(e + (m + rest), true) == [Lit(s[0])] + Tokens(m + rest, true) by {
        TokensOfEscapedChar(s[0], m + rest);
      }
      assert Tokens(m + rest, true) == ls + tr by {
        CharwiseIsLiteral(s[1..], rest);
      }
      assert Lits(s) + tr == [Lit(s[0])] + (ls + tr) by {
        assert Lits(s) == [Lit(s[0])] + ls;
      }
    }
  }

  /** Read with `ESCAPE '\'`, the escaped string is the original as literal characters: no wildcard survives. */
  lemma EscapedIsLiteral(s: string, rest: string)
    ensures Tokens(EscapeLike(s) + rest, true) == Lits(s) + Tokens(rest, true)
  {
    CharwiseIsLiteral(s, rest);
  }

  /** The inverse of the escaper: a backslash stands for the character after it. */
  function Unescape(p: string): string
    decreases |p|
  {
    if |p| == 0 then ""
    else if p[0] == Backslash && |p| >= 2 then [p[1]] + Unescape(p[2..])
    else [p[0]] + Unescape(p[1..])
  }

  /** Unescaping undoes the per-character escape. */
  lemma {:induction false} UnescapeCharwise(s: string)
    ensures Unescape(MapChars(s, EscapeChar)) == s
    decreases |s|
  {
    if |s| > 0 {
      UnescapeCharwise(s[1..]);
      var e := EscapeChar(s[0]);
      var p := MapChars(s, EscapeChar);
      assert p == e + MapChars(s[1..], EscapeChar);
      assert p[|e|..] == MapChars(s[1..], EscapeChar);
      assert [s[0]] + s[1..] == s;
    }
  }

  // ---------------------------------------------------------------------------
  // Matching a `'%' + x + '%'` pattern

  lemma {:induction false} MatchesLits(l: string, rest: seq<Token>, s: string)
    ensures Matches(Lits(l) + rest, s) <==> IsPrefix(l, s) && Matches(rest, s[|l|..])
    decreases |l|
  {
    if |l| > 0 {
      var t := Lits(l) + rest;
      assert t[0] == Lit(l[0]);
      assert t[1..] == Lits(l[1..]) + rest;
      if |s| > 0 {
        MatchesLits(l[1..], rest, s[1..]);
        if IsPrefix(l, s) {
          assert s[1..][..|l| - 1] == s[..|l|][1..];
          assert s[1..][|l| - 1..] == s[|l|..];
        }
        if s[0] == l[0] && IsPrefix(l[1..], s[1..]) {
          assert s[..|l|] == [s[0]] + s[1..][..|l| - 1];
          assert s[1..][|l| - 1..] == s[|l|..];
        }
      }
    } else {
      assert Lits(l) + rest == rest;
    }
  }

  lemma {:induction false} MatchesAnyRun(s: string)
    ensures Matches([AnyRun], s)
    decreases |s|
  {
    assert [AnyRun][1..] == [];
    if |s| > 0 {
      MatchesAnyRun(s[1..]);
    }
  }

  /** `LIKE '%' || x || '%'` with `x` read literally is a substring test. */
  lemma {:induction false} ContainsPattern(l: string, s: string)
    ensures Matches([AnyRun] + Lits(l) + [AnyRun], s) <==> Contains(s, l)
    decreases |s|
  {
    var t := [AnyRun] + Lits(l) + [AnyRun];
    assert t[1..] == Lits(l) + [AnyRun];
    MatchesLits(l, [AnyRun], s);
    if IsPrefix(l, s) {
      MatchesAnyRun(s[|l|..]);
    }
    if |s| > 0 {
      ContainsPattern(l, s[1..]);
    }
  }

  /** The escaped capture-id pattern finds exactly the texts that contain the id. */
  lemma EscapedPatternFindsId(id: string, text: string)
    ensures Matches(Tokens("%" + EscapeLike(id) + "%", true), text) <==> Contains(text, id)
  {
    var p := "%" + EscapeLike(id) + "%";
    assert p[1..] == EscapeLike(id) + "%";
    EscapedIsLiteral(id, "%");
    assert Tokens("%", true) == [AnyRun] by { assert "%"[1..] == ""; }
    assert Tokens(p, true) == [AnyRun] + (Lits(id) + [AnyRun]);
    assert [AnyRun] + (Lits(id) + [AnyRun]) == [AnyRun] + Lits(id) + [AnyRun];
    ContainsPattern(id, text);
  }
}

=== FILE: navigation.dfy ===
/**
  The student's lesson page (`GET /cursos/:courseSlug/leccion/:lessonId`
  in `src/routes/student.tsx`) and the admin's course page
  (`GET /admin/courses/:id` in `src/admin/courses.tsx`): the order of the
  page's checks, the previous/next links, and the grouping of a course's
  lessons by module. The database lookups are inputs: the course found by
  slug, the lesson rows by id, the enrolments, and the course's lesson
  list in query order.
 */
module Navigation {
  import opened Common
  import opened Text
  import opened Catalog
  import Enrollments

  // ---------------------------------------------------------------------------
  // Previous and next

  /** No two lessons of the list share an id (ids are primary keys). */
  predicate DistinctIds(ls: seq<LessonRow>)
  {
    forall i, j :: 0 <= i < j < |ls| ==> ls[i].id != ls[j].id
  }

  predicate IsLesson(l: LessonRow, id: Option<int>)
  {
    id.Some? && l.id == id.value
  }

  /** `findIndex(l => l.id === lessonId)`: the first match, or -1 (also for `NaN`, which equals nothing). */
  function IndexOf(ls: seq<LessonRow>, id: Option<int>): (k: int)
    ensures -1 <= k < |ls|
    ensures k >= 0 ==> IsLesson(ls[k], id) && forall j :: 0 <= j < k ==> !IsLesson(ls[j], id)
    ensures k == -1 <==> forall j :: 0 <= j < |ls| ==> !IsLesson(ls[j], id)
  {
    var r := FindFirst(ls, (l: LessonRow) => IsLesson(l, id));
    if r.Some? then r.value else -1
  }

  datatype Neighbours = Neighbours(prev: Option<LessonRow>, next: Option<LessonRow>)

  /** The links under the video: the lesson before and after the current one in the course's list. */
  function NeighboursOf(ls: seq<LessonRow>, id: Option<int>): (n: Neighbours)
    ensures var k := IndexOf(ls, id);
      (n.prev.Some? <==> k > 0)
      && (n.prev.Some? ==> n.prev.value == ls[k - 1])
      && (n.next.Some? <==> k < |ls| - 1)
      && (n.next.Some? ==> n.next.value == ls[k + 1])
  {
    var k := IndexOf(ls, id);
    Neighbours(if k > 0 then Some(ls[k - 1]) else None,
               if k < |ls| - 1 then Some(ls[k + 1]) else None)
  }

  /** In a list without repeated ids, lesson `i` is found at position `i`. */
  lemma IndexOfMember(ls: seq<LessonRow>, i: int)
    requires DistinctIds(ls) && 0 <= i < |ls|
    ensures IndexOf(ls, Some(ls[i].id)) == i
  {
  }

  /** Following "next" and then "previous" comes back: the links form a chain in list order. */
  lemma NextThenPrev(ls: seq<LessonRow>, i: int)
    requires DistinctIds(ls) && 0 <= i < |ls| - 1
    ensures NeighboursOf(ls, Some(ls[i].id)).next == Some(ls[i + 1])
    ensures NeighboursOf(ls, Some(ls[i + 1].id)).prev == Some(ls[i])
  {
    IndexOfMember(ls, i);
    IndexOfMember(ls, i + 1);
  }

  /** The first lesson has no "previous" link and the last no "next". */
  lemma ChainEnds(ls: seq<LessonRow>)
    requires DistinctIds(ls) && |ls| > 0
    ensures NeighboursOf(ls, Some(ls[0].id)).prev.None?
    ensures NeighboursOf(ls, Some(ls[|ls| - 1].id)).next.None?
  {
    IndexOfMember(ls, 0);
    IndexOfMember(ls, |ls| - 1);
  }

  /** A lesson missing from the list (unpublished, or a `NaN` id) gets no "previous" link and the first lesson as "next". */
  lemma MissingLessonLinksToFirst(ls: seq<LessonRow>, id: Option<int>)
    requires |ls| > 1
    requires forall j :: 0 <= j < |ls| ==> !IsLesson(ls[j], id)
    ensures NeighboursOf(ls, id) == Neighbours(None, Some(ls[0]))
  {
  }

  // ---------------------------------------------------------------------------
  // The lesson page

  /** The course found by slug, as far as the page uses it. */
  datatype CourseRecord = CourseRecord(id: int, published: int)

  datatype LessonPage =
    | ToLogin
    | CourseNotFound
    | Restricted
    | LessonNotFound
    | Show(lesson: LessonRow, links: Neighbours)

  /** Whether the row the id lookup returns may be shown under this course. */
  predicate Showable(lessons: map<int, LessonRow>, id: Option<int>, courseId: int)
  {
    id.Some? && id.value in lessons && lessons[id.value].courseId == courseId && lessons[id.value].published != 0
  }

  /**
    The checks in the page's order: a session, then a published course,
    then access to it, then a published lesson of that course.
   */
  function LessonPageFor(user: Option<int>, course: Option<CourseRecord>, enrollments: seq<Enrollments.Enrollment>,
                         lessonParam: string, lessons: map<int, LessonRow>, courseLessons: seq<LessonRow>): (p: LessonPage)
    ensures p == ToLogin <==> user.None?
    ensures p == CourseNotFound <==> user.Some? && (course.None? || course.value.published == 0)
    ensures p == Restricted <==> (user.Some? && course.Some? && course.value.published != 0
      && !Enrollments.HasAccess(enrollments, user.value, course.value.id))
    ensures p.Show? <==> (user.Some? && course.Some? && course.value.published != 0
      && Enrollments.HasAccess(enrollments, user.value, course.value.id)
      && Showable(lessons, ParseInt(lessonParam), course.value.id))
    ensures p.Show? ==> (p.lesson == lessons[ParseInt(lessonParam).value]
      && p.links == NeighboursOf(courseLessons, ParseInt(lessonParam)))
  {
    if user.None? then ToLogin
    else if course.None? || course.value.published == 0 then CourseNotFound
    else if !Enrollments.UserHasAccess(enrollments, user.value, course.value.id) then Restricted
    else
      var id := ParseInt(lessonParam);
      if !Showable(lessons, id, course.value.id) then LessonNotFound
      else Show(lessons[id.value], NeighboursOf(courseLessons, id))
  }

  /**
    Nothing is shown without a completed, unrevoked enrolment in the course
    the lesson belongs to, whatever lesson id the address carries.
   */
  lemma ShownOnlyWithAccess(user: Option<int>, course: Option<CourseRecord>, enrollments: seq<Enrollments.Enrollment>,
                            lessonParam: string, lessons: map<int, LessonRow>, courseLessons: seq<LessonRow>)
    requires LessonPageFor(user, course, enrollments, lessonParam, lessons, courseLessons).Show?
    ensures var l := LessonPageFor(user, course, enrollments, lessonParam, lessons, courseLessons).lesson;
      exists i :: 0 <= i < |enrollments| && Enrollments.GrantsAccess(enrollments[i], user.value, l.courseId)
    ensures LessonPageFor(user, course, enrollments, lessonParam, lessons, courseLessons).lesson.published != 0
  {
  }

  // ---------------------------------------------------------------------------
  // Grouping by module

  /** A JavaScript `Map` from module number to lessons: its keys in insertion order and its entries. */
  datatype ModuleMap = ModuleMap(order: seq<int>, groups: map<int, seq<LessonRow>>)

  const EmptyModules := ModuleMap([], map[])

  /** One step of the loop: create the module's entry when it is new, then push the lesson. */
  function AddLesson(mm: ModuleMap, l: LessonRow): ModuleMap
  {
    var m := l.moduleNumber;
    if m in mm.groups then mm.(groups := mm.groups[m := mm.groups[m] + [l]])
    else ModuleMap(mm.order + [m], mm.groups[m := [l]])
  }

  /** The loop over the lessons in query order. */
  function GroupByModule(ls: seq<LessonRow>): (r: ModuleMap)
    ensures Grouped(r, ls)
    decreases |ls|
  {
    if |ls| == 0 then EmptyModules
    else
      var init, l := ls[..|ls| - 1], ls[|ls| - 1];
      var mm := GroupByModule(init);
      assert init + [l] == ls;
      AddLessonGrouped(mm, init, l);
      AddLesson(mm, l)
  }

  /** The reference: the lessons of module `m`, in list order. */
  function InModule(ls: seq<LessonRow>, m: int): (r: seq<LessonRow>)
    ensures forall x :: x in r <==> x in ls && x.moduleNumber == m
    ensures |r| <= |ls|
    decreases |ls|
  {
    if |ls| == 0 then []
    else
      var rest := InModule(ls[..|ls| - 1], m);
      assert forall x :: x in ls <==> x in ls[..|ls| - 1] || x == ls[|ls| - 1] by {
        assert ls == ls[..|ls| - 1] + [ls[|ls| - 1]];
      }
      if ls[|ls| - 1].moduleNumber == m then rest + [ls[|ls| - 1]] else rest
  }

  predicate HasModule(ls: seq<LessonRow>, m: int)
  {
    exists i :: 0 <= i < |ls| && ls[i].moduleNumber == m
  }

  predicate Distinct(xs: seq<int>)
  {
    forall i, j :: 0 <= i < j < |xs| ==> xs[i] != xs[j]
  }

  /** Some lesson before position `p` belongs to module `m`. */
  predicate SeenBefore(ls: seq<LessonRow>, m: int, p: int)
  {
    exists q :: 0 <= q < p && q < |ls| && ls[q].moduleNumber == m
  }

  /** The keys come in order of first appearance: a later key's lessons all come after an earlier key's first lesson. */
  predicate FirstSeenOrder(order: seq<int>, ls: seq<LessonRow>)
  {
    forall i, j, p :: 0 <= i < j < |order| && 0 <= p < |ls| && ls[p].moduleNumber == order[j] ==> SeenBefore(ls, order[i], p)
  }

  /** What the map holds after the loop over `ls`. */
  ghost predicate Grouped(mm: ModuleMap, ls: seq<LessonRow>)
  {
    && Distinct(mm.order)
    && (forall m :: m in mm.groups <==> m in mm.order)
    && (forall m :: m in mm.groups <==> HasModule(ls, m))
    && (forall m :: m in mm.groups ==> mm.groups[m] == InModule(ls, m))
    && FirstSeenOrder(mm.order, ls)
  }

  /** A module without lessons has an empty reference group. */
  lemma NoLessonsNoGroup(ls: seq<LessonRow>, m: int)
    requires !HasModule(ls, m)
    ensures InModule(ls, m) == []
  {
    var r := InModule(ls, m);
    if |r| > 0 {
      assert r[0] in r;
    }
  }

  /** Appending a lesson adds its module to the modules present, and nothing else. */
  lemma AppendHasModule(ls: seq<LessonRow>, l: LessonRow, m: int)
    ensures HasModule(ls + [l], m) <==> HasModule(ls, m) || m == l.moduleNumber
  {
    var ls' := ls + [l];
    if HasModule(ls, m) {
      var i :| 0 <= i < |ls| && ls[i].moduleNumber == m;
      assert ls'[i] == ls[i];
    }
    if m == l.moduleNumber {
      assert ls'[|ls|] == l;
    }
  }

  /** Appending a lesson extends its own module's reference group by it, and no other. */
  lemma AppendInModule(ls: seq<LessonRow>, l: LessonRow, m: int)
    ensures InModule(ls + [l], m) == if l.moduleNumber == m then InModule(ls, m) + [l] else InModule(ls, m)
  {
    assert (ls + [l])[..|ls|] == ls;
  }

  /** A lesson seen before position `p` of `ls` is still seen there after appending. */
  lemma SeenBeforeAppend(ls: seq<LessonRow>, l: LessonRow, m: int, p: int)
    requires SeenBefore(ls, m, p)
    ensures SeenBefore(ls + [l], m, p)
  {
    var q :| 0 <= q < p && q < |ls| && ls[q].moduleNumber == m;
    assert (ls + [l])[q] == ls[q];
  }

  /** First-seen order survives a lesson of a module already in the map. */
  lemma FirstSeenOld(order: seq<int>, ls: seq<LessonRow>, l: LessonRow)
    requires FirstSeenOrder(order, ls)
    requires forall m :: m in order ==> HasModule(ls, m)
    requires l.moduleNumber in order
    ensures FirstSeenOrder(order, ls + [l])
  {
    var ls' := ls + [l];
    forall i, j, p | 0 <= i < j < |order| && 0 <= p < |ls'| && ls'[p].moduleNumber == order[j]
      ensures SeenBefore(ls', order[i], p)
    {
      if p < |ls| {
        assert ls'[p] == ls[p];
        SeenBeforeAppend(ls, l, order[i], p);
      } else {
        // The first lesson of the appended lesson's module is already in `ls`.
        assert HasModule(ls, order[j]);
        var k :| 0 <= k < |ls| && ls[k].moduleNumber == order[j];
        SeenBeforeAppend(ls, l, order[i], k);
      }
    }
  }

  /** First-seen order survives a lesson that opens a new module, whose key goes last. */
  lemma FirstSeenNew(order: seq<int>, ls: seq<LessonRow>, l: LessonRow)
    requires FirstSeenOrder(order, ls)
    requires forall m :: m in order ==> HasModule(ls, m)
    requires !HasModule(ls, l.moduleNumber)
    ensures FirstSeenOrder(order + [l.moduleNumber], ls + [l])
  {
    var ls' := ls + [l];
    var order' := order + [l.moduleNumber];
    forall i, j, p | 0 <= i < j < |order'| && 0 <= p < |ls'| && ls'[p].moduleNumber == order'[j]
      ensures SeenBefore(ls', order'[i], p)
    {
      assert order'[i] == order[i];
      if j < |order| {
        assert order'[j] == order[j];
        assert p < |ls|;
        assert ls'[p] == ls[p];
        SeenBeforeAppend(ls, l, order[i], p);
      } else {
        assert order[i] in order;
        var q :| 0 <= q < |ls| && ls[q].moduleNumber == order[i];
        assert p == |ls|;
        assert ls'[q] == ls[q];
      }
    }
  }

  lemma AddLessonGrouped(mm: ModuleMap, ls: seq<LessonRow>, l: LessonRow)
    requires Grouped(mm, ls)
    ensures Grouped(AddLesson(mm, l), ls + [l])
  {
    var ls' := ls + [l];
    var mm' := AddLesson(mm, l);
    forall m ensures HasModule(ls', m) <==> HasModule(ls, m) || m == l.moduleNumber {
      AppendHasModule(ls, l, m);
    }
    forall m | m in mm'.groups
      ensures mm'.groups[m] == InModule(ls', m)
    {
      AppendInModule(ls, l, m);
      if m == l.moduleNumber && m !in mm.groups {
        NoLessonsNoGroup(ls, m);
      }
    }
    if l.moduleNumber in mm.groups {
      FirstSeenOld(mm.order, ls, l);
    } else {
      FirstSeenNew(mm.order, ls, l);
      assert Distinct(mm'.order) by {
        assert mm'.order == mm.order + [l.moduleNumber];
      }
    }
  }

  /** Every lesson lands in exactly one group, its own module's, and each group keeps list order. */
  lemma EveryLessonInItsModule(ls: seq<LessonRow>, i: int)
    requires 0 <= i < |ls|
    ensures var mm := GroupByModule(ls);
      ls[i].moduleNumber in mm.groups && ls[i] in mm.groups[ls[i].moduleNumber]
      && forall m :: m in mm.groups && ls[i] in mm.groups[m] ==> m == ls[i].moduleNumber
  {
    assert HasModule(ls, ls[i].moduleNumber);
  }

  // ---------------------------------------------------------------------------
  // The admin page: the same map, with its keys sorted

  predicate Increasing(xs: seq<int>)
  {
    forall i, j :: 0 <= i < j < |xs| ==> xs[i] < xs[j]
  }

  function InsertSorted(xs: seq<int>, x: int): (r: seq<int>)
    requires Increasing(xs) && x !in xs
    ensures Increasing(r)
    ensures forall y :: y in r <==> y in xs || y == x
    ensures |r| == |xs| + 1
  {
    if |xs| == 0 then [x]
    else if x < xs[0] then [x] + xs
    else
      var rest := InsertSorted(xs[1..], x);
      assert forall k :: 0 <= k < |rest| ==> xs[0] < rest[k] by {
        forall k | 0 <= k < |rest| ensures xs[0] < rest[k] {
          assert rest[k] in xs[1..] || rest[k] == x;
        }
      }
      [xs[0]] + rest
  }

  /** `sort((a, b) => a[0] - b[0])` on keys that are already distinct. */
  function SortKeys(xs: seq<int>): (r: seq<int>)
    requires Distinct(xs)
    ensures Increasing(r)
    ensures forall y :: y in r <==> y in xs
    ensures |r| == |xs|
    decreases |xs|
  {
    if |xs| == 0 then []
    else
      var init := xs[..|xs| - 1];
      var last := xs[|xs| - 1];
      assert last !in init by {
        forall k | 0 <= k < |init| ensures init[k] != last {
          assert xs[k] == init[k];
        }
      }
      assert forall y :: y in xs <==> y in init || y == last by {
        assert xs == init + [last];
      }
      InsertSorted(SortKeys(init), last)
  }

  /** `Array.from(modules.entries()).sort(...)`: the admin's modules, ascending, one per module present, each with that module's lessons in list order. */
  function SortedModules(ls: seq<LessonRow>): (r: seq<(int, seq<LessonRow>)>)
    ensures forall i, j :: 0 <= i < j < |r| ==> r[i].0 < r[j].0
    ensures forall i :: 0 <= i < |r| ==> HasModule(ls, r[i].0) && r[i].1 == InModule(ls, r[i].0)
    ensures forall k :: 0 <= k < |ls| ==> exists i :: 0 <= i < |r| && r[i].0 == ls[k].moduleNumber
  {
    var mm := GroupByModule(ls);
    var keys := SortKeys(mm.order);
    KeysHaveGroups(mm, ls, keys);
    var r := Entries(mm.groups, keys);
    SortedEntries(ls, mm, keys, r);
    r
  }

  /** Every key of a grouped map, in whatever order, has a group. */
  lemma KeysHaveGroups(mm: ModuleMap, ls: seq<LessonRow>, keys: seq<int>)
    requires Grouped(mm, ls)
    requires forall y :: y in keys <==> y in mm.order
    ensures forall i :: 0 <= i < |keys| ==> keys[i] in mm.groups
  {
    forall i | 0 <= i < |keys| ensures keys[i] in mm.groups {
      var y := keys[i];
      assert y in keys;
    }
  }

  /** Each key paired with its group. */
  function Entries(groups: map<int, seq<LessonRow>>, keys: seq<int>): (r: seq<(int, seq<LessonRow>)>)
    requires forall i :: 0 <= i < |keys| ==> keys[i] in groups
    ensures |r| == |keys|
    ensures forall i :: 0 <= i < |r| ==> r[i].0 == keys[i] && keys[i] in groups && r[i].1 == groups[keys[i]]
  {
    seq(|keys|, (i: int) requires 0 <= i < |keys| => (keys[i], groups[keys[i]]))
  }

  /** Sorted keys of a grouped map, each paired with its group, are the admin's modules. */
  lemma SortedEntries(ls: seq<LessonRow>, mm: ModuleMap, keys: seq<int>, r: seq<(int, seq<LessonRow>)>)
    requires Grouped(mm, ls)
    requires Increasing(keys) && forall y :: y in keys <==> y in mm.order
    requires |r| == |keys|
    requires forall i :: 0 <= i < |r| ==> r[i].0 == keys[i] && keys[i] in mm.groups && r[i].1 == mm.groups[keys[i]]
    ensures forall i, j :: 0 <= i < j < |r| ==> r[i].0 < r[j].0
    ensures forall i :: 0 <= i < |r| ==> HasModule(ls, r[i].0) && r[i].1 == InModule(ls, r[i].0)
    ensures forall k :: 0 <= k < |ls| ==> exists i :: 0 <= i < |r| && r[i].0 == ls[k].moduleNumber
  {
    forall k | 0 <= k < |ls|
      ensures exists i :: 0 <= i < |r| && r[i].0 == ls[k].moduleNumber
    {
      assert HasModule(ls, ls[k].moduleNumber);
      assert ls[k].moduleNumber in keys;
      var i :| 0 <= i < |keys| && keys[i] == ls[k].moduleNumber;
      assert r[i].0 == keys[i];
    }
  }
}

=== FILE: progress.dfy ===
/**
  Course and lesson progress: the percentage formulas
  (`src/features/courses/models/enrollments.ts`, `src/auth-utils.ts`,
  `src/routes/api.ts`), the three lesson-progress upserts with their
  `ON CONFLICT` rules, enrolment completion and certificate issue, and the
  dashboard totals (`src/routes/student.tsx`).
  Percentages are computed exactly on integers: `Math.round(a / b * 100)` is
  `⌊(200a + b) / 2b⌋`, which a double computation can miss by one at exact
  halves.
 */
module Progress {
  import opened Common
  import opened Sql

  // ---------------------------------------------------------------------------
  // Rounding

  /** `m·a ≤ m·b` whenever `a ≤ b` and `m ≥ 0`, stated as an implication so callers need no case split. */
  lemma {:induction false} MulMono(m: int, a: int, b: int)
    requires m >= 0
    ensures a <= b ==> m * a <= m * b
    decreases if a < b then b - a else 0
  {
    if a < b {
      MulMono(m, a, b - 1);
      assert m * b == m * (b - 1) + m;
    }
  }

  /** `Math.round(n / d)` for `d > 0`: the nearest integer, halves rounded up. */
  function RoundDiv(n: int, d: int): (r: int)
    requires d > 0
    ensures 2 * d * r <= 2 * n + d < 2 * d * r + 2 * d
  {
    (2 * n + d) / (2 * d)
  }

  /** The rounded value is the only integer within half a unit (upwards inclusive). */
  lemma RoundDivUnique(n: int, d: int, k: int)
    requires d > 0
    requires 2 * d * k <= 2 * n + d < 2 * d * k + 2 * d
    ensures RoundDiv(n, d) == k
  {
    var r := RoundDiv(n, d);
    MulMono(2 * d, r + 1, k);
    MulMono(2 * d, k + 1, r);
    assert 2 * d * (r + 1) == 2 * d * r + 2 * d;
    assert 2 * d * (k + 1) == 2 * d * k + 2 * d;
  }

  /** Rounding is monotone in the numerator. */
  lemma RoundDivMono(n1: int, n2: int, d: int)
    requires d > 0 && n1 <= n2
    ensures RoundDiv(n1, d) <= RoundDiv(n2, d)
  {
    var r1, r2 := RoundDiv(n1, d), RoundDiv(n2, d);
    MulMono(2 * d, r2 + 1, r1);
    assert 2 * d * (r2 + 1) == 2 * d * r2 + 2 * d;
  }

  /** Rounding `k·d / d` gives `k` back. */
  lemma RoundDivExact(k: int, d: int)
    requires d > 0
    ensures RoundDiv(k * d, d) == k
  {
    assert 2 * (k * d) + d == 2 * d * k + d;
    RoundDivUnique(k * d, d, k);
  }

  // ---------------------------------------------------------------------------
  // Course progress

  /** `total > 0 ? Math.round(completed / total * 100) : 0`. */
  function CoursePercent(completed: int, total: int): (p: int)
    ensures total <= 0 ==> p == 0
    ensures total > 0 ==> 2 * total * p <= 200 * completed + total < 2 * total * p + 2 * total
  {
    if total > 0 then RoundDiv(100 * completed, total) else 0
  }

  /** A course counts as complete from 99.5 % on: `completed` may still be short of `total`. */
  lemma CompleteIff(completed: int, total: int)
    requires total > 0
    ensures CoursePercent(completed, total) == 100 <==> 199 * total <= 200 * completed < 201 * total
  {
    var p := CoursePercent(completed, total);
    assert 2 * total * 100 == 200 * total;
    assert 2 * total * 101 == 202 * total;
    MulMono(2 * total, 101, p);
    MulMono(2 * total, p + 1, 100);
    assert 2 * total * (p + 1) == 2 * total * p + 2 * total;
  }

  /** 199 lessons of 200 already show 100 %. */
  lemma AlmostCompleteShowsFull()
    ensures CoursePercent(199, 200) == 100
  {
    CompleteIff(199, 200);
  }

  /** There is no upper clamp: more completed rows than published lessons go past 100 %. */
  lemma NoUpperClamp()
    ensures CoursePercent(3, 2) == 150
  {
    RoundDivUnique(300, 2, 150);
  }

  /** Within the normal range the percentage stays within 0..100, and all lessons done is exactly 100. */
  lemma CoursePercentRange(completed: int, total: int)
    requires 0 <= completed <= total
    ensures 0 <= CoursePercent(completed, total) <= 100
    ensures total > 0 && completed == total ==> CoursePercent(completed, total) == 100
  {
    if total > 0 {
      RoundDivExact(0, total);
      RoundDivExact(100, total);
      RoundDivMono(0, 100 * completed, total);
      RoundDivMono(100 * completed, 100 * total, total);
      assert 0 * total == 0 && 100 * total == total * 100;
    }
  }

  // ---------------------------------------------------------------------------
  // Video progress

  /** `duration > 0 ? Math.min(100, Math.round(position / duration * 100)) : 0`. */
  function VideoPercent(position: int, duration: int): (p: int)
    ensures p <= 100
    ensures duration <= 0 ==> p == 0
  {
    if duration > 0 then
      var r := RoundDiv(100 * position, duration);
      if r < 100 then r else 100
    else 0
  }

  /** A non-negative position gives a percentage in 0..100; reaching the end gives 100. */
  lemma VideoPercentRange(position: int, duration: int)
    requires duration > 0 && position >= 0
    ensures 0 <= VideoPercent(position, duration) <= 100
    ensures position >= duration ==> VideoPercent(position, duration) == 100
  {
    RoundDivExact(0, duration);
    RoundDivExact(100, duration);
    RoundDivMono(0, 100 * position, duration);
    assert 0 * duration == 0 && 100 * duration == duration * 100;
    if position >= duration {
      RoundDivMono(100 * duration, 100 * position, duration);
    }
  }

  /** There is no lower clamp: a negative position gives a negative percentage. */
  lemma NoLowerClamp()
    ensures VideoPercent(-10, 100) == -10
  {
    RoundDivUnique(-1000, 100, -10);
  }

  // ---------------------------------------------------------------------------
  // Lesson progress rows

  /** A `student_progress` row; times are opaque integers. */
  datatype LessonRow = LessonRow(
    completed: int,
    percentage: int,
    completedAt: Option<int>,
    lastPosition: Option<int>,
    notes: Option<string>,
    updatedAt: int)

  /** The completion upsert: insert, or update with the `CASE` rules on conflict. */
  function CompleteUpsert(row: Option<LessonRow>, completed: bool, now: int): (r: LessonRow)
    ensures r.completed == (if completed then 1 else 0) && r.updatedAt == now
    ensures completed ==> r.percentage == 100 && r.completedAt == Some(now)
    ensures !completed && row.Some? ==> r.percentage == row.value.percentage && r.completedAt == row.value.completedAt
    ensures !completed && row.None? ==> r.percentage == 0 && r.completedAt.None?
    ensures row.Some? ==> r.lastPosition == row.value.lastPosition && r.notes == row.value.notes
  {
    match row
    case None =>
      LessonRow(if completed then 1 else 0, if completed then 100 else 0,
                if completed then Some(now) else None, None, None, now)
    case Some(prev) =>
      prev.(completed := if completed then 1 else 0,
           percentage := if completed then 100 else prev.percentage,
           completedAt := if completed then Some(now) else prev.completedAt,
           updatedAt := now)
  }

  /** The notes upsert touches only the notes and the timestamp. */
  function NotesUpsert(row: Option<LessonRow>, notes: string, now: int): (r: LessonRow)
    ensures r.notes == Some(notes) && r.updatedAt == now
    ensures row.Some? ==> r == row.value.(notes := Some(notes), updatedAt := now)
    ensures row.None? ==> r.completed == 0 && r.percentage == 0
  {
    match row
    case None => LessonRow(0, 0, None, None, Some(notes), now)
    case Some(prev) => prev.(notes := Some(notes), updatedAt := now)
  }

  /** The position upsert: the percentage is only overwritten while the lesson is not completed. */
  function PositionUpsert(row: Option<LessonRow>, position: int, percentage: int, now: int): (r: LessonRow)
    ensures r.lastPosition == Some(position) && r.updatedAt == now
    ensures row.Some? && row.value.completed != 0 ==> r.percentage == row.value.percentage
    ensures row.Some? && row.value.completed == 0 ==> r.percentage == percentage
    ensures row.Some? ==> r.completed == row.value.completed && r.completedAt == row.value.completedAt
  {
    match row
    case None => LessonRow(0, percentage, None, Some(position), None, now)
    case Some(prev) =>
      prev.(lastPosition := Some(position),
           percentage := if prev.completed == 0 then percentage else prev.percentage,
           updatedAt := now)
  }

  /** Completing, then un-completing, keeps the first completion time and the 100 %. */
  lemma UncompleteKeepsHistory(row: Option<LessonRow>, t1: int, t2: int)
    ensures var r := CompleteUpsert(Some(CompleteUpsert(row, true, t1)), false, t2);
      r.completed == 0 && r.percentage == 100 && r.completedAt == Some(t1)
  {
  }

  /** Watching a completed lesson again never lowers its percentage. */
  lemma RewatchKeepsCompletion(row: Option<LessonRow>, t1: int, position: int, duration: int, t2: int)
    ensures PositionUpsert(Some(CompleteUpsert(row, true, t1)), position, VideoPercent(position, duration), t2).percentage == 100
  {
  }

  /** The fields `updateLessonProgress` accepts. */
  datatype ProgressUpdate = ProgressUpdate(
    completed: Option<bool>,
    notes: Option<string>,
    lastPosition: Option<int>,
    percentage: Option<int>)

  /**
    `updateLessonProgress`: an update with none of the three fields is an
    error; otherwise exactly one upsert runs, completion first, then notes,
    then position (with a missing percentage bound as 0).
   */
  function UpdateLessonProgress(row: Option<LessonRow>, data: ProgressUpdate, now: int): (r: Result<LessonRow>)
    ensures r.Err? <==> data.completed.None? && data.notes.None? && data.lastPosition.None?
    ensures data.completed.Some? ==> r == Ok(CompleteUpsert(row, data.completed.value, now))
    ensures data.completed.None? && data.notes.Some? ==> r == Ok(NotesUpsert(row, data.notes.value, now))
    ensures data.completed.None? && data.notes.None? && data.lastPosition.Some? ==>
      r == Ok(PositionUpsert(row, data.lastPosition.value, data.percentage.GetOr(0), now))
  {
    if data.completed.Some? then Ok(CompleteUpsert(row, data.completed.value, now))
    else if data.notes.Some? then Ok(NotesUpsert(row, data.notes.value, now))
    else if data.lastPosition.Some? then
      Ok(PositionUpsert(row, data.lastPosition.value, if data.percentage.Some? then data.percentage.value else 0, now))
    else Err("No updatable fields provided")
  }

  /** A position update through the model with the API's percentage is the API's position upsert. */
  lemma ModelPositionMatchesApi(row: Option<LessonRow>, position: int, duration: int, now: int)
    ensures UpdateLessonProgress(row, ProgressUpdate(None, None, Some(position), Some(VideoPercent(position, duration))), now)
         == Ok(PositionUpsert(row, position, VideoPercent(position, duration), now))
  {
  }

  // ---------------------------------------------------------------------------
  // Enrolment completion and certificates

  /** The completion columns of a `paid_enrollments` row. */
  datatype Completion = Completion(completed: int, completionDate: Option<int>, certificateIssued: int)

  /** The lesson-completion route: `completed` follows the percentage; the date and the certificate flag only ever get set. */
  function ApiCompletion(prev: Completion, percentage: int, now: int): (r: Completion)
    ensures r.completed == 1 <==> percentage == 100
    ensures r.completed == 0 || r.completed == 1
    ensures percentage == 100 ==> r.completionDate == Some(now) && r.certificateIssued == 1
    ensures percentage != 100 ==> r.completionDate == prev.completionDate && r.certificateIssued == prev.certificateIssued
  {
    if percentage == 100 then Completion(1, Some(now), 1)
    else Completion(0, prev.completionDate, prev.certificateIssued)
  }

  /** `updateEnrollmentCompletion`: all three columns follow the boolean. */
  function ModelCompletion(completed: bool, now: int): (r: Completion)
    ensures completed <==> r.completed == 1 && r.certificateIssued == 1 && r.completionDate == Some(now)
    ensures !completed ==> r == Completion(0, None, 0)
  {
    if completed then Completion(1, Some(now), 1) else Completion(0, None, 0)
  }

  /** The route's certificate flag is sticky; the model's is reset when the course drops below 100 %. */
  lemma CertificateFlagDiverges(prev: Completion, percentage: int, now: int)
    requires prev.certificateIssued == 1 && percentage != 100
    ensures ApiCompletion(prev, percentage, now).certificateIssued == 1
    ensures ModelCompletion(percentage == 100, now).certificateIssued == 0
  {
  }

  /** Both paths agree whenever the course is complete. */
  lemma CompletionAgreesAtFull(prev: Completion, now: int)
    ensures ApiCompletion(prev, 100, now) == ModelCompletion(true, now)
  {
  }

  datatype Certificate = Certificate(id: int, userId: int, courseId: int, enrollmentId: int, code: string)

  /** The certificate row belongs to this student and course. */
  predicate IsCertificateFor(c: Certificate, userId: int, courseId: int)
  {
    c.userId == userId && c.courseId == courseId
  }

  predicate HasCertificate(certs: seq<Certificate>, userId: int, courseId: int)
  {
    exists i :: 0 <= i < |certs| && IsCertificateFor(certs[i], userId, courseId)
  }

  /** `SELECT * FROM certificates WHERE user_id = ? AND course_id = ?` (first match). */
  function FindCertificate(certs: seq<Certificate>, userId: int, courseId: int): (r: Option<Certificate>)
    ensures r.Some? <==> HasCertificate(certs, userId, courseId)
    ensures r.Some? ==> r.value in certs && IsCertificateFor(r.value, userId, courseId)
  {
    var k := FindFirst(certs, c => IsCertificateFor(c, userId, courseId));
    if k.Some? then Some(certs[k.value]) else None
  }

  /**
    `generateCertificate`: the existing certificate's id when there is one,
    otherwise a new certificate with the next id and the given code.
   */
  function GenerateCertificate(certs: seq<Certificate>, userId: int, courseId: int, enrollmentId: int,
                               code: string, nextId: int): (r: (seq<Certificate>, int))
    ensures HasCertificate(certs, userId, courseId) ==>
      r.0 == certs && r.1 == FindCertificate(certs, userId, courseId).value.id
    ensures !HasCertificate(certs, userId, courseId) ==>
      r.0 == certs + [Certificate(nextId, userId, courseId, enrollmentId, code)] && r.1 == nextId
  {
    match FindCertificate(certs, userId, courseId)
    case Some(c) => (certs, c.id)
    case None => (certs + [Certificate(nextId, userId, courseId, enrollmentId, code)], nextId)
  }

  /** Once a certificate was appended, the lookup finds it. */
  lemma FirstCertificateKept(certs: seq<Certificate>, c: Certificate)
    requires !HasCertificate(certs, c.userId, c.courseId)
    ensures FindCertificate(certs + [c], c.userId, c.courseId) == Some(c)
  {
    var s := certs + [c];
    var k := FindFirst(s, x => IsCertificateFor(x, c.userId, c.courseId));
    assert IsCertificateFor(s[|certs|], c.userId, c.courseId);
    forall j | 0 <= j < |certs| ensures !IsCertificateFor(s[j], c.userId, c.courseId) {
      assert s[j] == certs[j];
    }
    assert k.Some? && k.value == |certs|;
  }

  /** Generating twice gives the same id and adds nothing the second time. */
  lemma GenerateIdempotent(certs: seq<Certificate>, userId: int, courseId: int, enrollmentId: int,
                           code1: string, code2: string, id1: int, id2: int)
    ensures var (after, first) := GenerateCertificate(certs, userId, courseId, enrollmentId, code1, id1);
      GenerateCertificate(after, userId, courseId, enrollmentId, code2, id2) == (after, first)
  {
    var (after, first) := GenerateCertificate(certs, userId, courseId, enrollmentId, code1, id1);
    if !HasCertificate(certs, userId, courseId) {
      var added := |after| - 1;
      assert IsCertificateFor(after[added], userId, courseId);
      FirstCertificateKept(certs, Certificate(id1, userId, courseId, enrollmentId, code1));
    }
  }

  // ---------------------------------------------------------------------------
  // Dashboard

  /** One enrolled course on the student dashboard. */
  datatype CourseCard = CourseCard(progress: int, completedLessons: int, completed: int)

  function SumLessons(cards: seq<CourseCard>): int
  {
    if |cards| == 0 then 0 else cards[0].completedLessons + SumLessons(cards[1..])
  }

  function SumProgress(cards: seq<CourseCard>): int
  {
    if |cards| == 0 then 0 else cards[0].progress + SumProgress(cards[1..])
  }

  predicate IsCompletedCard(c: CourseCard) { c.completed != 0 }

  /** The statistics block; `None` when there are no courses (the block is hidden). */
  datatype Stats = Stats(active: nat, lessons: int, completedCourses: nat, average: int)

  function DashboardStats(cards: seq<CourseCard>): (s: Option<Stats>)
    ensures s.None? <==> |cards| == 0
    ensures s.Some? ==> s.value.active == |cards| && s.value.completedCourses <= |cards|
    ensures s.Some? ==> s.value.completedCourses == |Filter(cards, IsCompletedCard)|
  {
    if |cards| == 0 then None
    else
      FilterLength(cards, IsCompletedCard);
      Some(Stats(|cards|, SumLessons(cards), CountWhere(cards, IsCompletedCard), RoundDiv(SumProgress(cards), |cards|)))
  }

  /** With every course within 0..100 % the average is within 0..100 % too. */
  lemma {:induction false} AverageInRange(cards: seq<CourseCard>)
    requires forall i :: 0 <= i < |cards| ==> 0 <= cards[i].progress <= 100
    ensures 0 <= SumProgress(cards) <= 100 * |cards|
    ensures |cards| > 0 ==> 0 <= DashboardStats(cards).value.average <= 100
  {
    if |cards| > 0 {
      AverageInRange(cards[1..]);
      var n := |cards|;
      RoundDivExact(0, n);
      RoundDivExact(100, n);
      RoundDivMono(0, SumProgress(cards), n);
      RoundDivMono(SumProgress(cards), 100 * n, n);
      assert 0 * n == 0 && 100 * n == n * 100;
    }
  }

  /** `lastLesson?.id || firstLesson?.id`: resume where the student left off, else start at the beginning. */
  function NextLesson(lastAccessed: Option<int>, first: Option<int>): (r: Option<int>)
    ensures Truthy(lastAccessed) ==> r == lastAccessed
    ensures !Truthy(lastAccessed) ==> r == first
  {
    if Truthy(lastAccessed) then lastAccessed else first
  }
}

=== FILE: public_blog.dfy ===
/**
  The public blog pages (`src/routes/public.tsx`): listing pagination, the
  paragraph and heading split of a post body, hashtag lists, related posts
  and the call to action on a course page.
 */
module PublicBlog {
  import opened Common
  import opened Text
  import opened Sql
  import opened BlogQueries

  // ---------------------------------------------------------------------------
  // Pagination

  /** Posts per listing page. */
  const PageSize: nat := 12

  /** `parseInt(c.req.query('page') || '1')`; `None` is `NaN`. */
  function PageParam(query: Option<string>): Option<int>
  {
    ParseInt(if query.Some? && query.value != "" then query.value else "1")
  }

  /** Without a `page` parameter, or with an empty one, the first page is shown. */
  lemma PageDefaults(query: Option<string>)
    requires !TruthyStr(query)
    ensures PageParam(query) == Some(1)
  {
    OneParses();
  }

  lemma OneParses()
    ensures ParseInt("1") == Some(1)
  {
    ParseIntOfNatToString(1);
    assert NatToString(1) == "1";
  }

  /** `offset = (page - 1) * limit`; `NaN` propagates and is falsy for the query. */
  function OffsetOf(page: Option<int>): (offset: Option<int>)
    ensures offset.Some? <==> page.Some?
    ensures page.Some? ==> offset.value == (page.value - 1) * PageSize
  {
    if page.Some? then Some((page.value - 1) * PageSize) else None
  }

  /** The options the listing passes: published only, 12 per page, newest publication first. */
  function ListingOptions(page: Option<int>): ListOptions
  {
    ListOptions(true, Some(PageSize), OffsetOf(page), None, ScheduledAt)
  }

  /**
    Page `p` binds the limit and, except on page 1 (offset 0 is falsy), the
    offset `(p-1)·12`; a non-numeric page binds only the limit.
   */
  lemma ListingBinds(page: Option<int>)
    ensures Args(ListBlogPosts(ListingOptions(page))) ==
      [Int(PageSize)] + (if page.Some? && page.value != 1 then [Int((page.value - 1) * PageSize)] else [])
    ensures OrderingOf(ListingOptions(page)) == ByPublication
  {
  }

  /** `Math.ceil(total / limit)`. */
  function TotalPages(total: nat): (pages: nat)
    ensures pages * PageSize >= total
    ensures pages > 0 ==> (pages - 1) * PageSize < total
  {
    (total + PageSize - 1) / PageSize
  }

  /** What the pagination block shows. */
  datatype Pager = Pager(shown: bool, prev: bool, next: bool)

  /** `totalPages > 1`, `page > 1`, `page < totalPages`; every comparison with `NaN` is false. */
  function PagerOf(page: Option<int>, totalPages: nat): (r: Pager)
    ensures r.shown <==> totalPages > 1
    ensures r.prev <==> page.Some? && page.value > 1
    ensures r.next <==> page.Some? && page.value < totalPages
  {
    Pager(totalPages > 1, page.Some? && page.value > 1, page.Some? && page.value < totalPages)
  }

  /** On any real page between the first and the last, both links lead to pages that exist. */
  lemma PagerLinksStayInRange(p: int, total: nat)
    requires 1 <= p <= TotalPages(total)
    ensures PagerOf(Some(p), TotalPages(total)).prev ==> 1 <= p - 1
    ensures PagerOf(Some(p), TotalPages(total)).next ==> p + 1 <= TotalPages(total)
    ensures TotalPages(total) > 1 ==> PagerOf(Some(p), TotalPages(total)).prev || PagerOf(Some(p), TotalPages(total)).next
  {
  }

  /**
    `LIMIT limit OFFSET offset` over the selected rows, in SQLite's terms: a
    negative offset counts as zero.
   */
  function Window<T>(rows: seq<T>, offset: int, limit: nat): (w: seq<T>)
    ensures |w| <= limit
    ensures 0 <= offset <= |rows| ==> w == rows[offset..if offset + limit <= |rows| then offset + limit else |rows|]
  {
    var o := if offset < 0 then 0 else offset;
    if o >= |rows| then [] else rows[o..if o + limit <= |rows| then o + limit else |rows|]
  }

  /** Pages `p` to `last`, each as the listing would show it. */
  function PagesFrom<T>(rows: seq<T>, p: int, last: int): seq<seq<T>>
    decreases last - p
  {
    if p > last then [] else [Window(rows, (p - 1) * PageSize, PageSize)] + PagesFrom(rows, p + 1, last)
  }

  lemma {:induction false} PagesFromCover<T>(rows: seq<T>, p: int)
    requires p >= 1 && (p - 1) * PageSize <= |rows|
    ensures Flatten(PagesFrom(rows, p, TotalPages(|rows|))) == rows[(p - 1) * PageSize..]
    decreases TotalPages(|rows|) - p
  {
    var last := TotalPages(|rows|);
    if p > last {
      assert (p - 1) * PageSize >= |rows|;
    } else {
      var o := (p - 1) * PageSize;
      var w := Window(rows, o, PageSize);
      if o + PageSize <= |rows| {
        PagesFromCover(rows, p + 1);
        assert rows[o..] == w + rows[o + PageSize..];
      } else {
        assert p + 1 > last;
        assert w == rows[o..];
      }
    }
  }

  /** Walking pages 1 to `totalPages` shows every selected post exactly once, in order. */
  lemma PagesCoverListing<T>(rows: seq<T>)
    ensures Flatten(PagesFrom(rows, 1, TotalPages(|rows|))) == rows
  {
    PagesFromCover(rows, 1);
  }

  // ---------------------------------------------------------------------------
  // Post body

  /** A block of the rendered post body. */
  datatype Block = Heading(text: string) | Paragraph(text: string)

  const ParagraphBreak: string := "\n\n"
  const Bold: string := "**"

  /** A paragraph starting with `**` becomes a heading with every `**` removed; others are kept verbatim. */
  function BlockOf(part: string): (b: Block)
    ensures b.Heading? <==> IsPrefix(Bold, part)
    ensures b.Paragraph? ==> b.text == part
  {
    if IsPrefix(Bold, part) then Heading(RemoveAll(part, Bold)) else Paragraph(part)
  }

  /** `content.split('\n\n').map(...)`. */
  function Blocks(content: string): (bs: seq<Block>)
    ensures |bs| == |Split(content, ParagraphBreak)|
    ensures forall i :: 0 <= i < |bs| ==> bs[i] == BlockOf(Split(content, ParagraphBreak)[i])
  {
    var parts := Split(content, ParagraphBreak);
    seq(|parts|, i requires 0 <= i < |parts| => BlockOf(parts[i]))
  }

  /** No two adjacent asterisks. */
  predicate NoDoubleStar(s: string)
  {
    forall i :: 0 <= i < |s| - 1 ==> !(s[i] == '*' && s[i + 1] == '*')
  }

  /** Removing `**` left to right leaves no `**` behind, even from runs of three or more. */
  lemma {:induction false} RemoveBoldClean(s: string)
    ensures NoDoubleStar(RemoveAll(s, Bold))
    decreases |s|
  {
    if IsPrefix(Bold, s) {
      RemoveBoldClean(s[2..]);
    } else if |s| > 0 {
      RemoveBoldClean(s[1..]);
      var rest := RemoveAll(s[1..], Bold);
      if s[0] == '*' && |s| > 1 {
        assert s[1] != '*' by { assert s[..2] != Bold; }
        assert !IsPrefix(Bold, s[1..]);
        assert rest == [s[1]] + RemoveAll(s[2..], Bold) by { assert s[1..][1..] == s[2..]; }
      }
      var r := [s[0]] + rest;
      forall i | 0 <= i < |r| - 1 ensures !(r[i] == '*' && r[i + 1] == '*') {
        if i > 0 {
          assert r[i] == rest[i - 1] && r[i + 1] == rest[i];
        }
      }
    }
  }

  /** Headings carry no bold markers; paragraphs are the source text; re-joining the parts gives the content. */
  lemma BlocksFaithful(content: string)
    ensures forall i :: 0 <= i < |Blocks(content)| && Blocks(content)[i].Heading? ==>
      NoDoubleStar(Blocks(content)[i].text)
    ensures Join(Split(content, ParagraphBreak), ParagraphBreak) == content
  {
    var parts := Split(content, ParagraphBreak);
    forall i | 0 <= i < |parts| && IsPrefix(Bold, parts[i]) ensures NoDoubleStar(RemoveAll(parts[i], Bold)) {
      RemoveBoldClean(parts[i]);
    }
    JoinSplit(content, ParagraphBreak);
  }

  // ---------------------------------------------------------------------------
  // Hashtags

  /** The post page: every space-separated hashtag, none when the column is NULL. */
  function DetailTags(hashtags: Option<string>): seq<string>
  {
    if hashtags.Some? then Split(hashtags.value, " ") else []
  }

  /** The listing card: `split(' ').slice(0, 3)`. */
  function ListingTags(hashtags: Option<string>): (tags: seq<string>)
    ensures |tags| <= 3
    ensures tags <= DetailTags(hashtags)
    ensures |DetailTags(hashtags)| <= 3 ==> tags == DetailTags(hashtags)
    ensures |DetailTags(hashtags)| >= 3 ==> |tags| == 3
  {
    Take(DetailTags(hashtags), 3)
  }

  // ---------------------------------------------------------------------------
  // Related posts

  /** The three related posts: published only, the current post left out, in random order. */
  function RelatedOptions(postId: int): ListOptions
  {
    ListOptions(true, Some(3), None, Some(postId), Random)
  }

  lemma RelatedQuery(postId: int, row: BlogRow, now: int)
    requires postId != 0
    ensures Args(ListBlogPosts(RelatedOptions(postId))) == [Int(postId), Int(3)]
    ensures OrderingOf(RelatedOptions(postId)) == ByRandom
    ensures Selected(row, RelatedOptions(postId), now) <==> Visible(row, now) && row.id != postId
  {
  }

  // ---------------------------------------------------------------------------
  // Course page call to action

  datatype Cta = StartLesson(lessonId: int) | MyCourses | Checkout(courseId: int)

  /**
    A visitor with access goes to the first published lesson, or to the
    dashboard when the course has none; anyone else is offered the checkout.
   */
  function CourseCta(courseId: int, hasAccess: bool, firstLessonId: Option<int>): (c: Cta)
    ensures c.Checkout? <==> !hasAccess
    ensures c.StartLesson? ==> firstLessonId == Some(c.lessonId)
    ensures hasAccess && Truthy(firstLessonId) ==> c == StartLesson(firstLessonId.value)
    ensures c.Checkout? ==> c.courseId == courseId
  {
    if hasAccess then
      (if Truthy(firstLessonId) then StartLesson(firstLessonId.value) else MyCourses)
    else Checkout(courseId)
  }

  /** Access is only looked up for a signed-in visitor. */
  function HasAccess(signedIn: bool, enrolled: bool): bool
  {
    signedIn && enrolled
  }
}

=== FILE: quiz_client.dfy ===
/**
  The quiz page script (`src/client/quiz.ts`): a once-a-second countdown
  that colours itself as time runs out and submits the form at zero, the
  confirmation asked on a manual submit, and the collection of the checked
  options into `{ questionId: [optionId, …] }`. Timers and the DOM are
  replaced by explicit steps: `Tick` is one call of the interval callback.
 */
module QuizClient {
  import opened Common
  import opened Text
  import TimeFormat

  // ---------------------------------------------------------------------------
  // Countdown

  /** The timer: seconds left, whether the interval is set, and whether the form was submitted by it. */
  datatype Timer = Timer(remaining: int, running: bool, autoSubmitted: bool)

  /** `timeRemaining = timeLimit * 60`; the interval is set only for a positive limit. */
  function Start(timeLimit: int): (t: Timer)
    ensures t.remaining == timeLimit * 60
    ensures t.running <==> timeLimit > 0
    ensures !t.autoSubmitted
  {
    Timer(timeLimit * 60, timeLimit > 0, false)
  }

  /** The class the display carries. */
  datatype Urgency = Danger | Warning | Calm

  function UrgencyOf(remaining: int): (u: Urgency)
    ensures u == Danger <==> remaining <= 60
    ensures u == Warning <==> 60 < remaining <= 180
    ensures u == Calm <==> remaining > 180
  {
    if remaining <= 60 then Danger else if remaining <= 180 then Warning else Calm
  }

  /** `minutes + ':' + seconds.toString().padStart(2, '0')` with JavaScript's `Math.floor` and `%`. */
  function Display(remaining: int): (s: string)
    ensures remaining >= 0 ==> s == TimeFormat.Clock(remaining)
  {
    var seconds := TimeFormat.JsRem(remaining, 60);
    var minutes := IntToString(remaining / 60);
    var padded := TimeFormat.PadInt2(seconds);
    if remaining >= 0 then
      assert minutes == NatToString(remaining / 60);
      assert padded == Pad2(remaining % 60);
      TimeFormat.ClockParts(remaining);
      minutes + TimeFormat.Colon + padded
    else minutes + TimeFormat.Colon + padded
  }

  /** One call of `tick`: decrement, then clear the interval and submit once nothing is left. */
  function Tick(t: Timer): (r: Timer)
    requires t.running
    ensures r.remaining == t.remaining - 1
    ensures r.running <==> r.remaining > 0
    ensures r.autoSubmitted <==> t.autoSubmitted || r.remaining <= 0
  {
    var left := t.remaining - 1;
    if left <= 0 then Timer(left, false, true) else Timer(left, true, t.autoSubmitted)
  }

  /** What the page shows after a tick. */
  function TickView(t: Timer): (v: (string, Urgency))
    requires t.running
    ensures v.1 == Danger <==> t.remaining - 1 <= 60
  {
    var r := Tick(t);
    (Display(r.remaining), UrgencyOf(r.remaining))
  }

  /** The interval fired `n` times, as long as it stays set. */
  function Run(t: Timer, n: nat): Timer
    decreases n
  {
    if n == 0 || !t.running then t else Run(Tick(t), n - 1)
  }

  /** A positive limit of `m` minutes submits exactly at the `60·m`-th tick, and not before. */
  lemma {:induction false} CountdownSubmitsAtZero(t: Timer, n: nat)
    requires t.running && t.remaining > 0 && !t.autoSubmitted
    ensures n < t.remaining ==> Run(t, n) == Timer(t.remaining - n, true, false)
    ensures n >= t.remaining ==> Run(t, n) == Timer(0, false, true)
    decreases n
  {
    if n > 0 {
      var u := Tick(t);
      if u.running {
        CountdownSubmitsAtZero(u, n - 1);
      }
    }
  }

  lemma TimedQuizSubmitsAfterLimit(timeLimit: int)
    requires timeLimit > 0
    ensures Run(Start(timeLimit), timeLimit * 60) == Timer(0, false, true)
    ensures Run(Start(timeLimit), timeLimit * 60 - 1) == Timer(1, true, false)
  {
    CountdownSubmitsAtZero(Start(timeLimit), timeLimit * 60);
    CountdownSubmitsAtZero(Start(timeLimit), timeLimit * 60 - 1);
  }

  // ---------------------------------------------------------------------------
  // Submitting

  /** A manual submit asks for confirmation only while time remains. */
  predicate AsksConfirmation(t: Timer)
  {
    t.remaining > 0
  }

  /** What a submit event leads to. */
  datatype SubmitOutcome = Sent | Resumed(timer: Timer)

  /** The submit handler: stop the timer; if confirmation is asked and declined, restart it for a timed quiz. */
  function OnSubmit(t: Timer, timeLimit: int, confirmed: bool): (o: SubmitOutcome)
    ensures o.Resumed? <==> AsksConfirmation(t) && !confirmed
    ensures o.Resumed? ==> o.timer.remaining == t.remaining && (o.timer.running <==> timeLimit > 0)
  {
    if AsksConfirmation(t) && !confirmed then Resumed(t.(running := timeLimit > 0)) else Sent
  }

  /** An untimed quiz never asks: its counter starts at 0 or below and is never ticked. */
  lemma UntimedNeverAsks(timeLimit: int, n: nat, confirmed: bool)
    requires timeLimit <= 0
    ensures !AsksConfirmation(Run(Start(timeLimit), n))
    ensures OnSubmit(Run(Start(timeLimit), n), timeLimit, confirmed) == Sent
  {
  }

  /** The submit dispatched by the countdown is never held up by a confirmation. */
  lemma AutoSubmitIsNotConfirmed(t: Timer, confirmed: bool)
    requires t.running
    requires Tick(t).autoSubmitted && !t.autoSubmitted
    ensures OnSubmit(Tick(t), 1, confirmed) == Sent
  {
  }

  // ---------------------------------------------------------------------------
  // Collecting the answers

  const QuestionPrefix: string := "question_"

  /** The question a form key names, when it starts with `question_`. */
  function QuestionOf(key: string): (q: Option<string>)
    ensures q.Some? <==> IsPrefix(QuestionPrefix, key)
    ensures q.Some? ==> key == QuestionPrefix + q.value
  {
    if IsPrefix(QuestionPrefix, key) then
      assert key == key[..|QuestionPrefix|] + key[|QuestionPrefix|..];
      Some(key[|QuestionPrefix|..])
    else None
  }

  /** The values submitted for question `q`, in form order, each read with `parseInt`. */
  function ValuesFor(entries: seq<(string, string)>, q: string): seq<Option<int>>
  {
    if |entries| == 0 then []
    else
      var last := entries[|entries| - 1];
      ValuesFor(entries[..|entries| - 1], q) + (if last.0 == QuestionPrefix + q then [ParseInt(last.1)] else [])
  }

  /** Whether some form key names question `q`. */
  predicate Named(entries: seq<(string, string)>, q: string)
  {
    exists i :: 0 <= i < |entries| && entries[i].0 == QuestionPrefix + q
  }

  /** Collected answers that agree with the reference reading of `entries`. */
  ghost predicate Collected(answers: map<string, seq<Option<int>>>, entries: seq<(string, string)>)
  {
    && (forall q :: q in answers <==> Named(entries, q))
    && (forall q :: q in answers ==> answers[q] == ValuesFor(entries, q))
    && (forall q :: q !in answers ==> ValuesFor(entries, q) == [])
  }

  /** One form entry: `answers[questionId].push(parseInt(value))` for a question key. */
  function AddEntry(answers: map<string, seq<Option<int>>>, e: (string, string)): map<string, seq<Option<int>>>
  {
    match QuestionOf(e.0)
    case None => answers
    case Some(q) =>
      var prev := if q in answers then answers[q] else [];
      answers[q := prev + [ParseInt(e.1)]]
  }

  lemma QuestionOfIff(key: string, p: string)
    ensures key == QuestionPrefix + p <==> QuestionOf(key) == Some(p)
  {
    if key == QuestionPrefix + p {
      assert key[..|QuestionPrefix|] == QuestionPrefix;
      assert key[|QuestionPrefix|..] == p;
    }
  }

  lemma NamedSnoc(entries: seq<(string, string)>, e: (string, string), p: string)
    ensures Named(entries + [e], p) <==> Named(entries, p) || e.0 == QuestionPrefix + p
  {
    var s := entries + [e];
    if Named(entries, p) {
      var i :| 0 <= i < |entries| && entries[i].0 == QuestionPrefix + p;
      assert s[i] == entries[i];
    }
    if e.0 == QuestionPrefix + p {
      assert s[|entries|] == e;
    }
    if Named(s, p) {
      var i :| 0 <= i < |s| && s[i].0 == QuestionPrefix + p;
      if i < |entries| {
        assert s[i] == entries[i];
      }
    }
  }

  lemma ValuesForSnoc(entries: seq<(string, string)>, e: (string, string), q: string)
    ensures ValuesFor(entries + [e], q)
      == ValuesFor(entries, q) + (if e.0 == QuestionPrefix + q then [ParseInt(e.1)] else [])
  {
    assert (entries + [e])[..|entries|] == entries;
  }

  /** Adding one entry keeps the collection in step with the reference reading. */
  lemma AddEntryCollects(answers: map<string, seq<Option<int>>>, entries: seq<(string, string)>, e: (string, string))
    requires Collected(answers, entries)
    ensures Collected(AddEntry(answers, e), entries + [e])
  {
    var r := AddEntry(answers, e);
    forall p
      ensures (p in r <==> Named(entries + [e], p))
      ensures p in r ==> r[p] == ValuesFor(entries + [e], p)
      ensures p !in r ==> ValuesFor(entries + [e], p) == []
    {
      QuestionOfIff(e.0, p);
      NamedSnoc(entries, e, p);
      ValuesForSnoc(entries, e, p);
    }
  }

  /** The collection loop of the submit handler. */
  method CollectAnswers(entries: seq<(string, string)>) returns (answers: map<string, seq<Option<int>>>)
    ensures forall q :: q in answers <==> Named(entries, q)
    ensures forall q :: q in answers ==> answers[q] == ValuesFor(entries, q)
  {
    answers := map[];
    var k := 0;
    while k < |entries|
      invariant 0 <= k <= |entries|
      invariant Collected(answers, entries[..k])
    {
      AddEntryCollects(answers, entries[..k], entries[k]);
      assert entries[..k + 1] == entries[..k] + [entries[k]];
      answers := AddEntry(answers, entries[k]);
      k := k + 1;
    }
    assert entries[..|entries|] == entries;
  }
}

=== FILE: quiz_queries.dfy ===
/**
  The quiz data access of `src/features/quizzes/models/quizzes.ts` and the
  attempt rows written by the quiz submission in `src/routes/api.ts`.
  Statements are built from literal fragments and parameters (module `Sql`);
  what the database returns is modelled on tables held as sequences of rows.
 */
module QuizQueries {
  import opened Common
  import opened Sql
  import Grading

  /** The ordering a query asks for. */
  datatype Order = Random | ByOrderIndex

  const RandomSql: Lit := "RANDOM()"
  const OrderIndexAscSql: Lit := "order_index ASC"

  /** `randomize ? 'RANDOM()' : 'order_index ASC'`. */
  function OrderOf(randomize: bool): (o: Order)
    ensures o == Random <==> randomize
    ensures !randomize ==> o == ByOrderIndex
  {
    if randomize then Random else ByOrderIndex
  }

  function OrderSql(o: Order): Lit
  {
    match o
    case Random => RandomSql
    case ByOrderIndex => OrderIndexAscSql
  }

  // ---------------------------------------------------------------------------
  // Questions

  const SelectAllFrom: Lit := "SELECT * FROM "
  const QuestionsTable: Lit := "quiz_questions"
  const WhereQuizId: Lit := " WHERE quiz_id = "
  const OrderByKw: Lit := " ORDER BY "

  /** `getQuizQuestions`: the quiz's questions, in random or `order_index` order. */
  function QuestionsQuery(quizId: int, randomize: bool): (q: Stmt)
    ensures Args(q) == [Int(quizId)]
  {
    Cat(Cat(Cat(L(SelectAllFrom), L(QuestionsTable)), Cat(L(WhereQuizId), P(Int(quizId)))), Cat(L(OrderByKw), L(OrderSql(OrderOf(randomize)))))
  }

  // ---------------------------------------------------------------------------
  // Options

  const BaseOptionColumns: seq<Lit> := ["id", "question_id", "option_text", "order_index"]
  const IsCorrectColumn: Lit := "is_correct"

  /** The selected columns: the four base ones, then `is_correct` only when asked for. */
  function OptionColumns(includeCorrect: bool): (cols: seq<Lit>)
    ensures IsCorrectColumn in cols <==> includeCorrect
    ensures |cols| == if includeCorrect then 5 else 4
    ensures cols[..4] == BaseOptionColumns
  {
    if includeCorrect then BaseOptionColumns + [IsCorrectColumn] else BaseOptionColumns
  }

  const SelectKw: Lit := "SELECT "
  const FromOptions: Lit := " FROM quiz_options WHERE question_id = "

  /** `getQuizOptions`: the column list, then the question filter and the ordering. */
  function OptionsQuery(questionId: int, randomize: bool, includeCorrect: bool): (q: Stmt)
    ensures Args(q) == [Int(questionId)]
  {
    Cat(Cat(Cat(L(SelectKw), JoinQ(Literals(OptionColumns(includeCorrect)), Comma)), Cat(L(FromOptions), P(Int(questionId)))),
        Cat(L(OrderByKw), L(OrderSql(OrderOf(randomize)))))
  }

  /** A stored option. */
  datatype OptionRow = OptionRow(id: int, questionId: int, text: string, orderIndex: int, isCorrect: bool)

  /** An option as the query returns it: `isCorrect` is absent when the column is not selected. */
  datatype OptionView = OptionView(id: int, questionId: int, text: string, orderIndex: int, isCorrect: Option<bool>)

  function Project(row: OptionRow, includeCorrect: bool): (v: OptionView)
    ensures v.isCorrect.Some? <==> includeCorrect
    ensures includeCorrect ==> v.isCorrect == Some(row.isCorrect)
    ensures v.id == row.id && v.questionId == row.questionId && v.text == row.text && v.orderIndex == row.orderIndex
  {
    OptionView(row.id, row.questionId, row.text, row.orderIndex,
               if IsCorrectColumn in OptionColumns(includeCorrect) then Some(row.isCorrect) else None)
  }

  /** The rows a `getQuizOptions` call returns, before ordering. */
  function SelectOptions(table: seq<OptionRow>, questionId: int, includeCorrect: bool): (r: seq<OptionView>)
    ensures |r| <= |table|
    ensures forall i :: 0 <= i < |r| ==> r[i].questionId == questionId
    ensures !includeCorrect ==> forall i :: 0 <= i < |r| ==> r[i].isCorrect.None?
    ensures includeCorrect ==> forall i :: 0 <= i < |r| ==> r[i].isCorrect.Some?
    ensures forall i :: 0 <= i < |table| && table[i].questionId == questionId ==> Project(table[i], includeCorrect) in r
  {
    if |table| == 0 then []
    else
      var head := if table[0].questionId == questionId then [Project(table[0], includeCorrect)] else [];
      var rest := SelectOptions(table[1..], questionId, includeCorrect);
      assert forall i :: 1 <= i < |table| ==> table[i] == table[1..][i - 1];
      head + rest
  }

  /** Every option the query returns is the projection of a stored option of that question. */
  lemma {:induction false} SelectOptionsSound(table: seq<OptionRow>, questionId: int, includeCorrect: bool)
    ensures forall v :: v in SelectOptions(table, questionId, includeCorrect) ==>
      exists j :: 0 <= j < |table| && table[j].questionId == questionId && v == Project(table[j], includeCorrect)
  {
    if |table| > 0 {
      SelectOptionsSound(table[1..], questionId, includeCorrect);
      var head := if table[0].questionId == questionId then [Project(table[0], includeCorrect)] else [];
      var rest := SelectOptions(table[1..], questionId, includeCorrect);
      assert SelectOptions(table, questionId, includeCorrect) == head + rest;
      forall v | v in rest
        ensures exists j :: 0 <= j < |table| && table[j].questionId == questionId && v == Project(table[j], includeCorrect)
      {
        var k :| 0 <= k < |table[1..]| && table[1..][k].questionId == questionId && v == Project(table[1..][k], includeCorrect);
        assert table[k + 1] == table[1..][k];
      }
    }
  }

  /** The `WHERE question_id = ?` test. */
  function OfQuestion(questionId: int): OptionRow -> bool
  {
    (row: OptionRow) => row.questionId == questionId
  }

  /** Projects every row, in order. */
  function ProjectAll(rows: seq<OptionRow>, includeCorrect: bool): (r: seq<OptionView>)
    ensures |r| == |rows|
    ensures forall i :: 0 <= i < |rows| ==> r[i] == Project(rows[i], includeCorrect)
  {
    seq(|rows|, i requires 0 <= i < |rows| => Project(rows[i], includeCorrect))
  }

  /**
    The query returns exactly the question's stored options, each once and
    in table order, projected onto the selected columns.
   */
  lemma {:induction false} SelectOptionsExact(table: seq<OptionRow>, questionId: int, includeCorrect: bool)
    ensures SelectOptions(table, questionId, includeCorrect)
         == ProjectAll(Filter(table, OfQuestion(questionId)), includeCorrect)
  {
    if |table| > 0 {
      var headRows := if table[0].questionId == questionId then [table[0]] else [];
      var rest := Filter(table[1..], OfQuestion(questionId));
      assert Filter(table, OfQuestion(questionId)) == headRows + rest by {
        assert OfQuestion(questionId)(table[0]) == (table[0].questionId == questionId);
      }
      assert SelectOptions(table, questionId, includeCorrect)
          == ProjectAll(headRows, includeCorrect) + SelectOptions(table[1..], questionId, includeCorrect) by {
        assert ProjectAll(headRows, includeCorrect)
            == (if table[0].questionId == questionId then [Project(table[0], includeCorrect)] else []);
      }
      SelectOptionsExact(table[1..], questionId, includeCorrect);
      ProjectAllAppend(headRows, rest, includeCorrect);
    }
  }

  lemma ProjectAllAppend(a: seq<OptionRow>, b: seq<OptionRow>, includeCorrect: bool)
    ensures ProjectAll(a + b, includeCorrect) == ProjectAll(a, includeCorrect) + ProjectAll(b, includeCorrect)
  {
  }

  function Strip(v: OptionView): OptionView
  {
    v.(isCorrect := None)
  }

  function StripAll(vs: seq<OptionView>): (r: seq<OptionView>)
    ensures |r| == |vs|
    ensures forall i :: 0 <= i < |vs| ==> r[i] == Strip(vs[i])
  {
    seq(|vs|, i requires 0 <= i < |vs| => Strip(vs[i]))
  }

  /** The quiz-taking query returns the same options as the grading one, minus the answers. */
  lemma {:induction false} WithoutCorrectIsStripped(table: seq<OptionRow>, questionId: int)
    ensures SelectOptions(table, questionId, false) == StripAll(SelectOptions(table, questionId, true))
  {
    if |table| > 0 {
      var head := if table[0].questionId == questionId then [Project(table[0], true)] else [];
      var rest := SelectOptions(table[1..], questionId, true);
      assert SelectOptions(table, questionId, true) == head + rest;
      assert SelectOptions(table, questionId, false) == StripAll(head) + SelectOptions(table[1..], questionId, false);
      WithoutCorrectIsStripped(table[1..], questionId);
      StripAllAppend(head, rest);
    }
  }

  lemma StripAllAppend(a: seq<OptionView>, b: seq<OptionView>)
    ensures StripAll(a + b) == StripAll(a) + StripAll(b)
  {
  }

  // ---------------------------------------------------------------------------
  // Attempts

  /** A stored attempt; `score` is a JavaScript number, `passed` is stored as 0/1. */
  datatype Attempt = Attempt(
    id: int, quizId: int, userId: int, courseId: int, score: real, pointsEarned: int,
    totalPoints: int, passed: int, timeTaken: int, startedAt: string, completedAt: string, answers: string)

  const AndUser: Lit := " AND user_id = "
  const NewestFirstSql: Lit := " ORDER BY started_at DESC"

  /** `getQuizAttempts`: binds the quiz, then the user; newest first. */
  function AttemptsQuery(userId: int, quizId: int): (q: Stmt)
    ensures Args(q) == [Int(quizId), Int(userId)]
  {
    Cat(Cat(Cat(Cat(L(SelectAllFrom), L(AttemptsTable)), Cat(L(WhereQuizId), P(Int(quizId)))), Cat(L(AndUser), P(Int(userId)))), L(NewestFirstSql))
  }

  /** `getQuizAttempt`: binds the attempt id, then the user. */
  function AttemptQuery(attemptId: int, userId: int): (q: Stmt)
    ensures Args(q) == [Int(attemptId), Int(userId)]
  {
    Cat(Cat(Cat(L(SelectAllFrom), L(AttemptsTable)), Cat(L(WhereId), P(Int(attemptId)))), Cat(L(AndUser), P(Int(userId))))
  }

  predicate IsUsersAttempt(a: Attempt, quizId: int, userId: int)
  {
    a.quizId == quizId && a.userId == userId
  }

  /** The rows `getQuizAttempts` returns, before ordering. */
  function SelectUserAttempts(table: seq<Attempt>, quizId: int, userId: int): (r: seq<Attempt>)
    ensures forall i :: 0 <= i < |r| ==> r[i] in table && IsUsersAttempt(r[i], quizId, userId)
    ensures forall a :: a in table && IsUsersAttempt(a, quizId, userId) ==> a in r
  {
    Filter(table, a => IsUsersAttempt(a, quizId, userId))
  }

  /** `getQuizAttempt` (`first()`): another user's attempt is never returned. */
  function FindAttempt(table: seq<Attempt>, attemptId: int, userId: int): (r: Option<Attempt>)
    ensures r.Some? ==> r.value in table && r.value.id == attemptId && r.value.userId == userId
    ensures r.None? <==> forall i :: 0 <= i < |table| ==> !(table[i].id == attemptId && table[i].userId == userId)
  {
    var k := FindFirst(table, (a: Attempt) => a.id == attemptId && a.userId == userId);
    if k.Some? then Some(table[k.value]) else None
  }

  // ---------------------------------------------------------------------------
  // Writing an attempt

  const AttemptsTable: Lit := "quiz_attempts"
  const AttemptColumns: seq<Lit> := [
    "quiz_id", "user_id", "course_id", "score", "points_earned",
    "total_points", "passed", "time_taken", "started_at", "completed_at", "answers"]

  /** The value an attempt holds in a named column (an independent, by-name reading). */
  function ColumnValue(a: Attempt, column: string): Value
  {
    if column == "quiz_id" then Int(a.quizId)
    else if column == "user_id" then Int(a.userId)
    else if column == "course_id" then Int(a.courseId)
    else if column == "score" then Num(a.score)
    else if column == "points_earned" then Int(a.pointsEarned)
    else if column == "total_points" then Int(a.totalPoints)
    else if column == "passed" then Int(a.passed)
    else if column == "time_taken" then Int(a.timeTaken)
    else if column == "started_at" then Str(a.startedAt)
    else if column == "completed_at" then Str(a.completedAt)
    else if column == "answers" then Str(a.answers)
    else Null
  }

  /** The bind list of `createQuizAttempt`, in the order the source writes it. */
  function AttemptValues(a: Attempt): (vs: seq<Value>)
    ensures |vs| == |AttemptColumns| == 11
  {
    [Int(a.quizId), Int(a.userId), Int(a.courseId), Num(a.score), Int(a.pointsEarned),
     Int(a.totalPoints), Int(a.passed), Int(a.timeTaken), Str(a.startedAt), Str(a.completedAt), Str(a.answers)]
  }

  /** `createQuizAttempt`: eleven columns, eleven bindings. */
  function CreateAttempt(a: Attempt): (q: Stmt)
    ensures Args(q) == AttemptValues(a)
  {
    InsertInto(AttemptsTable, AttemptColumns, AttemptValues(a), [], [])
  }

  /** Every listed column receives the field it names. */
  lemma AttemptColumnsAligned(a: Attempt)
    ensures forall i :: 0 <= i < 11 ==> Args(CreateAttempt(a))[i] == ColumnValue(a, AttemptColumns[i])
  {
    forall i | 0 <= i < 11 ensures Args(CreateAttempt(a))[i] == ColumnValue(a, AttemptColumns[i]) {
      AttemptColumnAt(a, i);
    }
  }

  lemma AttemptColumnAt(a: Attempt, i: nat)
    requires i < 11
    ensures AttemptValues(a)[i] == ColumnValue(a, AttemptColumns[i])
  {
    var c := AttemptColumns[i];
    if i == 0 { assert c == "quiz_id"; }
    else if i == 1 { assert c == "user_id"; }
    else if i == 2 { assert c == "course_id"; }
    else if i == 3 { assert c == "score"; }
    else if i == 4 { assert c == "points_earned"; }
    else if i == 5 { assert c == "total_points"; }
    else if i == 6 { assert c == "passed"; }
    else if i == 7 { assert c == "time_taken"; }
    else if i == 8 { assert c == "started_at"; }
    else if i == 9 { assert c == "completed_at"; }
    else { assert c == "answers"; }
  }

  /** The attempt the submission writes: `passed ? 1 : 0`, started and completed at the same instant. */
  function SubmittedAttempt(quizId: int, userId: int, courseId: int, timeTaken: int, now: string, answersJson: string,
                            graded: Grading.Submission): (a: Attempt)
    requires graded.Graded?
    ensures a.passed == 1 <==> graded.passed
    ensures a.passed == 0 || a.passed == 1
    ensures a.startedAt == a.completedAt == now
    ensures a.score == graded.score && a.pointsEarned == graded.earned && a.totalPoints == graded.total
  {
    Attempt(0, quizId, userId, courseId, graded.score, graded.earned, graded.total,
            if graded.passed then 1 else 0, timeTaken, now, now, answersJson)
  }

  /** A stored `passed` flag reads back as the verdict. */
  lemma PassedFlagRoundTrip(quizId: int, userId: int, courseId: int, timeTaken: int, now: string, answersJson: string,
                            graded: Grading.Submission)
    requires graded.Graded?
    ensures (SubmittedAttempt(quizId, userId, courseId, timeTaken, now, answersJson, graded).passed != 0) == graded.passed
  {
  }

  // ---------------------------------------------------------------------------
  // Per-question answers

  const AnswersTable: Lit := "quiz_answers"
  const AnswerColumns: seq<Lit> := ["attempt_id", "question_id", "selected_options", "is_correct", "points_earned"]

  /** One `quiz_answers` row per graded question; `selectedJson` is `JSON.stringify(selectedOptions)`. */
  function AnswerRow(attemptId: int, result: Grading.QuestionResult, selectedJson: string): (q: Stmt)
    ensures Args(q) == [Int(attemptId), Int(result.questionId), Str(selectedJson),
                        Int(if result.isCorrect then 1 else 0), Int(result.pointsEarned)]
    ensures |Args(q)| == |AnswerColumns|
  {
    InsertInto(AnswersTable, AnswerColumns,
               [Int(attemptId), Int(result.questionId), Str(selectedJson),
                Int(if result.isCorrect then 1 else 0), Int(result.pointsEarned)], [], [])
  }
}

=== FILE: route_config.dfy ===
/**
  The post-build fix-up of Cloudflare Pages' `dist/_routes.json`
  (`scripts/fix-routes.js`): make sure the Worker is routed everything by
  default, that static assets bypass it, and that no rule excludes the
  admin area from it. Reading, parsing and writing the file are inputs
  and outputs here: the file is `None` when it does not exist, and
  otherwise `Parsed` says what `JSON.parse` made of it.
 */
module RouteConfig {
  import opened Common

  /**
    The parsed file. `include` and `exclude` are `None` when the key is
    missing or does not hold an array; `rest` stands for every other key,
    which the script writes back untouched.
   */
  datatype Routes = Routes(includeRules: Option<seq<string>>, excludeRules: Option<seq<string>>, rest: map<string, string>)

  const CatchAll: string := "/*"
  const Assets: string := "/assets/*"
  const Static: string := "/static/*"

  /** The three spellings of an admin exclusion that the script strips. */
  predicate Blocked(p: string)
  {
    p == "/admin" || p == "/admin/" || p == "/admin/*"
  }

  /** `include`: the catch-all when it is missing, not an array, or empty. */
  function FixInclude(includeRules: Option<seq<string>>): (r: seq<string>)
    ensures r == [CatchAll] <==> (includeRules.None? || |includeRules.value| == 0 || includeRules.value == [CatchAll])
    ensures includeRules.Some? && |includeRules.value| > 0 ==> r == includeRules.value
  {
    if includeRules.None? || |includeRules.value| == 0 then [CatchAll] else includeRules.value
  }

  /** `if (!exclude.includes(rule)) exclude.push(rule)`. */
  function AddIfMissing(xs: seq<string>, rule: string): (r: seq<string>)
    ensures rule in r
    ensures forall x :: x in r <==> x in xs || x == rule
  {
    if rule in xs then xs else xs + [rule]
  }

  /** `exclude.filter(p => !blockedAdmin.has(p))`. */
  function RemoveBlocked(xs: seq<string>): (r: seq<string>)
    ensures forall x :: x in r <==> x in xs && !Blocked(x)
    ensures |r| <= |xs|
  {
    if |xs| == 0 then []
    else (if Blocked(xs[0]) then [] else [xs[0]]) + RemoveBlocked(xs[1..])
  }

  lemma {:induction false} RemoveBlockedAppend(a: seq<string>, b: seq<string>)
    ensures RemoveBlocked(a + b) == RemoveBlocked(a) + RemoveBlocked(b)
    decreases |a|
  {
    if |a| > 0 {
      var head := if Blocked(a[0]) then [] else [a[0]];
      assert (a + b)[0] == a[0];
      assert (a + b)[1..] == a[1..] + b;
      assert RemoveBlocked(a + b) == head + RemoveBlocked(a[1..] + b);
      RemoveBlockedAppend(a[1..], b);
      var x, y := RemoveBlocked(a[1..]), RemoveBlocked(b);
      assert RemoveBlocked(a) == head + x;
      assert head + (x + y) == (head + x) + y;
    } else {
      assert a + b == b;
    }
  }

  /** A list with no admin rule passes the filter whole. */
  lemma {:induction false} RemoveBlockedKeeps(xs: seq<string>)
    requires forall i :: 0 <= i < |xs| ==> !Blocked(xs[i])
    ensures RemoveBlocked(xs) == xs
    decreases |xs|
  {
    if |xs| > 0 {
      RemoveBlockedKeeps(xs[1..]);
      assert [xs[0]] + xs[1..] == xs;
    }
  }

  /** `exclude`: start from `[]` when not an array, add the two asset rules, then drop admin rules. */
  function FixExclude(excludeRules: Option<seq<string>>): (r: seq<string>)
    ensures Assets in r && Static in r
    ensures forall i :: 0 <= i < |r| ==> !Blocked(r[i])
  {
    var xs := excludeRules.GetOr([]);
    RemoveBlocked(AddIfMissing(AddIfMissing(xs, Assets), Static))
  }

  /**
    What the new `exclude` is: the old rules in their old order with the
    admin rules removed, then each asset rule the old list lacked, once.
   */
  lemma FixExcludeShape(excludeRules: Option<seq<string>>)
    ensures var xs := excludeRules.GetOr([]);
      FixExclude(excludeRules) == RemoveBlocked(xs)
        + (if Assets in xs then [] else [Assets])
        + (if Static in xs then [] else [Static])
  {
    var xs := excludeRules.GetOr([]);
    var a := if Assets in xs then [] else [Assets];
    var s := if Static in xs then [] else [Static];
    assert |Assets| == 9 && |Static| == 9;
    assert AddIfMissing(xs, Assets) == xs + a;
    assert Static in xs + a <==> Static in xs;
    assert AddIfMissing(xs + a, Static) == (xs + a) + s;
    RemoveBlockedKeeps(a);
    RemoveBlockedKeeps(s);
    RemoveBlockedAppend(xs, a);
    assert RemoveBlocked(xs + a) == RemoveBlocked(xs) + a;
    RemoveBlockedAppend(xs + a, s);
    assert RemoveBlocked((xs + a) + s) == RemoveBlocked(xs) + a + s;
  }

  /** The object written back. */
  function Normalise(r: Routes): (n: Routes)
    ensures n.includeRules.Some? && n.excludeRules.Some?
    ensures n.rest == r.rest
  {
    Routes(Some(FixInclude(r.includeRules)), Some(FixExclude(r.excludeRules)), r.rest)
  }

  /** Running the script on its own output changes nothing. */
  lemma NormaliseIdempotent(r: Routes)
    ensures Normalise(Normalise(r)) == Normalise(r)
  {
    var n := Normalise(r);
    var xs := n.excludeRules.value;
    FixExcludeShape(n.excludeRules);
    RemoveBlockedKeeps(xs);
  }

  /**
    What `JSON.parse` returns for the file. Any JSON value can come back: the
    script (an ES module, so strict) throws on `null` and on a string,
    number or boolean as soon as it reads or sets a property, while an array
    takes the `include`/`exclude` properties without complaint.
   */
  datatype Parsed =
    | Malformed                              // `JSON.parse` throws
    | Primitive                              // `null`, a string, a number or a boolean
    | ArrayValue(elements: seq<string>)      // each element's JSON text
    | ObjectValue(routes: Routes)

  /** What a run of the script ends in. */
  datatype Run =
    | NotFound                            // exits 0 and leaves the file alone
    | Updated(routes: Routes)             // the normalised object is written back
    | ArrayWritten(elements: seq<string>) // `JSON.stringify` of an array drops its named properties
    | ParseFailed                         // exits 1 and leaves the file alone

  /** The process exit code: 1 only from the `catch`. */
  function ExitCode(run: Run): (code: int)
    ensures code == 1 <==> run == ParseFailed
    ensures code == 0 <==> run != ParseFailed
  {
    if run == ParseFailed then 1 else 0
  }

  /** The whole script: `file` is `None` when there is no file. */
  function FixRoutes(file: Option<Parsed>): (run: Run)
    ensures run == NotFound <==> file.None?
    ensures run == ParseFailed <==> file == Some(Malformed) || file == Some(Primitive)
    ensures run.Updated? <==> file.Some? && file.value.ObjectValue?
    ensures run.Updated? ==> run.routes == Normalise(file.value.routes)
    ensures run.ArrayWritten? <==> file.Some? && file.value.ArrayValue?
    ensures run.ArrayWritten? ==> run.elements == file.value.elements
  {
    match file
    case None => NotFound
    case Some(Malformed) => ParseFailed
    case Some(Primitive) => ParseFailed
    case Some(ArrayValue(elements)) => ArrayWritten(elements)
    case Some(ObjectValue(routes)) => Updated(Normalise(routes))
  }

  /** A top-level array is written back as it was, and the script exits 0. */
  lemma ArrayFileUnchanged(elements: seq<string>)
    ensures FixRoutes(Some(ArrayValue(elements))) == ArrayWritten(elements)
    ensures ExitCode(FixRoutes(Some(ArrayValue(elements)))) == 0
  {
  }

  /** Only an unparsable file or a non-object, non-array value makes the script fail. */
  lemma FailsExactly(file: Option<Parsed>)
    ensures ExitCode(FixRoutes(file)) == 1 <==> file == Some(Malformed) || file == Some(Primitive)
  {
  }
}

=== FILE: sql.dfy ===
/**
  Parameterised SQL statements as the data-access code builds them: text with
  `?` placeholders plus the list of values bound to them, in order.
  A statement is assembled from literal fragments, which contain no `?`, and
  from parameters; rendering it gives the text and the bindings, and
  `PlaceholdersMatch` shows that the text has exactly one placeholder per
  binding, whatever the builder did.
 */
module Sql {
  import opened Common
  import opened Text

  /** A value bound to a placeholder; `Num` is a JavaScript number that need not be an integer. */
  datatype Value = Int(i: int) | Num(r: real) | Str(s: string) | Null

  /** A fragment of SQL text written out in the source, without placeholders. */
  type Lit = s: string | '?' !in s witness ""

  datatype Piece = Text(text: Lit) | Param(value: Value)

  /** A statement under construction. */
  type Stmt = seq<Piece>

  /** What is handed to the driver: `prepare(sql).bind(...args)`. */
  datatype Query = Query(sql: string, args: seq<Value>)

  /** The SQL text of a statement: each parameter becomes `?`. */
  function SqlOf(q: Stmt): string
  {
    if |q| == 0 then ""
    else (match q[0] case Text(t) => t case Param(_) => "?") + SqlOf(q[1..])
  }

  /** The values bound by a statement, in order. */
  function Args(q: Stmt): seq<Value>
  {
    if |q| == 0 then []
    else (match q[0] case Text(_) => [] case Param(v) => [v]) + Args(q[1..])
  }

  lemma {:induction false} ArgsAppend(a: Stmt, b: Stmt)
    ensures Args(a + b) == Args(a) + Args(b)
  {
    if |a| == 0 {
      assert a + b == b;
    } else {
      assert (a + b)[1..] == a[1..] + b;
      ArgsAppend(a[1..], b);
    }
  }

  /** Number of `?` placeholders in a text. */
  function Placeholders(s: string): nat
  {
    if |s| == 0 then 0 else (if s[0] == '?' then 1 else 0) + Placeholders(s[1..])
  }

  lemma {:induction false} PlaceholdersAppend(a: string, b: string)
    ensures Placeholders(a + b) == Placeholders(a) + Placeholders(b)
  {
    if |a| > 0 {
      assert (a + b)[1..] == a[1..] + b;
      PlaceholdersAppend(a[1..], b);
    } else {
      assert a + b == b;
    }
  }

  lemma {:induction false} PlaceholdersOfLit(s: Lit)
    ensures Placeholders(s) == 0
  {
    if |s| > 0 {
      var t: Lit := s[1..];
      PlaceholdersOfLit(t);
    }
  }

  /** Every placeholder has exactly one bound value. */
  predicate WellFormed(q: Query)
  {
    Placeholders(q.sql) == |q.args|
  }

  /** Any statement built from literals and parameters binds one value per placeholder. */
  lemma {:induction false} PlaceholdersMatch(q: Stmt)
    ensures Placeholders(SqlOf(q)) == |Args(q)|
  {
    if |q| > 0 {
      PlaceholdersMatch(q[1..]);
      var head := match q[0] case Text(t) => t case Param(_) => "?";
      PlaceholdersAppend(head, SqlOf(q[1..]));
      match q[0]
      case Text(t) => PlaceholdersOfLit(t);
      case Param(_) => assert Placeholders("?") == 1 by { assert "?"[1..] == ""; }
    }
  }

  /** The statement as sent to the driver. */
  function Render(q: Stmt): (r: Query)
    ensures WellFormed(r) && r.args == Args(q)
  {
    PlaceholdersMatch(q);
    Query(SqlOf(q), Args(q))
  }

  /** Literal text. */
  function L(s: Lit): (q: Stmt)
    ensures Args(q) == []
  {
    [Text(s)]
  }

  /** One placeholder bound to `v`. */
  function P(v: Value): (q: Stmt)
    ensures Args(q) == [v]
  {
    [Param(v)]
  }

  /** Concatenation of statement parts: texts and bindings are appended in order. */
  function Cat(a: Stmt, b: Stmt): (q: Stmt)
    ensures Args(q) == Args(a) + Args(b)
  {
    ArgsAppend(a, b);
    a + b
  }

  /** The values bound by a list of parts, in order. */
  function ArgsOf(parts: seq<Stmt>): seq<Value>
  {
    if |parts| == 0 then [] else Args(parts[0]) + ArgsOf(parts[1..])
  }

  lemma {:induction false} ArgsOfAppend(a: seq<Stmt>, b: seq<Stmt>)
    ensures ArgsOf(a + b) == ArgsOf(a) + ArgsOf(b)
  {
    if |a| == 0 {
      assert a + b == b;
    } else {
      assert (a + b)[1..] == a[1..] + b;
      ArgsOfAppend(a[1..], b);
    }
  }

  /** Parts joined with a literal separator (`parts.join(sep)`): no binding is added or dropped. */
  function JoinQ(parts: seq<Stmt>, sep: Lit): (q: Stmt)
    ensures Args(q) == ArgsOf(parts)
  {
    if |parts| == 0 then L("")
    else if |parts| == 1 then parts[0]
    else Cat(Cat(parts[0], L(sep)), JoinQ(parts[1..], sep))
  }

  /** `?, ?, …, ?` bound to `vs`, as in a `VALUES (…)` list. */
  function Params(vs: seq<Value>): (q: Stmt)
    requires |vs| > 0
    ensures Args(q) == vs
  {
    if |vs| == 1 then P(vs[0]) else Cat(Cat(P(vs[0]), L(", ")), Params(vs[1..]))
  }

  // ---------------------------------------------------------------------------
  // Dynamic UPDATE statements

  /** A column that may be set, with the value supplied (`None` when the caller left it `undefined`). */
  datatype Field = Field(column: Lit, value: Option<Value>)

  const EqualsKw: Lit := " = "

  /** `column = ?` bound to `v`. */
  function Assignment(column: Lit, v: Value): (q: Stmt)
    ensures Args(q) == [v]
  {
    var text := column + EqualsKw;
    assert '?' !in text;
    Cat(L(text), P(v))
  }

  /** `column = ?` for each supplied field, in field order. */
  function Assignments(fields: seq<Field>): (parts: seq<Stmt>)
    ensures ArgsOf(parts) == Supplied(fields)
    ensures |parts| == |Supplied(fields)|
  {
    if |fields| == 0 then []
    else
      var rest := Assignments(fields[1..]);
      if fields[0].value.Some? then
        var head := Assignment(fields[0].column, fields[0].value.value);
        assert ([head] + rest)[1..] == rest;
        [head] + rest
      else rest
  }

  /** The supplied values, in field order. */
  function Supplied(fields: seq<Field>): (vs: seq<Value>)
    ensures |vs| <= |fields|
  {
    if |fields| == 0 then []
    else (if fields[0].value.Some? then [fields[0].value.value] else []) + Supplied(fields[1..])
  }

  lemma {:induction false} SuppliedAppend(a: seq<Field>, b: seq<Field>)
    ensures Supplied(a + b) == Supplied(a) + Supplied(b)
  {
    if |a| == 0 {
      assert a + b == b;
    } else {
      var head := if a[0].value.Some? then [a[0].value.value] else [];
      assert (a + b)[0] == a[0];
      assert (a + b)[1..] == a[1..] + b;
      assert Supplied(a + b) == head + Supplied(a[1..] + b);
      SuppliedAppend(a[1..], b);
      assert Supplied(a) == head + Supplied(a[1..]);
    }
  }

  /** Nothing supplied, nothing bound. */
  lemma {:induction false} SuppliedNone(fields: seq<Field>)
    requires forall i :: 0 <= i < |fields| ==> fields[i].value.None?
    ensures Supplied(fields) == []
  {
    if |fields| > 0 {
      SuppliedNone(fields[1..]);
    }
  }

  /** Fixed settings such as `updated_at = CURRENT_TIMESTAMP`. */
  function Literals(ls: seq<Lit>): (parts: seq<Stmt>)
    ensures |parts| == |ls|
    ensures ArgsOf(parts) == []
  {
    if |ls| == 0 then [] else [L(ls[0])] + Literals(ls[1..])
  }

  const UpdateKw: Lit := "UPDATE "
  const SetKw: Lit := " SET "
  const WhereId: Lit := " WHERE id = "

  /**
    `UPDATE <table> SET <assignments and fixed settings> WHERE id = ?`: one
    `column = ?` per supplied field, then the fixed settings, then the id.
   */
  function UpdateById(table: Lit, fields: seq<Field>, fixed: seq<Lit>, id: Value): (q: Stmt)
    ensures Args(q) == Supplied(fields) + [id]
  {
    var parts := Assignments(fields) + Literals(fixed);
    ArgsOfAppend(Assignments(fields), Literals(fixed));
    Cat(Cat(Cat(Cat(L(UpdateKw), L(table)), L(SetKw)), JoinQ(parts, ", ")), Cat(L(WhereId), P(id)))
  }

  // ---------------------------------------------------------------------------
  // INSERT statements

  const InsertKw: Lit := "INSERT INTO "
  const OpenCols: Lit := " ("
  const ValuesKw: Lit := ") VALUES ("
  const Comma: Lit := ", "
  const Close: Lit := ")"
  const Now: Lit := "CURRENT_TIMESTAMP"
  const TouchUpdated: Lit := "updated_at = CURRENT_TIMESTAMP"

  /** Columns computed by the database itself (`CURRENT_TIMESTAMP`), after the bound ones. */
  function Computed(exprs: seq<Lit>): (q: Stmt)
    ensures Args(q) == []
  {
    if |exprs| == 0 then [] else Cat(L(Comma), JoinQ(Literals(exprs), Comma))
  }

  /**
    `INSERT INTO <table> (<columns>, <computed columns>) VALUES (?, …, <expressions>)`:
    the i-th listed column receives the i-th bound value.
   */
  function InsertInto(table: Lit, columns: seq<Lit>, values: seq<Value>,
                      computedColumns: seq<Lit>, computedValues: seq<Lit>): (q: Stmt)
    requires |columns| == |values| > 0
    ensures Args(q) == values
  {
    var cols := JoinQ(Literals(columns + computedColumns), Comma);
    Cat(Cat(Cat(L(InsertKw), L(table)), Cat(L(OpenCols), cols)),
        Cat(Cat(L(ValuesKw), Params(values)), Cat(Computed(computedValues), L(Close))))
  }

  /** JavaScript truthiness of an optional number: `undefined`, `null` and 0 are false. */
  predicate Truthy(v: Option<int>)
  {
    v.Some? && v.value != 0
  }

  /** JavaScript truthiness of an optional string: `undefined`, `null` and `''` are false. */
  predicate TruthyStr(v: Option<string>)
  {
    v.Some? && v.value != ""
  }

  /** A checkbox or flag sent as text: `value ? 1 : 0`. */
  function Flag(v: Option<string>): (b: int)
    ensures b == 1 <==> TruthyStr(v)
    ensures b == 0 || b == 1
  {
    if TruthyStr(v) then 1 else 0
  }

  /** A numeric flag: `value ? 1 : 0`. */
  function IntFlag(v: Option<int>): (b: int)
    ensures b == 1 <==> Truthy(v)
    ensures b == 0 || b == 1
  {
    if Truthy(v) then 1 else 0
  }

  /** `value || null`. */
  function StrOrNull(v: Option<string>): (r: Value)
    ensures r == Null <==> !TruthyStr(v)
  {
    if TruthyStr(v) then Str(v.value) else Null
  }

  /** `value ?? null`: only `undefined`/`null` become NULL; `''` is kept. */
  function StrOrNullish(v: Option<string>): (r: Value)
    ensures r == Null <==> v.None?
  {
    if v.Some? then Str(v.value) else Null
  }
}

=== FILE: story_admin.dfy ===
/**
  The stories table (`src/features/stories/models/stories.ts`) and its
  moderation pages (`src/features/stories/routes/admin-stories.tsx`): the
  statements the model functions build, the effect of a status change on
  the table, the paging arithmetic of the list page, and the status
  update route. The table is a map from story id to row; `now` stands
  for `CURRENT_TIMESTAMP`.
 */
module StoryAdmin {
  import opened Common
  import opened Text
  import opened Sql

  /** A row of `stories`. */
  datatype Story = Story(
    id: int,
    userId: Option<int>,
    status: string,
    r2Key: string,
    originalFilename: string,
    fileHash: Option<string>,
    submitterAlias: Option<string>,
    moderationNotes: Option<string>,
    metaTitle: Option<string>,
    metaAuthor: Option<string>,
    ipAddress: Option<string>,
    createdAt: string,
    updatedAt: string)

  const Pending: string := "pending"
  const Approved: string := "approved"
  const Rejected: string := "rejected"

  // ---------------------------------------------------------------------------
  // createStory

  /** `CreateStoryParams`; an optional field is `None` when left `undefined`. */
  datatype NewStory = NewStory(
    userId: Option<int>,
    r2Key: string,
    originalFilename: string,
    fileHash: Option<string>,
    submitterAlias: Option<string>,
    metaTitle: Option<string>,
    metaAuthor: Option<string>,
    ipAddress: Option<string>)

  const StoriesTable: Lit := "stories"

  const StoryColumns: seq<Lit> :=
    ["user_id", "r2_key", "original_filename", "file_hash", "submitter_alias", "meta_title", "meta_author", "ip_address"]

  function IntOrNull(v: Option<int>): (r: Value)
    ensures r == Null <==> v.None?
  {
    if v.Some? then Int(v.value) else Null
  }

  /** The value `createStory` binds for a column, read by name; `?? null` for the optional ones. */
  function StoryColumnValue(p: NewStory, column: string): Option<Value>
  {
    if column == "user_id" then Some(IntOrNull(p.userId))
    else if column == "r2_key" then Some(Str(p.r2Key))
    else if column == "original_filename" then Some(Str(p.originalFilename))
    else if column == "file_hash" then Some(StrOrNullish(p.fileHash))
    else if column == "submitter_alias" then Some(StrOrNullish(p.submitterAlias))
    else if column == "meta_title" then Some(StrOrNullish(p.metaTitle))
    else if column == "meta_author" then Some(StrOrNullish(p.metaAuthor))
    else if column == "ip_address" then Some(StrOrNullish(p.ipAddress))
    else None
  }

  function StoryValues(p: NewStory): (vs: seq<Value>)
    ensures |vs| == |StoryColumns|
  {
    [IntOrNull(p.userId), Str(p.r2Key), Str(p.originalFilename), StrOrNullish(p.fileHash),
     StrOrNullish(p.submitterAlias), StrOrNullish(p.metaTitle), StrOrNullish(p.metaAuthor), StrOrNullish(p.ipAddress)]
  }

  /** `createStory`: eight columns, eight bound values. */
  function CreateStory(p: NewStory): (q: Stmt)
    ensures Args(q) == StoryValues(p)
  {
    InsertInto(StoriesTable, StoryColumns, StoryValues(p), [], [])
  }

  /** Every listed column receives the value meant for it, and an omitted field is stored as NULL. */
  lemma CreateStoryAligned(p: NewStory)
    ensures forall i :: 0 <= i < |StoryColumns| ==> StoryColumnValue(p, StoryColumns[i]) == Some(Args(CreateStory(p))[i])
    ensures p.fileHash.None? ==> Args(CreateStory(p))[3] == Null
    ensures p.ipAddress.None? ==> Args(CreateStory(p))[7] == Null
  {
    var vs := StoryValues(p);
    assert Args(CreateStory(p)) == vs;
    forall i | 0 <= i < |StoryColumns| ensures StoryColumnValue(p, StoryColumns[i]) == Some(vs[i]) {
      ColumnValueAt(p, i);
    }
  }

  lemma ColumnValueAt(p: NewStory, i: nat)
    requires i < |StoryColumns|
    ensures StoryColumnValue(p, StoryColumns[i]) == Some(StoryValues(p)[i])
  {
    var c := StoryColumns[i];
    if i == 0 { assert c == "user_id"; }
    else if i == 1 { assert c == "r2_key"; }
    else if i == 2 { assert c == "original_filename"; }
    else if i == 3 { assert c == "file_hash"; assert c[0] != "user_id"[0] && c[0] != "r2_key"[0] && c[0] != "original_filename"[0]; }
    else if i == 4 { assert c == "submitter_alias"; assert c[0] != "user_id"[0] && c[0] != "r2_key"[0] && c[0] != "original_filename"[0] && c[0] != "file_hash"[0]; }
    else if i == 5 { assert c == "meta_title"; assert c[0] != "user_id"[0] && c[0] != "r2_key"[0] && c[0] != "original_filename"[0] && c[0] != "file_hash"[0] && c[0] != "submitter_alias"[0]; }
    else if i == 6 { assert c == "meta_author"; assert c[0] != "user_id"[0] && c[0] != "r2_key"[0] && c[0] != "original_filename"[0] && c[0] != "file_hash"[0] && c[0] != "submitter_alias"[0] && c[5] != "meta_title"[5]; }
    else { assert c == "ip_address"; assert c[0] != "user_id"[0] && c[0] != "r2_key"[0] && c[0] != "original_filename"[0] && c[0] != "file_hash"[0] && c[0] != "submitter_alias"[0] && c[0] != "meta_title"[0] && c[0] != "meta_author"[0]; }
  }

  /** An empty alias is kept as `''`: `?? null` only replaces a missing value. */
  lemma EmptyAliasKept(p: NewStory)
    requires p.submitterAlias == Some("")
    ensures Args(CreateStory(p))[4] == Str("")
  {
  }

  // ---------------------------------------------------------------------------
  // listStories, countStories

  /** `ListStoriesFilters`. */
  datatype Filters = Filters(status: Option<string>, limit: Option<int>, offset: Option<int>)

  const SelectStories: Lit := "SELECT * FROM stories"
  const WhereStatus: Lit := " WHERE status = "
  const OrderNewest: Lit := " ORDER BY created_at DESC"
  const LimitKw: Lit := " LIMIT "
  const OffsetKw: Lit := " OFFSET "
  const CountStoriesSql: Lit := "SELECT COUNT(*) as count FROM stories"

  /** The WHERE clause shared by the listing and the count: only for a non-empty status. */
  function StatusClause(status: Option<string>): (q: Stmt)
    ensures Args(q) == if TruthyStr(status) then [Str(status.value)] else []
    ensures TruthyStr(status) ==> q == [Text(WhereStatus), Param(Str(status.value))]
    ensures !TruthyStr(status) ==> q == []
  {
    if TruthyStr(status) then Cat(L(WhereStatus), P(Str(status.value))) else []
  }

  /** `LIMIT ?` when a limit is given, even 0, and `OFFSET ?` only inside it. */
  function PageClause(limit: Option<int>, offset: Option<int>): (q: Stmt)
    ensures limit.None? ==> q == []
    ensures limit.Some? && offset.None? ==> q == [Text(LimitKw), Param(Int(limit.value))]
    ensures limit.Some? && offset.Some? ==> q == [Text(LimitKw), Param(Int(limit.value)), Text(OffsetKw), Param(Int(offset.value))]
  {
    if limit.Some? then
      Cat(Cat(L(LimitKw), P(Int(limit.value))), if offset.Some? then Cat(L(OffsetKw), P(Int(offset.value))) else [])
    else []
  }

  /** `listStories`. */
  function ListStories(f: Filters): (q: Stmt)
    ensures Args(q) == Args(StatusClause(f.status)) + Args(PageClause(f.limit, f.offset))
  {
    Cat(Cat(Cat(L(SelectStories), StatusClause(f.status)), L(OrderNewest)), PageClause(f.limit, f.offset))
  }

  /** What the page clause binds: the limit when given, and the offset only with it. */
  lemma PageArgs(limit: Option<int>, offset: Option<int>)
    ensures Args(PageClause(limit, offset)) == (if limit.Some? then [Int(limit.value)] else [])
      + (if limit.Some? && offset.Some? then [Int(offset.value)] else [])
  {
    if limit.Some? {
      var l := Cat(L(LimitKw), P(Int(limit.value)));
      var o: Stmt := if offset.Some? then Cat(L(OffsetKw), P(Int(offset.value))) else [];
      assert Args(o) == if offset.Some? then [Int(offset.value)] else [];
      assert PageClause(limit, offset) == Cat(l, o);
    }
  }

  /** The listing binds the status, then the limit, then the offset, each only when it applies. */
  lemma ListArgs(f: Filters)
    ensures Args(ListStories(f)) == (if TruthyStr(f.status) then [Str(f.status.value)] else [])
      + ((if f.limit.Some? then [Int(f.limit.value)] else [])
      + (if f.limit.Some? && f.offset.Some? then [Int(f.offset.value)] else []))
  {
    PageArgs(f.limit, f.offset);
    var a: seq<Value> := if TruthyStr(f.status) then [Str(f.status.value)] else [];
    var b: seq<Value> := if f.limit.Some? then [Int(f.limit.value)] else [];
    var c: seq<Value> := if f.limit.Some? && f.offset.Some? then [Int(f.offset.value)] else [];
    assert Args(StatusClause(f.status)) == a;
    assert Args(PageClause(f.limit, f.offset)) == b + c;
  }

  /** The LIMIT and OFFSET keywords appear exactly when their clauses apply. */
  lemma ListKeywords(f: Filters)
    ensures Text(LimitKw) in ListStories(f) <==> f.limit.Some?
    ensures Text(OffsetKw) in ListStories(f) <==> f.limit.Some? && f.offset.Some?
  {
    var head := [Text(SelectStories)] + StatusClause(f.status) + [Text(OrderNewest)];
    var page := PageClause(f.limit, f.offset);
    assert ListStories(f) == head + page;
    NotInHead(f.status);
    assert |LimitKw| != |OffsetKw|;
    assert Text(LimitKw) in page <==> f.limit.Some?;
    assert Text(OffsetKw) in page <==> f.limit.Some? && f.offset.Some?;
  }

  /** LIMIT is added whenever a limit is given, even 0, and OFFSET only after it. */
  lemma ListClauses(f: Filters)
    ensures Args(ListStories(f)) == (if TruthyStr(f.status) then [Str(f.status.value)] else [])
      + ((if f.limit.Some? then [Int(f.limit.value)] else [])
      + (if f.limit.Some? && f.offset.Some? then [Int(f.offset.value)] else []))
    ensures Text(LimitKw) in ListStories(f) <==> f.limit.Some?
    ensures Text(OffsetKw) in ListStories(f) <==> f.limit.Some? && f.offset.Some?
  {
    ListArgs(f);
    ListKeywords(f);
  }

  lemma NotInHead(status: Option<string>)
    ensures Text(LimitKw) !in [Text(SelectStories)] + StatusClause(status) + [Text(OrderNewest)]
    ensures Text(OffsetKw) !in [Text(SelectStories)] + StatusClause(status) + [Text(OrderNewest)]
  {
    assert |LimitKw| == 7 && |OffsetKw| == 8;
    assert |SelectStories| > 8 && |WhereStatus| > 8 && |OrderNewest| > 8;
    var head := [Text(SelectStories)] + StatusClause(status) + [Text(OrderNewest)];
    forall k | 0 <= k < |head|
      ensures head[k] != Text(LimitKw) && head[k] != Text(OffsetKw)
    {
      if head[k].Text? {
        assert head[k].text in {SelectStories, WhereStatus, OrderNewest};
      }
    }
  }

  /** `countStories`: the same status filter as the listing. */
  function CountStories(status: Option<string>): (q: Stmt)
    ensures Args(q) == Args(StatusClause(status))
  {
    Cat(L(CountStoriesSql), StatusClause(status))
  }

  /** A limit of 0 is a limit: the statement binds `[0, 0]`, or `[0]` without an offset. */
  lemma ZeroLimitKept()
    ensures Args(ListStories(Filters(None, Some(0), Some(0)))) == [Int(0), Int(0)]
    ensures Args(ListStories(Filters(None, Some(0), None))) == [Int(0)]
    ensures Text(OffsetKw) !in ListStories(Filters(None, Some(0), None))
  {
    ListClauses(Filters(None, Some(0), Some(0)));
    ListClauses(Filters(None, Some(0), None));
  }

  /** The listing and the count of a page filter on the same status. */
  lemma ListAndCountAgree(status: Option<string>, limit: int, offset: int)
    ensures Args(ListStories(Filters(status, Some(limit), Some(offset)))) == Args(CountStories(status)) + [Int(limit), Int(offset)]
  {
    var f := Filters(status, Some(limit), Some(offset));
    ListArgs(f);
    var s: seq<Value> := if TruthyStr(status) then [Str(status.value)] else [];
    assert Args(StatusClause(status)) == s;
    assert Args(CountStories(status)) == s;
    assert [Int(limit)] + [Int(offset)] == [Int(limit), Int(offset)];
  }

  /** The rows a filter selects: the status when one is given, else every row. */
  predicate Selects(status: Option<string>, s: Story)
  {
    !TruthyStr(status) || s.status == status.value
  }

  /** `result?.count ?? 0`: the count, or 0 when there is no row. */
  function CountOrZero(row: Option<nat>): (n: nat)
    ensures row.Some? ==> n == row.value
    ensures row.None? ==> n == 0
  {
    if row.Some? then row.value else 0
  }

  // ---------------------------------------------------------------------------
  // updateStoryStatus

  const UpdateStatusA: Lit := "UPDATE stories SET status = "
  const UpdateStatusB: Lit := ", updated_at = CURRENT_TIMESTAMP"

  function UpdateStatusQuery(id: int, status: string): (q: Stmt)
    ensures Args(q) == [Str(status), Int(id)]
  {
    Cat(Cat(Cat(L(UpdateStatusA), P(Str(status))), L(UpdateStatusB)), Cat(L(WhereId), P(Int(id))))
  }

  type Table = map<int, Story>

  /** The effect of the update on the table, and `result.changes`. */
  function UpdateStoryStatus(t: Table, id: int, status: string, now: string): (r: (Table, nat))
    ensures r.1 == (if id in t then 1 else 0)
    ensures r.0.Keys == t.Keys
    ensures id in t ==> r.0[id] == t[id].(status := status, updatedAt := now)
    ensures forall k :: k in t && k != id ==> r.0[k] == t[k]
  {
    if id in t then (t[id := t[id].(status := status, updatedAt := now)], 1) else (t, 0)
  }

  /** Updating twice with the same status only moves the timestamp. */
  lemma UpdateIdempotent(t: Table, id: int, status: string, now1: string, now2: string)
    ensures UpdateStoryStatus(UpdateStoryStatus(t, id, status, now1).0, id, status, now2).0
      == UpdateStoryStatus(t, id, status, now2).0
  {
  }

  // ---------------------------------------------------------------------------
  // The list page

  const PageSize: nat := 20

  /** `parseInt(page || '1')`, with 1 for NaN or anything below 1. */
  function PageOf(param: Option<string>): (p: int)
    ensures p >= 1
  {
    var parsed := ParseInt(if TruthyStr(param) then param.value else "1");
    if parsed.None? || parsed.value < 1 then 1 else parsed.value
  }

  /** The page links write `page=${p}`, and the page reads it back. */
  lemma PageLinkRoundTrip(p: nat)
    requires p >= 1
    ensures PageOf(Some(NatToString(p))) == p
  {
    ParseIntOfNatToString(p);
  }

  /** A missing, empty, unreadable or non-positive page is page 1. */
  lemma PageDefaults(param: Option<string>)
    requires !TruthyStr(param) || ParseInt(param.value).None? || ParseInt(param.value).value < 1
    ensures PageOf(param) == 1
  {
    if !TruthyStr(param) {
      ParseIntOfNatToString(1);
      assert NatToString(1) == "1";
    }
  }

  function Offset(page: int): (o: int)
    requires page >= 1
    ensures o >= 0 && o % PageSize == 0
  {
    (page - 1) * PageSize
  }

  /** `Math.ceil(total / 20)`. */
  function TotalPages(total: nat): (n: nat)
    ensures n == 0 <==> total == 0
    ensures total > 0 ==> (n - 1) * PageSize < total <= n * PageSize
  {
    var n := (total + PageSize - 1) / PageSize;
    assert total + PageSize - 1 == n * PageSize + (total + PageSize - 1) % PageSize;
    n
  }

  /** The page row shows the pagination only beyond one page. */
  predicate ShowsPagination(total: nat)
  {
    TotalPages(total) > 1
  }

  lemma PaginationIff(total: nat)
    ensures ShowsPagination(total) <==> total > PageSize
  {
  }

  /** Every story is on exactly one of the linked pages, at the offset that page asks for. */
  lemma PagesCoverTotal(total: nat, i: nat)
    requires i < total
    ensures var p := i / PageSize + 1;
      1 <= p <= TotalPages(total) && Offset(p) <= i < Offset(p) + PageSize
    ensures forall q :: 1 <= q <= TotalPages(total) && Offset(q) <= i < Offset(q) + PageSize ==> q == i / PageSize + 1
  {
  }

  /** The filters of the list page. */
  function PageFilters(pageParam: Option<string>, status: Option<string>): (f: Filters)
    ensures f.limit == Some(PageSize as int)
    ensures f.offset == Some(Offset(PageOf(pageParam)))
  {
    Filters(status, Some(PageSize as int), Some(Offset(PageOf(pageParam))))
  }

  // ---------------------------------------------------------------------------
  // Rows of the list page

  datatype Color = Green | Red | Yellow | Gray

  /** `StatusBadge`: a Spanish label and a colour for the three states; any other text shown as is, in grey. */
  function StatusBadge(status: string): (b: (string, Color))
    ensures b.1 == Gray <==> status != Approved && status != Rejected && status != Pending
    ensures b.1 == Gray ==> b.0 == status
    ensures b.1 == Green <==> status == Approved
    ensures b.1 == Red <==> status == Rejected
    ensures b.1 == Yellow <==> status == Pending
  {
    if status == Approved then ("Aprobado", Green)
    else if status == Rejected then ("Rechazado", Red)
    else if status == Pending then ("Pendiente", Yellow)
    else (status, Gray)
  }

  /** The approve and reject buttons appear only on a pending story. */
  function Actions(s: Story): (posts: seq<string>)
    ensures |posts| > 0 <==> s.status == Pending
  {
    if s.status == Pending then [Approved, Rejected] else []
  }

  /** `meta_title || 'Sin título'` and `meta_author || 'Anónimo'`. */
  function TitleAndAuthor(s: Story): (r: (string, string))
    ensures TruthyStr(s.metaTitle) ==> r.0 == s.metaTitle.value
    ensures !TruthyStr(s.metaTitle) ==> r.0 == "Sin título"
    ensures TruthyStr(s.metaAuthor) ==> r.1 == s.metaAuthor.value
    ensures !TruthyStr(s.metaAuthor) ==> r.1 == "Anónimo"
  {
    (if TruthyStr(s.metaTitle) then s.metaTitle.value else "Sin título",
     if TruthyStr(s.metaAuthor) then s.metaAuthor.value else "Anónimo")
  }

  // ---------------------------------------------------------------------------
  // The status route

  datatype Response = InvalidId400 | InvalidStatus400 | NotFound404 | Redirect(url: string)

  const BackToPending: string := "/admin/stories?status=pending"

  /** The id as written: `parseInt` reads a leading number and ignores what follows. */
  function RouteIdAsWritten(param: string): (id: Option<int>)
    ensures IsAllDigits(param) ==> id == Some(DigitsValue(param))
  {
    ParseInt(param)
  }

  /** The id the validation test expects: only a run of decimal digits is an id. */
  function RouteId(param: string): (id: Option<int>)
    ensures id.Some? <==> IsAllDigits(param)
    ensures id.Some? ==> id.value == DigitsValue(param) && id.value >= 0
  {
    if IsAllDigits(param) then
      ParseInt10(param)
    else None
  }

  /** The digits at the head of `123abc`. */
  lemma LeadingDigitsOfSample()
    ensures LeadingDigits("123abc") == "123"
  {
    var s: string := "123abc";
    var s1: string := "23abc";
    var s2: string := "3abc";
    var s3: string := "abc";
    assert s[1..] == s1 && s1[1..] == s2 && s2[1..] == s3;
    assert !IsDigit(s3[0]) && IsDigit(s[0]) && IsDigit(s1[0]) && IsDigit(s2[0]);
    assert LeadingDigits(s3) == "";
    assert LeadingDigits(s2) == "3";
    assert LeadingDigits(s1) == "23";
  }

  /** `123abc` passes as story 123 as written; the strict reading rejects it. */
  lemma TrailingTextAccepted()
    ensures RouteIdAsWritten("123abc") == Some(123)
    ensures RouteId("123abc") == None
  {
    SampleNotAllDigits();
    ParseIntOfSample();
  }

  lemma SampleNotAllDigits()
    ensures !IsAllDigits("123abc")
  {
    var s: string := "123abc";
    assert !IsDigit(s[3]);
  }

  /** `parseInt('123abc')` reads the leading 123. */
  lemma ParseIntOfSample()
    ensures ParseInt("123abc") == Some(123)
  {
    var s: string := "123abc";
    assert TrimStart(s) == s by {
      assert !IsWhitespace(s[0]);
    }
    assert LeadingDigits(s) == "123" by {
      LeadingDigitsOfSample();
    }
    SampleDigitsValue();
  }

  lemma SampleDigitsValue()
    ensures DigitsValue("123") == 123
  {
    assert NatToString(123) == "123";
    DigitsValueOfNatToString(123);
  }

  /** The strict id and `parseInt` agree on every printed number. */
  lemma RouteIdsAgreeOnNumbers(n: nat)
    ensures RouteId(NatToString(n)) == RouteIdAsWritten(NatToString(n)) == Some(n)
  {
    ParseIntOfNatToString(n);
    DigitsValueOfNatToString(n);
  }

  /** `POST /:id/status` with a given id reading: id, then status, then the update and its change count. */
  function StatusRouteWith(id: Option<int>, status: Option<string>, t: Table, now: string): (r: (Table, Response))
    ensures r.1 == InvalidId400 <==> id.None?
    ensures r.1 == InvalidStatus400 <==> id.Some? && status != Some(Approved) && status != Some(Rejected)
    ensures r.1 == NotFound404 <==> id.Some? && (status == Some(Approved) || status == Some(Rejected)) && id.value !in t
    ensures r.1.Redirect? ==> r.1.url == BackToPending && r.0 == UpdateStoryStatus(t, id.value, status.value, now).0
    ensures !r.1.Redirect? ==> r.0 == t
  {
    if id.None? then (t, InvalidId400)
    else if status != Some(Approved) && status != Some(Rejected) then (t, InvalidStatus400)
    else
      var u := UpdateStoryStatus(t, id.value, status.value, now);
      if u.1 == 0 then (t, NotFound404) else (u.0, Redirect(BackToPending))
  }

  /** The route as written. */
  function StatusRouteAsWritten(idParam: string, status: Option<string>, t: Table, now: string): (r: (Table, Response))
    ensures r.1 == InvalidId400 <==> ParseInt(idParam).None?
    ensures r.1.Redirect? <==> (ParseInt(idParam).Some? && (status == Some(Approved) || status == Some(Rejected))
      && ParseInt(idParam).value in t)
    ensures r.1.Redirect? ==> ParseInt(idParam).value in r.0 && r.0[ParseInt(idParam).value].status == status.value
  {
    StatusRouteWith(RouteIdAsWritten(idParam), status, t, now)
  }

  /** The route with the strict id. */
  function StatusRoute(idParam: string, status: Option<string>, t: Table, now: string): (r: (Table, Response))
    ensures r.1 == InvalidId400 <==> !IsAllDigits(idParam)
    ensures r.1.Redirect? <==> (IsAllDigits(idParam) && (status == Some(Approved) || status == Some(Rejected))
      && DigitsValue(idParam) in t)
    ensures r.1.Redirect? ==> DigitsValue(idParam) in r.0 && r.0[DigitsValue(idParam)].status == status.value
  {
    StatusRouteWith(RouteId(idParam), status, t, now)
  }

  /** As written, `/admin/stories/123abc/status` approves story 123; the strict route answers 400. */
  lemma MixedIdModeratesAnotherStory(t: Table, now: string)
    requires 123 in t
    ensures StatusRouteAsWritten("123abc", Some(Approved), t, now).1 == Redirect(BackToPending)
    ensures StatusRouteAsWritten("123abc", Some(Approved), t, now).0[123].status == Approved
    ensures StatusRoute("123abc", Some(Approved), t, now).1 == InvalidId400
  {
    TrailingTextAccepted();
  }

  /** A moderation button always posts a status the route accepts. */
  lemma ButtonsPostValidStatuses(s: Story, t: Table, now: string)
    requires s.id in t && s.id >= 0
    ensures forall st :: st in Actions(s) ==> StatusRoute(NatToString(s.id), Some(st), t, now).1 == Redirect(BackToPending)
  {
    DigitsValueOfNatToString(s.id);
  }
}

=== FILE: story_submission.dfy ===
/**
  Story uploads (`POST /submissions` in `src/features/stories/routes/api.tsx`):
  a fixed-window rate limit of 5 uploads per hour per address, the upload
  size limit, the HTML checks, the `<meta>` extractor, the order in which
  a submission is rejected, and the file-name sanitiser used for the
  storage key. Times are milliseconds passed in as `now`.
 */
module StorySubmission {
  import opened Common
  import opened Text
  import AiQuota

  // ---------------------------------------------------------------------------
  // Rate limit

  const WindowMs: int := 60 * 60 * 1000
  const MaxPerWindow: int := 5

  /** A row of `api_rate_limits`. */
  datatype RateRecord = RateRecord(count: int, resetAt: int)

  type Limits = map<string, RateRecord>

  const RateKeyHead: string := "ip:"
  const RateKeyTail: string := ":stories_submission"

  /** `ip:${ip}:stories_submission`. */
  function RateKey(ip: string): string
  {
    RateKeyHead + ip + RateKeyTail
  }

  /** Different addresses never share a counter. */
  lemma RateKeyInjective(a: string, b: string)
    requires RateKey(a) == RateKey(b)
    ensures a == b
  {
    var ka, kb := RateKey(a), RateKey(b);
    assert |a| == |b|;
    assert a == ka[|RateKeyHead|..|RateKeyHead| + |a|];
    assert b == kb[|RateKeyHead|..|RateKeyHead| + |b|];
  }

  /** `checkRateLimit`: a new window after `reset_at`, a refusal at 5, otherwise one more. */
  function CheckRateLimit(limits: Limits, ip: string, now: int): (r: (Limits, bool))
    ensures var key := RateKey(ip);
      (!r.1 <==> key in limits && now <= limits[key].resetAt && limits[key].count >= MaxPerWindow)
      && (!r.1 ==> r.0 == limits)
      && (key !in limits || now > limits[key].resetAt ==> r.0 == limits[key := RateRecord(1, now + WindowMs)])
      && (forall k :: k != key ==> (k in r.0 <==> k in limits) && (k in limits ==> r.0[k] == limits[k]))
  {
    var key := RateKey(ip);
    if key in limits then
      var rec := limits[key];
      if now > rec.resetAt then (limits[key := RateRecord(1, now + WindowMs)], true)
      else if rec.count >= MaxPerWindow then (limits, false)
      else (limits[key := rec.(count := rec.count + 1)], true)
    else (limits[key := RateRecord(1, now + WindowMs)], true)
  }

  /** Requests from one address at the given times; returns the table and how many were allowed. */
  function Requests(limits: Limits, ip: string, times: seq<int>): (Limits, nat)
    decreases |times|
  {
    if |times| == 0 then (limits, 0)
    else
      var step := CheckRateLimit(limits, ip, times[0]);
      var rest := Requests(step.0, ip, times[1..]);
      (rest.0, rest.1 + if step.1 then 1 else 0)
  }

  /** Inside one window, at most `5 − count` further requests get through, and the window is kept. */
  lemma {:induction false} WithinWindow(limits: Limits, ip: string, times: seq<int>)
    requires RateKey(ip) in limits
    requires 0 <= limits[RateKey(ip)].count <= MaxPerWindow
    requires forall i :: 0 <= i < |times| ==> times[i] <= limits[RateKey(ip)].resetAt
    ensures var r := Requests(limits, ip, times);
      r.1 <= MaxPerWindow - limits[RateKey(ip)].count
      && RateKey(ip) in r.0 && r.0[RateKey(ip)].resetAt == limits[RateKey(ip)].resetAt
      && r.0[RateKey(ip)].count == limits[RateKey(ip)].count + r.1
  {
    if |times| > 0 {
      var step := CheckRateLimit(limits, ip, times[0]);
      WithinWindow(step.0, ip, times[1..]);
    }
  }

  /** A window opened at `t0` lets at most 5 requests through up to `t0 + 1 h`. */
  lemma FivePerHour(limits: Limits, ip: string, t0: int, times: seq<int>)
    requires RateKey(ip) !in limits || t0 > limits[RateKey(ip)].resetAt
    requires forall i :: 0 <= i < |times| ==> times[i] <= t0 + WindowMs
    ensures Requests(limits, ip, [t0] + times).1 <= MaxPerWindow
  {
    var step := CheckRateLimit(limits, ip, t0);
    assert ([t0] + times)[1..] == times;
    WithinWindow(step.0, ip, times);
  }

  /** The address as the upload route reads it: `?? 'unknown'` keeps an empty header, unlike the assistant's `||`. */
  function ClientIp(connectingIp: Option<string>, host: Option<string>): (ip: string)
    ensures connectingIp.Some? && connectingIp.value != AiQuota.Unknown ==> ip == connectingIp.value
  {
    var ip := if connectingIp.Some? then connectingIp.value else AiQuota.Unknown;
    if ip == AiQuota.Unknown && host.Some? && Contains(host.value, AiQuota.Localhost) then AiQuota.Loopback else ip
  }

  /** An empty `CF-Connecting-IP` header: the upload limit counts it as `""`, the assistant as `unknown`. */
  lemma EmptyHeaderDiverges(host: Option<string>)
    requires host.None?
    ensures ClientIp(Some(""), host) == ""
    ensures AiQuota.ClientIp(Some(""), host) == AiQuota.Unknown
  {
  }

  // ---------------------------------------------------------------------------
  // Size and type

  const DefaultMaxBytes: int := 3 * 1024 * 1024

  /** `MAX_UPLOAD_BYTES` when it is all digits and positive, otherwise 3 MiB. */
  function MaxBytes(setting: Option<string>): (n: int)
    ensures n > 0
    ensures setting.Some? && IsAllDigits(setting.value) && DigitsValue(setting.value) > 0 ==> n == DigitsValue(setting.value)
    ensures !(setting.Some? && IsAllDigits(setting.value) && DigitsValue(setting.value) > 0) ==> n == DefaultMaxBytes
  {
    if setting.Some? && setting.value != "" && IsAllDigits(setting.value) then
      var parsed := ParseInt10(setting.value);
      if parsed.Some? && parsed.value > 0 then parsed.value else DefaultMaxBytes
    else DefaultMaxBytes
  }

  const HtmlExt: string := ".html"
  const HtmlType: string := "text/html"

  /** `file.name.endsWith('.html') || file.type === 'text/html'` (case-sensitive). */
  predicate IsHtml(name: string, mimeType: string)
  {
    IsSuffix(HtmlExt, name) || mimeType == HtmlType
  }

  // ---------------------------------------------------------------------------
  // <meta> tags

  /**
    A `<meta …>` tag, reduced to the values of its `name` and `content`
    attributes as the two attribute patterns find them; `None` when the
    attribute is missing.
   */
  datatype MetaTag = MetaTag(name: Option<string>, content: Option<string>)

  /** Whether the tag's `name` is `target`; an empty name is falsy in the source and names nothing. */
  predicate NamedAs(t: MetaTag, target: string)
  {
    target != "" && t.name == Some(target)
  }

  /** `extractMeta`: the first tag named `target` decides; an empty value counts as absent. */
  function ExtractMeta(tags: seq<MetaTag>, target: string): (r: Option<string>)
    ensures r.Some? ==> r.value != ""
    ensures r.Some? ==> exists i :: 0 <= i < |tags| && NamedAs(tags[i], target) && tags[i].content == r
  {
    if |tags| == 0 then None
    else
      var name := if tags[0].name.Some? && tags[0].name.value != "" then tags[0].name else None;
      if name == Some(target) then
        if tags[0].content.Some? && tags[0].content.value != "" then tags[0].content else None
      else
        var r := ExtractMeta(tags[1..], target);
        if r.Some? then
          var i :| 0 <= i < |tags[1..]| && NamedAs(tags[1..][i], target) && tags[1..][i].content == r;
          assert tags[i + 1] == tags[1..][i];
          r
        else None
  }

  /** The reference reading: the position of the first tag with that name. */
  function FirstNamed(tags: seq<MetaTag>, target: string): (r: Option<nat>)
    ensures r.Some? ==> r.value < |tags| && NamedAs(tags[r.value], target)
    ensures r.Some? ==> forall j :: 0 <= j < r.value ==> !NamedAs(tags[j], target)
    ensures r.None? ==> forall j :: 0 <= j < |tags| ==> !NamedAs(tags[j], target)
  {
    FindFirst(tags, (t: MetaTag) => NamedAs(t, target))
  }

  /** The extractor returns the first named tag's content, and a later tag of the same name is never consulted. */
  lemma {:induction false} ExtractMetaFirst(tags: seq<MetaTag>, target: string)
    ensures var k := FirstNamed(tags, target);
      ExtractMeta(tags, target) == (if k.Some? && tags[k.value].content.Some? && tags[k.value].content.value != ""
                                    then tags[k.value].content else None)
  {
    if |tags| > 0 {
      ExtractMetaFirst(tags[1..], target);
      if !NamedAs(tags[0], target) {
        var k := FirstNamed(tags[1..], target);
        var k0 := FirstNamed(tags, target);
        if k.Some? {
          assert tags[k.value + 1] == tags[1..][k.value];
          forall j | 0 <= j < k.value + 1 ensures !NamedAs(tags[j], target) {
            if j > 0 { assert tags[j] == tags[1..][j - 1]; }
          }
          FirstIsUnique(tags, target, k0, k.value + 1);
        } else {
          forall j | 0 <= j < |tags| ensures !NamedAs(tags[j], target) {
            if j > 0 { assert tags[j] == tags[1..][j - 1]; }
          }
        }
      }
    }
  }

  lemma FirstIsUnique(tags: seq<MetaTag>, target: string, k0: Option<nat>, n: nat)
    requires k0 == FirstNamed(tags, target)
    requires n < |tags| && NamedAs(tags[n], target)
    requires forall j :: 0 <= j < n ==> !NamedAs(tags[j], target)
    ensures k0 == Some(n)
  {
  }

  // ---------------------------------------------------------------------------
  // The route

  datatype Upload = Upload(name: string, mimeType: string, size: int, tags: seq<MetaTag>, hasStorySection: bool, hash: string)

  datatype Outcome =
    | TooManyRequests429
    | NoFile400
    | BadType400
    | TooLarge413
    | BadFormat400
    | Duplicate409
    | Created201(title: string, author: string)

  const TitleMeta: string := "madm:title"
  const AuthorMeta: string := "madm:author"

  /** The upload passes the type and size checks. */
  predicate Accepted(f: Upload, maxUploadBytes: Option<string>)
  {
    IsHtml(f.name, f.mimeType) && f.size <= MaxBytes(maxUploadBytes)
  }

  /** The page carries a title, an author and a story section. */
  predicate WellFormed(f: Upload)
  {
    ExtractMeta(f.tags, TitleMeta).Some? && ExtractMeta(f.tags, AuthorMeta).Some? && f.hasStorySection
  }

  /** The checks in order after the rate limit: file, type, size, metadata and section, duplicate hash. */
  function Submit(allowed: bool, file: Option<Upload>, maxUploadBytes: Option<string>, knownHashes: set<string>): (o: Outcome)
    ensures !allowed <==> o == TooManyRequests429
    ensures o == NoFile400 <==> allowed && file.None?
    ensures o == BadType400 <==> (allowed && file.Some? && !IsHtml(file.value.name, file.value.mimeType))
    ensures o == TooLarge413 <==> (allowed && file.Some? && IsHtml(file.value.name, file.value.mimeType)
      && file.value.size > MaxBytes(maxUploadBytes))
    ensures o == BadFormat400 <==> (allowed && file.Some? && Accepted(file.value, maxUploadBytes)
      && !WellFormed(file.value))
    ensures o == Duplicate409 <==> (allowed && file.Some? && Accepted(file.value, maxUploadBytes)
      && WellFormed(file.value) && file.value.hash in knownHashes)
    ensures o.Created201? <==> (allowed && file.Some? && Accepted(file.value, maxUploadBytes)
      && WellFormed(file.value) && file.value.hash !in knownHashes)
    ensures o.Created201? ==>
      Some(o.title) == ExtractMeta(file.value.tags, TitleMeta) && Some(o.author) == ExtractMeta(file.value.tags, AuthorMeta)
  {
    if !allowed then TooManyRequests429
    else if file.None? then NoFile400
    else
      var f := file.value;
      if !IsHtml(f.name, f.mimeType) then BadType400
      else if f.size > MaxBytes(maxUploadBytes) then TooLarge413
      else
        var title := ExtractMeta(f.tags, TitleMeta);
        var author := ExtractMeta(f.tags, AuthorMeta);
        if title.None? || author.None? || !f.hasStorySection then BadFormat400
        else if f.hash in knownHashes then Duplicate409
        else Created201(title.value, author.value)
  }

  /**
    Sending the same story again once its hash is recorded is answered 409,
    whatever the rate limit leaves of the window.
   */
  lemma ResubmitIsDuplicate(f: Upload, maxUploadBytes: Option<string>, knownHashes: set<string>)
    requires Submit(true, Some(f), maxUploadBytes, knownHashes).Created201?
    ensures Submit(true, Some(f), maxUploadBytes, knownHashes + {f.hash}) == Duplicate409
  {
  }

  /** Once type and size pass, the page's contents alone decide between 400, 409 and 201. */
  lemma ContentDecides(f: Upload, maxUploadBytes: Option<string>, knownHashes: set<string>)
    requires Accepted(f, maxUploadBytes)
    ensures var o := Submit(true, Some(f), maxUploadBytes, knownHashes);
      o == (if !WellFormed(f) then BadFormat400
            else if f.hash in knownHashes then Duplicate409
            else Created201(ExtractMeta(f.tags, TitleMeta).value, ExtractMeta(f.tags, AuthorMeta).value))
  {
  }

  // ---------------------------------------------------------------------------
  // Storage key

  predicate SafeNameChar(c: char)
  {
    IsAsciiAlnum(c) || c == '.' || c == '-'
  }

  function SanitizeChar(c: char): char
  {
    if SafeNameChar(c) then c else '_'
  }

  /** `name.replace(/[^a-zA-Z0-9.-]/g, '_')`. */
  function SanitizeFilename(name: string): (r: string)
    ensures |r| == |name|
    ensures forall i :: 0 <= i < |r| ==> SafeNameChar(r[i]) || r[i] == '_'
    ensures forall i :: 0 <= i < |r| ==> (r[i] == name[i] <==> SafeNameChar(name[i]) || name[i] == '_')
  {
    MapEach(name, SanitizeChar)
  }

  /** Sanitising twice changes nothing more. */
  lemma SanitizeIdempotent(name: string)
    ensures SanitizeFilename(SanitizeFilename(name)) == SanitizeFilename(name)
  {
  }

  /** The sanitised name has no path separator, so the key stays under `stories/`. */
  lemma SanitizedHasNoSlash(name: string)
    ensures '/' !in SanitizeFilename(name) && '\\' !in SanitizeFilename(name)
  {
    var r := SanitizeFilename(name);
    forall i | 0 <= i < |r| ensures r[i] != '/' && r[i] != '\\' {
      assert SafeNameChar(r[i]) || r[i] == '_';
    }
  }
}

=== FILE: text.dfy ===
/**
  String helpers with the semantics of the JavaScript (and, where noted, Python)
  string operations the site relies on: case mapping, prefix/suffix/substring
  tests, `split`/`join`, global replacement, trimming, decimal and hexadecimal
  rendering, `parseInt` and `padStart`.
 */
module Text {
  import opened Common

  // ---------------------------------------------------------------------------
  // Character classes

  predicate IsDigit(c: char) { '0' <= c <= '9' }
  predicate IsLowerLetter(c: char) { 'a' <= c <= 'z' }
  predicate IsUpperLetter(c: char) { 'A' <= c <= 'Z' }
  /** `[a-z0-9]`, the characters a slug keeps. */
  predicate IsLowerAlnum(c: char) { IsLowerLetter(c) || IsDigit(c) }
  /** `[a-zA-Z0-9]`. */
  predicate IsAsciiAlnum(c: char) { IsLowerLetter(c) || IsUpperLetter(c) || IsDigit(c) }
  /** The white space `trim`/`strip` remove (the ASCII part of it). */
  predicate IsWhitespace(c: char)
  {
    c == ' ' || c == '\t' || c == '\n' || c == '\r' || c == '\U{000B}' || c == '\U{000C}'
  }

  predicate AllChars(s: string, p: char -> bool)
  {
    forall i :: 0 <= i < |s| ==> p(s[i])
  }

  /** A non-empty run of decimal digits: the regular expression `^\d+$`. */
  predicate IsAllDigits(s: string)
  {
    |s| > 0 && AllChars(s, IsDigit)
  }

  // ---------------------------------------------------------------------------
  // Case mapping

  /**
    Lower-case mapping of one character: ASCII letters and the upper-case
    Spanish letters the content uses. Every other character is unchanged.
   */
  function LowerChar(c: char): (d: char)
    ensures IsUpperLetter(c) ==> IsLowerLetter(d) && d as int == c as int + 32
    ensures !IsUpperLetter(c) && IsAsciiAlnum(c) ==> d == c
    ensures IsLowerAlnum(d) ==> IsAsciiAlnum(c)
  {
    if IsUpperLetter(c) then (c as int + 32) as char
    else if c == 'Á' then 'á'
    else if c == 'É' then 'é'
    else if c == 'Í' then 'í'
    else if c == 'Ó' then 'ó'
    else if c == 'Ú' then 'ú'
    else if c == 'Ñ' then 'ñ'
    else if c == 'Ü' then 'ü'
    else c
  }

  /** `toLowerCase()` / `lower()`, character by character. */
  function Lower(s: string): (r: string)
    ensures |r| == |s|
    ensures forall i :: 0 <= i < |s| ==> r[i] == LowerChar(s[i])
  {
    seq(|s|, i requires 0 <= i < |s| => LowerChar(s[i]))
  }

  /**
    Upper-case mapping of one character (`toUpperCase`), on the same letters
    as `LowerChar`: ASCII and the lower-case Spanish letters.
   */
  function UpperChar(c: char): (d: char)
    ensures IsLowerLetter(c) ==> IsUpperLetter(d) && d as int == c as int - 32
    ensures !IsLowerLetter(c) ==> !IsLowerLetter(d)
    ensures IsUpperLetter(c) || IsDigit(c) ==> d == c
  {
    if IsLowerLetter(c) then (c as int - 32) as char
    else if c == 'á' then 'Á'
    else if c == 'é' then 'É'
    else if c == 'í' then 'Í'
    else if c == 'ó' then 'Ó'
    else if c == 'ú' then 'Ú'
    else if c == 'ñ' then 'Ñ'
    else if c == 'ü' then 'Ü'
    else c
  }

  /** `toUpperCase`, character by character. */
  function Upper(s: string): (r: string)
    ensures |r| == |s|
    ensures forall i :: 0 <= i < |s| ==> r[i] == UpperChar(s[i])
  {
    seq(|s|, i requires 0 <= i < |s| => UpperChar(s[i]))
  }

  /** Upper-casing leaves no ASCII lower-case letter and is undone by lower-casing on ASCII letters. */
  lemma UpperLowerRoundTrip(s: string)
    requires AllChars(s, IsLowerLetter)
    ensures AllChars(Upper(s), IsUpperLetter)
    ensures Lower(Upper(s)) == s
  {
  }

  lemma LowerAppend(a: string, b: string)
    ensures Lower(a + b) == Lower(a) + Lower(b)
  {
  }

  lemma LowerSlice(s: string, i: nat, j: nat)
    requires i <= j <= |s|
    ensures Lower(s[i..j]) == Lower(s)[i..j]
  {
  }

  lemma LowerIdempotentChar(c: char)
    ensures LowerChar(LowerChar(c)) == LowerChar(c)
  {
  }

  // ---------------------------------------------------------------------------
  // Prefix, suffix, substring

  predicate IsPrefix(p: string, s: string)
  {
    |p| <= |s| && s[..|p|] == p
  }

  /** The right operand of a concatenation is a suffix of it. */
  lemma SuffixOfConcat(a: string, b: string)
    ensures IsSuffix(b, a + b)
  {
    assert (a + b)[|a + b| - |b|..] == b;
  }

  /** One differing character rules a prefix out. */
  lemma NotPrefixAt(p: string, t: string, k: nat)
    requires k < |p| && k < |t| && t[k] != p[k]
    ensures !IsPrefix(p, t)
  {
    if |p| <= |t| {
      assert t[..|p|][k] == t[k];
    }
  }

  predicate IsSuffix(p: string, s: string)
  {
    |p| <= |s| && s[|s| - |p|..] == p
  }

  /** `s.includes(sub)` / Python `sub in s`. */
  predicate Contains(s: string, sub: string)
    decreases |s|
  {
    IsPrefix(sub, s) || (|s| > 0 && Contains(s[1..], sub))
  }

  /** `sub` occurs in `s` at position `i`. */
  predicate OccursAt(s: string, sub: string, i: nat)
  {
    i + |sub| <= |s| && s[i..i + |sub|] == sub
  }

  lemma {:induction false} ContainsIffOccurs(s: string, sub: string)
    ensures Contains(s, sub) <==> exists i: nat :: OccursAt(s, sub, i)
    decreases |s|
  {
    if IsPrefix(sub, s) {
      assert OccursAt(s, sub, 0);
    } else if |s| == 0 {
      forall i: nat ensures !OccursAt(s, sub, i) {
      }
    } else {
      ContainsIffOccurs(s[1..], sub);
      if Contains(s[1..], sub) {
        var i: nat :| OccursAt(s[1..], sub, i);
        assert s[i + 1..i + 1 + |sub|] == s[1..][i..i + |sub|];
        assert OccursAt(s, sub, i + 1);
      } else {
        forall i: nat ensures !OccursAt(s, sub, i) {
          if OccursAt(s, sub, i) {
            if i > 0 {
              assert s[1..][i - 1..i - 1 + |sub|] == s[i..i + |sub|];
              assert OccursAt(s[1..], sub, i - 1);
            }
          }
        }
      }
    }
  }

  lemma ContainsWhenOccurs(s: string, sub: string, i: nat)
    requires OccursAt(s, sub, i)
    ensures Contains(s, sub)
  {
    ContainsIffOccurs(s, sub);
  }

  /** Occurrences survive extension on either side. */
  lemma ContainsExtend(a: string, s: string, b: string, sub: string)
    requires Contains(s, sub)
    ensures Contains(a + s + b, sub)
  {
    ContainsIffOccurs(s, sub);
    var i: nat :| OccursAt(s, sub, i);
    assert (a + s + b)[|a| + i..|a| + i + |sub|] == s[i..i + |sub|];
    ContainsWhenOccurs(a + s + b, sub, |a| + i);
  }

  /** A single character occurs in `s` exactly when it is an element of `s`. */
  lemma ContainsChar(s: string, c: char)
    ensures Contains(s, [c]) <==> c in s
  {
    ContainsIffOccurs(s, [c]);
    if c in s {
      var i :| 0 <= i < |s| && s[i] == c;
      assert OccursAt(s, [c], i);
    }
    if Contains(s, [c]) {
      var i: nat :| OccursAt(s, [c], i);
      assert s[i] == s[i..i + 1][0];
    }
  }

  // ---------------------------------------------------------------------------
  // split / join

  /**
    JavaScript `s.split(sep)` for a non-empty separator: scans left to right,
    cutting at each occurrence of `sep` that does not overlap an earlier cut.
   */
  function Split(s: string, sep: string): (parts: seq<string>)
    requires |sep| > 0
    ensures |parts| >= 1
    decreases |s|
  {
    if IsPrefix(sep, s) then [""] + Split(s[|sep|..], sep)
    else if |s| == 0 then [""]
    else
      var rest := Split(s[1..], sep);
      [[s[0]] + rest[0]] + rest[1..]
  }

  /** JavaScript `parts.join(sep)`; joining nothing gives the empty string. */
  function Join(parts: seq<string>, sep: string): string
  {
    if |parts| == 0 then ""
    else if |parts| == 1 then parts[0]
    else parts[0] + sep + Join(parts[1..], sep)
  }

  lemma JoinConsHead(a: string, b: string, t: seq<string>, sep: string)
    ensures Join([a + b] + t, sep) == a + Join([b] + t, sep)
  {
    assert ([a + b] + t)[1..] == t;
    assert ([b] + t)[1..] == t;
  }

  /** Splitting and re-joining with the same separator gives the input back. */
  lemma {:induction false} JoinSplit(s: string, sep: string)
    requires |sep| > 0
    ensures Join(Split(s, sep), sep) == s
    decreases |s|
  {
    if IsPrefix(sep, s) {
      JoinSplit(s[|sep|..], sep);
      JoinSplitAtSep(s, sep);
    } else if |s| > 0 {
      JoinSplit(s[1..], sep);
      JoinSplitAtChar(s, sep);
    }
  }

  lemma JoinSplitAtSep(s: string, sep: string)
    requires |sep| > 0 && IsPrefix(sep, s)
    requires Join(Split(s[|sep|..], sep), sep) == s[|sep|..]
    ensures Join(Split(s, sep), sep) == s
  {
    var rest := Split(s[|sep|..], sep);
    assert Split(s, sep) == [""] + rest;
    JoinCons("", rest, sep);
    assert s == s[..|sep|] + s[|sep|..];
  }

  lemma JoinSplitAtChar(s: string, sep: string)
    requires |sep| > 0 && !IsPrefix(sep, s) && |s| > 0
    requires Join(Split(s[1..], sep), sep) == s[1..]
    ensures Join(Split(s, sep), sep) == s
  {
    var rest := Split(s[1..], sep);
    assert Split(s, sep) == [[s[0]] + rest[0]] + rest[1..];
    JoinConsHead([s[0]], rest[0], rest[1..], sep);
    assert [rest[0]] + rest[1..] == rest;
    assert s == [s[0]] + s[1..];
  }

  lemma JoinCons(a: string, t: seq<string>, sep: string)
    requires |t| > 0
    ensures Join([a] + t, sep) == a + sep + Join(t, sep)
  {
    assert ([a] + t)[1..] == t;
  }

  /** No piece of a split contains the separator. */
  lemma {:induction false} SplitPiecesAvoidSep(s: string, sep: string)
    requires |sep| > 0
    ensures forall k :: 0 <= k < |Split(s, sep)| ==> !Contains(Split(s, sep)[k], sep)
    decreases |s|
  {
    var parts := Split(s, sep);
    if IsPrefix(sep, s) {
      SplitPiecesAvoidSep(s[|sep|..], sep);
      forall k | 0 <= k < |parts| ensures !Contains(parts[k], sep) {
        if k > 0 {
          assert parts[k] == Split(s[|sep|..], sep)[k - 1];
        }
      }
    } else if |s| == 0 {
    } else {
      var rest := Split(s[1..], sep);
      SplitPiecesAvoidSep(s[1..], sep);
      forall k | 0 <= k < |parts| ensures !Contains(parts[k], sep) {
        if k > 0 {
          assert parts[k] == rest[k];
        } else {
          FirstPieceAvoidsSep(s, sep);
        }
      }
    }
  }

  /** The first piece, extended by one character, is a prefix of the input. */
  lemma {:induction false} SplitFirstIsPrefix(s: string, sep: string)
    requires |sep| > 0
    ensures IsPrefix(Split(s, sep)[0], s)
    decreases |s|
  {
    if IsPrefix(sep, s) {
      assert Split(s, sep)[0] == "";
    } else if |s| == 0 {
      assert Split(s, sep)[0] == "";
    } else {
      var rest := Split(s[1..], sep);
      SplitFirstIsPrefix(s[1..], sep);
      assert Split(s, sep)[0] == [s[0]] + rest[0];
      assert s == [s[0]] + s[1..];
    }
  }

  lemma {:induction false} FirstPieceAvoidsSep(s: string, sep: string)
    requires |sep| > 0
    ensures !Contains(Split(s, sep)[0], sep)
    decreases |s|
  {
    var p := Split(s, sep)[0];
    if IsPrefix(sep, s) {
      assert p == "";
    } else if |s| == 0 {
      assert p == "";
    } else {
      var rest := Split(s[1..], sep);
      FirstPieceAvoidsSep(s[1..], sep);
      SplitFirstIsPrefix(s, sep);
      assert p == [s[0]] + rest[0];
      assert p[1..] == rest[0];
    }
  }

  /** `parts.slice(0, -1)`: every part but the last. */
  function DropLast(parts: seq<string>): (r: seq<string>)
    ensures |parts| > 0 ==> |r| == |parts| - 1
  {
    if |parts| == 0 then [] else parts[..|parts| - 1]
  }

  /** A non-empty list is its `DropLast` followed by its last element. */
  lemma DropLastSnoc(parts: seq<string>)
    requires |parts| > 0
    ensures parts == DropLast(parts) + [parts[|parts| - 1]]
  {
    assert parts == parts[..|parts| - 1] + [parts[|parts| - 1]];
  }

  /** `s.lastIndexOf(c)`: the position of the last `c`, or -1. */
  function LastIndexOf(s: string, c: char): (i: int)
    ensures -1 <= i < |s|
    ensures i >= 0 ==> s[i] == c && forall j :: i < j < |s| ==> s[j] != c
    ensures i == -1 <==> c !in s
  {
    if |s| == 0 then -1
    else if s[|s| - 1] == c then |s| - 1
    else
      assert s == s[..|s| - 1] + [s[|s| - 1]];
      LastIndexOf(s[..|s| - 1], c)
  }

  /** Splitting on a character yields more than one piece exactly when the character occurs. */
  lemma {:induction false} SplitCharPieces(s: string, c: char)
    ensures |Split(s, [c])| > 1 <==> c in s
    decreases |s|
  {
    if |s| > 0 {
      SplitCharPieces(s[1..], c);
      assert s == [s[0]] + s[1..];
    }
  }

  /** Joining with one more piece appends the separator and the piece. */
  lemma {:induction false} JoinSnoc(parts: seq<string>, x: string, sep: string)
    requires |parts| > 0
    ensures Join(parts + [x], sep) == Join(parts, sep) + sep + x
    decreases |parts|
  {
    if |parts| == 1 {
      assert (parts + [x])[1..] == [x];
    } else {
      assert (parts + [x])[1..] == parts[1..] + [x];
      JoinSnoc(parts[1..], x, sep);
    }
  }

  /** A `c` with no `c` after it is the last one. */
  lemma LastIndexAt(s: string, c: char, k: nat)
    requires k < |s| && s[k] == c
    requires c !in s[k + 1..]
    ensures LastIndexOf(s, c) == k
  {
    forall j | k < j < |s|
      ensures s[j] != c
    {
      assert s[j] == s[k + 1..][j - k - 1];
    }
  }

  /** In `pre + [c] + post` with no `c` in `post`, the last `c` sits right after `pre`. */
  lemma LastIndexAfter(pre: string, c: char, post: string)
    requires c !in post
    ensures LastIndexOf(pre + [c] + post, c) == |pre|
  {
    var s := pre + [c] + post;
    assert s[|pre|] == c && s[|pre| + 1..] == post;
    LastIndexAt(s, c, |pre|);
  }

  /**
    Dropping the last piece of a split on `c` and re-joining keeps exactly the
    text before the last `c` (nothing when `c` does not occur).
   */
  lemma JoinDropLastSplit(s: string, c: char)
    ensures Join(DropLast(Split(s, [c])), [c]) == (if c in s then s[..LastIndexOf(s, c)] else "")
  {
    if c in s {
      var parts := Split(s, [c]);
      var pre := Join(DropLast(parts), [c]);
      var last := parts[|parts| - 1];
      SplitAroundLast(s, c);
      LastIndexAfter(pre, c, last);
      assert s[..|pre|] == pre;
    } else {
      SplitCharPieces(s, c);
    }
  }

  /** When `c` occurs, `s` is the re-joined leading pieces, a `c`, and a `c`-free last piece. */
  lemma SplitAroundLast(s: string, c: char)
    requires c in s
    ensures |Split(s, [c])| > 1
    ensures s == Join(DropLast(Split(s, [c])), [c]) + [c] + Split(s, [c])[|Split(s, [c])| - 1]
    ensures c !in Split(s, [c])[|Split(s, [c])| - 1]
  {
    var parts := Split(s, [c]);
    var last := parts[|parts| - 1];
    var d := DropLast(parts);
    SplitCharPieces(s, c);
    DropLastSnoc(parts);
    JoinSplit(s, [c]);
    JoinSnoc(d, last, [c]);
    SplitPiecesAvoidSep(s, [c]);
    ContainsChar(last, c);
  }

  // ---------------------------------------------------------------------------
  // Character-wise rewriting

  /** Replace every character `c` of `s` by `f(c)` (a chain of global, single-character replacements). */
  function MapChars(s: string, f: char -> string): string
  {
    if |s| == 0 then "" else f(s[0]) + MapChars(s[1..], f)
  }

  lemma {:induction false} MapCharsAppend(a: string, b: string, f: char -> string)
    ensures MapChars(a + b, f) == MapChars(a, f) + MapChars(b, f)
  {
    if |a| == 0 {
      assert a + b == b;
    } else {
      assert (a + b)[1..] == a[1..] + b;
      MapCharsAppend(a[1..], b, f);
    }
  }

  /** A rewriting that leaves every character of `s` alone leaves `s` alone. */
  lemma {:induction false} MapCharsFixed(s: string, f: char -> string)
    requires forall i :: 0 <= i < |s| ==> f(s[i]) == [s[i]]
    ensures MapChars(s, f) == s
    decreases |s|
  {
    if |s| > 0 {
      MapCharsFixed(s[1..], f);
      assert [s[0]] + s[1..] == s;
    }
  }

  lemma MapCharsOne(c: char, f: char -> string)
    ensures MapChars([c], f) == f(c)
  {
    assert [c][1..] == [];
  }

  /** Replacement that maps each character to a single character keeps the length. */
  function MapEach(s: string, f: char -> char): (r: string)
    ensures |r| == |s|
    ensures forall i :: 0 <= i < |s| ==> r[i] == f(s[i])
  {
    seq(|s|, i requires 0 <= i < |s| => f(s[i]))
  }

  /**
    `s.replace(/pat/g, '')` for a literal pattern: left to right, removing
    non-overlapping occurrences.
   */
  function RemoveAll(s: string, pat: string): string
    requires |pat| > 0
    decreases |s|
  {
    if IsPrefix(pat, s) then RemoveAll(s[|pat|..], pat)
    else if |s| == 0 then ""
    else [s[0]] + RemoveAll(s[1..], pat)
  }

  // ---------------------------------------------------------------------------
  // Trimming

  function TrimStart(s: string): (r: string)
    ensures IsSuffix(r, s)
    ensures |r| > 0 ==> !IsWhitespace(r[0])
    decreases |s|
  {
    if |s| > 0 && IsWhitespace(s[0]) then TrimStart(s[1..]) else s
  }

  function TrimEnd(s: string): (r: string)
    ensures IsPrefix(r, s)
    ensures |r| > 0 ==> !IsWhitespace(r[|r| - 1])
    decreases |s|
  {
    if |s| > 0 && IsWhitespace(s[|s| - 1]) then TrimEnd(s[..|s| - 1]) else s
  }

  /** `trim()` / Python `strip()`. */
  function Trim(s: string): (r: string)
    ensures |r| > 0 ==> !IsWhitespace(r[0]) && !IsWhitespace(r[|r| - 1])
    ensures |r| <= |s|
  {
    TrimEnd(TrimStart(s))
  }

  /** What `TrimStart` removes is white space. */
  lemma {:induction false} TrimStartRemovesWhitespace(s: string)
    ensures AllChars(s[..|s| - |TrimStart(s)|], IsWhitespace)
    decreases |s|
  {
    if |s| > 0 && IsWhitespace(s[0]) {
      TrimStartRemovesWhitespace(s[1..]);
      var n := |s| - |TrimStart(s)|;
      assert forall i :: 1 <= i < n ==> s[..n][i] == s[1..][..n - 1][i - 1];
    }
  }

  /** Trimming leaves nothing exactly when the text is all white space. */
  lemma TrimEmpty(s: string)
    ensures Trim(s) == "" <==> AllChars(s, IsWhitespace)
  {
    var t := TrimStart(s);
    var r := TrimEnd(t);
    TrimStartRemovesWhitespace(s);
    assert s == s[..|s| - |t|] + t;
    if r == "" {
      TrimEndAllWhitespace(t);
    }
  }

  lemma {:induction false} TrimEndAllWhitespace(s: string)
    requires TrimEnd(s) == ""
    ensures AllChars(s, IsWhitespace)
    decreases |s|
  {
    if |s| > 0 {
      TrimEndAllWhitespace(s[..|s| - 1]);
      assert s == s[..|s| - 1] + [s[|s| - 1]];
    }
  }

  // ---------------------------------------------------------------------------
  // Numbers as text

  function DigitChar(d: nat): (c: char)
    requires d < 10
    ensures IsDigit(c)
  {
    ('0' as int + d) as char
  }

  function DigitValue(c: char): (d: nat)
    requires IsDigit(c)
    ensures d < 10 && DigitChar(d) == c
  {
    c as int - '0' as int
  }

  /** `n.toString()` for a non-negative integer. */
  function NatToString(n: nat): (r: string)
    ensures IsAllDigits(r)
    ensures |r| > 1 ==> r[0] != '0'
    decreases n
  {
    if n < 10 then [DigitChar(n)] else NatToString(n / 10) + [DigitChar(n % 10)]
  }

  /** `String(i)` for an integer. */
  function IntToString(i: int): string
  {
    if i < 0 then "-" + NatToString(-i) else NatToString(i)
  }

  /** The value of a run of decimal digits. */
  function DigitsValue(s: string): nat
    requires AllChars(s, IsDigit)
  {
    if |s| == 0 then 0
    else DigitsValue(s[..|s| - 1]) * 10 + DigitValue(s[|s| - 1])
  }

  lemma {:induction false} DigitsValueOfNatToString(n: nat)
    ensures DigitsValue(NatToString(n)) == n
    decreases n
  {
    if n >= 10 {
      var s := NatToString(n);
      DigitsValueOfNatToString(n / 10);
      assert s[..|s| - 1] == NatToString(n / 10);
    }
  }

  /** Different numbers print differently. */
  lemma NatToStringInjective(m: nat, n: nat)
    requires NatToString(m) == NatToString(n)
    ensures m == n
  {
    DigitsValueOfNatToString(m);
    DigitsValueOfNatToString(n);
  }

  /** The longest prefix of `s` made of decimal digits. */
  function LeadingDigits(s: string): (r: string)
    ensures IsPrefix(r, s) && AllChars(r, IsDigit)
    ensures |r| < |s| ==> !IsDigit(s[|r|])
    decreases |s|
  {
    if |s| > 0 && IsDigit(s[0]) then [s[0]] + LeadingDigits(s[1..]) else ""
  }

  predicate IsHexDigit(c: char)
  {
    IsDigit(c) || ('a' <= c <= 'f') || ('A' <= c <= 'F')
  }

  function HexDigitValue(c: char): (d: nat)
    requires IsHexDigit(c)
    ensures d < 16
  {
    if IsDigit(c) then c as int - '0' as int
    else if 'a' <= c <= 'f' then c as int - 'a' as int + 10
    else c as int - 'A' as int + 10
  }

  function LeadingHexDigits(s: string): (r: string)
    ensures IsPrefix(r, s) && AllChars(r, IsHexDigit)
    decreases |s|
  {
    if |s| > 0 && IsHexDigit(s[0]) then [s[0]] + LeadingHexDigits(s[1..]) else ""
  }

  function HexValue(s: string): nat
    requires AllChars(s, IsHexDigit)
  {
    if |s| == 0 then 0
    else HexValue(s[..|s| - 1]) * 16 + HexDigitValue(s[|s| - 1])
  }

  /**
    JavaScript `parseInt(s)` without a radix: leading white space is skipped,
    an optional sign is read, a `0x`/`0X` prefix selects hexadecimal, and the
    longest run of digits that follows is the value. No digits at all gives
    `NaN`, modelled as `None`; trailing garbage is ignored.
   */
  function ParseInt(s: string): (r: Option<int>)
    ensures IsAllDigits(s) ==> r == Some(DigitsValue(s))
  {
    AllDigitsRead(s);
    var t := TrimStart(s);
    var neg := |t| > 0 && t[0] == '-';
    var u := if |t| > 0 && (t[0] == '-' || t[0] == '+') then t[1..] else t;
    var sign := if neg then -1 else 1;
    if |u| >= 2 && u[0] == '0' && (u[1] == 'x' || u[1] == 'X') then
      var h := LeadingHexDigits(u[2..]);
      if |h| == 0 then None else Some(sign * HexValue(h))
    else
      var d := LeadingDigits(u);
      if |d| == 0 then None else Some(sign * DigitsValue(d))
  }

  /** JavaScript `parseInt(s, 10)`: as `ParseInt`, without the hexadecimal prefix. */
  function ParseInt10(s: string): (r: Option<int>)
    ensures IsAllDigits(s) ==> r == Some(DigitsValue(s))
  {
    AllDigitsRead(s);
    var t := TrimStart(s);
    var neg := |t| > 0 && t[0] == '-';
    var u := if |t| > 0 && (t[0] == '-' || t[0] == '+') then t[1..] else t;
    var d := LeadingDigits(u);
    if |d| == 0 then None else Some((if neg then -1 else 1) * DigitsValue(d))
  }

  lemma {:induction false} LeadingDigitsOfDigits(s: string)
    requires AllChars(s, IsDigit)
    ensures LeadingDigits(s) == s
  {
    if |s| > 0 {
      LeadingDigitsOfDigits(s[1..]);
    }
  }

  /** A string of digits has no leading white space and is its own run of leading digits. */
  lemma AllDigitsRead(s: string)
    ensures IsAllDigits(s) ==> TrimStart(s) == s && LeadingDigits(s) == s
  {
    if IsAllDigits(s) {
      assert !IsWhitespace(s[0]);
      LeadingDigitsOfDigits(s);
    }
  }

  /** Reading back a printed natural number gives the number. */
  lemma ParseIntOfNatToString(n: nat)
    ensures ParseInt(NatToString(n)) == Some(n)
    ensures ParseInt10(NatToString(n)) == Some(n)
  {
    DigitsValueOfNatToString(n);
  }

  /** Reading back a printed integer gives the integer. */
  lemma ParseIntOfIntToString(i: int)
    ensures ParseInt(IntToString(i)) == Some(i)
    ensures ParseInt10(IntToString(i)) == Some(i)
  {
    if i >= 0 {
      ParseIntOfNatToString(i);
    } else {
      var s := IntToString(i);
      var d := NatToString(-i);
      assert TrimStart(s) == s;
      assert s[1..] == d;
      LeadingDigitsOfDigits(d);
      DigitsValueOfNatToString(-i);
    }
  }

  // ---------------------------------------------------------------------------
  // Padding and hexadecimal rendering

  /** `s.padStart(width, fill)`. */
  function PadStart(s: string, width: nat, fill: char): (r: string)
    ensures |r| == if |s| >= width then |s| else width
    ensures IsSuffix(s, r)
    ensures AllChars(r[..|r| - |s|], c => c == fill)
  {
    if |s| >= width then s else seq(width - |s|, _ => fill) + s
  }

  /** `String(n).padStart(2, '0')`. */
  function Pad2(n: nat): (r: string)
    ensures |r| >= 2 && IsAllDigits(r)
  {
    var d := NatToString(n);
    var r := PadStart(d, 2, '0');
    assert AllChars(r, IsDigit) by {
      forall i | 0 <= i < |r| ensures IsDigit(r[i]) {
        if i < |r| - |d| {
          assert r[..|r| - |d|][i] == r[i];
        } else {
          assert r[i] == d[i - (|r| - |d|)];
        }
      }
    }
    r
  }

  /** Below 100 the padded text is exactly two digits and reads back as `n`. */
  lemma Pad2Value(n: nat)
    requires n < 100
    ensures |Pad2(n)| == 2
    ensures DigitsValue(Pad2(n)) == n
  {
    var r := Pad2(n);
    if n < 10 {
      assert r == ['0', DigitChar(n)];
      var z := r[..1];
      assert z == ['0'] && z[..0] == [];
      assert DigitsValue(z) == 0;
      assert DigitValue(r[1]) == n;
      assert r[..|r| - 1] == z;
    } else {
      var d := NatToString(n);
      assert NatToString(n / 10) == [DigitChar(n / 10)];
      assert |d| == 2;
      assert r == d;
      DigitsValueOfNatToString(n);
    }
  }

  /** A digit or one of `a`–`f`, as `toString(16)` writes them. */
  predicate IsLowerHexDigit(c: char)
  {
    IsDigit(c) || ('a' <= c <= 'f')
  }

  function HexDigitChar(d: nat): (c: char)
    requires d < 16
    ensures IsLowerHexDigit(c) && IsHexDigit(c) && HexDigitValue(c) == d
  {
    if d < 10 then ('0' as int + d) as char else ('a' as int + d - 10) as char
  }

  /** `b.toString(16).padStart(2, '0')` for a byte: two lower-case hexadecimal digits. */
  function HexByte(b: nat): (r: string)
    requires b < 256
    ensures |r| == 2 && IsLowerHexDigit(r[0]) && IsLowerHexDigit(r[1]) && AllChars(r, IsHexDigit)
    ensures HexValue(r) == b
  {
    var r := [HexDigitChar(b / 16), HexDigitChar(b % 16)];
    assert r[..1] == [HexDigitChar(b / 16)];
    assert r[..1][..0] == [];
    assert HexValue(r[..1]) == b / 16;
    assert HexValue(r) == HexValue(r[..1]) * 16 + b % 16;
    r
  }

  lemma {:induction false} SplitWithoutSep(s: string, c: char)
    requires c !in s
    ensures Split(s, [c]) == [s]
    decreases |s|
  {
    if |s| > 0 {
      SplitWithoutSep(s[1..], c);
      assert [s[0]] + s[1..] == s;
    }
  }

  /** Splitting `a c b` on `c` when neither side contains `c`. */
  lemma {:induction false} SplitOnce(a: string, b: string, c: char)
    requires c !in a && c !in b
    ensures Split(a + [c] + b, [c]) == [a, b]
    decreases |a|
  {
    var s := a + [c] + b;
    if |a| == 0 {
      assert s == [c] + b;
      assert s[1..] == b;
      SplitWithoutSep(b, c);
    } else {
      assert s[1..] == a[1..] + [c] + b;
      SplitOnce(a[1..], b, c);
      assert [a[0]] + a[1..] == a;
    }
  }

  /** Splitting `a c b` on `c` when `a` does not contain `c`: `a` is the first piece. */
  lemma {:induction false} SplitHead(a: string, b: string, c: char)
    requires c !in a
    ensures Split(a + [c] + b, [c]) == [a] + Split(b, [c])
    decreases |a|
  {
    var s := a + [c] + b;
    if |a| == 0 {
      assert s == [c] + b;
      assert s[1..] == b;
    } else {
      assert s[1..] == a[1..] + [c] + b;
      SplitHead(a[1..], b, c);
      assert [a[0]] + a[1..] == a;
    }
  }
}

=== FILE: time_format.dfy ===
/**
  Clock-style durations: `formatDuration` (`src/auth-utils.ts`), the
  "continue from m:ss" badge of the lesson page (`src/routes/student.tsx`)
  and the countdown text of the quiz page (`src/client/quiz.ts`).
  JavaScript's `%` keeps the sign of the dividend; `Math.floor` of a quotient
  by a positive number is Dafny's `/`.
 */
module TimeFormat {
  import opened Common
  import opened Text

  /** JavaScript `a % b` for a positive `b`: truncated, with the sign of `a`. */
  function JsRem(a: int, b: int): (r: int)
    requires b > 0
    ensures a >= 0 ==> 0 <= r < b && r == a % b
    ensures a < 0 ==> -b < r <= 0
  {
    if a >= 0 then a % b else -((-a) % b)
  }

  /** `String(n).padStart(2, '0')` for any integer. */
  function PadInt2(n: int): (r: string)
    ensures n >= 0 ==> r == Pad2(n)
  {
    PadStart(IntToString(n), 2, '0')
  }

  const Colon: string := ":"

  /** `formatDuration(seconds)`: `h:mm:ss` when there is at least one hour, otherwise `m:ss`. */
  function FormatDuration(seconds: int): (r: string)
    ensures seconds >= 3600 ==>
      r == NatToString(seconds / 3600) + Colon + Pad2(seconds % 3600 / 60) + Colon + Pad2(seconds % 60)
    ensures 0 <= seconds < 3600 ==> r == Clock(seconds)
  {
    var hours := seconds / 3600;
    var minutes := JsRem(seconds, 3600) / 60;
    var secs := JsRem(seconds, 60);
    if hours > 0 then
      assert JsRem(seconds, 3600) == seconds % 3600 && secs == seconds % 60;
      IntToString(hours) + Colon + PadInt2(minutes) + Colon + PadInt2(secs)
    else
      if seconds >= 0 then
        assert hours == 0 && JsRem(seconds, 3600) == seconds && secs == seconds % 60;
        assert PadInt2(secs) == Pad2(seconds % 60);
        ClockParts(seconds);
        IntToString(minutes) + Colon + PadInt2(secs)
      else IntToString(minutes) + Colon + PadInt2(secs)
  }

  /** `m:ss` for a non-negative number of seconds: the badge and the countdown text. */
  function Clock(seconds: nat): (r: string)
    ensures IsSuffix(Pad2(seconds % 60), r)
  {
    var head := NatToString(seconds / 60) + Colon;
    SuffixOfConcat(head, Pad2(seconds % 60));
    head + Pad2(seconds % 60)
  }

  /** The clock is the minutes, a colon, and the padded seconds. */
  lemma ClockParts(seconds: nat)
    ensures Clock(seconds) == NatToString(seconds / 60) + Colon + Pad2(seconds % 60)
  {
    assert Clock(seconds) == NatToString(seconds / 60) + (Colon + Pad2(seconds % 60));
  }

  /** For a non-negative duration, the fields are the hour count and two-digit minutes and seconds. */
  /** A negative duration prints a negative minute field: `formatDuration(-5)` is `-1:-5`. */
  lemma NegativeDuration()
    ensures FormatDuration(-5) == "-1:-5"
  {
    assert -5 / 3600 == -1 && -5 / 60 == -1;
    assert JsRem(-5, 3600) == -5 && JsRem(-5, 60) == -5;
    assert IntToString(-1) == "-1" by {
      assert NatToString(1) == "1";
    }
    assert PadInt2(-5) == "-5" by {
      assert NatToString(5) == "5";
      assert IntToString(-5) == "-5";
    }
  }

  // ---------------------------------------------------------------------------
  // Reading a clock text back

  /** The number of seconds a `m:ss` or `h:mm:ss` text stands for; `None` for anything else. */
  function ParseClock(t: string): (r: Option<nat>)
  {
    ClockFields(Split(t, Colon))
  }

  /** The value of the colon-separated fields: two or three runs of digits. */
  function ClockFields(parts: seq<string>): (r: Option<nat>)
  {
    if |parts| == 2 then MinutesSeconds(parts[0], parts[1])
    else if |parts| == 3 then HoursMinutesSeconds(parts[0], parts[1], parts[2])
    else None
  }

  function MinutesSeconds(m: string, s: string): Option<nat>
  {
    if IsAllDigits(m) && IsAllDigits(s) then Some(DigitsValue(m) * 60 + DigitsValue(s)) else None
  }

  function HoursMinutesSeconds(h: string, m: string, s: string): Option<nat>
  {
    if IsAllDigits(h) && IsAllDigits(m) && IsAllDigits(s) then
      Some(DigitsValue(h) * 3600 + DigitsValue(m) * 60 + DigitsValue(s))
    else None
  }

  lemma DigitsHaveNoColon(s: string)
    requires AllChars(s, IsDigit)
    ensures ':' !in s
  {
    forall i | 0 <= i < |s| ensures s[i] != ':' {
      assert IsDigit(s[i]);
    }
  }

  lemma SplitClock2(a: string, b: string)
    requires AllChars(a, IsDigit) && AllChars(b, IsDigit)
    ensures Split(a + Colon + b, Colon) == [a, b]
  {
    DigitsHaveNoColon(a);
    DigitsHaveNoColon(b);
    SplitOnce(a, b, ':');
  }

  lemma SplitClock3(a: string, b: string, c: string)
    requires AllChars(a, IsDigit) && AllChars(b, IsDigit) && AllChars(c, IsDigit)
    ensures Split(a + Colon + b + Colon + c, Colon) == [a, b, c]
  {
    DigitsHaveNoColon(a);
    SplitClock2(b, c);
    assert a + Colon + b + Colon + c == a + [':'] + (b + Colon + c);
    SplitHead(a, b + Colon + c, ':');
  }

  lemma ParseClock2(a: string, b: string)
    requires IsAllDigits(a) && IsAllDigits(b)
    ensures ParseClock(a + Colon + b) == Some(DigitsValue(a) * 60 + DigitsValue(b))
  {
    ClockFields2(a, b);
    SplitClock2(a, b);
  }

  lemma ClockFields2(a: string, b: string)
    requires IsAllDigits(a) && IsAllDigits(b)
    ensures ClockFields([a, b]) == Some(DigitsValue(a) * 60 + DigitsValue(b))
  {
  }

  lemma ClockFields3(a: string, b: string, c: string)
    requires IsAllDigits(a) && IsAllDigits(b) && IsAllDigits(c)
    ensures ClockFields([a, b, c]) == Some(DigitsValue(a) * 3600 + DigitsValue(b) * 60 + DigitsValue(c))
  {
  }

  lemma ParseClock3(a: string, b: string, c: string)
    requires IsAllDigits(a) && IsAllDigits(b) && IsAllDigits(c)
    ensures ParseClock(a + Colon + b + Colon + c) == Some(DigitsValue(a) * 3600 + DigitsValue(b) * 60 + DigitsValue(c))
  {
    ClockFields3(a, b, c);
    SplitClock3(a, b, c);
  }

  /** `m:ss` reads back as the number of seconds. */
  lemma ClockRoundTrip(seconds: nat)
    ensures ParseClock(Clock(seconds)) == Some(seconds)
  {
    var m := NatToString(seconds / 60);
    var s := Pad2(seconds % 60);
    ClockParts(seconds);
    ParseClock2(m, s);
    DigitsValueOfNatToString(seconds / 60);
    Pad2Value(seconds % 60);
  }

  lemma SplitSeconds(seconds: nat)
    ensures seconds / 3600 * 3600 + seconds % 3600 / 60 * 60 + seconds % 60 == seconds
  {
    var r := seconds % 3600;
    assert seconds == seconds / 3600 * 3600 + r;
    assert r == r / 60 * 60 + r % 60;
    assert r % 60 == seconds % 60 by {
      assert seconds == (seconds / 3600 * 60 + r / 60) * 60 + r % 60;
    }
  }

  lemma HoursRoundTrip(seconds: nat)
    ensures ParseClock(NatToString(seconds / 3600) + Colon + Pad2(seconds % 3600 / 60) + Colon + Pad2(seconds % 60))
      == Some(seconds)
  {
    var hv, mv, sv := seconds / 3600, seconds % 3600 / 60, seconds % 60;
    assert mv < 60 && sv < 60;
    var h := NatToString(hv);
    var m := Pad2(mv);
    var s := Pad2(sv);
    ParseClock3(h, m, s);
    DigitsValueOfNatToString(hv);
    Pad2Value(mv);
    Pad2Value(sv);
    SplitSeconds(seconds);
    assert DigitsValue(h) * 3600 + DigitsValue(m) * 60 + DigitsValue(s) == hv * 3600 + mv * 60 + sv;
  }

  /** Reading the printed fields back gives `h·3600 + m·60 + s`, the input. */
  lemma FormatDurationRoundTrip(seconds: nat)
    ensures ParseClock(FormatDuration(seconds)) == Some(seconds)
  {
    if seconds >= 3600 {
      HoursRoundTrip(seconds);
    } else {
      ClockRoundTrip(seconds);
    }
  }

  // ---------------------------------------------------------------------------
  // The resume badge of the lesson page

  /** The badge text, or `None` when the badge is not shown (position ≤ 10 or lesson completed). */
  function ResumeBadge(lastPosition: Option<int>, completed: bool): (r: Option<string>)
    ensures r.Some? <==> lastPosition.Some? && lastPosition.value > 10 && !completed
    ensures r.Some? ==> ParseClock(r.value) == Some(lastPosition.value)
  {
    if lastPosition.Some? && lastPosition.value > 10 && !completed then
      ClockRoundTrip(lastPosition.value);
      Some(Clock(lastPosition.value))
    else None
  }
}

=== FILE: versioning.dfy ===
/**
  Content versions (`VersioningService` in `src/lib/versioning.ts`): which
  table and key each kind of content uses, the INSERT that records a
  version, restoring an old version as a new draft, and the HTML of a
  word diff. A row of data is a map from column name to value; a key that
  is absent stands for `undefined`, while `Null` is a defined value.
  The word diff itself (`Diff.diffWords`) is a library call whose parts
  are an input here.
 */
module Versioning {
  import opened Common
  import opened Text
  import opened Sql

  // ---------------------------------------------------------------------------
  // Kinds of content

  datatype EntityType = BlogPost | Course | Lesson

  /** The name callers pass for each kind. */
  function EntityName(e: EntityType): string
  {
    match e
    case BlogPost => "blog_post"
    case Course => "course"
    case Lesson => "lesson"
  }

  /** The kind a name stands for; `None` for a name outside the three. */
  function EntityOf(name: string): (e: Option<EntityType>)
    ensures e.Some? ==> EntityName(e.value) == name
  {
    if name == "blog_post" then Some(BlogPost)
    else if name == "course" then Some(Course)
    else if name == "lesson" then Some(Lesson)
    else None
  }

  lemma EntityNameRoundTrip(e: EntityType)
    ensures EntityOf(EntityName(e)) == Some(e)
  {
  }

  /** `getTableName`: the entity name followed by `_versions`. */
  function TableName(e: EntityType): (t: Lit)
    ensures IsSuffix("_versions", t)
  {
    assert '?' !in EntityName(e);
    EntityName(e) + "_versions"
  }

  /** `getForeignKey`: `post_id` for blog posts, the entity name and `_id` for the others. */
  function ForeignKey(e: EntityType): (k: Lit)
    ensures IsSuffix("_id", k)
  {
    (if e == BlogPost then "post" else EntityName(e)) + "_id"
  }

  /** Each kind has its own table and its own key column: no two kinds share versions. */
  lemma TablesAndKeysDistinct(a: EntityType, b: EntityType)
    ensures TableName(a) == TableName(b) <==> a == b
    ensures ForeignKey(a) == ForeignKey(b) <==> a == b
  {
    assert TableName(BlogPost)[0] == 'b' && TableName(Course)[0] == 'c' && TableName(Lesson)[0] == 'l';
    assert ForeignKey(BlogPost)[0] == 'p' && ForeignKey(Course)[0] == 'c' && ForeignKey(Lesson)[0] == 'l';
  }

  const UnknownEntity: string := "Unknown entity type: "

  /** `getTableName` as the untyped runtime sees it: any other name throws. */
  function TableFor(name: string): (r: Result<Lit>)
    ensures r.Ok? <==> EntityOf(name).Some?
    ensures r.Ok? ==> r.value == TableName(EntityOf(name).value)
    ensures r.Err? ==> r.msg == UnknownEntity + name
  {
    var e := EntityOf(name);
    if e.Some? then Ok(TableName(e.value)) else Err(UnknownEntity + name)
  }

  /** `getForeignKey` as the untyped runtime sees it. */
  function ForeignKeyFor(name: string): (r: Result<Lit>)
    ensures r.Ok? <==> EntityOf(name).Some?
    ensures r.Ok? ==> r.value == ForeignKey(EntityOf(name).value)
    ensures r.Err? ==> r.msg == UnknownEntity + name
  {
    var e := EntityOf(name);
    if e.Some? then Ok(ForeignKey(e.value)) else Err(UnknownEntity + name)
  }

  /** Both lookups are total over the three names and agree on which names they reject. */
  lemma LookupsTotal(name: string)
    ensures TableFor(name).Ok? <==> (name == "blog_post" || name == "course" || name == "lesson")
    ensures TableFor(name).Ok? <==> ForeignKeyFor(name).Ok?
  {
  }

  // ---------------------------------------------------------------------------
  // Whitelists

  const PostVersionColumns: seq<Lit> := ["title", "slug", "content", "excerpt", "image_url", "hashtags", "scheduled_at"]

  const CourseVersionColumns: seq<Lit> := CourseSummaryColumns + CourseDetailColumns

  const CourseSummaryColumns: seq<Lit> := [
    "slug", "title", "subtitle", "description", "duration_weeks", "level",
    "price", "currency"]

  const CourseDetailColumns: seq<Lit> := [
    "featured_image", "instructor_name", "instructor_bio",
    "what_you_learn", "course_content", "requirements", "target_audience", "testimonials"]

  const LessonVersionColumns: seq<Lit> := [
    "module_number", "lesson_number", "title", "description", "video_url",
    "video_duration", "content", "order_index", "is_preview"]

  /** `getValidColumns`: the content columns a version of each kind records. */
  function ValidColumns(e: EntityType): (cols: seq<Lit>)
    ensures |cols| > 0
  {
    match e
    case BlogPost => PostVersionColumns
    case Course => CourseVersionColumns
    case Lesson => LessonVersionColumns
  }

  /** A blog post version keeps its slug, hashtags and schedule as well as its text. */
  lemma PostWhitelist()
    ensures "slug" in ValidColumns(BlogPost)
    ensures "hashtags" in ValidColumns(BlogPost)
    ensures "scheduled_at" in ValidColumns(BlogPost)
    ensures "published" !in ValidColumns(BlogPost)
  {
    var c := PostVersionColumns;
    assert c[1] == "slug" && c[5] == "hashtags" && c[6] == "scheduled_at";
    assert forall i :: 0 <= i < |c| ==> c[i] != "published";
  }

  const StatusColumn: Lit := "status"
  const CreatedByColumn: Lit := "created_by"
  const IdColumn: Lit := "id"
  const CreatedAtColumn: Lit := "created_at"

  /** A column the version table fills itself or from the call's own arguments. */
  predicate IsMeta(e: EntityType, c: string)
  {
    c == ForeignKey(e) || c == StatusColumn || c == CreatedByColumn || c == IdColumn || c == CreatedAtColumn
  }

  predicate DistinctLits(xs: seq<Lit>)
  {
    forall i, j :: 0 <= i < j < |xs| ==> xs[i] != xs[j]
  }

  /** No whitelisted column repeats, and none is a bookkeeping column of the version table. */
  lemma WhitelistsClean(e: EntityType)
    ensures DistinctLits(ValidColumns(e))
    ensures forall c :: c in ValidColumns(e) ==> !IsMeta(e, c)
  {
    var c := ValidColumns(e);
    forall i, j | 0 <= i < j < |c| ensures c[i] != c[j] {
      DistinctColumn(e, i, j);
    }
    forall k | 0 <= k < |c| ensures !IsMeta(e, c[k]) {
      NotMetaColumn(e, k);
    }
  }

  lemma DistinctColumn(e: EntityType, i: int, j: int)
    requires 0 <= i < j < |ValidColumns(e)|
    ensures ValidColumns(e)[i] != ValidColumns(e)[j]
  {
  }

  lemma NotMetaColumn(e: EntityType, k: int)
    requires 0 <= k < |ValidColumns(e)|
    ensures !IsMeta(e, ValidColumns(e)[k])
  {
  }

  // ---------------------------------------------------------------------------
  // createVersion

  type Row = map<string, Value>

  /** The whitelisted columns the data defines, in whitelist order (the `forEach` over `validColumns`). */
  function DefinedColumns(cols: seq<Lit>, data: Row): (keys: seq<Lit>)
    ensures forall k :: k in keys <==> k in cols && k in data
    ensures IsSubsequence(keys, cols)
    ensures |keys| <= |cols|
  {
    if |cols| == 0 then []
    else
      var rest := DefinedColumns(cols[1..], data);
      if cols[0] in data then [cols[0]] + rest
      else
        SubsequenceSkip(rest, cols);
        rest
  }

  datatype VersionStatus = Draft | Published | Archived

  function StatusName(s: VersionStatus): string
  {
    match s
    case Draft => "draft"
    case Published => "published"
    case Archived => "archived"
  }

  /** The columns of the INSERT: key, status, author, then the defined content columns. */
  function VersionColumns(e: EntityType, data: Row): (cols: seq<Lit>)
    ensures |cols| >= 3
  {
    [ForeignKey(e), StatusColumn, CreatedByColumn] + DefinedColumns(ValidColumns(e), data)
  }

  /** The values of the INSERT: the status defaults to draft and `userId || null` makes a 0 or missing author `NULL`. */
  function VersionValues(e: EntityType, entityId: int, data: Row, status: Option<VersionStatus>, userId: Option<int>): (vs: seq<Value>)
    ensures |vs| == |VersionColumns(e, data)|
    ensures vs[0] == Int(entityId)
    ensures status.None? ==> vs[1] == Str("draft")
    ensures status.Some? ==> vs[1] == Str(StatusName(status.value))
    ensures vs[2] == Null <==> !Truthy(userId)
    ensures var keys := DefinedColumns(ValidColumns(e), data);
      forall i :: 0 <= i < |keys| ==> vs[3 + i] == data[keys[i]]
  {
    var keys := DefinedColumns(ValidColumns(e), data);
    [Int(entityId), Str(StatusName(status.GetOr(Draft))), if Truthy(userId) then Int(userId.value) else Null]
      + seq(|keys|, (i: int) requires 0 <= i < |keys| => data[keys[i]])
  }

  /** `createVersion`'s statement: one bound value per listed column, so placeholders and values agree in number. */
  function CreateVersion(e: EntityType, entityId: int, data: Row, status: Option<VersionStatus>, userId: Option<int>): (q: Stmt)
    ensures Args(q) == VersionValues(e, entityId, data, status, userId)
    ensures |Args(q)| == |VersionColumns(e, data)|
    ensures WellFormed(Render(q))
  {
    var q := InsertInto(TableName(e), VersionColumns(e, data), VersionValues(e, entityId, data, status, userId), [], []);
    PlaceholdersMatch(q);
    q
  }

  /** The row an INSERT writes: each listed column holds the value bound at its position. */
  function RowOf(cols: seq<Lit>, vals: seq<Value>): Row
    requires |cols| == |vals|
    decreases |cols|
  {
    if |cols| == 0 then map[] else RowOf(cols[1..], vals[1..])[cols[0] := vals[0]]
  }

  lemma {:induction false} RowOfKeys(cols: seq<Lit>, vals: seq<Value>, k: string)
    requires |cols| == |vals|
    ensures k in RowOf(cols, vals) <==> k in cols
    decreases |cols|
  {
    if |cols| > 0 {
      RowOfKeys(cols[1..], vals[1..], k);
      assert cols == [cols[0]] + cols[1..];
    }
  }

  lemma {:induction false} RowOfAt(cols: seq<Lit>, vals: seq<Value>, i: int)
    requires |cols| == |vals| && DistinctLits(cols) && 0 <= i < |cols|
    ensures cols[i] in RowOf(cols, vals) && RowOf(cols, vals)[cols[i]] == vals[i]
    decreases |cols|
  {
    if i > 0 {
      RowOfAt(cols[1..], vals[1..], i - 1);
    }
  }

  /** Selecting from a repetition-free list repeats nothing. */
  lemma {:induction false} DefinedColumnsDistinct(cols: seq<Lit>, data: Row)
    requires DistinctLits(cols)
    ensures DistinctLits(DefinedColumns(cols, data))
    decreases |cols|
  {
    if |cols| > 0 {
      DefinedColumnsDistinct(cols[1..], data);
      assert cols[0] !in cols[1..];
    }
  }

  /** The three bookkeeping columns the INSERT names first differ from each other and from `id` and `created_at`. */
  lemma MetaColumnsDistinct(e: EntityType)
    ensures DistinctLits([ForeignKey(e), StatusColumn, CreatedByColumn])
    ensures forall c :: c in [ForeignKey(e), StatusColumn, CreatedByColumn] ==> c != IdColumn && c != CreatedAtColumn
  {
    var k := ForeignKey(e);
    assert |k| == 7 || |k| == 9;
    assert |StatusColumn| == 6 && |CreatedByColumn| == 10 && |IdColumn| == 2 && |CreatedAtColumn| == 10;
    assert CreatedByColumn[9] != CreatedAtColumn[9];
  }

  /** The INSERT names no column twice. */
  lemma VersionColumnsDistinct(e: EntityType, data: Row)
    ensures DistinctLits(VersionColumns(e, data))
    ensures forall i :: 0 <= i < |VersionColumns(e, data)| ==> VersionColumns(e, data)[i] != IdColumn && VersionColumns(e, data)[i] != CreatedAtColumn
  {
    WhitelistsClean(e);
    MetaColumnsDistinct(e);
    var meta := [ForeignKey(e), StatusColumn, CreatedByColumn];
    var keys := DefinedColumns(ValidColumns(e), data);
    DefinedColumnsDistinct(ValidColumns(e), data);
    var cols := VersionColumns(e, data);
    assert cols == meta + keys;
    forall i | 3 <= i < |cols| ensures !IsMeta(e, cols[i]) {
      assert cols[i] == keys[i - 3] && keys[i - 3] in keys;
    }
    forall i, j | 0 <= i < j < |cols| ensures cols[i] != cols[j] {
      if j < 3 {
        assert cols[i] == meta[i] && cols[j] == meta[j];
      } else if i < 3 {
        assert cols[i] == meta[i] && !IsMeta(e, cols[j]);
      } else {
        assert cols[i] == keys[i - 3] && cols[j] == keys[j - 3];
      }
    }
    forall i | 0 <= i < |cols| ensures cols[i] != IdColumn && cols[i] != CreatedAtColumn {
      if i < 3 {
        assert cols[i] == meta[i] && meta[i] in meta;
      } else {
        assert !IsMeta(e, cols[i]);
      }
    }
  }

  /** The row has column `c`, holding `v`. */
  predicate Holds(row: Row, c: string, v: Value)
  {
    c in row && row[c] == v
  }

  /** What a version stores for a content column: the data's value, or NULL when the data leaves it out. */
  function ContentValue(data: Row, c: string): Value
  {
    if c in data then data[c] else Null
  }

  /** The whitelisted columns the INSERT leaves out; the table holds them as NULL. */
  function Unset(e: EntityType, data: Row): (m: Row)
    ensures forall c :: c in m <==> c in ValidColumns(e) && c !in data
  {
    map c | c in ValidColumns(e) && c !in data :: Null
  }

  /**
    The row a version insert leaves behind, as `SELECT *` reads it back:
    the listed columns with their bound values, the other whitelisted
    columns NULL, and the id and time the database assigns.
   */
  function StoredVersion(e: EntityType, entityId: int, data: Row, status: Option<VersionStatus>, userId: Option<int>,
                         id: int, createdAt: string): (row: Row)
    ensures IdColumn in row && row[IdColumn] == Int(id)
    ensures CreatedAtColumn in row && row[CreatedAtColumn] == Str(createdAt)
  {
    (Unset(e, data) + RowOf(VersionColumns(e, data), VersionValues(e, entityId, data, status, userId)))
      [IdColumn := Int(id)][CreatedAtColumn := Str(createdAt)]
  }

  /**
    A recorded version holds every whitelisted column: the data's value
    where the data defines the column, NULL where it does not. Keys of the
    data outside the whitelist are dropped.
   */
  lemma CreateVersionStores(e: EntityType, entityId: int, data: Row, status: Option<VersionStatus>, userId: Option<int>,
                            id: int, createdAt: string, c: string)
    requires c in ValidColumns(e)
    ensures Holds(StoredVersion(e, entityId, data, status, userId, id, createdAt), c, ContentValue(data, c))
  {
    var inserted := RowOf(VersionColumns(e, data), VersionValues(e, entityId, data, status, userId));
    InsertedColumn(e, entityId, data, status, userId, c);
    StoredHolds(Unset(e, data), inserted, c, ContentValue(data, c), id, createdAt);
  }

  /** A column the insert or the NULL defaults give a value, other than the two the database assigns, keeps it. */
  lemma StoredHolds(unset: Row, inserted: Row, c: string, v: Value, id: int, createdAt: string)
    requires c != IdColumn && c != CreatedAtColumn
    requires Holds(inserted, c, v) || (c !in inserted && Holds(unset, c, v))
    ensures Holds((unset + inserted)[IdColumn := Int(id)][CreatedAtColumn := Str(createdAt)], c, v)
  {
  }

  /** The INSERT writes a whitelisted column exactly when the data defines it, with the data's value. */
  lemma InsertedColumn(e: EntityType, entityId: int, data: Row, status: Option<VersionStatus>, userId: Option<int>, c: string)
    requires c in ValidColumns(e)
    ensures c != IdColumn && c != CreatedAtColumn
    ensures var inserted := RowOf(VersionColumns(e, data), VersionValues(e, entityId, data, status, userId));
      (c in inserted <==> c in data) && (c in data ==> inserted[c] == data[c])
  {
    WhitelistsClean(e);
    VersionColumnsDistinct(e, data);
    var cols := VersionColumns(e, data);
    var vals := VersionValues(e, entityId, data, status, userId);
    var keys := DefinedColumns(ValidColumns(e), data);
    RowOfKeys(cols, vals, c);
    assert c in cols <==> c in keys;
    if c in data {
      var j :| 0 <= j < |keys| && keys[j] == c;
      assert cols[3 + j] == c;
      RowOfAt(cols, vals, 3 + j);
    }
  }

  /** A recorded version is filed under its entity, with its status and its author (NULL for none). */
  lemma StoredBookkeeping(e: EntityType, entityId: int, data: Row, status: Option<VersionStatus>, userId: Option<int>,
                          id: int, createdAt: string)
    ensures var row := StoredVersion(e, entityId, data, status, userId, id, createdAt);
      && Holds(row, ForeignKey(e), Int(entityId))
      && Holds(row, StatusColumn, Str(StatusName(status.GetOr(Draft))))
      && Holds(row, CreatedByColumn, if Truthy(userId) then Int(userId.value) else Null)
  {
    var inserted := RowOf(VersionColumns(e, data), VersionValues(e, entityId, data, status, userId));
    InsertedBookkeeping(e, entityId, data, status, userId);
    MetaColumnsDistinct(e);
    var meta := [ForeignKey(e), StatusColumn, CreatedByColumn];
    assert meta[0] in meta && meta[1] in meta && meta[2] in meta;
    var u := Unset(e, data);
    StoredHolds(u, inserted, ForeignKey(e), Int(entityId), id, createdAt);
    StoredHolds(u, inserted, StatusColumn, Str(StatusName(status.GetOr(Draft))), id, createdAt);
    StoredHolds(u, inserted, CreatedByColumn, if Truthy(userId) then Int(userId.value) else Null, id, createdAt);
  }

  /** The INSERT writes the entity key, the status and the author first. */
  lemma InsertedBookkeeping(e: EntityType, entityId: int, data: Row, status: Option<VersionStatus>, userId: Option<int>)
    ensures var inserted := RowOf(VersionColumns(e, data), VersionValues(e, entityId, data, status, userId));
      && Holds(inserted, ForeignKey(e), Int(entityId))
      && Holds(inserted, StatusColumn, Str(StatusName(status.GetOr(Draft))))
      && Holds(inserted, CreatedByColumn, if Truthy(userId) then Int(userId.value) else Null)
  {
    VersionColumnsDistinct(e, data);
    var cols := VersionColumns(e, data);
    var vals := VersionValues(e, entityId, data, status, userId);
    RowOfAt(cols, vals, 0);
    RowOfAt(cols, vals, 1);
    RowOfAt(cols, vals, 2);
  }

  /** The defined-column selection reads only the whitelisted columns of the data. */
  lemma {:induction false} DefinedColumnsAgree(cols: seq<Lit>, a: Row, b: Row)
    requires forall c :: c in cols ==> (c in a <==> c in b)
    ensures DefinedColumns(cols, a) == DefinedColumns(cols, b)
  {
    if |cols| > 0 {
      DefinedColumnsAgree(cols[1..], a, b);
    }
  }

  // ---------------------------------------------------------------------------
  // Reading and deleting versions

  const SelectAllFrom: Lit := "SELECT * FROM "
  const DeleteFrom: Lit := "DELETE FROM "
  const WhereKw: Lit := " WHERE "
  const EqualsParam: Lit := " = "
  const WhereIdEquals: Lit := " WHERE id = "
  const NewestFirst: Lit := " ORDER BY created_at DESC"
  const LimitOne: Lit := " LIMIT 1"

  /** `SELECT * FROM <table> WHERE <key> = ?`, bound to the entity id. */
  function VersionsHead(e: EntityType, entityId: int): (q: Stmt)
    ensures Args(q) == [Int(entityId)]
    ensures |q| == 6 && q[1] == Text(TableName(e)) && q[3] == Text(ForeignKey(e))
  {
    Cat(Cat(L(SelectAllFrom), L(TableName(e))), Cat(Cat(L(WhereKw), L(ForeignKey(e))), Cat(L(EqualsParam), P(Int(entityId)))))
  }

  /** `getVersions`, and with `latestOnly` `getLatestVersion`: the entity's versions in its kind's table, newest first. */
  function VersionsQuery(e: EntityType, entityId: int, latestOnly: bool): (q: Stmt)
    ensures Args(q) == [Int(entityId)]
    ensures |q| >= 7 && q[1] == Text(TableName(e)) && q[3] == Text(ForeignKey(e)) && q[6] == Text(NewestFirst)
    ensures |q| == 8 <==> latestOnly
    ensures latestOnly ==> q[7] == Text(LimitOne)
  {
    var tail := if latestOnly then [Text(NewestFirst), Text(LimitOne)] else [Text(NewestFirst)];
    assert Args(tail) == [] by {
      assert Args(tail) == Args(L(NewestFirst)) + Args(if latestOnly then L(LimitOne) else []);
    }
    Cat(VersionsHead(e, entityId), tail)
  }

  /** `getVersion`, and with `delete` `deleteVersion`: one row of the kind's table, by version id. */
  function VersionByIdQuery(e: EntityType, versionId: int, delete: bool): (q: Stmt)
    ensures Args(q) == [Int(versionId)]
    ensures |q| == 4 && q[1] == Text(TableName(e))
    ensures q[0] == Text(if delete then DeleteFrom else SelectAllFrom)
  {
    Cat(Cat(L(if delete then DeleteFrom else SelectAllFrom), L(TableName(e))), Cat(L(WhereIdEquals), P(Int(versionId))))
  }

  /** Queries for two kinds differ even for the same ids: a kind's versions are read and deleted in its own table only. */
  lemma QueriesStayInTheirTable(a: EntityType, b: EntityType, entityId: int, latestOnly: bool, versionId: int, delete: bool)
    ensures VersionsQuery(a, entityId, latestOnly) == VersionsQuery(b, entityId, latestOnly) <==> a == b
    ensures VersionByIdQuery(a, versionId, delete) == VersionByIdQuery(b, versionId, delete) <==> a == b
  {
    TablesAndKeysDistinct(a, b);
  }

  // ---------------------------------------------------------------------------
  // restoreVersion

  const VersionNotFound: string := "Version not found"

  /** `restoreVersion`: the stored row, whole, goes back through `createVersion` as a draft. */
  function RestoreVersion(e: EntityType, entityId: int, versionId: int, versions: map<int, Row>, userId: Option<int>): (r: Result<Stmt>)
    ensures r.Err? <==> versionId !in versions
    ensures r.Err? ==> r.msg == VersionNotFound
    ensures r.Ok? ==> |Args(r.value)| >= 3 && Args(r.value)[0] == Int(entityId) && Args(r.value)[1] == Str("draft")
  {
    if versionId !in versions then Err(VersionNotFound)
    else Ok(CreateVersion(e, entityId, versions[versionId], Some(Draft), userId))
  }

  /**
    Restoring a recorded version records the same content again: the new
    version holds every whitelisted column with the value the restored one
    holds, and is a draft of the entity it is restored into.
   */
  lemma RestoreRoundTrip(e: EntityType, entityId: int, data: Row, status: Option<VersionStatus>, userId: Option<int>,
                         id: int, createdAt: string, versions: map<int, Row>, target: int, restorer: Option<int>,
                         newId: int, restoredAt: string)
    requires id in versions && versions[id] == StoredVersion(e, entityId, data, status, userId, id, createdAt)
    ensures RestoreVersion(e, target, id, versions, restorer) == Ok(CreateVersion(e, target, versions[id], Some(Draft), restorer))
    ensures var restored := StoredVersion(e, target, versions[id], Some(Draft), restorer, newId, restoredAt);
      && (forall c :: c in ValidColumns(e) ==>
            Holds(versions[id], c, ContentValue(data, c)) && Holds(restored, c, ContentValue(data, c)))
      && Holds(restored, ForeignKey(e), Int(target))
      && Holds(restored, StatusColumn, Str("draft"))
  {
    var row := versions[id];
    var restored := StoredVersion(e, target, row, Some(Draft), restorer, newId, restoredAt);
    forall c | c in ValidColumns(e)
      ensures Holds(row, c, ContentValue(data, c)) && Holds(restored, c, ContentValue(data, c))
    {
      CreateVersionStores(e, entityId, data, status, userId, id, createdAt, c);
      CreateVersionStores(e, target, row, Some(Draft), restorer, newId, restoredAt, c);
    }
    StoredBookkeeping(e, target, row, Some(Draft), restorer, newId, restoredAt);
  }

  /** Two rows that agree on the whitelisted columns give the same content columns and values. */
  lemma ValuesFollowContent(e: EntityType, a: Row, b: Row, idA: int, statusA: Option<VersionStatus>, userA: Option<int>,
                            idB: int, statusB: Option<VersionStatus>, userB: Option<int>)
    requires forall c :: c in ValidColumns(e) ==> (c in a <==> c in b) && (c in a ==> a[c] == b[c])
    ensures VersionColumns(e, a) == VersionColumns(e, b)
    ensures VersionValues(e, idA, a, statusA, userA)[3..] == VersionValues(e, idB, b, statusB, userB)[3..]
  {
    DefinedColumnsAgree(ValidColumns(e), a, b);
    var keys := DefinedColumns(ValidColumns(e), a);
    var va := VersionValues(e, idA, a, statusA, userA);
    var vb := VersionValues(e, idB, b, statusB, userB);
    forall i | 3 <= i < |va| ensures va[i] == vb[i] {
      assert keys[i - 3] in keys;
    }
  }

  // ---------------------------------------------------------------------------
  // escapeHtml

  function EscapeAmp(c: char): string { if c == '&' then "&amp;" else [c] }
  function EscapeLt(c: char): string { if c == '<' then "&lt;" else [c] }
  function EscapeGt(c: char): string { if c == '>' then "&gt;" else [c] }
  function EscapeQuot(c: char): string { if c == '"' then "&quot;" else [c] }
  function EscapeApos(c: char): string { if c == '\'' then "&#039;" else [c] }

  /** The five global replacements as `escapeHtml` chains them, `&` first. */
  function ReplaceChain(s: string): string
  {
    MapChars(MapChars(MapChars(MapChars(MapChars(s, EscapeAmp), EscapeLt), EscapeGt), EscapeQuot), EscapeApos)
  }

  /** `escapeHtml`: the chain escapes each character on its own, by the table `HtmlChar`. */
  function EscapeHtml(s: string): (r: string)
    ensures r == MapChars(s, HtmlChar)
  {
    ChainCharwise(s);
    ReplaceChain(s)
  }

  /** The characters HTML gives a meaning to. */
  predicate Special(c: char)
  {
    c == '&' || c == '<' || c == '>' || c == '"' || c == '\''
  }

  /** What the five replacements do to one character. */
  function HtmlChar(c: char): (r: string)
    ensures !Special(c) ==> r == [c]
    ensures Special(c) ==> |r| >= 4 && r[0] == '&' && r[|r| - 1] == ';'
  {
    if c == '&' then "&amp;"
    else if c == '<' then "&lt;"
    else if c == '>' then "&gt;"
    else if c == '"' then "&quot;"
    else if c == '\'' then "&#039;"
    else [c]
  }

  /** The replacements after the first only fix up their own character. */
  lemma TailReplacements(c: char)
    requires c != '&'
    ensures MapChars(MapChars(MapChars(MapChars([c], EscapeLt), EscapeGt), EscapeQuot), EscapeApos) == HtmlChar(c)
  {
    MapCharsOne(c, EscapeLt);
    var a := EscapeLt(c);
    if c == '<' {
      MapCharsFixed(a, EscapeGt);
      MapCharsFixed(a, EscapeQuot);
      MapCharsFixed(a, EscapeApos);
    } else {
      MapCharsOne(c, EscapeGt);
      var b := EscapeGt(c);
      if c == '>' {
        MapCharsFixed(b, EscapeQuot);
        MapCharsFixed(b, EscapeApos);
      } else {
        MapCharsOne(c, EscapeQuot);
        var d := EscapeQuot(c);
        if c == '"' {
          MapCharsFixed(d, EscapeApos);
        } else {
          MapCharsOne(c, EscapeApos);
        }
      }
    }
  }

  lemma ChainOneChar(c: char)
    ensures ReplaceChain([c]) == HtmlChar(c)
  {
    MapCharsOne(c, EscapeAmp);
    if c == '&' {
      AmpEntityKept();
    } else {
      TailReplacements(c);
    }
  }

  /** The later replacements leave the `&amp;` entity alone. */
  lemma AmpEntityKept()
    ensures MapChars(MapChars(MapChars(MapChars("&amp;", EscapeLt), EscapeGt), EscapeQuot), EscapeApos) == "&amp;"
  {
    var a := "&amp;";
    MapCharsFixed(a, EscapeLt);
    MapCharsFixed(a, EscapeGt);
    MapCharsFixed(a, EscapeQuot);
    MapCharsFixed(a, EscapeApos);
  }

  lemma ChainAppend(a: string, b: string)
    ensures ReplaceChain(a + b) == ReplaceChain(a) + ReplaceChain(b)
  {
    MapCharsAppend(a, b, EscapeAmp);
    var a1, b1 := MapChars(a, EscapeAmp), MapChars(b, EscapeAmp);
    MapCharsAppend(a1, b1, EscapeLt);
    var a2, b2 := MapChars(a1, EscapeLt), MapChars(b1, EscapeLt);
    MapCharsAppend(a2, b2, EscapeGt);
    var a3, b3 := MapChars(a2, EscapeGt), MapChars(b2, EscapeGt);
    MapCharsAppend(a3, b3, EscapeQuot);
    var a4, b4 := MapChars(a3, EscapeQuot), MapChars(b3, EscapeQuot);
    MapCharsAppend(a4, b4, EscapeApos);
  }

  /** Replacing `&` first makes the chain a per-character escape: no entity is escaped twice. */
  lemma {:induction false} ChainCharwise(s: string)
    ensures ReplaceChain(s) == MapChars(s, HtmlChar)
    decreases |s|
  {
    if |s| > 0 {
      ChainCharwise(s[1..]);
      assert s == [s[0]] + s[1..];
      ChainAppend([s[0]], s[1..]);
      ChainOneChar(s[0]);
    }
  }

  /** Replacing `<` before `&` would double-escape it. */
  lemma WrongOrderDoubleEscapes()
    ensures MapChars(MapChars("<", EscapeLt), EscapeAmp) == "&amp;lt;"
  {
    MapCharsOne('<', EscapeLt);
    var a := "&lt;";
    assert a[1..] == "lt;" && a[1..][1..] == "t;" && a[1..][1..][1..] == ";" && a[1..][1..][1..][1..] == "";
    assert MapChars(a, EscapeAmp) == "&amp;" + "l" + "t" + ";";
  }

  /** Whether `c` is one of the four characters that may not appear raw in escaped text. */
  predicate Markup(c: char)
  {
    c == '<' || c == '>' || c == '"' || c == '\''
  }

  /** One character's replacement holds no raw markup. */
  lemma HtmlCharClean(c: char)
    ensures forall i :: 0 <= i < |HtmlChar(c)| ==> !Markup(HtmlChar(c)[i])
  {
    var h := HtmlChar(c);
    if Special(c) {
      forall i | 0 <= i < |h| ensures !Markup(h[i]) {
        if c == '&' { assert h == "&amp;"; }
        else if c == '<' { assert h == "&lt;"; }
        else if c == '>' { assert h == "&gt;"; }
        else if c == '"' { assert h == "&quot;"; }
        else { assert h == "&#039;"; }
      }
    }
  }

  /** The per-character escape holds no raw markup. */
  lemma {:induction false} CharwiseHasNoMarkup(s: string)
    ensures var t := MapChars(s, HtmlChar);
      forall i :: 0 <= i < |t| ==> !Markup(t[i])
    decreases |s|
  {
    if |s| > 0 {
      CharwiseHasNoMarkup(s[1..]);
      HtmlCharClean(s[0]);
      var h := HtmlChar(s[0]);
      var rest := MapChars(s[1..], HtmlChar);
      var t := MapChars(s, HtmlChar);
      assert t == h + rest;
      forall i | 0 <= i < |t| ensures !Markup(t[i]) {
        if i < |h| {
          assert t[i] == h[i];
          assert !Markup(HtmlChar(s[0])[i]);
        } else {
          assert t[i] == rest[i - |h|];
          assert !Markup(MapChars(s[1..], HtmlChar)[i - |h|]);
        }
      }
    }
  }

  /** The escaped text holds no raw `<`, `>`, `"` or `'`. */
  lemma EscapedHasNoMarkup(s: string)
    ensures var t := EscapeHtml(s);
      forall i :: 0 <= i < |t| ==> t[i] != '<' && t[i] != '>' && t[i] != '"' && t[i] != '\''
  {
    var t := EscapeHtml(s);
    assert t == MapChars(s, HtmlChar);
    CharwiseHasNoMarkup(s);
    forall i | 0 <= i < |t| ensures t[i] != '<' && t[i] != '>' && t[i] != '"' && t[i] != '\'' {
      assert !Markup(t[i]);
    }
  }

  /** The inverse: each of the five entities stands for its character. */
  function UnescapeHtml(t: string): string
    decreases |t|
  {
    if |t| == 0 then ""
    else if IsPrefix("&amp;", t) then "&" + UnescapeHtml(t[5..])
    else if IsPrefix("&lt;", t) then "<" + UnescapeHtml(t[4..])
    else if IsPrefix("&gt;", t) then ">" + UnescapeHtml(t[4..])
    else if IsPrefix("&quot;", t) then "\"" + UnescapeHtml(t[6..])
    else if IsPrefix("&#039;", t) then "'" + UnescapeHtml(t[6..])
    else [t[0]] + UnescapeHtml(t[1..])
  }

  lemma UnescapeOne(c: char, rest: string)
    ensures UnescapeHtml(HtmlChar(c) + rest) == [c] + UnescapeHtml(rest)
  {
    var h := HtmlChar(c);
    var t := h + rest;
    assert t[..|h|] == h && t[|h|..] == rest;
    if !Special(c) {
      assert t[0] == c && t[1..] == rest;
      NotPrefixAt("&amp;", t, 0);
      NotPrefixAt("&lt;", t, 0);
      NotPrefixAt("&gt;", t, 0);
      NotPrefixAt("&quot;", t, 0);
      NotPrefixAt("&#039;", t, 0);
    } else if c == '&' {
      assert h == "&amp;";
    } else if c == '<' {
      assert h == "&lt;" && t[1] == 'l';
      NotPrefixAt("&amp;", t, 1);
    } else if c == '>' {
      assert h == "&gt;" && t[1] == 'g';
      NotPrefixAt("&amp;", t, 1);
      NotPrefixAt("&lt;", t, 1);
    } else if c == '"' {
      assert h == "&quot;" && t[1] == 'q';
      NotPrefixAt("&amp;", t, 1);
      NotPrefixAt("&lt;", t, 1);
      NotPrefixAt("&gt;", t, 1);
    } else {
      assert h == "&#039;" && t[1] == '#';
      NotPrefixAt("&amp;", t, 1);
      NotPrefixAt("&lt;", t, 1);
      NotPrefixAt("&gt;", t, 1);
      NotPrefixAt("&quot;", t, 1);
    }
  }


  /** Unescaping the escaped text gives back the text. */
  lemma {:induction false} UnescapeEscape(s: string)
    ensures UnescapeHtml(EscapeHtml(s)) == s
    decreases |s|
  {
    if |s| > 0 {
      UnescapeEscape(s[1..]);
      assert MapChars(s, HtmlChar) == HtmlChar(s[0]) + MapChars(s[1..], HtmlChar);
      UnescapeOne(s[0], MapChars(s[1..], HtmlChar));
      assert [s[0]] + s[1..] == s;
    }
  }

  // ---------------------------------------------------------------------------
  // compareText

  /** A part of the word diff. */
  datatype Part = Part(value: string, added: bool, removed: bool)

  const Green: string := "#dcfce7"
  const Red: string := "#fee2e2"
  const Transparent: string := "transparent"

  datatype Style = Style(color: string, decoration: string, weight: string)

  /** An added part is green and bold, a removed one red and struck through, the rest plain. */
  function StyleOf(p: Part): (s: Style)
    ensures s.color == Green <==> p.added
    ensures s.color == Red <==> !p.added && p.removed
    ensures s.color == Transparent <==> !p.added && !p.removed
    ensures s.decoration == (if p.removed then "line-through" else "none")
    ensures s.weight == (if p.added then "bold" else "normal")
  {
    Style(if p.added then Green else if p.removed then Red else Transparent,
          if p.removed then "line-through" else "none",
          if p.added then "bold" else "normal")
  }

  const StyleHead: string := "<span style=\"background-color: "
  const DecorationKey: string := "; text-decoration: "
  const WeightKey: string := "; font-weight: "
  const OpenEnd: string := "\">"
  const SpanClose: string := "</span>"

  /** The opening tag of a part's span. */
  function SpanOpen(p: Part): string
  {
    var s := StyleOf(p);
    StyleHead + (s.color + (DecorationKey + (s.decoration + (WeightKey + (s.weight + OpenEnd)))))
  }

  function Span(p: Part): string
  {
    SpanOpen(p) + (EscapeHtml(p.value) + SpanClose)
  }

  /** The strings `f` gives for each element, joined without a separator (`map(f).join('')`). */
  function JoinMap<T>(xs: seq<T>, f: T -> string): string
  {
    if |xs| == 0 then "" else f(xs[0]) + JoinMap(xs[1..], f)
  }

  lemma {:induction false} JoinMapAppend<T>(a: seq<T>, b: seq<T>, f: T -> string)
    ensures JoinMap(a + b, f) == JoinMap(a, f) + JoinMap(b, f)
    decreases |a|
  {
    if |a| > 0 {
      JoinMapAppend(a[1..], b, f);
      assert (a + b)[0] == a[0];
      assert (a + b)[1..] == a[1..] + b;
    } else {
      assert a + b == b;
    }
  }

  lemma JoinMapOne<T>(x: T, f: T -> string)
    ensures JoinMap([x], f) == f(x)
  {
    assert [x][1..] == [];
  }

  /**
    `diff.map(...).join('')`: one span per part, in order. The page loses
    nothing: reading the spans back gives the parts, text and flags.
   */
  function CompareText(parts: seq<Part>): (r: string)
    ensures r == JoinMap(parts, Span)
    ensures ReadSpans(r) == Some(parts)
  {
    if |parts| == 0 then ""
    else
      var rest := CompareText(parts[1..]);
      ReadSpansCons(parts[0], rest, parts[1..]);
      assert [parts[0]] + parts[1..] == parts;
      Span(parts[0]) + rest
  }

  // ---------------------------------------------------------------------------
  // Reading the page back

  /** Splits `s` at the first `c`: the text before it and the rest, which starts with `c` unless `c` is absent. */
  function ReadUntil(s: string, c: char): (r: (string, string))
    ensures r.0 + r.1 == s
    decreases |s|
  {
    if |s| == 0 || s[0] == c then ("", s)
    else
      var q := ReadUntil(s[1..], c);
      assert [s[0]] + q.0 + q.1 == s;
      ([s[0]] + q.0, q.1)
  }

  lemma {:induction false} ReadUntilOf(a: string, c: char, b: string)
    requires c !in a && |b| > 0 && b[0] == c
    ensures ReadUntil(a + b, c) == (a, b)
    decreases |a|
  {
    if |a| > 0 {
      assert (a + b)[0] == a[0];
      assert (a + b)[1..] == a[1..] + b;
      ReadUntilOf(a[1..], c, b);
      assert [a[0]] + a[1..] == a;
    } else {
      assert a + b == b;
    }
  }

  /** Reads one span: the style's fields up to their delimiters, then the body up to the closing tag. */
  function ReadSpan(s: string): (r: Option<(Part, string)>)
    ensures r.Some? ==> |r.value.1| < |s|
  {
    if !IsPrefix(StyleHead, s) then None
    else
      var f1 := ReadUntil(s[|StyleHead|..], ';');
      if !IsPrefix(DecorationKey, f1.1) then None
      else
        var f2 := ReadUntil(f1.1[|DecorationKey|..], ';');
        if !IsPrefix(WeightKey, f2.1) then None
        else
          var f3 := ReadUntil(f2.1[|WeightKey|..], '"');
          if !IsPrefix(OpenEnd, f3.1) then None
          else
            var f4 := ReadUntil(f3.1[|OpenEnd|..], '<');
            if !IsPrefix(SpanClose, f4.1) then None
            else Some((Part(UnescapeHtml(f4.0), f3.0 == "bold", f2.0 == "line-through"), f4.1[|SpanClose|..]))
  }

  /** Reads a whole page of spans. */
  function ReadSpans(s: string): Option<seq<Part>>
    decreases |s|
  {
    if |s| == 0 then Some([])
    else match ReadSpan(s)
      case None => None
      case Some(q) =>
        match ReadSpans(q.1)
        case None => None
        case Some(ps) => Some([q.0] + ps)
  }

  /** No style field holds the delimiter that ends it. */
  lemma StyleFieldsClean(p: Part)
    ensures ';' !in StyleOf(p).color && ';' !in StyleOf(p).decoration && '"' !in StyleOf(p).weight
    ensures StyleOf(p).weight == "bold" <==> p.added
    ensures StyleOf(p).decoration == "line-through" <==> p.removed
  {
    var st := StyleOf(p);
    assert forall i :: 0 <= i < |Green| ==> Green[i] != ';';
    assert forall i :: 0 <= i < |Red| ==> Red[i] != ';';
    assert forall i :: 0 <= i < |Transparent| ==> Transparent[i] != ';';
    assert forall i :: 0 <= i < |st.decoration| ==> st.decoration[i] != ';';
    assert forall i :: 0 <= i < |st.weight| ==> st.weight[i] != '"';
  }

  lemma Assoc(a: string, b: string, c: string)
    ensures (a + b) + c == a + (b + c)
  {
  }

  /** Appending to a right-nested concatenation of seven pieces appends to its last piece. */
  lemma Nest(a: string, b: string, c: string, d: string, e: string, f: string, g: string, z: string)
    ensures (a + (b + (c + (d + (e + (f + g)))))) + z == a + (b + (c + (d + (e + (f + (g + z))))))
  {
    Assoc(f, g, z);
    Assoc(e, f + g, z);
    Assoc(d, e + (f + g), z);
    Assoc(c, d + (e + (f + g)), z);
    Assoc(b, c + (d + (e + (f + g))), z);
    Assoc(a, b + (c + (d + (e + (f + g)))), z);
  }

  /** One field of the opening tag: its key is skipped and its value read up to the delimiter that follows. */
  lemma FieldRead(key: string, field: string, next: string, c: char)
    requires c !in field && |next| > 0 && next[0] == c
    ensures IsPrefix(key, key + (field + next))
    ensures (key + (field + next))[|key|..] == field + next
    ensures ReadUntil(field + next, c) == (field, next)
  {
    assert (key + (field + next))[..|key|] == key;
    ReadUntilOf(field, c, next);
  }

  /** A span reads back as its part, followed by whatever came after it. */
  lemma ReadSpanOf(p: Part, rest: string)
    ensures ReadSpan(Span(p) + rest) == Some((p, rest))
  {
    var st := StyleOf(p);
    var body := EscapeHtml(p.value);
    StyleFieldsClean(p);
    var t4 := SpanClose + rest;
    var t3 := OpenEnd + (body + t4);
    var t2 := WeightKey + (st.weight + t3);
    var t1 := DecorationKey + (st.decoration + t2);
    Assoc(SpanOpen(p), body + SpanClose, rest);
    Assoc(body, SpanClose, rest);
    Nest(StyleHead, st.color, DecorationKey, st.decoration, WeightKey, st.weight, OpenEnd, body + t4);
    assert Span(p) + rest == StyleHead + (st.color + t1);
    FieldRead(StyleHead, st.color, t1, ';');
    FieldRead(DecorationKey, st.decoration, t2, ';');
    FieldRead(WeightKey, st.weight, t3, '"');
    EscapedHasNoMarkup(p.value);
    assert '<' !in body;
    FieldRead(OpenEnd, body, t4, '<');
    assert IsPrefix(SpanClose, t4) && t4[|SpanClose|..] == rest;
    UnescapeEscape(p.value);
  }

  /** A span in front of a page adds its part in front of what the page reads as. */
  lemma ReadSpansCons(p: Part, rest: string, ps: seq<Part>)
    requires ReadSpans(rest) == Some(ps)
    ensures ReadSpans(Span(p) + rest) == Some([p] + ps)
  {
    ReadSpanOf(p, rest);
    assert |Span(p) + rest| > 0 by {
      assert |Span(p)| >= |StyleHead| > 0;
    }
  }

  /**
    A span's body is the part's text, escaped: it cannot open or close a
    tag, and unescaping it gives back the text.
   */
  lemma SpanBody(p: Part)
    ensures var body := EscapeHtml(p.value);
      Span(p) == SpanOpen(p) + body + SpanClose
      && UnescapeHtml(body) == p.value
      && forall i :: 0 <= i < |body| ==> body[i] != '<' && body[i] != '>'
  {
    UnescapeEscape(p.value);
    EscapedHasNoMarkup(p.value);
  }

  /** The page is one span per part: a single part renders as its span, and a split diff renders as the two halves joined. */
  lemma CompareTextParts(p: Part, a: seq<Part>, b: seq<Part>)
    ensures CompareText([p]) == Span(p)
    ensures CompareText(a + b) == CompareText(a) + CompareText(b)
  {
    JoinMapOne(p, Span);
    JoinMapAppend(a, b, Span);
  }
}

=== FILE: video_client.dfy ===
/**
  The lesson page's video script (`src/client/video-tracking.ts`): which
  embedded players are trusted, when the player seeks back to the saved
  position, when progress is saved and with what values, and the
  completion button. Players, timers and `fetch` are replaced by the
  values they deliver; URL parsing is an input (`Url`), with `None` for a
  string the URL parser rejects.
 */
module VideoClient {
  import opened Common
  import opened Text
  import Sql

  /** What `new URL(src, origin)` yields: the protocol (with its colon) and the host name. */
  datatype Url = Url(protocol: string, hostname: string)

  const Https: string := "https:"
  const Http: string := "http:"

  const YouTubeDomain: string := "youtube.com"
  const YouTubeSubdomain: string := "." + YouTubeDomain
  /** `youtube.com`, `www.youtube.com`, `m.youtube.com` and `youtu.be`. */
  const YouTubeHosts: seq<string> := [YouTubeDomain, "www" + YouTubeSubdomain, "m" + YouTubeSubdomain, "youtu.be"]
  const VimeoDomain: string := "vimeo.com"
  const VimeoSubdomain: string := "." + VimeoDomain
  /** `vimeo.com`, `www.vimeo.com` and `player.vimeo.com`. */
  const VimeoHosts: seq<string> := [VimeoDomain, "www" + VimeoSubdomain, "player" + VimeoSubdomain]

  /** The shared shape of both checks: web protocol, then an allow-listed host or a subdomain. */
  predicate Trusted(u: Option<Url>, hosts: seq<string>, subdomain: string)
  {
    u.Some? && (u.value.protocol == Https || u.value.protocol == Http)
    && (Lower(u.value.hostname) in hosts || IsSuffix(subdomain, Lower(u.value.hostname)))
  }

  /** `isTrustedYouTubeUrl`. */
  predicate TrustedYouTube(u: Option<Url>)
  {
    Trusted(u, YouTubeHosts, YouTubeSubdomain)
  }

  /** `isTrustedVimeoUrl`. */
  predicate TrustedVimeo(u: Option<Url>)
  {
    Trusted(u, VimeoHosts, VimeoSubdomain)
  }

  /** Whether `domain` is `host` itself or a parent of it at a label boundary. */
  predicate UnderDomain(host: string, domain: string)
  {
    host == domain || IsSuffix("." + domain, host)
  }

  /** A host named `name.domain` lies under `domain`. */
  lemma LabelUnderDomain(name: string, domain: string)
    ensures UnderDomain(name + ("." + domain), domain)
  {
    var sub := "." + domain;
    assert (name + sub)[|name + sub| - |sub|..] == sub;
  }

  /** A trusted YouTube player is served from `youtube.com` or one of its subdomains, or from `youtu.be`. */
  lemma TrustedYouTubeDomain(u: Option<Url>)
    requires TrustedYouTube(u)
    ensures u.value.protocol == Https || u.value.protocol == Http
    ensures UnderDomain(Lower(u.value.hostname), YouTubeDomain) || Lower(u.value.hostname) == "youtu.be"
  {
    var h := Lower(u.value.hostname);
    if h == YouTubeHosts[1] {
      LabelUnderDomain("www", YouTubeDomain);
    } else if h == YouTubeHosts[2] {
      LabelUnderDomain("m", YouTubeDomain);
    }
  }

  /** A trusted Vimeo player is served from `vimeo.com` or one of its subdomains. */
  lemma TrustedVimeoDomain(u: Option<Url>)
    requires TrustedVimeo(u)
    ensures u.value.protocol == Https || u.value.protocol == Http
    ensures UnderDomain(Lower(u.value.hostname), VimeoDomain)
  {
    var h := Lower(u.value.hostname);
    if h == VimeoHosts[1] {
      LabelUnderDomain("www", VimeoDomain);
    } else if h == VimeoHosts[2] {
      LabelUnderDomain("player", VimeoDomain);
    }
  }

  /** Any host under the domain is accepted: the subdomain rule is the whole allowlist plus more. */
  lemma SubdomainsTrusted(protocol: string, hostname: string)
    requires protocol == Https || protocol == Http
    requires IsSuffix(YouTubeSubdomain, Lower(hostname))
    ensures TrustedYouTube(Some(Url(protocol, hostname)))
  {
  }

  /** Only web protocols: a `javascript:` or `data:` source is never trusted. */
  lemma OtherProtocolsRejected(u: Url)
    requires u.protocol != Https && u.protocol != Http
    ensures !TrustedYouTube(Some(u)) && !TrustedVimeo(Some(u))
  {
  }

  // ---------------------------------------------------------------------------
  // Resuming, saving

  /** The player seeks to the saved position only when it is past 0 and more than 5 seconds before the end. */
  predicate ShouldSeek(lastPosition: real, duration: real)
  {
    lastPosition > 0.0 && lastPosition < duration - 5.0
  }

  /** A resumed position is always inside the video, at least 5 seconds from its end. */
  lemma SeekStaysInside(lastPosition: real, duration: real)
    requires ShouldSeek(lastPosition, duration)
    ensures 0.0 < lastPosition < duration && duration > 5.0
  {
  }

  /** JavaScript `Math.round`: halves round up. */
  function Round(x: real): (r: int)
    ensures r as real <= x + 0.5 < r as real + 1.0
  {
    (x + 0.5).Floor
  }

  /** The body of `saveVideoProgress`: both values rounded. */
  datatype Save = Save(position: int, duration: int)

  function SaveOf(position: real, duration: real): (s: Save)
    ensures s.position as real <= position + 0.5 < s.position as real + 1.0
    ensures s.duration as real <= duration + 0.5 < s.duration as real + 1.0
  {
    Save(Round(position), Round(duration))
  }

  /** The periodic save and the unload beacon: only when both time and duration are positive. */
  function GuardedSave(currentTime: real, duration: real): (r: Option<Save>)
    ensures r.Some? <==> currentTime > 0.0 && duration > 0.0
    ensures r.Some? ==> r.value == SaveOf(currentTime, duration)
  {
    if currentTime > 0.0 && duration > 0.0 then Some(SaveOf(currentTime, duration)) else None
  }

  /** A guarded save never sends a negative value, but a duration under half a second is sent as 0. */
  lemma GuardedSaveValues(currentTime: real, duration: real)
    requires currentTime > 0.0 && duration > 0.0
    ensures GuardedSave(currentTime, duration).value.position >= 0
    ensures GuardedSave(currentTime, duration).value.duration >= 0
    ensures duration < 0.5 ==> GuardedSave(currentTime, duration).value.duration == 0
  {
  }

  // ---------------------------------------------------------------------------
  // The completion button

  /** The reply of `/api/lessons/:id/complete`, or `None` when the request failed; the certificate id is the row's numeric id. */
  datatype Reply = Reply(success: bool, certificateGenerated: bool, certificateId: Option<int>)

  /** What the page does after a toggle. */
  datatype Effect = Reload | OpenCertificate(path: string) | ShowError

  datatype Toggle = Toggle(requested: bool, isCompleted: bool, effect: Effect)

  const CertificatePath: string := "/certificado/"

  /** `toggleComplete`: asks for the opposite state; the local flag flips only on a successful reply. */
  function ToggleComplete(isCompleted: bool, reply: Option<Reply>, confirmed: bool): (t: Toggle)
    ensures t.requested == !isCompleted
    ensures t.isCompleted == (if reply.Some? && reply.value.success then !isCompleted else isCompleted)
    ensures t.effect == ShowError <==> !(reply.Some? && reply.value.success)
    ensures t.effect.OpenCertificate? <==>
      && reply.Some? && reply.value.success && reply.value.certificateGenerated
      && Sql.Truthy(reply.value.certificateId) && confirmed
    ensures t.effect.OpenCertificate? ==> t.effect.path == CertificatePath + IntToString(reply.value.certificateId.value)
  {
    if reply.Some? && reply.value.success then
      var r := reply.value;
      if r.certificateGenerated && Sql.Truthy(r.certificateId) && confirmed then
        Toggle(!isCompleted, !isCompleted, OpenCertificate(CertificatePath + IntToString(r.certificateId.value)))
      else Toggle(!isCompleted, !isCompleted, Reload)
    else Toggle(!isCompleted, isCompleted, ShowError)
  }

  /** The `video-ended` listener: toggles only when the lesson is not completed yet. */
  function OnVideoEnded(isCompleted: bool, reply: Option<Reply>, confirmed: bool): (t: Option<Toggle>)
    ensures t.Some? <==> !isCompleted
  {
    if !isCompleted then Some(ToggleComplete(isCompleted, reply, confirmed)) else None
  }

  /** The end of a video can only mark a lesson completed, never un-complete it. */
  lemma VideoEndNeverUncompletes(isCompleted: bool, reply: Option<Reply>, confirmed: bool)
    ensures OnVideoEnded(isCompleted, reply, confirmed).Some? ==> OnVideoEnded(isCompleted, reply, confirmed).value.requested
    ensures var t := OnVideoEnded(isCompleted, reply, confirmed);
      (if t.Some? then t.value.isCompleted else isCompleted) == (isCompleted || (reply.Some? && reply.value.success))
  {
  }

  /** Two successful clicks return the button to where it started. */
  lemma ToggleTwice(isCompleted: bool, r1: Reply, r2: Reply, c1: bool, c2: bool)
    requires r1.success && r2.success
    ensures ToggleComplete(ToggleComplete(isCompleted, Some(r1), c1).isCompleted, Some(r2), c2).isCompleted == isCompleted
  {
  }
}

=== FILE: webhooks.dfy ===
/**
  Payment webhooks (`src/routes/webhooks.ts`, `src/webhook-utils.ts`): the
  course references carried through Stripe and PayPal, and the effect of
  each event on enrolments, transactions and the webhook log.
  Signature checking, the provider SDKs and REST calls are inputs here: the
  Stripe check arrives as a boolean, the PayPal one as a boolean that the
  handler ignores. Amounts arrive already converted to whole units.
 */
module Webhooks {
  import opened Common
  import opened Text
  import opened Sql
  import opened Like
  import opened Enrollments

  // ---------------------------------------------------------------------------
  // Course references

  /** The course a payment is for; a field is `None` when `parseInt` gave `NaN`. */
  datatype CourseData = CourseData(userId: Option<int>, courseId: Option<int>)

  /** The two metadata entries the checkout puts on a Stripe payment intent. */
  datatype StripeMetadata = StripeMetadata(userId: Option<string>, courseId: Option<string>)

  /** `extractCourseDataFromStripeMetadata`. */
  function ExtractStripe(m: Option<StripeMetadata>): (r: Option<CourseData>)
    ensures r.None? <==> m.None? || !TruthyStr(m.value.userId) || !TruthyStr(m.value.courseId)
    ensures r.Some? ==> r.value == CourseData(ParseInt(m.value.userId.value), ParseInt(m.value.courseId.value))
  {
    if m.None? || !TruthyStr(m.value.userId) || !TruthyStr(m.value.courseId) then None
    else Some(CourseData(ParseInt(m.value.userId.value), ParseInt(m.value.courseId.value)))
  }

  /** The metadata `POST /api/create-payment-intent` attaches: both ids with `toString()`. */
  function StripeMetadataOf(userId: int, courseId: int): StripeMetadata
  {
    StripeMetadata(Some(IntToString(userId)), Some(IntToString(courseId)))
  }

  lemma IntToStringNonEmpty(i: int)
    ensures IntToString(i) != ""
  {
    if i >= 0 {
      assert IsAllDigits(NatToString(i));
    }
  }

  /** Any ids the checkout sends come back unchanged. */
  lemma StripeRoundTrip(userId: int, courseId: int)
    ensures ExtractStripe(Some(StripeMetadataOf(userId, courseId))) == Some(CourseData(Some(userId), Some(courseId)))
  {
    IntToStringNonEmpty(userId);
    IntToStringNonEmpty(courseId);
    ParseIntOfIntToString(userId);
    ParseIntOfIntToString(courseId);
  }

  const Dash: string := "-"

  /** `extractCourseDataFromPayPalCustomId`: exactly two `-`-separated fields, else `null`. */
  function ExtractPayPal(customId: Option<string>): (r: Option<CourseData>)
    ensures !TruthyStr(customId) ==> r.None?
    ensures TruthyStr(customId) ==> (r.Some? <==> |Split(customId.value, Dash)| == 2)
    ensures r.Some? ==> var parts := Split(customId.value, Dash);
      r.value == CourseData(ParseInt(parts[0]), ParseInt(parts[1]))
  {
    if !TruthyStr(customId) then None
    else
      var parts := Split(customId.value, Dash);
      if |parts| != 2 then None
      else Some(CourseData(ParseInt(parts[0]), ParseInt(parts[1])))
  }

  /** `custom_id: user.id + '-' + courseId`, as the PayPal order is created. */
  function CustomIdOf(userId: int, courseId: int): string
  {
    IntToString(userId) + Dash + IntToString(courseId)
  }

  lemma NoDashInNat(n: nat)
    ensures '-' !in NatToString(n)
  {
    var s := NatToString(n);
    assert IsAllDigits(s);
    forall i | 0 <= i < |s| ensures s[i] != '-' {
      assert IsDigit(s[i]);
    }
  }

  /** Non-negative ids survive the trip through PayPal's `custom_id`. */
  lemma PayPalRoundTrip(userId: nat, courseId: nat)
    ensures ExtractPayPal(Some(CustomIdOf(userId, courseId))) == Some(CourseData(Some(userId), Some(courseId)))
  {
    NoDashInNat(userId);
    NoDashInNat(courseId);
    assert Dash == ['-'];
    SplitOnce(NatToString(userId), NatToString(courseId), '-');
    IntToStringNonEmpty(userId);
    ParseIntOfNatToString(userId);
    ParseIntOfNatToString(courseId);
  }

  /** A negative user id adds a third field, so the payment carries no course. */
  lemma NegativeUserIdLost(userId: int, courseId: nat)
    requires userId < 0
    ensures ExtractPayPal(Some(CustomIdOf(userId, courseId))).None?
  {
    var u, c := NatToString(-userId), NatToString(courseId);
    NoDashInNat(-userId);
    NoDashInNat(courseId);
    assert Dash == ['-'];
    var s := CustomIdOf(userId, courseId);
    assert s == ['-'] + (u + ['-'] + c);
    assert IsPrefix(Dash, s);
    assert s[1..] == u + ['-'] + c;
    SplitOnce(u, c, '-');
    assert Split(s, Dash) == [""] + [u, c];
  }

  // ---------------------------------------------------------------------------
  // The webhook log

  const Received: string := "received"
  const Processed: string := "processed"
  const LogFailed: string := "failed"

  datatype LogEntry = LogEntry(provider: string, eventType: string, eventId: Option<string>,
                               status: string, error: Option<string>)

  /** `logWebhook`: the status defaults to `received`, a missing error message is stored as NULL. */
  function LogWebhook(provider: string, eventType: string, eventId: Option<string>,
                      status: Option<string>, error: Option<string>): (e: LogEntry)
    ensures status.None? ==> e.status == Received
    ensures status.Some? ==> e.status == status.value
    ensures e.provider == provider && e.eventType == eventType && e.eventId == eventId && e.error == error
  {
    LogEntry(provider, eventType, eventId, if status.Some? then status.value else Received, error)
  }

  /** What the database holds: enrolments, transactions and the webhook log. */
  datatype Store = Store(enrollments: seq<Enrollment>, transactions: seq<Transaction>, logs: seq<LogEntry>)

  /** The id the next inserted enrolment gets. */
  function NextEnrollmentId(s: Store): int { |s.enrollments| + 1 }

  function Log(s: Store, e: LogEntry): (t: Store)
    ensures t.enrollments == s.enrollments && t.transactions == s.transactions && t.logs == s.logs + [e]
  {
    s.(logs := s.logs + [e])
  }

  function Record(s: Store, tx: Transaction): (t: Store)
    ensures t.enrollments == s.enrollments && t.logs == s.logs && t.transactions == s.transactions + [tx]
  {
    s.(transactions := s.transactions + [tx])
  }

  datatype Reply = Ok200 | Bad400(message: string) | Error500(message: string)

  // ---------------------------------------------------------------------------
  // Stripe

  const Stripe: string := "stripe"
  const Card: string := "card"
  const Succeeded: string := "succeeded"
  const PaymentFailedText: string := "Payment failed"
  const StripeRefund: string := "stripe_refund"
  const MissingCourseMetadata: string := "Missing course metadata"

  /** A Stripe event, reduced to the fields the handler reads. */
  datatype StripeEvent =
    | PaymentSucceeded(intentId: string, metadata: Option<StripeMetadata>, amount: int, currency: string)
    | PaymentFailed(intentId: string, metadata: Option<StripeMetadata>, amount: int, currency: string, error: Option<string>)
    | ChargeRefunded(paymentIntent: Option<string>, amountRefunded: int)
    | DisputeCreated(paymentIntent: Option<string>)
    | OtherStripe(name: string)

  function StripeType(ev: StripeEvent): string
  {
    match ev
    case PaymentSucceeded(_, _, _, _) => "payment_intent.succeeded"
    case PaymentFailed(_, _, _, _, _) => "payment_intent.payment_failed"
    case ChargeRefunded(_, _) => "charge.refunded"
    case DisputeCreated(_) => "charge.dispute.created"
    case OtherStripe(n) => n
  }

  function MetaOf(m: Option<StripeMetadata>): Meta
  {
    if m.Some? && m.value.userId.Some? && m.value.courseId.Some? then Metadata(m.value.userId.value, m.value.courseId.value)
    else NoMeta
  }

  /**
    What a failing statement leaves as the error message. An id that
    `parseInt` turned into `NaN` fails the first statement that binds it;
    the steps before it stay done.
   */
  const NaNBindError: string := "NaN id"

  /** The last log line says the event was processed. */
  predicate EndsProcessed(s: Store, t: Store)
  {
    |t.logs| == |s.logs| + 1 && t.logs[..|s.logs|] == s.logs && t.logs[|s.logs|].status == Processed
  }

  /**
    `payment_intent.succeeded` once the course is known: the payment's rows
    are marked completed, or a row is created for it; then the transaction
    is recorded against that row, both in the upper-cased currency. The
    creation binds both ids, the transaction only the user id.
   */
  function StripeSucceeded(s: Store, intentId: string, course: CourseData, meta: Meta, amount: int,
                           currency: string, eventId: string): (r: (Reply, Store))
    ensures r.0 == Ok200 <==> course.userId.Some? && (HasPayment(s.enrollments, intentId, Stripe) || course.courseId.Some?)
    ensures HasPayment(s.enrollments, intentId, Stripe) ==>
      r.1.enrollments == SetStatus(s.enrollments, intentId, Completed, Stripe)
    ensures !HasPayment(s.enrollments, intentId, Stripe) && r.0 == Ok200 ==>
      r.1.enrollments == s.enrollments + [WebhookRow(WebhookPayment(course.userId.value, course.courseId.value,
                                                                  intentId, amount, Upper(currency), Stripe), NextEnrollmentId(s))]
    ensures r.0 == Ok200 ==> var e := FindByPayment(r.1.enrollments, intentId, Stripe);
      e.Some? && r.1.transactions == s.transactions + [Transaction(course.userId.value, Some(e.value.id), Some(intentId),
                                                                   amount, Upper(currency), Succeeded, Card, meta)]
      && EndsProcessed(s, r.1)
    ensures r.0 != Ok200 ==> r == (Error500(NaNBindError), r.1) && r.1.transactions == s.transactions && r.1.logs == s.logs
    ensures !HasPayment(s.enrollments, intentId, Stripe) && r.0 != Ok200 ==> r.1 == s
  {
    var found := HasPayment(s.enrollments, intentId, Stripe);
    var cur := Upper(currency);
    if !found && (course.userId.None? || course.courseId.None?) then (Error500(NaNBindError), s)
    else
      var (table, e) :=
        if found
        then (UpdateEnrollmentStatus(s.enrollments, intentId, Completed, Stripe).0,
              FindByPayment(s.enrollments, intentId, Stripe).value)
        else CreateEnrollmentFromWebhook(s.enrollments, WebhookPayment(course.userId.value, course.courseId.value,
                                                                      intentId, amount, cur, Stripe), NextEnrollmentId(s));
      var s2 := s.(enrollments := table);
      if course.userId.None? then (Error500(NaNBindError), s2)
      else
        SucceededRowFound(s.enrollments, intentId, course, amount, cur, NextEnrollmentId(s));
        var tx := Transaction(course.userId.value, Some(e.id), Some(intentId), amount, cur, Succeeded, Card, meta);
        (Ok200, Log(Record(s2, tx), LogWebhook(Stripe, "payment_intent.succeeded", Some(eventId), Some(Processed), None)))
  }

  /** After the update or the creation, the payment's first row is the row the transaction is recorded against. */
  lemma SucceededRowFound(table: seq<Enrollment>, intentId: string, course: CourseData, amount: int, currency: string, id: int)
    requires course.userId.Some? && (HasPayment(table, intentId, Stripe) || course.courseId.Some?)
    ensures var found := HasPayment(table, intentId, Stripe);
      var (t, e) :=
        if found
        then (UpdateEnrollmentStatus(table, intentId, Completed, Stripe).0, FindByPayment(table, intentId, Stripe).value)
        else CreateEnrollmentFromWebhook(table, WebhookPayment(course.userId.value, course.courseId.value,
                                                              intentId, amount, currency, Stripe), id);
      FindByPayment(t, intentId, Stripe).Some? && FindByPayment(t, intentId, Stripe).value.id == e.id
  {
    if HasPayment(table, intentId, Stripe) {
      FindAfterStatus(table, intentId, Completed, Stripe);
    } else {
      var d := WebhookPayment(course.userId.value, course.courseId.value, intentId, amount, currency, Stripe);
      NewRowFound(table, WebhookRow(d, id), intentId, Stripe);
    }
  }

  /**
    `POST /api/webhooks/stripe`: a missing or invalid signature is a 400 and
    changes nothing; otherwise the event is logged as received and handled.
   */
  function HandleStripe(s: Store, signature: Option<string>, signatureValid: bool,
                        eventId: string, ev: StripeEvent): (r: (Reply, Store))
    ensures !TruthyStr(signature) ==> r == (Bad400("No signature header"), s)
    ensures TruthyStr(signature) && !signatureValid ==> r == (Bad400("Invalid signature"), s)
    ensures TruthyStr(signature) && signatureValid ==>
      !r.0.Bad400? && |r.1.logs| > |s.logs|
      && r.1.logs[..|s.logs| + 1] == s.logs + [LogWebhook(Stripe, StripeType(ev), Some(eventId), None, None)]
    ensures |r.1.transactions| >= |s.transactions| && r.1.transactions[..|s.transactions|] == s.transactions
    ensures |r.1.enrollments| >= |s.enrollments|
  {
    if !TruthyStr(signature) then (Bad400("No signature header"), s)
    else if !signatureValid then (Bad400("Invalid signature"), s)
    else
      var name := StripeType(ev);
      var s1 := Log(s, LogWebhook(Stripe, name, Some(eventId), None, None));
      var done := LogWebhook(Stripe, name, Some(eventId), Some(Processed), None);
      match ev
      case PaymentSucceeded(intentId, metadata, amount, currency) =>
        (match ExtractStripe(metadata)
         case None => (Ok200, Log(s1, LogWebhook(Stripe, name, Some(eventId), Some(LogFailed), Some(MissingCourseMetadata))))
         case Some(course) => StripeSucceeded(s1, intentId, course, MetaOf(metadata), amount, currency, eventId))
      case PaymentFailed(intentId, metadata, amount, currency, error) =>
        var s2 := s1.(enrollments := UpdateEnrollmentStatus(s1.enrollments, intentId, Failed, Stripe).0);
        var course := ExtractStripe(metadata);
        if course.Some? && course.value.userId.Some? then
          var tx := Transaction(course.value.userId.value, None, Some(intentId), amount, Upper(currency), Failed, Card,
                                FailureMessage(StrOr(error, PaymentFailedText)));
          (Ok200, Log(Record(s2, tx), done))
        else if course.Some? then (Error500(NaNBindError), s2)
        else (Ok200, Log(s2, done))
      case ChargeRefunded(paymentIntent, amountRefunded) =>
        if !TruthyStr(paymentIntent) then (Ok200, s1)
        else
          (match ProcessRefund(s1.enrollments, paymentIntent.value, Stripe, Some(amountRefunded), Some(StripeRefund))
           case Err(msg) => (Ok200, Log(s1, LogWebhook(Stripe, name, Some(eventId), Some(LogFailed), Some(msg))))
           case Ok((table, tx)) => (Ok200, Log(Record(s1.(enrollments := table), tx), done)))
      case DisputeCreated(paymentIntent) =>
        var table := if TruthyStr(paymentIntent)
          then UpdateEnrollmentStatus(s1.enrollments, paymentIntent.value, Disputed, Stripe).0
          else s1.enrollments;
        (Ok200, Log(s1.(enrollments := table), done))
      case OtherStripe(_) => (Ok200, Log(s1, done))
  }

  /** Statuses by event: what each handled Stripe event leaves on the rows of its payment. */
  lemma StripeStatusMap(s: Store, eventId: string, ev: StripeEvent, i: int)
    requires 0 <= i < |s.enrollments|
    ensures ev.PaymentFailed? && IsPayment(s.enrollments[i], ev.intentId, Stripe) ==>
      HandleStripe(s, Some("sig"), true, eventId, ev).1.enrollments[i].status == Failed
    ensures (ev.DisputeCreated? && ev.paymentIntent.Some? && ev.paymentIntent.value != ""
             && IsPayment(s.enrollments[i], ev.paymentIntent.value, Stripe)) ==>
      HandleStripe(s, Some("sig"), true, eventId, ev).1.enrollments[i].status == Disputed
    ensures (ev.ChargeRefunded? && ev.paymentIntent.Some? && ev.paymentIntent.value != ""
             && IsPayment(s.enrollments[i], ev.paymentIntent.value, Stripe)) ==>
      HandleStripe(s, Some("sig"), true, eventId, ev).1.enrollments[i].status == Refunded
    ensures (ev.ChargeRefunded? && ev.paymentIntent.Some? && ev.paymentIntent.value != ""
             && HasPayment(s.enrollments, ev.paymentIntent.value, Stripe)
             && s.enrollments[i].id == FindByPayment(s.enrollments, ev.paymentIntent.value, Stripe).value.id) ==>
      HandleStripe(s, Some("sig"), true, eventId, ev).1.enrollments[i].revoked == 1
  {
    if ev.ChargeRefunded? && ev.paymentIntent.Some? && ev.paymentIntent.value != ""
       && IsPayment(s.enrollments[i], ev.paymentIntent.value, Stripe) {
      assert HasPayment(s.enrollments, ev.paymentIntent.value, Stripe);
    }
  }

  /**
    Stripe sends the currency in lower case; the enrolment and the
    transactions store `currency.toUpperCase()`.
   */
  lemma StripeCurrencyUpperCased(s: Store, eventId: string, ev: StripeEvent)
    requires ev.PaymentSucceeded? || ev.PaymentFailed?
    ensures var r := HandleStripe(s, Some("sig"), true, eventId, ev);
      |r.1.transactions| == |s.transactions| + 1 ==> r.1.transactions[|s.transactions|].currency == Upper(ev.currency)
    ensures var r := HandleStripe(s, Some("sig"), true, eventId, ev);
      ev.PaymentSucceeded? && !HasPayment(s.enrollments, ev.intentId, Stripe) && |r.1.enrollments| > |s.enrollments| ==>
        r.1.enrollments[|s.enrollments|].currency == Upper(ev.currency)
  {
  }

  /** `usd` is stored as `USD`. */
  lemma StripeUsdStoredUpper()
    ensures Upper("usd") == "USD"
  {
  }

  /** A succeeded payment whose metadata lacks the course changes no enrolment and logs the failure. */
  lemma SucceededWithoutMetadata(s: Store, eventId: string, intentId: string, amount: int, currency: string)
    ensures var r := HandleStripe(s, Some("sig"), true, eventId, PaymentSucceeded(intentId, None, amount, currency));
      r.0 == Ok200 && r.1.enrollments == s.enrollments && r.1.transactions == s.transactions
      && r.1.logs[|r.1.logs| - 1].status == LogFailed
  {
  }

  /** A succeeded payment with a course leaves the user with access, whether the row existed or not. */
  lemma SucceededGrantsAccess(s: Store, eventId: string, intentId: string, userId: int, courseId: int,
                              amount: int, currency: string)
    requires forall i :: 0 <= i < |s.enrollments| && IsPayment(s.enrollments[i], intentId, Stripe) ==>
      s.enrollments[i].userId == userId && s.enrollments[i].courseId == courseId && s.enrollments[i].revoked == 0
    ensures var ev := PaymentSucceeded(intentId, Some(StripeMetadataOf(userId, courseId)), amount, currency);
      HasAccess(HandleStripe(s, Some("sig"), true, eventId, ev).1.enrollments, userId, courseId)
  {
    StripeRoundTrip(userId, courseId);
    var t := s.enrollments;
    if HasPayment(t, intentId, Stripe) {
      var i :| 0 <= i < |t| && IsPayment(t[i], intentId, Stripe);
      var u := UpdateEnrollmentStatus(t, intentId, Completed, Stripe).0;
      assert GrantsAccess(u[i], userId, courseId);
    } else {
      var d := WebhookPayment(userId, courseId, intentId, amount, Upper(currency), Stripe);
      WebhookEnrollmentGrantsAccess(t, d, |t| + 1);
    }
  }

  /** A charge without a payment intent is only logged as received. */
  lemma RefundWithoutIntent(s: Store, eventId: string, amount: int)
    ensures HandleStripe(s, Some("sig"), true, eventId, ChargeRefunded(None, amount)).1
         == Log(s, LogWebhook(Stripe, "charge.refunded", Some(eventId), None, None))
  {
  }

  /** A refund for an unknown payment logs `failed` and changes no enrolment. */
  lemma RefundUnknownPayment(s: Store, eventId: string, intentId: string, amount: int)
    requires intentId != "" && !HasPayment(s.enrollments, intentId, Stripe)
    ensures var r := HandleStripe(s, Some("sig"), true, eventId, ChargeRefunded(Some(intentId), amount));
      r.0 == Ok200 && r.1.enrollments == s.enrollments && r.1.logs[|r.1.logs| - 1].status == LogFailed
  {
  }

  /** Without a valid signature nothing is stored, not even the log. */
  lemma StripeSignatureGuards(s: Store, valid: bool, sig: Option<string>, eventId: string, ev: StripeEvent)
    requires !TruthyStr(sig) || !valid
    ensures HandleStripe(s, sig, valid, eventId, ev).1 == s
    ensures HandleStripe(s, sig, valid, eventId, ev).0.Bad400?
  {
  }

  // ---------------------------------------------------------------------------
  // PayPal

  const PayPal: string := "paypal"
  const PayPalRefund: string := "paypal_refund"
  const MissingCourseData: string := "Missing course data"

  datatype PayPalEvent =
    | CaptureCompleted(captureId: string, relatedOrderId: Option<string>, customId: Option<string>, amount: int, currency: string)
    | CaptureRefunded(refundedCaptureId: string, refundAmount: int)
    | CaptureDenied(denied: string)
    | OtherPayPal(name: string)

  function PayPalType(ev: PayPalEvent): string
  {
    match ev
    case CaptureCompleted(_, _, _, _, _) => "PAYMENT.CAPTURE.COMPLETED"
    case CaptureRefunded(_, _) => "PAYMENT.CAPTURE.REFUNDED"
    case CaptureDenied(n) => n
    case OtherPayPal(n) => n
  }

  /** The row is an enrolment of this user in this course, paid through `provider`. */
  predicate EnrolledVia(e: Enrollment, userId: int, courseId: int, provider: string)
  {
    e.userId == userId && e.courseId == courseId && e.paymentMethod == Some(provider)
  }

  /**
    The row of this user, course and provider inserted last
    (`ORDER BY enrolled_at DESC LIMIT 1`, rows enrolled in insertion order).
   */
  function LatestEnrollment(table: seq<Enrollment>, userId: int, courseId: int, provider: string): (r: Option<Enrollment>)
    ensures r.None? <==> forall i :: 0 <= i < |table| ==> !EnrolledVia(table[i], userId, courseId, provider)
    ensures r.Some? ==>
      exists i :: 0 <= i < |table| && table[i] == r.value && EnrolledVia(table[i], userId, courseId, provider)
                  && forall j :: i < j < |table| ==> !EnrolledVia(table[j], userId, courseId, provider)
  {
    if |table| == 0 then None
    else
      var last := table[|table| - 1];
      if EnrolledVia(last, userId, courseId, provider) then Some(last)
      else
        var r := LatestEnrollment(table[..|table| - 1], userId, courseId, provider);
        assert forall i :: 0 <= i < |table| - 1 ==> table[..|table| - 1][i] == table[i];
        r
  }

  /** The enrolment of a transaction whose metadata matches `LIKE pattern`. */
  predicate TransactionMatches(tx: Transaction, e: Enrollment, pattern: string, escapes: bool)
  {
    tx.enrollmentId == Some(e.id) && MetaText(tx.metadata).Some?
    && Matches(Tokens(pattern, escapes), MetaText(tx.metadata).value)
  }

  predicate FoundByPattern(e: Enrollment, txs: seq<Transaction>, pattern: string, escapes: bool)
  {
    e.paymentMethod == Some(PayPal) && exists j :: 0 <= j < |txs| && TransactionMatches(txs[j], e, pattern, escapes)
  }

  /** The join of enrolments with their transactions, first enrolment first. */
  function FindByPattern(s: Store, pattern: string, escapes: bool): (r: Option<Enrollment>)
    ensures r.Some? ==> r.value in s.enrollments && FoundByPattern(r.value, s.transactions, pattern, escapes)
    ensures r.None? ==>
      forall i :: 0 <= i < |s.enrollments| ==> !FoundByPattern(s.enrollments[i], s.transactions, pattern, escapes)
  {
    var k := FindFirst(s.enrollments, e => FoundByPattern(e, s.transactions, pattern, escapes));
    if k.Some? then Some(s.enrollments[k.value]) else None
  }

  /** `getEnrollmentByPayPalCaptureId`: the escaped pattern with `ESCAPE '\'`. */
  function FindByCaptureId(s: Store, captureId: string): Option<Enrollment>
  {
    FindByPattern(s, CaptureIdPattern(captureId), true)
  }

  /**
    `PAYMENT.CAPTURE.COMPLETED` once the course is known. The enrolment is
    looked up by the order id, then as the user's latest PayPal enrolment in
    the course (which binds both ids); when one is found, the rows of the
    order id are marked completed. The transaction binds only the user id.
   */
  function PayPalCompleted(s: Store, captureId: string, orderId: string, course: CourseData, amount: int,
                           currency: string, eventId: Option<string>): (r: (Reply, Store))
    ensures r.0 == Ok200 <==> course.userId.Some? && (HasPayment(s.enrollments, orderId, PayPal) || course.courseId.Some?)
    ensures r.1.enrollments == s.enrollments || r.1.enrollments == SetStatus(s.enrollments, orderId, Completed, PayPal)
    ensures HasPayment(s.enrollments, orderId, PayPal) ==>
      r.1.enrollments == SetStatus(s.enrollments, orderId, Completed, PayPal)
    ensures r.0 == Ok200 ==>
      && |r.1.transactions| == |s.transactions| + 1
      && r.1.transactions[..|s.transactions|] == s.transactions
      && r.1.transactions[|s.transactions|].metadata == Capture(orderId, captureId)
      && r.1.transactions[|s.transactions|].userId == course.userId.value
      && EndsProcessed(s, r.1)
    ensures r.0 != Ok200 ==> r.0 == Error500(NaNBindError) && r.1.transactions == s.transactions && r.1.logs == s.logs
  {
    var found := FindByPayment(s.enrollments, orderId, PayPal);
    if found.None? && (course.userId.None? || course.courseId.None?) then (Error500(NaNBindError), s)
    else
      var e := if found.Some? then found
               else LatestEnrollment(s.enrollments, course.userId.value, course.courseId.value, PayPal);
      var table := if e.Some? then UpdateEnrollmentStatus(s.enrollments, orderId, Completed, PayPal).0 else s.enrollments;
      var s2 := s.(enrollments := table);
      if course.userId.None? then (Error500(NaNBindError), s2)
      else
        var enrollmentId := if e.Some? && e.value.id != 0 then Some(e.value.id) else None;
        var tx := Transaction(course.userId.value, enrollmentId, None, amount, currency, Succeeded, PayPal,
                              Capture(orderId, captureId));
        (Ok200, Log(Record(s2, tx), LogWebhook(PayPal, "PAYMENT.CAPTURE.COMPLETED", eventId, Some(Processed), None)))
  }

  /**
    `POST /api/webhooks/paypal`. A missing transmission id is a 400; the
    signature verdict is only logged, so it does not affect the outcome.
    `lookup` finds the enrolment of a refunded capture.
   */
  function HandlePayPal(s: Store, transmissionId: Option<string>, signatureValid: bool,
                        bodyId: Option<string>, ev: PayPalEvent, lookup: (Store, string) -> Option<Enrollment>): (r: (Reply, Store))
    ensures !TruthyStr(transmissionId) ==> r == (Bad400("No webhook ID header"), s)
    ensures TruthyStr(transmissionId) ==>
      !r.0.Bad400? && |r.1.logs| > |s.logs|
      && r.1.logs[..|s.logs| + 1] == PayPalReceived(s, transmissionId, bodyId, ev).logs
    ensures |r.1.transactions| >= |s.transactions| && r.1.transactions[..|s.transactions|] == s.transactions
    ensures |r.1.enrollments| == |s.enrollments|
  {
    if !TruthyStr(transmissionId) then (Bad400("No webhook ID header"), s)
    else
      var name := PayPalType(ev);
      var s1 := PayPalReceived(s, transmissionId, bodyId, ev);
      var done := LogWebhook(PayPal, name, bodyId, Some(Processed), None);
      match ev
      case CaptureCompleted(captureId, relatedOrderId, customId, amount, currency) =>
        var orderId := if TruthyStr(relatedOrderId) then relatedOrderId.value else captureId;
        (match (if TruthyStr(customId) then ExtractPayPal(customId) else None)
         case None => (Ok200, Log(s1, LogWebhook(PayPal, name, bodyId, Some(LogFailed), Some(MissingCourseData))))
         case Some(course) => PayPalCompleted(s1, captureId, orderId, course, amount, currency, bodyId))
      case CaptureRefunded(captureId, amount) =>
        (match lookup(s1, captureId)
         case None => (Ok200, s1)
         case Some(e) =>
           (match (if e.paymentId.Some? then ProcessRefund(s1.enrollments, e.paymentId.value, PayPal, Some(amount), Some(PayPalRefund))
                   else Err("No se encontró inscripción con payment_id: null"))
            case Err(msg) => (Ok200, Log(s1, LogWebhook(PayPal, name, bodyId, Some(LogFailed), Some(msg))))
            case Ok((table, tx)) => (Ok200, Log(Record(s1.(enrollments := table), tx), done))))
      case CaptureDenied(_) => (Ok200, Log(s1, done))
      case OtherPayPal(_) =>
        (Ok200, Log(s1, LogWebhook(PayPal, name, if TruthyStr(bodyId) then bodyId else transmissionId, Some(Processed), None)))
  }

  /** The store once the event is logged as received, under the body id or else the transmission id. */
  function PayPalReceived(s: Store, transmissionId: Option<string>, bodyId: Option<string>, ev: PayPalEvent): (t: Store)
    ensures t.enrollments == s.enrollments && t.transactions == s.transactions && |t.logs| == |s.logs| + 1
    ensures t.logs[|s.logs|].eventId == (if TruthyStr(bodyId) then bodyId else transmissionId) && t.logs[|s.logs|].status == Received
  {
    Log(s, LogWebhook(PayPal, PayPalType(ev), if TruthyStr(bodyId) then bodyId else transmissionId, None, None))
  }

  /**
    A refund whose capture the lookup finds refunds that enrolment's payment:
    every row of the payment is marked refunded, the refund transaction is
    recorded and the event is logged as processed. Without a payment id, or
    with no row for it, only a `failed` log line is added.
   */
  lemma CaptureRefundProcessed(s: Store, tid: string, valid: bool, bodyId: Option<string>, captureId: string,
                               amount: int, lookup: (Store, string) -> Option<Enrollment>)
    requires tid != ""
    requires lookup(PayPalReceived(s, Some(tid), bodyId, CaptureRefunded(captureId, amount)), captureId).Some?
    ensures var r := HandlePayPal(s, Some(tid), valid, bodyId, CaptureRefunded(captureId, amount), lookup);
      var e := lookup(PayPalReceived(s, Some(tid), bodyId, CaptureRefunded(captureId, amount)), captureId).value;
      var refunds := e.paymentId.Some? && HasPayment(s.enrollments, e.paymentId.value, PayPal);
      && r.0 == Ok200
      && (refunds ==>
            (forall i :: 0 <= i < |s.enrollments| && IsPayment(s.enrollments[i], e.paymentId.value, PayPal) ==>
               r.1.enrollments[i].status == Refunded)
            && r.1.enrollments == ProcessRefund(s.enrollments, e.paymentId.value, PayPal, Some(amount), Some(PayPalRefund)).value.0
            && FindByPayment(r.1.enrollments, e.paymentId.value, PayPal)
                 == Some(FindByPayment(s.enrollments, e.paymentId.value, PayPal).value.(status := Refunded, revoked := 1))
            && r.1.transactions == s.transactions
                 + [ProcessRefund(s.enrollments, e.paymentId.value, PayPal, Some(amount), Some(PayPalRefund)).value.1]
            && EndsProcessed(PayPalReceived(s, Some(tid), bodyId, CaptureRefunded(captureId, amount)), r.1))
      && (!refunds ==>
            r.1.enrollments == s.enrollments && r.1.transactions == s.transactions
            && r.1.logs[|r.1.logs| - 1].status == LogFailed)
  {
    var e := lookup(PayPalReceived(s, Some(tid), bodyId, CaptureRefunded(captureId, amount)), captureId).value;
    if e.paymentId.Some? && HasPayment(s.enrollments, e.paymentId.value, PayPal) {
      RefundRevokesFirstRow(s.enrollments, e.paymentId.value, PayPal, Some(amount), Some(PayPalRefund));
    }
  }

  /** The handler's outcome does not depend on the signature verdict. */
  lemma PayPalSignatureIgnored(s: Store, tid: Option<string>, bodyId: Option<string>, ev: PayPalEvent,
                               lookup: (Store, string) -> Option<Enrollment>)
    ensures HandlePayPal(s, tid, true, bodyId, ev, lookup) == HandlePayPal(s, tid, false, bodyId, ev, lookup)
  {
  }

  /** Denied, declined and unknown events only add log lines. */
  lemma PayPalLogOnly(s: Store, tid: Option<string>, valid: bool, bodyId: Option<string>, ev: PayPalEvent,
                      lookup: (Store, string) -> Option<Enrollment>)
    requires ev.CaptureDenied? || ev.OtherPayPal?
    ensures var r := HandlePayPal(s, tid, valid, bodyId, ev, lookup);
      r.1.enrollments == s.enrollments && r.1.transactions == s.transactions
  {
  }

  /** A capture without course data logs `failed` and changes no enrolment. */
  lemma CaptureWithoutCourse(s: Store, tid: string, bodyId: Option<string>, captureId: string,
                             amount: int, currency: string, lookup: (Store, string) -> Option<Enrollment>)
    requires tid != ""
    ensures var r := HandlePayPal(s, Some(tid), true, bodyId, CaptureCompleted(captureId, None, None, amount, currency), lookup);
      r.1.enrollments == s.enrollments && r.1.transactions == s.transactions
      && r.1.logs[|r.1.logs| - 1].status == LogFailed
  {
  }

  /**
    When the enrolment is found only through the latest-enrolment fallback,
    the update is still keyed by the order id and changes nothing.
   */
  lemma FallbackUpdatesNothing(s: Store, tid: string, bodyId: Option<string>, captureId: string, orderId: string,
                               userId: nat, courseId: nat, amount: int, currency: string,
                               lookup: (Store, string) -> Option<Enrollment>)
    requires tid != "" && orderId != ""
    requires !HasPayment(s.enrollments, orderId, PayPal)
    ensures var ev := CaptureCompleted(captureId, Some(orderId), Some(CustomIdOf(userId, courseId)), amount, currency);
      HandlePayPal(s, Some(tid), true, bodyId, ev, lookup).1.enrollments == s.enrollments
  {
    PayPalRoundTrip(userId, courseId);
    assert CustomIdOf(userId, courseId) != "" by { IntToStringNonEmpty(userId); }
    var t := s.enrollments;
    var u := UpdateEnrollmentStatus(t, orderId, Completed, PayPal).0;
    assert u == t;
  }

  /** The capture recorded at completion is what the escaped refund lookup finds. */
  lemma RefundFindsCapture(orderId: string, captureId: string)
    ensures Matches(Tokens(CaptureIdPattern(captureId), true), MetaText(Capture(orderId, captureId)).value)
  {
    var pre := "{\"orderId\":\"" + orderId + "\",\"captureId\":\"";
    var post := "\"}";
    assert MetaText(Capture(orderId, captureId)).value == pre + captureId + post;
    assert IsPrefix(captureId, captureId) by { assert captureId[..|captureId|] == captureId; }
    assert Contains(captureId, captureId);
    ContainsExtend(pre, captureId, post, captureId);
    CaptureLookupIsSubstring(captureId, pre + captureId + post);
  }
}
